=== FILE: README.md ===
# SEFAZ-MA bot: a Dafny model of the queue, its helpers and its migrations

This project models the deterministic core of the SEFAZ-MA message and DIEF bot.
The bot queries the Maranhão tax portal for companies (`empresas`), reads their portal messages, and
stores what it finds: DIEF receipts, links, and pending flags. The model covers the following parts.

- **The job queue of the admin backend** (`Queue`, `Consulta`).
  - Jobs live in a `map<int, Job>` keyed by their AUTOINCREMENT id.
  - The endpoints are modelled as pure state transformers: enqueue, delete, cancel, and start/stop of
    the worker flag.
  - The worker is a sequence of atomic steps (select and mark running, then record the outcome).
  - The executor is an oracle answering `Truthy`, `Falsy` or `Raise(message)`.
  - `Consulta` models the separate "one direct consultation at a time" record.
- **The `@retry` decorator** (`Retry`). The attempt loop runs over an oracle of per-attempt outcomes.
  It has the exclusion and retryable lists over the bot's exception hierarchy, back-off over `real`
  with jitter, the callback, and exhaustion.
- **Validators and formatters** (`Validators`, `WebFormat`): digit projection, length rules, the
  CPF/CNPJ/IE masks, the badge and label tables, and the message counters.
- **Error rendering and classification** (`Exceptions`, `ErrorMessages`, `ErrorMessageFacts`).
  - `SEFAZBotException.__str__` and the specialised constructors.
  - Both session-conflict detectors.
  - The friendly-message table.
  - The keyword classifier and the category classifier.
- **Message text extraction** (`MessageText`, `Extraction`, `LinkMigration`).
  - The receipt-link extractor and the `IE - NOME` cell split.
  - Relative-URL resolution, the per-message loop count, and the individual-message result.
  - The DIEF field patterns, the selector fall-back chain, and the pending flags.
  - The link back-fill script.
  - The `IE - NOME` split of `data_extractor.py` (lines 512-520) runs the same steps as that of
    `message_processor.py`, so `MessageText.ReadIdentity` stands for both.
- **The CSV import of the company screen** (`Csv`): delimiter detection, the quote-aware line scanner,
  header normalisation, row filtering, the cell conversion, and duplicate-CNPJ detection.
- **Client-side rules of the queue, messages and scheduling screens** (`Fila`, `Mensagens`,
  `Agendamento`): the filter toggles, the page bounds, the date filter, the five-minute lead time, and
  the calendar grid.
- **Schema migrations** (`Migrations`, `QueueJobsMigration`).
  - Both scheduling-column migrations, including their error paths.
  - The validation script.
  - The rebuild of an old `queue_jobs` table.
  - A table is a set of column names and a sequence of rows, each mapping exactly those columns to
    `NULL`, an integer or a text.

What is not modelled, and why, is listed under "## Left out".

- **Browser, database, network and clock.** These are parameters: the executor oracle, the results of
  `ALTER TABLE` and of `PRAGMA integrity_check`, `random()`, the time-zone offset, and now/when.
- **Python `.lower()`.** It is modelled for ASCII and Latin-1 letters.
- **`str.isdigit` and `\d`.** These are modelled as ASCII digits.
- **`re.IGNORECASE`.** It is modelled as ASCII case folding.

Where the code and its written description disagree, the model follows the code.

- **Cancelling a job** writes `failed`, not a separate cancelled status.
- **Failed attempts.** A failing attempt that raised goes back to `pending` while attempts remain; a
  falsy result is never retried.
- **Deleting a running job** is answered with 400, not 409.
- **An unknown or inactive company in an enqueue request** gives a 500. The handler catches the 404
  it raised and wraps it.

## Model

| member | source | states |
|---|---|---|
| Queue.Initial | src/api/main.py:48-49 | The empty queue with the worker off is well formed. |
| Queue.Eligible | src/api/main.py:1409-1418 | A job the worker's query can return: an unknown id, a job not pending, a job with its attempts used up, or one whose company row is missing is never eligible. |
| Queue.SqlBefore | src/api/main.py:1414 | Rows equal on priority and insertion time are not ordered; a NULL priority never comes before a number, and a number always comes before a NULL. |
| Queue.SqlOrderIsStrict | src/api/main.py:1414 | The SQL order is asymmetric and transitive, and any two rows are ordered unless they tie on both sort keys. |
| Queue.BestBelow | src/api/main.py:1409-1418 | The scan over ids returns an eligible job ahead of every other eligible job below the bound (priority, then insertion time, then id as the model's tie-break), and returns none only when no job below the bound is eligible. |
| Queue.SelectNext | src/api/main.py:1409-1418 | The worker's SELECT picks a pending job with attempts left whose company exists. No qualifying job comes strictly before it in the SQL order: higher `prioridade` (NULL last), then older `data_adicao`. Among jobs equal on both it takes the lowest id. It picks nothing exactly when no job qualifies. |
| Queue.ExhaustedNeverSelected | src/api/main.py:1413 | A job whose attempts are used up is never picked. |
| Queue.FirstInactive | src/api/main.py:1239-1244 | It reports a requested company exactly when some requested company is unknown or inactive, and then the first such one in request order. |
| Queue.InsertAll | src/api/main.py:1239-1272 | The insert loop keeps the old rows and adds rows only with fresh consecutive ids. Each new row is `pending` with 0 attempts, `max_tentativas` 3 and the request's priority, for a requested company with no live job at that point. |
| Queue.InsertAllCovers | src/api/main.py:1246-1266 | After the loop every requested company has a pending or running job. |
| Queue.InsertAllKeepsOneLive | src/api/main.py:1246-1255 | Repeated ids in one request never give a company two live jobs. |
| Queue.Range | src/api/main.py:1268-1272 | The ids created by one request are consecutive from the counter. |
| Queue.Enqueue | src/api/main.py:1231-1293 | A request naming an unknown or inactive company fails with 500 and persists nothing. It fails exactly then. Otherwise the old rows are unchanged and the new ids are exactly the new rows. The worker is started only when a job was added and the flag was off. |
| Queue.EnqueueOnePerCompany | src/api/main.py:1239-1266 | After an accepted request every requested company has a live job, and no company gains a second live job. |
| Queue.Tick | src/api/main.py:1403-1437 | With the flag off the worker stops without selecting. With nothing eligible it waits and nothing changes. Otherwise exactly the selected job becomes `running` with one more attempt. |
| Queue.Recorded | src/api/main.py:1471-1510 | Truthy gives `completed` with a processing time. Falsy gives `failed` with the fixed text, even with attempts left. A raise gives `pending` with the message while attempts remain and `failed` once they are used up. Nothing else in the row changes. |
| Queue.Finish | src/api/main.py:1467-1519 | The outcome is written by id over whatever the row now holds. For a deleted row, success and falsy results match nothing, while a raise ends the worker task with the flag still set. |
| Queue.FinishGuarded | src/api/main.py:1467-1513 | Corrected outcome update: only a row that is still `running` is written, no row appears or disappears, and the worker stays alive. |
| Queue.Start | src/api/main.py:1525-1536 | It is a no-op with the "already active" reply while active. Otherwise it sets the flag and the worker runs. The jobs are untouched. |
| Queue.Stop | src/api/main.py:1538-1548 | It is a no-op while inactive. Otherwise it only clears the flag, leaving the in-flight job and the jobs alone. |
| Queue.Delete | src/api/main.py:1550-1579 | An unknown id gives 404 and a running job gives 400, both with no change. Otherwise exactly that row is removed. |
| Queue.Cancel | src/api/main.py:1581-1613 | An unknown id gives 404. Any existing row, whatever its status, becomes `failed` with the cancellation text and the time of cancelling; its company, priority, insertion time and attempt counters stay. No other row, no company and no id counter changes, and the worker is not told. |
| Queue.CancelIdempotent | src/api/main.py:1602-1608 | Cancelling twice is cancelling once. |
| Queue.EnqueueKeepsWf | src/api/main.py:1231-1293 | Enqueueing keeps the ids below the counter, the attempts within bounds, and only the awaited job running. |
| Queue.TickKeepsWf | src/api/main.py:1409-1437 | A worker selection keeps the queue invariant; in particular attempts never exceed `max_tentativas`. |
| Queue.FinishKeepsWf | src/api/main.py:1467-1519 | Recording an outcome, as written or guarded, keeps the queue invariant. |
| Queue.ControlKeepsWf | src/api/main.py:1525-1613 | Start, stop, delete and cancel keep the queue invariant. |
| Queue.Step | src/api/main.py:1231-1613 | Every step of the system as written keeps the queue invariant. |
| Queue.StepGuarded | src/api/main.py:1231-1613 | Every step with the guarded outcome update keeps the queue invariant. |
| Queue.StepGuardedKeepsLoopAlive | src/api/main.py:1403-1519 | With the guarded update the worker task exists whenever the flag is set, after any step. |
| Queue.StepGuardedKeepsOneLive | src/api/main.py:1246-1255 | With the guarded update no step gives a company two live jobs. |
| Queue.WorkerDiesWithFlagSet | src/api/main.py:1489-1519 | As written: the job is cancelled, then deleted, then the executor raises. The worker task ends with the flag set, and neither start nor a new enqueue revives it. |
| Queue.CancelledJobComesBack | src/api/main.py:1489-1510 | As written: the job is cancelled while running, the company is queued again, then the executor raises. The cancelled row returns to `pending` and the company has two live jobs. |
| Queue.GuardedCancelSticks | src/api/main.py:1602-1608 | With the guarded update a cancellation made while the job runs stays `failed` with the cancellation text. |
| Consulta.Boot | src/api/main.py:628-634 | At start no consultation is running and no task is scheduled. |
| Consulta.Request | src/api/main.py:1116-1141 | While one runs a request gets 400 and changes nothing. Otherwise it is accepted, marked running with progress reset, and one task is scheduled. |
| Consulta.Complete | src/api/main.py:1143-1176 | Whatever the outcome, the running mark is cleared. A truthy result becomes the last result, a falsy one keeps the previous result, and a raise resets the progress. |
| Consulta.RunPreservesOneAtATime | src/api/main.py:1116-1176 | Over any sequence of requests and completions, a task exists exactly while the record says running, so at most one is in flight. |
| Consulta.CompletionReopens | src/api/main.py:1120-1176 | After any outcome the next request is accepted. |
| Retry.ParentShallower | src/bot/utils/validators.py:13-146 | The exception hierarchy is well founded: every base class is one step closer to `Exception`, and only `Exception` has none. |
| Retry.Retryable | bot_retry.py:103-108 | `on`, when given, replaces the default retryable list. |
| Retry.Excluded | bot_retry.py:110-114 | `exclude`, when given, replaces the default exclusions, and `on` does not change them. |
| Retry.RetryOnTimeout | bot_retry.py:278-286 | The caller's attempts and delay, backoff 2, retried classes exactly `TimeoutException` and `TimeoutError`, the default exclusions, and the remaining `retry` defaults (60 s cap, jitter, raise when exhausted). |
| Retry.RetryOnNetwork | bot_retry.py:289-297 | The caller's attempts and delay, backoff 2, retried classes exactly timeout, page-load, navigation and `ConnectionError`, the default exclusions, and the remaining `retry` defaults. |
| Retry.RetryOnDatabase | bot_retry.py:300-309 | The caller's attempts and delay, backoff 1.5, retried classes exactly database and connection errors, `DuplicateException` as the only exclusion, and the remaining `retry` defaults. |
| Retry.BaseDelay | bot_retry.py:156 | The delay before jitter is never above `max_delay`. It is non-negative when `delay`, `backoff` and `max_delay` are. |
| Retry.BaseDelayMonotone | bot_retry.py:156 | With back-off at least 1, later delays are never shorter. |
| Retry.JitterBounds | bot_retry.py:159-161 | The factor `0.5 + random()` keeps a delay `b` within `[b/2, 3b/2)`. |
| Retry.SleepDelay | bot_retry.py:155-161 | The slept delay is the base delay, scaled by the jitter factor when jitter is on. |
| Retry.SleepDelayBounds | bot_retry.py:155-161 | The slept delay lies in `[b/2, 3b/2)` of the base delay and never exceeds `3/2 * max_delay`. |
| Retry.Attempts | bot_retry.py:121-192 | The loop calls the function at most `max_attempts` times, sleeps only between attempts, and returns None when no attempt is left. |
| Retry.Wrapped | bot_retry.py:116-192 | With `max_attempts < 1` the function is never called and the wrapper returns None. |
| Retry.FirstSuccessReturned | bot_retry.py:121-130 | When the earlier attempts failed with retried errors, the first success is returned after exactly that many calls. |
| Retry.AllFailExhausts | bot_retry.py:137-153 | When every attempt fails with a retried error, the function is called `max_attempts` times. The wrapper then raises the exhaustion error chained to the last one, or re-raises it when `raise_on_exhausted` is off. |
| Retry.ExcludedPropagatesAtOnce | bot_retry.py:132-135 | An excluded exception propagates after one call, even if it is also retryable. |
| Retry.UnexpectedPropagatesAtOnce | bot_retry.py:182-188 | An exception in neither list propagates after one call. |
| Retry.CallbackIrrelevant | bot_retry.py:169-177 | Errors of `on_retry` are swallowed: result, call count and sleeps do not depend on them. |
| Retry.SleepsBounded | bot_retry.py:155-180 | With non-negative delay settings, every slept delay is non-negative. It is at most `max_delay` without jitter, and at most `3/2 * max_delay` with jitter. |
| Retry.PermissionErrorNotRetried | bot_retry.py:32-55 | `PermissionError` is an `OSError` and so retryable, but the default exclusion wins. |
| Retry.NotExcludedByDefault | bot_retry.py:44-55 | A navigation timeout is in no default exclusion. |
| Retry.DatabasePresetClasses | bot_retry.py:300-309 | The database preset retries a query error but not a duplicate-record error. |
| Retry.TimeoutPresetClasses | bot_retry.py:278-286 | The timeout preset narrows the retried set to timeouts while the default exclusions stay. |
| Retry.NetworkPresetClasses | bot_retry.py:289-297 | The network preset retries a connection error but not the built-in `TimeoutError`. |
| Validators.Limpar | src/bot/utils/validators.py:233-240 | The cleaned text holds only digits, and exactly the digits of the input. |
| Validators.LimparKeepsOrder | src/bot/utils/validators.py:233-235 | Cleaning a concatenation concatenates the cleanings, so digit order is kept. |
| Validators.LimparIdempotent | src/bot/utils/validators.py:233-240 | Cleaning twice is cleaning once. |
| Validators.ValidateCpf | src/bot/utils/validators.py:157-181 | A CPF is valid iff its digits number 11 and are not all the same. An absent or empty CPF gets the "empty" error, and each failure gets its own message. |
| Validators.ValidateIe | src/bot/utils/validators.py:184-208 | An absent or empty IE is valid. Otherwise it is valid iff it has 1 to 9 digits. |
| Validators.ValidateSenha | src/bot/utils/validators.py:211-230 | A password is valid iff it is given and has 3 to 50 characters. |
| Validators.ValidateAll | src/bot/utils/validators.py:243-273 | It is valid iff there is no error. The error list is exactly the failed checks' messages in the order CPF, password, IE, each prefixed by its field; the IE is checked only when given. |
| Validators.FormatarCpf | src/bot/utils/validators.py:280-285 | 11 digits give the `XXX.XXX.XXX-XX` mask; anything else is returned unchanged. |
| Validators.FormatarIe | src/bot/utils/validators.py:288-294 | 9 digits give the `XX.XXXXXX-X` mask; anything else is returned unchanged. |
| Validators.FormatarCpfKeepsDigits | src/bot/utils/validators.py:280-285 | The digits of the formatted CPF are the cleaned input. |
| Validators.FormatarIeKeepsDigits | src/bot/utils/validators.py:288-294 | The digits of the formatted IE are the cleaned input. |
| Validators.IsSessionConflictShort | src/bot/utils/validators.py:297-303 | It is false on empty text, and true iff the lower-cased text holds one of the two indicators. |
| Exceptions.Str | src/bot/exceptions/base.py:20-26 | The message comes first, then the code segment only when a code is set, then the details segment only when details are non-empty. |
| Exceptions.StrJoinsParts | src/bot/exceptions/base.py:20-26 | The rendering is the `' - '` join of exactly the parts that are present. |
| Exceptions.Title | src/bot/exceptions/base.py:159-160 | Title-casing keeps the length; lower-cased, the result equals the lower-cased input, and characters without case are unchanged. |
| Exceptions.TitleIdempotent | src/bot/exceptions/base.py:159-160 | Title-casing a title-cased text changes nothing. |
| Exceptions.Code | src/bot/exceptions/base.py:38-323 | Each specialised class fixes a non-empty code, e.g. `CPF_INVALID` and `SESSION_CONFLICT`. |
| Exceptions.JoinGiven | src/bot/exceptions/base.py:107-114 | Only the present, non-empty parts are joined with `' \| '`. |
| Exceptions.Build | src/bot/exceptions/base.py:38-323 | Each constructor carries the code of its class and a message ending with the caller-supplied text; a session-conflict, session-expired or captcha message is that text verbatim, and an element-not-found message starts with the title-cased element type. |
| Exceptions.Message | src/bot/exceptions/base.py:38-323 | The message ends with the caller-supplied text of its class, is that text alone for the session and captcha classes, and starts with the title-cased element type for a missing element. |
| Exceptions.StrShowsSubject | src/bot/exceptions/base.py:20-26 | The rendered error always contains the caller-supplied text it was built from. |
| Exceptions.LoginFailedBare | src/bot/exceptions/base.py:107-114 | A login failure with neither user nor step renders without a details segment. |
| Exceptions.LoginFailedDetails | src/bot/exceptions/base.py:107-114 | The login details list exactly the supplied parts, in order, separated by `' \| '`. |
| Exceptions.DataParsingKeepsPrefix | src/bot/exceptions/base.py:198-205 | Only the first 100 characters of the raw data matter to a parsing error. |
| Exceptions.DataParsingDetailsBounded | src/bot/exceptions/base.py:198-205 | The details of a parsing error are bounded whatever the size of the raw data. |
| Exceptions.QueryKeepsPrefix | src/bot/exceptions/base.py:228-230 | Only the first 100 characters of the query matter to a query error. |
| Exceptions.IsSessionConflict | src/bot/exceptions/base.py:329-353 | It is false on empty text, and true iff the lower-cased text holds one of the seven indicators. |
| Exceptions.ShortConflictImpliesLong | src/bot/exceptions/base.py:343-353 | Every text the two-indicator detector flags is flagged by the seven-indicator one. |
| Exceptions.LongDetectorIsWider | src/bot/exceptions/base.py:343-353 | There is a text that only the seven-indicator detector flags. |
| Exceptions.LongFlagsActiveSession | src/bot/exceptions/base.py:343-353 | Any text whose lower-cased form contains `sessão ativa` is a conflict for the exceptions module. |
| Exceptions.ShortMissesActiveSession | src/bot/utils/validators.py:297-303 | A text whose lower-cased form contains `sessão ativa` but neither `já está conectado` nor `outra sessão` is a conflict for the exceptions module and not for the validators. |
| Exceptions.FriendlyMessage | src/bot/exceptions/base.py:356-387 | A known code gives its table entry; any other gives `❌ Erro: ` and the message. |
| Exceptions.FriendlyIgnoresDetails | src/bot/exceptions/base.py:387 | The details never influence the friendly message. |
| Exceptions.FriendlyFallbackClasses | src/bot/exceptions/base.py:366-387 | The seven classes with no table entry fall back to their raw message. |
| ErrorMessages.Lowered | bot_error_messages.py:17 | An absent message reads as the empty text; a given one is lower-cased with its length kept. |
| ErrorMessages.Friendly | bot_error_messages.py:5-121 | The if-chain as written: any text mentioning `senha`, in any case, gives the wrong-password message. |
| ErrorMessages.FriendlyByTable | bot_error_messages.py:5-121 | The first group of the ordered table whose keywords occur in the lower-cased text answers with its first firing rule or its fall-back; with no such group the text falls to `Unmatched`. |
| ErrorMessages.Unmatched | bot_error_messages.py:111-120 | An empty message is "unknown". A longer one is cut to 100 characters plus `...`. A shorter one is prefixed in full. |
| ErrorMessages.FirstRule | bot_error_messages.py:22-109 | A group's first firing rule answers, and its fall-back answers when none fires. |
| ErrorMessages.Classify | bot_error_messages.py:22-109 | The first group claiming the text answers, and nothing answers when no group claims it. |
| ErrorMessages.Category | bot_error_messages.py:123-158 | The category is one of the twelve labels. It is `GERAL` iff no keyword group occurs in the lower-cased text; otherwise it is the label of the first group, in source order, with a keyword present. |
| ErrorMessages.CategoryFrom | bot_error_messages.py:123-158 | Reading the ordered keyword-group table from a given group on, the first group with a keyword present names the category, and `GERAL` answers iff none has one. |
| ErrorMessages.CategoryChainIsTable | bot_error_messages.py:123-158 | The if-chain as written agrees with the ordered table on every lower-cased text. |
| ErrorMessageFacts.LoginGroupAgrees | bot_error_messages.py:22-33 | The login branch of the if-chain answers as the login row of the ordered table. |
| ErrorMessageFacts.NavigationGroupAgrees | bot_error_messages.py:36-41 | The navigation branch agrees with its table row. |
| ErrorMessageFacts.MenuGroupAgrees | bot_error_messages.py:44-49 | The menu branch agrees with its table row. |
| ErrorMessageFacts.ExtractionGroupAgrees | bot_error_messages.py:52-57 | The extraction branch agrees with its table row. |
| ErrorMessageFacts.SessionGroupAgrees | bot_error_messages.py:60-65 | The session branch agrees with its table row. |
| ErrorMessageFacts.ValidationGroupAgrees | bot_error_messages.py:72-77 | The CPF/IE branch agrees with its table row. |
| ErrorMessageFacts.DebtGroupAgrees | bot_error_messages.py:80-83 | The debt/TVI branch agrees with its table row. |
| ErrorMessageFacts.BrowserGroupAgrees | bot_error_messages.py:86-93 | The browser branch agrees with its table row. |
| ErrorMessageFacts.DatabaseGroupAgrees | bot_error_messages.py:96-101 | The database branch agrees with its table row. |
| ErrorMessageFacts.FriendlyMatchesTable | bot_error_messages.py:5-120 | On every input the if-chain gives what the ordered keyword table gives: the first claiming group answers, else the fall-back. |
| ErrorMessageFacts.SenhaMeansWrongPassword | bot_error_messages.py:22-24 | Any text mentioning `senha`, in any case, gets the wrong-password message. |
| ErrorMessageFacts.EmptyIsUnknown | bot_error_messages.py:112-113 | An absent or empty message gets "unknown error". |
| ErrorMessageFacts.EmptyIsGeral | bot_error_messages.py:133-158 | An absent or empty message falls in `GERAL`. |
| ErrorMessageFacts.ShapedIeIsIe | bot_error_messages.py:72-76 | A text holding `ie` and built from the letters of "client timeout" gets the IE message. |
| ErrorMessageFacts.ClientTimeoutIsIe | bot_error_messages.py:72-76 | "Client timeout" gets the IE validation message, not the timeout message. |
| ErrorMessageFacts.LoginCategoryGetsLoginMessage | bot_error_messages.py:135-136 | A text in the `LOGIN` category always gets a login message. |
| MessageText.HrefAt | src/bot/core/message_processor.py:1019 | The pattern tried at one position gives a quote-free group holding the receipt path, or nothing. |
| MessageText.HrefAtIsTheMatch | src/bot/core/message_processor.py:1019 | Both directions: the position yields `v` exactly when the pattern matches there with group `v`. |
| MessageText.FirstHref | src/bot/core/message_processor.py:1019 | The search returns a matching position with no match before it, or nothing when no position matches. |
| MessageText.Unescape | src/bot/core/message_processor.py:1022 | Text without `&amp;` is unchanged, and a text without a quote character gives one without a quote character. |
| MessageText.ReceiptLink | src/bot/core/message_processor.py:1012-1027 | Empty HTML or HTML without the exact-case token gives nothing. A link found holds no quote character. |
| MessageText.ReceiptLinkIsLeftmostMatch | src/bot/core/message_processor.py:1014-1023 | Both directions: a link comes back iff the token is present and the pattern matches somewhere. It is the unescaped group of a match with none further left. |
| MessageText.ReceiptLinkNonEmpty | src/bot/core/message_processor.py:1019-1023 | A link found is never empty. |
| MessageText.ReceiptLinkOfShape | src/bot/core/message_processor.py:1019-1023 | A page whose first anchor holds the receipt path yields exactly that anchor's URL. |
| MessageText.SampleReceiptLink | tests/integration/test_mensagem.py:43 | The sample receipt anchor yields its `listIReciboDief.do?method=reciboDIEF&idRecibo=…` URL. |
| MessageText.TokenCheckIsCaseSensitive | src/bot/core/message_processor.py:1014-1019 | A capitalised path still matches the case-insensitive pattern, yet no link is returned. |
| MessageText.CapitalisedPathIgnored | src/bot/core/message_processor.py:1014-1019 | An anchor with the path in capitals is ignored. |
| MessageText.SplitIeCell | src/bot/core/message_processor.py:576-582 | With a separator the stripped first piece is the IE and the stripped second piece is the name. Without one the whole stripped text is the IE and no name is set. |
| MessageText.IeCellRoundTrip | src/bot/core/message_processor.py:576-582 | Round trip: the cell shown for a digit-only IE and a plain name splits back into both. |
| MessageText.NameKeepsSecondPieceOnly | src/bot/core/message_processor.py:578-580 | A name that itself holds the separator loses everything from it on. |
| MessageText.ReadIdentity | src/bot/core/message_processor.py:523-582 | The context IE is only a default: a present cell decides the IE and, with a separator, the name. |
| MessageText.CellOverridesContext | src/bot/core/message_processor.py:523-582 | Whatever the context, a cell `IE - NAME` gives that IE and name. |
| MessageText.ResolveLink | src/bot/core/message_processor.py:442-448 | A link not starting with `/` is kept unchanged; a root-relative one is put after the origin. |
| MessageText.OriginOfUrl | src/bot/core/message_processor.py:445 | The origin of `scheme://host/…` is `scheme://host`. |
| MessageText.RootRelativeLink | src/bot/core/message_processor.py:442-446 | A root-relative link lands on the current page's scheme and host. |
| MessageText.StopIndex | src/bot/core/message_processor.py:342-426 | The loop leaves at the first turn past the links still listed, or runs to the end. |
| MessageText.CountedIn | src/bot/core/message_processor.py:342-426 | The count over the first `k` turns is at most `k`. |
| MessageText.CountedInMonotone | src/bot/core/message_processor.py:342-426 | Counting more turns never counts fewer. |
| MessageText.NoSuccessNoCount | src/bot/core/message_processor.py:342-426 | Without a successful turn nothing is counted. |
| MessageText.ProcessEach | src/bot/core/message_processor.py:342-426 | The count is between 0 and the number of links. It counts exactly the successful turns before the loop leaves, at most once per index. |
| MessageText.ProcessIndividual | src/bot/core/message_processor.py:1030-1074 | The result is true iff data was extracted, the insert gave a row id, and the acknowledgement succeeded. |
| Extraction.FoundValue | src/bot/core/data_extractor.py:153-155 | The value stored for an element is its stripped text, or nothing for empty content. |
| Extraction.FirstUseful | src/bot/core/data_extractor.py:150-160 | It finds the first probe with non-blank text, or none when no probe has one. |
| Extraction.Fallback | src/bot/core/data_extractor.py:142-160 | The chain stops at the first non-blank value and stores it. Without one, the field holds the value of the last element found, or stays as it was when no element was found. |
| Extraction.LastFound | src/bot/core/data_extractor.py:142-160 | The index of the last probe that found an element, or none iff no probe found one. |
| Extraction.YesNo | src/bot/core/data_extractor.py:168-177 | A check box found gives `SIM`, none gives `NÃO`. |
| Extraction.ReadPendingFlags | src/bot/core/data_extractor.py:162-183 | Each flag is `SIM` iff its checked box exists, else `NÃO`. Any error sets all three to `NÃO VERIFICADO`. |
| Extraction.LastNotNewline | src/bot/core/data_extractor.py:552 | Back-tracking finds the last non-newline white-space character, or none. |
| Extraction.GroupAfter | src/bot/core/data_extractor.py:550-555 | A captured group has the shape of its pattern: six digits, a non-empty line, or a non-empty run of digits or digits and dashes. |
| Extraction.MatchAt | src/bot/core/data_extractor.py:550-555 | A match at a position starts with the label, and its group has its pattern's shape. |
| Extraction.FirstMatch | src/bot/core/data_extractor.py:557-561 | The search returns the leftmost matching position, or none when nothing matches. |
| Extraction.Search | src/bot/core/data_extractor.py:557-561 | The stored value is the stripped group of the leftmost match, and nothing when no match exists. |
| Extraction.FirstMatchIs | src/bot/core/data_extractor.py:559 | A match with none further left is the one the search reports. |
| Extraction.SearchShape | src/bot/core/data_extractor.py:550-561 | A stored period is six digits, a key is digits and dashes, and a protocol is digits. |
| Extraction.StatusIsOneLine | src/bot/core/data_extractor.py:552 | A stored status never holds a newline. |
| Extraction.SixDigitsAfterSpace | src/bot/core/data_extractor.py:551 | The six digits after any run of white space are the period group. |
| Extraction.BlankStatusAtEnd | src/bot/core/data_extractor.py:552 | A status label followed only by white space at the end of the text still matches and stores the empty status. |
| Extraction.NewlinesOnlyNoStatus | src/bot/core/data_extractor.py:552 | A status label followed only by newlines to the end gives no status. |
| Extraction.SearchSkips | src/bot/core/data_extractor.py:559 | When no label occurrence starts inside a prefix, searching past it is searching the rest. |
| Extraction.LabelledValue | src/bot/core/data_extractor.py:550-561 | A text opening with the label, white space and a fitting value yields that value. |
| Extraction.Store | src/bot/core/data_extractor.py:557-561 | A matching pattern stores its value under its key, and nothing else changes. |
| Extraction.NothingInEmptyText | src/bot/core/data_extractor.py:544-547 | The empty text holds no match. |
| Extraction.ExtractDief | src/bot/core/data_extractor.py:542-566 | Without message text nothing changes. Otherwise each matching pattern stores its stripped group under its key, and no other key changes. |
| Extraction.StoredValues | src/bot/core/data_extractor.py:557-561 | Values found by the four searches are exactly what the extractor stores. |
| Extraction.SampleProtocolo | tests/integration/test_mensagem.py:48 | The sample receipt yields protocol `1590248`. |
| Extraction.SampleSituacao | tests/integration/test_mensagem.py:51 | The sample receipt yields status `DIEF PROCESSADA`. |
| Extraction.SampleCompetencia | tests/integration/test_mensagem.py:57 | The sample receipt yields period `202510`. |
| Extraction.SampleChave | tests/integration/test_mensagem.py:67 | The sample receipt yields key `7713-9134-5865-7139-1345-8046-7921`. |
| Extraction.SampleSearches | tests/integration/test_mensagem.py:47-67 | All four searches on the sample receipt give the values the integration test stores. |
| LinkMigration.EnsureColumn | scripts/migrar_link_recibo.py:13-21 | The column is added, and a duplicate-column failure counts as present. Any other failure is raised. |
| LinkMigration.EnsureColumnIdempotent | scripts/migrar_link_recibo.py:13-21 | Adding the column twice is adding it once. |
| LinkMigration.Source | scripts/migrar_link_recibo.py:39 | The searched content is the HTML, falling back to the text, then the empty text. |
| LinkMigration.Backfill | scripts/migrar_link_recibo.py:26-50 | A row that has a link, or whose content has no receipt link, is untouched. A candidate gets the extracted link, and the other columns stay. |
| LinkMigration.BackfillIdempotent | scripts/migrar_link_recibo.py:26-50 | A second back-fill changes nothing, and an updated row is no longer a candidate. |
| LinkMigration.UpdatedAmongCandidates | scripts/migrar_link_recibo.py:36-56 | No more rows are updated than were selected. |
| LinkMigration.Migrate | scripts/migrar_link_recibo.py:36-56 | Every row is back-filled in order, and the reported count is the number of rows written, at most the candidates. |
| Csv.CountChar | frontend/js/modules/empresas.js:507-509 | The count is zero iff the character is absent, and counts add over concatenation. |
| Csv.DetectDelimiter | frontend/js/modules/empresas.js:505-523 | The most frequent of comma, tab and semicolon wins. Ties favour the comma, then the tab, and the semicolon only when strictly most frequent. |
| Csv.ParseLine | frontend/js/modules/empresas.js:529-560 | A line always parses to at least one field and never to more fields than it has delimiters plus one; an empty line gives one empty field. |
| Csv.QuoteFreeLine | frontend/js/modules/empresas.js:529-560 | A line without quotes parses as its split at the delimiter, with each field trimmed. |
| Csv.SplitCount | frontend/js/modules/empresas.js:529-560 | Splitting gives one more part than there are delimiters. |
| Csv.QuoteFreeFieldCount | frontend/js/modules/empresas.js:529-560 | A quote-free line has one more field than delimiters. |
| Csv.JoinThenParse | frontend/js/modules/empresas.js:529-560 | Round trip: plain fields joined by the delimiter parse back to the same fields. |
| Csv.ScanRun | frontend/js/modules/empresas.js:534-553 | A run without quotes (and outside quotes, without delimiters) is copied into the field unchanged. |
| Csv.OpenQuote | frontend/js/modules/empresas.js:538-546 | An opening quote is dropped and opens quoting. |
| Csv.CloseQuote | frontend/js/modules/empresas.js:538-546 | A single quote inside quotes is dropped and closes quoting. |
| Csv.EscapedQuote | frontend/js/modules/empresas.js:539-542 | Inside quotes a doubled quote becomes one quote in the field. |
| Csv.EndField | frontend/js/modules/empresas.js:547-550 | A delimiter outside quotes ends the field, trimmed. |
| Csv.QuotedDelimiter | frontend/js/modules/empresas.js:529-560 | A delimiter inside quotes belongs to the field. |
| Csv.DoubledQuote | frontend/js/modules/empresas.js:529-560 | A quoted field with a doubled quote parses to the field with one quote. |
| Csv.DropEdgeQuotes | frontend/js/modules/empresas.js:567 | At most one quote goes from each end, and nothing else changes. |
| Csv.CollapseSpaces | frontend/js/modules/empresas.js:598 | No white space is left, text without white space is unchanged, and nothing gets longer. |
| Csv.NormalizeHeader | frontend/js/modules/empresas.js:598 | A normalised header has no white space and no upper-case letter. |
| Csv.NormalizeFixesNormalForm | frontend/js/modules/empresas.js:598 | Normalising a header already in normal form changes nothing. |
| Csv.ExpectedHeadersNormal | frontend/js/modules/empresas.js:598-599 | Each expected column name reads back as itself. |
| Csv.MissingHeaders | frontend/js/modules/empresas.js:604-609 | Both directions: the missing list holds exactly the expected headers absent from the file, and is empty iff all are present. |
| Csv.ConvertField | frontend/js/modules/empresas.js:563-577 | An empty value stays empty. A non-numeric column only loses edge quotes and white space. |
| Csv.NonNumericPassThrough | frontend/js/modules/empresas.js:563-577 | A non-numeric column such as the password never depends on the numeric conversion, and is a trimmed piece of the cell. |
| Csv.BuildRow | frontend/js/modules/empresas.js:627-640 | The row has exactly the header keys. |
| Csv.BuildRowValue | frontend/js/modules/empresas.js:627-640 | A column holds the converted cell at its last position among the headers. |
| Csv.AcceptedRows | frontend/js/modules/empresas.js:612-643 | At most one row per line, each keyed by the headers. |
| Csv.WrongWidthSkipped | frontend/js/modules/empresas.js:621-625 | A line whose cell count differs from the header count is skipped. |
| Csv.WellFormedLineKept | frontend/js/modules/empresas.js:612-643 | A line of plain cells, as many as the headers and not all empty, gives the row of those cells. |
| Csv.WellFormedLinesKept | frontend/js/modules/empresas.js:612-643 | Lines written from a table of plain cells are all kept, each as the row of its own cells. |
| Csv.Earliest | frontend/js/modules/empresas.js:646-661 | It finds the first row before the bound with a given CNPJ, or the bound when there is none. |
| Csv.FirstOf | frontend/js/modules/empresas.js:646-661 | It finds the first row with the same CNPJ, which comes before this row iff the CNPJ was seen before. |
| Csv.DuplicatesSound | frontend/js/modules/empresas.js:646-661 | Every warning names a repeated row after the first row with its CNPJ. Both are numbered as accepted-row index + 2, which is not always their file line. |
| Csv.DuplicatesComplete | frontend/js/modules/empresas.js:646-661 | Both directions: a row is warned about iff an earlier row has its CNPJ, so first occurrences never are. |
| Csv.FindDuplicates | frontend/js/modules/empresas.js:646-661 | The loop with its map of first lines reports exactly the specified warnings. |
| Csv.KeepNonBlank | frontend/js/modules/empresas.js:498 | Exactly the lines holding something besides white space are kept. |
| Csv.ParseCsv | frontend/js/modules/empresas.js:497-682 | Fewer than two non-blank lines is an empty file. A missing expected header aborts and lists only absent expected headers. Otherwise the import is offered with every expected header present, and duplicates never block it. |
| Csv.DuplicatesAtExactly | frontend/js/modules/empresas.js:646-661 | For any numbering of the rows, a warning is given exactly for each row whose CNPJ an earlier row has, naming that row's number and the first such row's number. |
| Csv.DuplicatesInIndexLines | frontend/js/modules/empresas.js:648-658 | The importer's warnings are the general ones under the numbering "row index + 2". |
| Csv.KeepNonBlankFilters | frontend/js/modules/empresas.js:498 | Dropping blank lines is filtering by "not blank after trimming". |
| Csv.FilterAt | frontend/js/modules/empresas.js:498 | A filter's kept items come from increasing positions of the input, each holding that very item, which passes the test. |
| Csv.AcceptedRowsFilter | frontend/js/modules/empresas.js:612-643 | The rows are exactly the rows built from the lines that pass the blank and width checks, one per such line, in order. |
| Csv.RowLines | frontend/js/modules/empresas.js:498-643 | There is one file line per accepted line; the lines increase, lie after the header, and hold the accepted lines in order. |
| Csv.RowLinesHoldRows | frontend/js/modules/empresas.js:612-643 | There is one file line per row, increasing, and each row is the row built from the accepted text on its line. |
| Csv.Preview | frontend/js/modules/empresas.js:612-661 | The offered import keeps the headers and the accepted rows, with fewer rows than non-blank lines and at most one warning per row. |
| Csv.PreviewWarnsAtFileLines | frontend/js/modules/empresas.js:646-661 | Each warning's line and first line are file lines after the header, the first before the repeat, and both lines hold the warned CNPJ; the repeat's line holds the warned name. |
| Csv.ParseCsvWarnsAtFileLines | frontend/js/modules/empresas.js:497-661 | Under the corrected file-line numbering of "## Findings", not the source's own numbering, the same holds for every import the parser offers. Lines are counted in the text as split on newlines. |
| Csv.DuplicatesIn | frontend/js/modules/empresas.js:646-661 | The importer's warnings as written, numbered by accepted-row index + 2: at most one warning per row. What each warning means is stated by Csv.DuplicatesSound and Csv.DuplicatesComplete. |
| Csv.ImporterWarnings | frontend/js/modules/empresas.js:646-661 | The as-written warnings for a file. Each numbers a repeat after its first occurrence, and no number exceeds the accepted-row count + 1, whatever the number of lines in the file. |
| Csv.SkippedLineShiftsWarning | frontend/js/modules/empresas.js:648-658 | With a header, a row, a skipped line and a row repeating the first CNPJ, the importer's numbering warns at line 3, which is the skipped line, while the file-line numbering warns at line 4. |
| WebFormat.FormatCnpj | frontend/js/modules/utils.js:2-9 | Falsy gives the empty text, 14 digits give the `NN.NNN.NNN/NNNN-NN` mask, and anything else is echoed. |
| WebFormat.FormatCpf | frontend/js/modules/utils.js:11-18 | Falsy gives the empty text, 11 digits give the `NNN.NNN.NNN-NN` mask, and anything else is echoed. |
| WebFormat.FormatCnpjKeepsDigits | frontend/js/modules/utils.js:2-9 | The digits of the formatted CNPJ are the digits of the input. |
| WebFormat.FormatCpfKeepsDigits | frontend/js/modules/utils.js:11-18 | The digits of the formatted CPF are the digits of the input. |
| WebFormat.FormatCnpjIdempotent | frontend/js/modules/utils.js:2-9 | Formatting a formatted CNPJ changes nothing. |
| WebFormat.FormatCpfIdempotent | frontend/js/modules/utils.js:11-18 | Formatting a formatted CPF changes nothing. |
| WebFormat.JobStatusBadge | frontend/js/modules/utils.js:78-91 | The four statuses get their labels; any other status is echoed. |
| WebFormat.JobStatusLabelsDistinct | frontend/js/modules/utils.js:78-91 | The four statuses get four different labels, none of them a raw status. |
| WebFormat.TviBadge | frontend/js/modules/utils.js:54-64 | Falsy is `N/A`, `SIM`/`NÃO` get fixed badges, and anything else is echoed. |
| WebFormat.DividasBadge | frontend/js/modules/utils.js:66-76 | Falsy is `N/A`, `SIM`/`NÃO` get fixed badges, and anything else is echoed. |
| WebFormat.DebtAndTviBadgesAgree | frontend/js/modules/utils.js:54-76 | Both directions: the debt and TVI badges agree on every text, and differ in colour exactly for `SIM`. |
| WebFormat.CompanyStatusBadge | frontend/js/modules/utils.js:42-52 | Falsy is `N/A`, `ATIVO`/`INATIVO` get fixed badges, and anything else is echoed as a warning. |
| WebFormat.FormatRecorrencia | frontend/js/modules/utils.js:93-106 | The four recurrences get their labels, falsy gives `-`, and anything else is echoed. |
| WebFormat.RecurrenceLabelsDistinct | frontend/js/modules/utils.js:93-106 | The four recurrences get four different labels. |
| WebFormat.FormatCompetencia | frontend/js/modules/mensagens.js:975-982 | Six characters become a seven-character `MM/AAAA`; falsy or other lengths are returned unchanged. |
| WebFormat.CompetenciaRoundTrip | frontend/js/modules/mensagens.js:975-982 | Round trip: reading the shown period back gives the stored `AAAAMM`. |
| WebFormat.SampleCompetencia | frontend/js/modules/mensagens.js:973-982 | `202510` is shown as `10/2025`. |
| WebFormat.CountersPartition | frontend/js/modules/mensagens.js:280-281 | The pending and read counters sum to the number of fetched messages. |
| WebFormat.ProcessingStatus | frontend/js/modules/mensagens.js:225-234 | The lower-cased text (falling back to the HTML) reporting success is "processed". Otherwise a report of failure is "not processed", else nothing is shown. |
| WebFormat.SuccessWins | frontend/js/modules/mensagens.js:225-234 | A text holding both reports is shown as processed. |
| Fila.ToDb | frontend/js/modules/fila.js:338-345 | Card names map to database statuses, and unknown values pass through. |
| Fila.ToCard | frontend/js/modules/fila.js:379-385 | Exactly the database statuses have a card. |
| Fila.StatusNamesRoundTrip | frontend/js/modules/fila.js:338-384 | Card names and statuses correspond one to one: each map undoes the other. |
| Fila.StatusName | frontend/js/modules/fila.js:63-76 | Every queue state is stored as one of the four statuses. |
| Fila.FilterByStatus | frontend/js/modules/fila.js:336-368 | Clicking the active card clears the filter; any other card selects its status. |
| Fila.SameCardTwiceClears | frontend/js/modules/fila.js:348-354 | Clicking the same card twice gives back no filter. |
| Fila.HighlightedCardIsClicked | frontend/js/modules/fila.js:370-391 | After a click the highlighted card is the card clicked, or none when the click cleared the filter. |
| Fila.FilterByAll | frontend/js/modules/fila.js:324-334 | The filter ends cleared, and the list is refreshed iff a filter was set. |
| Fila.Insert | frontend/js/modules/fila.js:398-402 | Insertion adds exactly one row and keeps the others. |
| Fila.InsertSorted | frontend/js/modules/fila.js:398-402 | Inserting into a newest-first list keeps it newest first. |
| Fila.SortByAdded | frontend/js/modules/fila.js:398-402 | The sorted list is a permutation of the jobs. |
| Fila.SortByAddedSorted | frontend/js/modules/fila.js:398-402 | The sorted list is newest first. |
| Fila.KeepStatus | frontend/js/modules/fila.js:405-407 | Exactly the rows with the status are kept, each as often as before. |
| Fila.KeepStatusSorted | frontend/js/modules/fila.js:405-407 | Filtering a newest-first list keeps it newest first. |
| Fila.TotalPages | frontend/js/modules/fila.js:298 | It is the least page count whose pages hold every row. |
| Fila.Visible | frontend/js/modules/fila.js:33-35 | A page shows rows `(p-1)*n` onwards, in order: a full page when enough rows remain, and something when any remain. |
| Fila.EveryRowOnItsPage | frontend/js/modules/fila.js:33-35 | Every row sits on exactly one reachable page, at its offset. |
| Fila.ValidPageNotEmpty | frontend/js/modules/fila.js:33-35 | A page in range shows at least one row whenever there is one. |
| Fila.NextPage | frontend/js/modules/fila.js:297-304 | It advances iff a next page exists, keeps the page in range, and changes nothing else. |
| Fila.PrevPage | frontend/js/modules/fila.js:306-312 | It goes back iff not on page 1, keeps the page in range, and changes nothing else. |
| Fila.ChangePerPage | frontend/js/modules/fila.js:314-319 | A new page size goes back to page 1 and keeps the data and filter. |
| Fila.ApplyFilters | frontend/js/modules/fila.js:393-411 | The shown jobs are newest first and on page 1. With a filter they are exactly the jobs with its status; without one, all jobs. The total is their count. |
| Fila.OfferedActionsAccepted | frontend/js/modules/fila.js:63-76 | A row never offers both actions. Delete is offered only where the endpoint accepts it, and cancel only for running jobs. |
| Mensagens.StartOfLocalDay | frontend/js/modules/mensagens.js:95-105 | It is the first instant of its local day. |
| Mensagens.LocalDayBounds | frontend/js/modules/mensagens.js:95-105 | An instant lies between the local midnights of its own day. |
| Mensagens.EndOfLocalDay | frontend/js/modules/mensagens.js:104 | It is the last millisecond of the local day holding the instant. |
| Mensagens.FinalDayExcludedWestOfUtc | frontend/js/modules/mensagens.js:102-105 | As written, west of UTC the end bound falls before the chosen day begins, so nothing sent on that day passes. |
| Mensagens.SampleFinalDayDropped | frontend/js/modules/mensagens.js:102-105 | In Brasília a message sent at noon on 10/10/2025 is dropped by "until 10/10/2025". |
| Mensagens.PreviousEveningKeptWestOfUtc | frontend/js/modules/mensagens.js:97-100 | As written, west of UTC the start bound also lets in the evening before. |
| Mensagens.KeptIffWithinDays | frontend/js/modules/mensagens.js:91-110 | Corrected filter, both directions: a dated message is kept iff its local day lies between the two dates. Undated messages are kept. |
| Mensagens.AsWrittenAgreesOnUtc | frontend/js/modules/mensagens.js:91-110 | In a browser on UTC the filter as written already filters as intended. |
| Mensagens.KeepIf | frontend/js/modules/mensagens.js:92-109 | Each accepted message is kept exactly as many times as it occurs, and no rejected one is kept. |
| Mensagens.DateFilterAsWritten | frontend/js/modules/mensagens.js:91-110 | With no date set nothing is dropped. Otherwise each message passing the predicate as written is kept exactly as often as it occurs, and no other. |
| Mensagens.DateFilter | frontend/js/modules/mensagens.js:91-110 | With no date set nothing is dropped. Otherwise each message within the chosen local days is kept exactly as often as it occurs, and no other. |
| Mensagens.CeilDiv | frontend/js/modules/mensagens.js:318 | It is the least page count whose pages hold every message. |
| Mensagens.Window | frontend/js/modules/mensagens.js:72-75 | The server window is the messages from the offset on, at most a page of them. |
| Mensagens.NextPage | frontend/js/modules/mensagens.js:363-369 | It advances iff a message lies beyond the page, keeps the page in range, and changes nothing else. |
| Mensagens.PreviousPage | frontend/js/modules/mensagens.js:374-379 | It goes back iff not on page 0, keeps the page in range, and changes nothing else. |
| Mensagens.Reset | frontend/js/modules/mensagens.js:384-400 | A new size or new filters go back to page 0. |
| Mensagens.PageInRange | frontend/js/modules/mensagens.js:364 | A page whose first message exists is below the page count, so the pager stays in range. |
| Mensagens.LastShown | frontend/js/modules/mensagens.js:315-316 | The last shown position is never past the total. |
| Mensagens.NextDisabled | frontend/js/modules/mensagens.js:346-347 | The next button is disabled iff the messages shown up to the end of this page reach the total. |
| Mensagens.ShownAsWritten | frontend/js/modules/mensagens.js:294-316 | As written, with a date set the total becomes the number shown on this page. |
| Mensagens.DateFilterBlocksNext | frontend/js/modules/mensagens.js:309-311 | As written, with a date set the next button is disabled and `nextPage` stays put, on every page. |
| Mensagens.SampleDateFilterHidesMessages | frontend/js/modules/mensagens.js:309-311 | With 25 undated messages and a start date, only the first ten are ever reachable. |
| Mensagens.Shown | frontend/js/modules/mensagens.js:294-353 | Corrected pagination: the total counts every message passing the date filter, and the page shows only such messages. |
| Mensagens.NextDisabledIffLastPage | frontend/js/modules/mensagens.js:346-352 | Both directions, with the corrected total: next is disabled iff no matching message lies beyond the page; on any valid pager state (the first page, or a page in range) that is also iff `nextPage` stays put. |
| Agendamento.SignedDigits | frontend/js/modules/agendamento.js:145 | There is no number iff no digit follows the optional sign. |
| Agendamento.JsParseInt | frontend/js/modules/agendamento.js:145 | After the whole leading run of white space, the optional sign and the longest digit run are read; an all-blank text gives no number. |
| Agendamento.JsParseIntSkipsSpace | frontend/js/modules/agendamento.js:145 | A leading white-space character does not change the parse. |
| Agendamento.JsParseIntRoundTrip | frontend/js/modules/agendamento.js:145 | Round trip: parsing a rendered integer, whatever non-digit text follows, gives the integer. |
| Agendamento.Submit | frontend/js/modules/agendamento.js:140-168 | It refuses iff no company is ticked, and as too soon iff the date is before now plus five minutes. Otherwise the payload carries the parsed ids, the date, the recurrence, the parsed priority and `ativo`. |
| Agendamento.PayloadCarriesTickedIds | frontend/js/modules/agendamento.js:144-168 | The payload carries exactly the ids ticked. |
| Agendamento.ExactlyFiveMinutesAccepted | frontend/js/modules/agendamento.js:153-160 | A time exactly five minutes ahead is accepted. |
| Agendamento.MinAttrAsWritten | frontend/js/modules/agendamento.js:7-10 | As written, the minimum is the minute of now plus five minutes on the UTC clock. |
| Agendamento.PickerRefusesAcceptedTimeWestOfUtc | frontend/js/modules/agendamento.js:7-10 | As written, west of UTC the picker refuses a minute that the submit check accepts. |
| Agendamento.PickerLeadInBrasilia | frontend/js/modules/agendamento.js:7-10 | As written, in Brasília every time the picker offers is more than 3 h 04 min away. |
| Agendamento.MinAttr | frontend/js/modules/agendamento.js:7-10 | Corrected: the minimum is the local minute holding now plus five minutes. |
| Agendamento.PickerAgreesWithCheck | frontend/js/modules/agendamento.js:7-10 | With the local minimum, every time the check accepts is offered, and every time offered is within a minute of what the check accepts. |
| Agendamento.DaysInMonth | frontend/js/modules/agendamento.js:345-347 | A month has 28 to 31 days, and 29 exactly for February of a leap year. |
| Agendamento.YearLength | frontend/js/modules/agendamento.js:344-347 | A year starting in March has 366 days exactly in leap years. |
| Agendamento.EpochIsDayZero | frontend/js/modules/agendamento.js:344-346 | 1 January 1970 is day zero of the day count. |
| Agendamento.MonthLength | frontend/js/modules/agendamento.js:344-347 | The first of the next month is exactly the month's length later. |
| Agendamento.FirstWeekday | frontend/js/modules/agendamento.js:344-346 | The weekday of the first of a month is between Sunday (0) and Saturday (6). |
| Agendamento.NextMonthBlanks | frontend/js/modules/agendamento.js:344-363 | Each month's grid begins where the previous month's left off. |
| Agendamento.ScheduleLabel | frontend/js/modules/agendamento.js:384 | A name over 12 characters is its first 12 followed by `...`; a shorter one is shown whole, with `Empresa` for none or an empty name. |
| Agendamento.MakeDay | frontend/js/modules/agendamento.js:377-392 | A day shows at most three schedules, and `+k mais` exactly when there are more, where the shown plus `k` count every schedule. |
| Agendamento.Calendar | frontend/js/modules/agendamento.js:332-397 | The grid has seven headers, one blank per weekday before the first, then one cell per day `1..daysInMonth`. |
| Agendamento.DayInItsColumn | frontend/js/modules/agendamento.js:355-366 | Each day sits in the column of its weekday. |
| Migrations.RequiredNamesAgree | scripts/migrar_agendamento_v2.py:40-46 | The five required columns are `data_agendada`, `tipo_execucao`, `recorrencia`, `ativo_agendamento` and `criado_por`. |
| Migrations.AddColumn | scripts/migrar_agendamento.py:30-66 | Adding a column adds it to every row with its default and keeps every old value. |
| Migrations.AddMissing | scripts/migrar_agendamento.py:30-66 | Only absent columns are added, with their defaults. The columns become the union, and old values are kept. |
| Migrations.AddMissingNoop | scripts/migrar_agendamento.py:30-66 | Adding columns that are all present changes nothing. |
| Migrations.FillNull | scripts/migrar_agendamento.py:68-87 | NULLs in one column get the default, and every other value is untouched. |
| Migrations.FillNullNoop | scripts/migrar_agendamento.py:68-87 | Without a NULL in the column nothing changes. |
| Migrations.NullCount | scripts/migrar_agendamento.py:68-87 | The count is zero iff no row has a NULL in the column. |
| Migrations.FillDefaults | scripts/migrar_agendamento.py:68-87 | A NULL `tipo_execucao` becomes `imediata`, a NULL `ativo_agendamento` becomes 1 and a NULL `criado_por` becomes `manual`; non-NULL values are untouched. |
| Migrations.FillDefaultsNoop | scripts/migrar_agendamento.py:68-87 | With none of those NULLs, filling changes nothing. |
| Migrations.MigrateV1 | scripts/migrar_agendamento.py:30-87 | The five columns end present and the rows keep their number. The defaulted columns hold no NULL, non-NULL values are untouched, and the other columns keep their values. |
| Migrations.MigrateV1Idempotent | scripts/migrar_agendamento.py:30-89 | Migrating twice is migrating once. |
| Migrations.AddMissingV1 | scripts/migrar_agendamento.py:30-66 | The adds run in order until one fails. Both directions: it completes iff every missing column is added without error, and the earlier adds persist. |
| Migrations.MigrateV1Run | scripts/migrar_agendamento.py:30-108 | It completes iff no add fails, and then equals the migration. A failure is re-raised, leaving the columns added before it, with old values kept. |
| Migrations.DefaultOfPrefix | scripts/migrar_agendamento.py:30-66 | A column added by a prefix of the list gets the same default as from the whole list. |
| Migrations.RerunAfterRaise | scripts/migrar_agendamento.py:30-108 | A run after a failed one ends in the same table as a single clean run. |
| Migrations.MigrationNeeded | scripts/migrar_agendamento_v2.py:210-221 | Both directions: a migration is needed iff some required column is missing. |
| Migrations.AddMissingV2 | scripts/migrar_agendamento_v2.py:238-248 | Duplicate errors count as present. It aborts iff some missing column gets another error. Otherwise the result is the missing columns added, and the reported ones were missing and added cleanly. |
| Migrations.ExecuteMigration | scripts/migrar_agendamento_v2.py:223-302 | It rolls back iff an add fails. Otherwise every required column is present, the reported columns were missing, an empty table has 0 updates, and updates are at most three per row. |
| Migrations.V2AgreesWithV1 | scripts/migrar_agendamento_v2.py:223-302 | A successful v2 migration ends in the same table as the v1 migration. |
| Migrations.RunMigration | scripts/migrar_agendamento_v2.py:410-458 | On failure the database is unchanged. A backup is taken iff the environment is fine and a migration is needed. Without a need it succeeds with no change. On success the required columns are present and the rows keep their number. |
| Migrations.RunMigrationIdempotent | scripts/migrar_agendamento_v2.py:410-458 | A second run after a successful one changes nothing. |
| Migrations.ValidateStructure | scripts/validate_agendamento.py:93-110 | Missing is expected minus current, and extra is current minus expected. The structure passes iff nothing is missing; extra columns are tolerated. |
| Migrations.ValidateIntegrity | scripts/validate_agendamento.py:129-201 | It passes iff the table has `tipo_execucao`, `ativo_agendamento` and `data_agendada`, the integrity check is `ok`, and no row has a NULL `tipo_execucao`. A missing column makes a counting query raise, and the handler answers failure. |
| Migrations.MigratedIntegrity | scripts/validate_agendamento.py:129-201 | After the migration, the integrity test's verdict is the integrity check's answer alone. |
| Migrations.TestRow | scripts/validate_agendamento.py:222-232 | The test job has a value for every column of the table. It carries the fresh id and, when the table has `empresa_id`, the company. On a table with every inserted column, it holds the inserted values: `pending`, priority 0, `agendada`, the chosen time, `unica`, 1 and `teste`. |
| Migrations.DeleteId | scripts/validate_agendamento.py:245-246 | Deleting never adds rows, and with no row carrying that id the table is unchanged. |
| Migrations.DeleteIdExactly | scripts/validate_agendamento.py:245-246 | Every row with that id is removed, and every other row keeps its multiplicity. |
| Migrations.DeleteIdAppend | scripts/validate_agendamento.py:222-248 | Inserting a row with a fresh id and deleting it leaves the rows as they were. |
| Migrations.TestCreate | scripts/validate_agendamento.py:211-249 | The rows end unchanged. The test succeeds iff an active company exists and the table has the columns the insert names. |
| Migrations.FullValidation | scripts/validate_agendamento.py:359-384 | A missing database runs no test. Otherwise overall success holds iff structure, integrity and the creation test all pass. |
| Migrations.CompleteTableValidates | scripts/validate_agendamento.py:359-384 | A table with every expected column, no NULL `tipo_execucao`, a clean integrity check and an active company validates. |
| Migrations.MigratedTableValidates | scripts/validate_agendamento.py:359-384 | After a successful migration of a table with the base columns, the full validation passes. |
| QueueJobsMigration.Coalesce | migrar_queue_jobs.py:51 | It is NULL iff both are NULL, and the first value when that is not NULL. |
| QueueJobsMigration.CopyRow | migrar_queue_jobs.py:42-56 | The copied row has exactly the new columns and the same values in the copied ones. |
| QueueJobsMigration.MigrateQueueJobs | migrar_queue_jobs.py:12-62 | A table with `data_adicao`, or one the copy would fail on, is unchanged. Otherwise the rows keep their number and copied values. `data_adicao` is the old creation date, and `data_processamento` is the completion date when set, else the start date. |
| QueueJobsMigration.MigrateQueueJobsIdempotent | migrar_queue_jobs.py:12-20 | Migrating twice is migrating once. |
| QueueJobsMigration.RebuiltTableNeedsScheduling | migrar_queue_jobs.py:25-62 | The rebuilt table has exactly the nine base columns, and the scheduling migration then has work to do. |

## Left out

- **Browser automation.** Playwright page driving, the Chrome extensions, monetary and TVI/debt
  parsers, and human-behaviour delays are I/O against a website or floating point.
  - In `message_processor.py` and `data_extractor.py` only the text steps are modelled.
  - Selector queries become `Probe` values, and the per-message page visit becomes a `Visit` record.
- **Concurrency.** The worker is a sequence of atomic steps between which endpoint calls can
  interleave.
  - Background tasks and polling sleeps are not modelled.
  - A second worker started while one is draining is not modelled.
  - Time is an integer parameter.
- **`limpar_jobs_travados`, the scheduling backend and recurrence expansion.** The first filters on
  statuses the queue never writes, and no scheduling handler exists in the code.
- **Other SQL endpoints, statistics, crypto, SMTP and static tables.** These are unrelated to the
  queue's rules or are floating point.
- **UI-only modules, diagnostics and one-off scripts.** These are DOM, fetch and printing.
- **Python `.lower()`, `str.isdigit` and `\d`.** Outside ASCII and Latin-1 these are not modelled,
  because Unicode case tables and digit classes are out of reach.
- **JavaScript `toLowerCase()`.** It uses the full Unicode case tables, while
  WebFormat.ProcessingStatus and Csv.NormalizeHeader lower-case with the Latin-1 `Lower`. Letters
  outside Latin-1 are left as they are in the model, for the same reason as above.
- Mensagens.KeepIf: the kept messages are stated as a multiset (each accepted message as often as
  in the input, no other); that they keep their input order is not stated.
- **Regex matching.** It is modelled for exactly the patterns used, not as a general engine.
- Queue.SelectNext: among eligible jobs equal on `prioridade` and `data_adicao` it returns the
  lowest id. That is the model's choice: the query has no id key, so SQLite leaves the order of
  such ties unspecified, and they are common because one request inserts all its jobs within the
  same second. Queue.BestBelow makes the same choice. What the query does guarantee, that no
  eligible job comes strictly first in its order, is stated separately.
- **Retry.ParentShallower:** the exception hierarchy is that of `src/bot/utils/validators.py`, because the
  `bot_validators` module `bot_retry.py` imports is not part of this model and that file defines
  the same classes.
- **Retry:** the model is the async wrapper. `asyncio.sleep` is recorded as the list of delays
  slept. The sync wrapper runs the same loop except in two cases, which are not modelled:
  - A negative delay (from a negative `delay` or `max_delay`) makes `time.sleep` raise
    `ValueError` inside the `except` handler, so it escapes the sync wrapper. `asyncio.sleep`
    returns at once for the same delay, and the loop goes on.
  - A coroutine `on_retry` is called by the sync wrapper without being awaited, so it never runs
    and never raises.
- **Csv.ConvertField:** the `parseFloat(...).toFixed(0)` conversion of a numeric column written with an
  exponent is a parameter, because it is floating point.
- **Csv.ParseCsv:** the notifications, the rendering of the preview table and the console output are
  not modelled. The result records only what the screen ends with. Its warnings are numbered by
  file line, as `Csv.Preview` does; `Csv.DuplicatesIn` keeps the importer's own numbering.
- **Agendamento.JsParseInt:** a `0x` prefix is not read as hexadecimal.
  - The checkbox values are rendered decimal ids, so no such prefix occurs.
- **Agendamento.Submit:** the date field is parsed outside the model. Its instant (or NaN) is a
  parameter, and the request sent after the checks is not modelled.
- Agendamento.ScheduleLabel: lengths are counted in code points, while `.length` and `substring`
  count UTF-16 code units. A name holding characters outside the Basic Multilingual Plane is cut
  at a different place than in the browser, and a cut through a surrogate pair has no Dafny
  `char` to stand for it.
- **Agendamento.Calendar:** the cells are modelled as data rather than HTML.
  - The "today" highlight is not modelled.
  - The `toISOString` day key used to find a day's schedules is a parameter. East of UTC that key
    names the previous day.
- **Agendamento.DaysFromCivil:** years are proleptic Gregorian integers. The `Date` constructor's
  mapping of years 0-99 to 1900-1999 is not modelled.
- **Fila.SortByAdded:** the order of jobs with equal `data_adicao` is not stated. The engine's sort is
  stable, but the result is only claimed to be a newest-first permutation.
- **Fila.ChangePerPage:** a page size that `parseInt` reads as NaN or 0 is excluded by its
  precondition.
- **Mensagens.Reset:** a page size that `parseInt` reads as NaN or 0 is excluded by its
  precondition.
- **WebFormat.CompanyStatusBadge:** badges are a colour class and a text, not HTML markup.
- **Extraction.ExtractDief:** only the `data_extractor.py` copy of the DIEF patterns is modelled.
  - `message_processor.py:715-749` runs the same patterns on the unstripped text.
  - It differs only for a status label followed by white space at the very end.
- **Exceptions.Title:** Python's `str.title()` is modelled for the ASCII and Latin-1 letters that
  have a case pair in Latin-1. `µ` (U+00B5), whose capital lies outside Latin-1, counts as uncased
  here, and letters beyond Latin-1 are not modelled.
- **Queue.Finish:** the log lines and the module-level flag's effect on the polling sleep are not
  modelled.
- **QueueJobsMigration.MigrateQueueJobs:** a failing copy is modelled as leaving the table as it was.
  - The leftover `queue_jobs_new` table and a NULL `id` are not modelled.
  - The printed messages are not modelled.
- **Migrations.RunMigration:** the backup file, its restore on failure, and the report file are
  modelled only through `backedUp` and the unchanged database on failure.
  - A failure while writing the report is not modelled.
- **Migrations.AddMissingV2:** a duplicate-column error is taken as the column being present. The
  column is then not listed as added, as in the code.
- **Migrations.FullValidation:** the printing and the report file are not modelled.
- **Migrations.TestCreate:** the fresh id and the active company are parameters.
- **Migrations tables:** a table is a column set and its rows. Column types, constraints, order and
  SQL defaults are not modelled. The test job of `Migrations.TestRow` therefore reads NULL in
  `data_adicao`, `tentativas` and `max_tentativas`, where the database would fill in their defaults.
  The row is deleted before the commit.

## Findings

| source | as written | input that shows it | evidently intended | confidence | as-written member | corrected member |
|---|---|---|---|---|---|---|
| src/api/main.py:1489-1519 | The outcome of a job is recorded by id. On the exception path the row is read back with `fetchone()` and unpacked, with no check that it still exists. | A running job is cancelled, then deleted, and its executor raises. The unpack fails, the worker task ends, `processing_active` stays true, and neither start nor a new enqueue restarts it. | Update only a row that is still `running`, and skip a vanished row, so the worker keeps running. | not executed | Queue.WorkerDiesWithFlagSet | Queue.FinishGuarded |
| src/api/main.py:1489-1510 | The worker's by-id update overwrites a row that was cancelled (written `failed`) while it ran. | A job is cancelled while running, the company is queued again, and the executor raises with attempts left. The cancelled row returns to `pending` and the company has two live jobs. | A cancellation sticks: the row stays `failed` with the cancellation text. | not executed | Queue.CancelledJobComesBack | Queue.GuardedCancelSticks |
| frontend/js/modules/mensagens.js:102-105 | The end date is parsed as UTC midnight and then set to 23:59:59.999 local time. | In Brasília (UTC-3), "until 10/10/2025" has an end bound of 09/10 23:59:59.999 local, so a message sent at noon on 10/10 is dropped. | Keep every message whose local day is on or before the end date (and on or after the start date). | not executed | Mensagens.FinalDayExcludedWestOfUtc | Mensagens.KeptIffWithinDays |
| frontend/js/modules/mensagens.js:309-311 | With a date filter set, the total becomes the number shown on the current page. | 25 undated messages, page size 10, and a start date: the total is 10, "next" is disabled, and messages 11-25 are unreachable. | The total counts every matching message, so "next" is disabled exactly on the last page. | not executed | Mensagens.DateFilterBlocksNext | Mensagens.NextDisabledIffLastPage |
| frontend/js/modules/empresas.js:648-658 | A duplicate CNPJ is reported at `index + 2`, with `index` counting accepted rows only. The comment says this is the file line, but blank and skipped lines are not counted. | Header, a row, a line with the wrong number of cells, and a row with the first row's CNPJ. The warning points at line 3, the skipped line, instead of line 4. | Number each warning, and its first occurrence, by the line of the file that holds the row. | not executed | Csv.SkippedLineShiftsWarning | Csv.PreviewWarnsAtFileLines |
| frontend/js/modules/agendamento.js:10 | The picker minimum is `toISOString()` of now + 5 min, a UTC clock time, which the `datetime-local` input reads as local time. | In Brasília the picker refuses times 5 min to 3 h 05 min ahead, which the submit check accepts. | The minimum is the local minute holding now + 5 min, so picker and check agree. | not executed | Agendamento.PickerRefusesAcceptedTimeWestOfUtc | Agendamento.PickerAgreesWithCheck |

=== FILE: agendamento.dfy ===
/**
 * The scheduling form and calendar of the admin front end (`agendamento.js`): the checks
 * `handleCreateAgendamento` makes before sending, the payload it sends, the minimum of the
 * date picker, and the month grid of `renderCalendar`.
 *
 * Instants are integer milliseconds since the epoch; the browser's zone is a fixed `offset`
 * in minutes east of UTC.  A `datetime-local` value is the wall-clock minute it names,
 * counted from 1970-01-01T00:00 on the same wall clock.
 */
module Agendamento {
  import opened Options
  import opened Text

  const MinuteMs := 60_000
  /** `5 * 60 * 1000`: the least lead time of a schedule. */
  const LeadMs := 5 * 60_000

  // ---------------------------------------------------------------------------
  // parseInt
  // ---------------------------------------------------------------------------

  /** What `parseInt` reads after the leading white space: an optional sign and a run of digits. */
  function SignedDigits(t: string): (r: Option<int>)
    ensures r.None? <==> var body := if |t| > 0 && (t[0] == '-' || t[0] == '+') then t[1..] else t;
      |body| == 0 || !IsDigit(body[0])
  {
    var negative := |t| > 0 && t[0] == '-';
    var body := if |t| > 0 && (t[0] == '-' || t[0] == '+') then t[1..] else t;
    var digits := TakeWhile(body, IsDigit);
    var v: int := if |digits| == 0 then 0 else DigitsValue(digits);
    if |digits| == 0 then None else Some(if negative then -v else v)
  }

  /** `s[..k]` is the whole run of white space that starts `s`. */
  predicate SpaceRun(s: string, k: nat)
  {
    k <= |s| && (forall i :: 0 <= i < k ==> IsJsSpace(s[i])) && (k == |s| || !IsJsSpace(s[k]))
  }

  /** The white-space run that starts a text is the one `LeadCount` measures. */
  lemma SpaceRunIsLead(s: string)
    ensures forall k: nat :: SpaceRun(s, k) ==> k == LeadCount(s, IsJsSpace)
  {
    var n := LeadCount(s, IsJsSpace);
    forall k: nat | SpaceRun(s, k) ensures k == n {
      if k < n {
        assert false;
      } else if n < k {
        assert false;
      }
    }
  }

  /**
   * `parseInt(s)` (radix 10): leading white space, an optional sign, then the longest run of
   * digits; no digit at all gives NaN (`None`).
   */
  function JsParseInt(s: string): (r: Option<int>)
    ensures |s| > 0 && !IsJsSpace(s[0]) ==> r == SignedDigits(s)
    ensures forall k: nat :: SpaceRun(s, k) ==> r == SignedDigits(s[k..])
    ensures (forall i :: 0 <= i < |s| ==> IsJsSpace(s[i])) ==> r.None?
  {
    SpaceRunIsLead(s);
    SignedDigits(s[LeadCount(s, IsJsSpace)..])
  }

  /** A leading white-space character is skipped: it never changes what is read. */
  lemma JsParseIntSkipsSpace(s: string)
    requires |s| > 0 && IsJsSpace(s[0])
    ensures JsParseInt(s) == JsParseInt(s[1..])
  {
    assert s[1..][LeadCount(s[1..], IsJsSpace)..] == s[LeadCount(s, IsJsSpace)..];
  }

  lemma NumeralDigits(n: nat, rest: string)
    requires |rest| == 0 || !IsDigit(rest[0])
    ensures TakeWhile(NatToString(n) + rest, IsDigit) == NatToString(n)
  {
    var a := NatToString(n);
    if |rest| == 0 {
      assert a + rest == a;
    } else {
      TakeWhileWhole(a, rest, IsDigit);
    }
  }

  lemma ReadUnsigned(n: nat, rest: string)
    requires |rest| == 0 || !IsDigit(rest[0])
    ensures SignedDigits(NatToString(n) + rest) == Some(n)
  {
    NumeralDigits(n, rest);
    NatToStringValue(n);
  }

  lemma ReadNegative(n: nat, rest: string)
    requires |rest| == 0 || !IsDigit(rest[0])
    ensures SignedDigits("-" + NatToString(n) + rest) == Some(-(n as int))
  {
    var digits := NatToString(n);
    var body := digits + rest;
    assert TakeWhile(body, IsDigit) == digits by { NumeralDigits(n, rest); }
    assert DigitsValue(digits) == n by { NatToStringValue(n); }
    ReadMinus(body, digits, n);
    Regroup("-", digits, rest);
  }

  lemma Regroup(a: string, b: string, c: string)
    ensures a + b + c == a + (b + c)
  {
  }

  /** After a minus sign, a leading run of digits worth `n` reads as `-n`. */
  lemma ReadMinus(body: string, digits: string, n: nat)
    requires |digits| > 0 && AllDigits(digits) && TakeWhile(body, IsDigit) == digits && DigitsValue(digits) == n
    ensures SignedDigits("-" + body) == Some(-(n as int))
  {
    var t := "-" + body;
    assert t[0] == '-';
    assert t[1..] == body;
  }

  lemma SignNotSpace(c: char)
    requires c == '-' || IsDigit(c)
    ensures !IsJsSpace(c)
  {
  }

  lemma ParseNegative(n: nat, rest: string)
    requires |rest| == 0 || !IsDigit(rest[0])
    ensures JsParseInt("-" + NatToString(n) + rest) == Some(-(n as int))
  {
    var s := "-" + NatToString(n) + rest;
    assert s[0] == '-';
    SignNotSpace(s[0]);
    ReadNegative(n, rest);
  }

  lemma ParseUnsigned(n: nat, rest: string)
    requires |rest| == 0 || !IsDigit(rest[0])
    ensures JsParseInt(NatToString(n) + rest) == Some(n)
  {
    var s := NatToString(n) + rest;
    assert s[0] == NatToString(n)[0];
    SignNotSpace(s[0]);
    ReadUnsigned(n, rest);
  }

  /** Reading a rendered integer back, whatever non-digit text follows it, gives the integer. */
  lemma JsParseIntRoundTrip(i: int, rest: string)
    requires |rest| == 0 || !IsDigit(rest[0])
    ensures JsParseInt(IntToString(i) + rest) == Some(i)
  {
    if i < 0 {
      ParseNegative(-i, rest);
    } else {
      ParseUnsigned(i, rest);
    }
  }

  // ---------------------------------------------------------------------------
  // Submission
  // ---------------------------------------------------------------------------

  datatype Payload = Payload(
    empresaIds: seq<Option<int>>,
    dataAgendada: string,
    recorrencia: string,
    prioridade: Option<int>,
    ativo: bool)

  /** What `handleCreateAgendamento` does with the form: refuse, or send a payload. */
  datatype Submission = NoEmpresa | TooSoon | Send(payload: Payload)

  /**
   * `selected` are the values of the ticked checkboxes; `chosen` is `new Date(value)` of the
   * date field (`None` when it is NaN, which no comparison rejects).
   */
  function Submit(selected: seq<string>, value: string, chosen: Option<int>, now: int,
                  recorrencia: string, prioridade: string): (r: Submission)
    ensures r == NoEmpresa <==> |selected| == 0
    ensures r == TooSoon <==> |selected| > 0 && chosen.Some? && chosen.value < now + LeadMs
    ensures r.Send? ==>
      && r.payload.ativo
      && r.payload.dataAgendada == value
      && r.payload.recorrencia == recorrencia
      && r.payload.prioridade == JsParseInt(prioridade)
      && |r.payload.empresaIds| == |selected|
      && (forall k :: 0 <= k < |selected| ==> r.payload.empresaIds[k] == JsParseInt(selected[k]))
  {
    if |selected| == 0 then NoEmpresa
    else if chosen.Some? && chosen.value < now + LeadMs then TooSoon
    else Send(Payload(seq(|selected|, k requires 0 <= k < |selected| => JsParseInt(selected[k])),
                      value, recorrencia, JsParseInt(prioridade), true))
  }

  /** The checkbox values are the rendered ids, so the payload carries exactly the ids ticked. */
  lemma PayloadCarriesTickedIds(ids: seq<int>, value: string, when: int, now: int, recorrencia: string, prioridade: int)
    requires |ids| > 0 && when >= now + LeadMs
    ensures var r := Submit(seq(|ids|, k requires 0 <= k < |ids| => IntToString(ids[k])), value, Some(when), now,
                            recorrencia, IntToString(prioridade));
      && r.Send?
      && r.payload.prioridade == Some(prioridade)
      && r.payload.empresaIds == seq(|ids|, k requires 0 <= k < |ids| => Some(ids[k]))
  {
    var selected := seq(|ids|, k requires 0 <= k < |ids| => IntToString(ids[k]));
    forall k | 0 <= k < |ids|
      ensures JsParseInt(selected[k]) == Some(ids[k])
    {
      JsParseIntRoundTrip(ids[k], []);
      assert IntToString(ids[k]) + [] == IntToString(ids[k]);
    }
    JsParseIntRoundTrip(prioridade, []);
    assert IntToString(prioridade) + [] == IntToString(prioridade);
  }

  // ---------------------------------------------------------------------------
  // The picker's minimum, as written and as intended
  // ---------------------------------------------------------------------------

  /** The instant a `datetime-local` wall-clock minute names in the browser's zone. */
  function InstantOf(wall: int, offset: int): int { (wall - offset) * MinuteMs }

  /** The submit check keeps a wall-clock minute iff it is not before `now + 5 min`. */
  predicate CheckAccepts(wall: int, offset: int, now: int) { !(InstantOf(wall, offset) < now + LeadMs) }

  /**
   * `minDate.toISOString().slice(0, 16)`: the minute of `now + 5 min` on the UTC clock, which
   * the picker reads as a wall-clock minute of the browser's zone.
   */
  function MinAttrAsWritten(now: int): (m: int)
    ensures m * MinuteMs <= now + LeadMs < m * MinuteMs + MinuteMs
  {
    (now + LeadMs) / MinuteMs
  }

  /**
   * West of UTC by two minutes or more, the minute just below the minimum is one the submit
   * check accepts but the picker refuses: the picker demands more lead than the form.
   */
  lemma PickerRefusesAcceptedTimeWestOfUtc(now: int, offset: int)
    requires offset <= -2
    ensures var w := MinAttrAsWritten(now) - 1;
      CheckAccepts(w, offset, now) && w < MinAttrAsWritten(now)
  {
  }

  /** In Brasília every time the picker offers is more than 3 h 04 min away. */
  lemma PickerLeadInBrasilia(now: int, wall: int)
    requires wall >= MinAttrAsWritten(now)
    ensures InstantOf(wall, -180) > now + 184 * MinuteMs
  {
  }

  /** The minimum written on the browser's own clock: the minute of `now + 5 min` in local time. */
  function MinAttr(now: int, offset: int): (m: int)
    ensures InstantOf(m, offset) <= now + LeadMs < InstantOf(m, offset) + MinuteMs
  {
    (now + LeadMs + offset * MinuteMs) / MinuteMs
  }

  /**
   * With the local minimum the picker and the submit check agree, in every zone: every time
   * the check accepts is offered, and every time offered is within the minute the picker can show.
   */
  lemma PickerAgreesWithCheck(now: int, offset: int, wall: int)
    ensures CheckAccepts(wall, offset, now) ==> wall >= MinAttr(now, offset)
    ensures wall >= MinAttr(now, offset) ==> InstantOf(wall, offset) > now + LeadMs - MinuteMs
  {
    var m := MinAttr(now, offset);
    if wall >= m {
      assert InstantOf(wall, offset) >= InstantOf(m, offset);
    }
  }

  /** A time exactly five minutes ahead passes the submit check. */
  lemma ExactlyFiveMinutesAccepted(selected: seq<string>, value: string, now: int, recorrencia: string, prioridade: string)
    requires |selected| > 0
    ensures Submit(selected, value, Some(now + LeadMs), now, recorrencia, prioridade).Send?
  {
  }

  // ---------------------------------------------------------------------------
  // The proleptic Gregorian calendar
  // ---------------------------------------------------------------------------

  predicate IsLeap(y: int) { y % 4 == 0 && (y % 100 != 0 || y % 400 == 0) }

  /** `new Date(year, month + 1, 0).getDate()`, with `month` counted from 0 as in JavaScript. */
  function DaysInMonth(y: int, m: int): (n: int)
    requires 0 <= m < 12
    ensures 28 <= n <= 31
    ensures n == 29 <==> m == 1 && IsLeap(y)
  {
    if m == 1 then (if IsLeap(y) then 29 else 28)
    else if m == 3 || m == 5 || m == 8 || m == 10 then 30
    else 31
  }

  /** Days from 1 March of year 0 of the 400-year era holding `yy` to 1 March of `yy`. */
  function YearStart(yy: int): int
  {
    var era := yy / 400;
    var yoe := yy % 400;
    era * 146097 + yoe * 365 + yoe / 4 - yoe / 100
  }

  lemma EraSplit(y: int, era: int, yoe: int)
    requires 0 <= yoe < 400 && y == era * 400 + yoe
    ensures y / 400 == era && y % 400 == yoe
  {
  }

  /** Quotient and remainder by the calendar's divisors are determined by any matching split. */
  lemma DivModOf(n: int, k: int, q: int, r: int)
    requires (k == 4 || k == 100) && 0 <= r < k && n == q * k + r
    ensures n / k == q && n % k == r
  {
    if k == 4 {
      assert n == q * 4 + r;
    } else {
      assert n == q * 100 + r;
    }
  }

  /** Going from `a - 1` to `a` adds one to `a / k` exactly when `k` divides `a`. */
  lemma DivStep(a: int, k: int)
    requires a >= 1 && (k == 4 || k == 100)
    ensures a / k - (a - 1) / k == if a % k == 0 then 1 else 0
  {
    var q, r := (a - 1) / k, (a - 1) % k;
    if r == k - 1 {
      DivModOf(a, k, q + 1, 0);
    } else {
      DivModOf(a, k, q, r + 1);
    }
  }

  /** Shifting by whole eras keeps the remainders by 4 and by 100. */
  lemma EraRemainders(y: int, era: int, a: int)
    requires 0 <= a < 400 && y == era * 400 + a
    ensures y % 4 == a % 4 && y % 100 == a % 100
  {
    DivModOf(y, 4, era * 100 + a / 4, a % 4);
    DivModOf(y, 100, era * 4 + a / 100, a % 100);
  }

  /** Within one era, a year starts 365 days on, plus the leap day of the year ending. */
  lemma YearLengthInEra(y: int, era: int, a: int)
    requires 1 <= a < 400 && y == era * 400 + a
    ensures YearStart(y) - YearStart(y - 1) == if IsLeap(y) then 366 else 365
  {
    EraSplit(y, era, a);
    EraSplit(y - 1, era, a - 1);
    EraRemainders(y, era, a);
    DivStep(a, 4);
    DivStep(a, 100);
  }

  /** March-based years: from 1 March of `y - 1` to 1 March of `y` is 366 days exactly in leap years. */
  lemma YearLength(y: int)
    ensures YearStart(y) - YearStart(y - 1) == if IsLeap(y) then 366 else 365
  {
    var era := (y - 1) / 400;
    var yoe := (y - 1) % 400;
    if yoe < 399 {
      YearLengthInEra(y, era, yoe + 1);
    } else {
      EraSplit(y, era + 1, 0);
      EraSplit(y - 1, era, 399);
      EraRemainders(y, era + 1, 0);
    }
  }

  /**
   * An independent count of days since 1970-01-01 (the civil-from-days algorithm on
   * March-based years); `m` counts from 0.
   */
  function DaysFromCivil(y: int, m: int, d: int): int
    requires 0 <= m < 12
  {
    var yy := if m <= 1 then y - 1 else y;
    var mp := if m <= 1 then m + 10 else m - 2;
    YearStart(yy) + (153 * mp + 2) / 5 + d - 1 - 719468
  }

  lemma EpochIsDayZero()
    ensures DaysFromCivil(1970, 0, 1) == 0
  {
    EraSplit(1969, 4, 369);
  }

  function NextMonth(y: int, m: int): (r: (int, int))
    requires 0 <= m < 12
    ensures 0 <= r.1 < 12
  {
    if m == 11 then (y + 1, 0) else (y, m + 1)
  }

  /** The month lengths agree with the day count: the first of the next month is `DaysInMonth` days on. */
  lemma MonthLength(y: int, m: int)
    requires 0 <= m < 12
    ensures var (ny, nm) := NextMonth(y, m);
      DaysFromCivil(ny, nm, 1) - DaysFromCivil(y, m, 1) == DaysInMonth(y, m)
  {
    if m == 1 {
      YearLength(y);
    }
  }

  /** `getDay()`: 0 is Sunday; 1 January 1970 was a Thursday. */
  function Weekday(days: int): (w: int)
    ensures 0 <= w < 7
  {
    (days + 4) % 7
  }

  /** `new Date(year, month, 1).getDay()`. */
  function FirstWeekday(y: int, m: int): (w: int)
    requires 0 <= m < 12
    ensures 0 <= w < 7
  {
    Weekday(DaysFromCivil(y, m, 1))
  }

  /** Reducing a summand modulo 7 first does not change the sum modulo 7. */
  lemma AddMod7(x: int, c: int)
    ensures (x % 7 + c) % 7 == (x + c) % 7
  {
    var q := x / 7;
    assert x == q * 7 + x % 7;
    assert (x + c) - (x % 7 + c) == q * 7;
  }

  /** A month's grid begins where the previous month's left off. */
  lemma NextMonthBlanks(y: int, m: int)
    requires 0 <= m < 12
    ensures var (ny, nm) := NextMonth(y, m);
      FirstWeekday(ny, nm) == (FirstWeekday(y, m) + DaysInMonth(y, m)) % 7
  {
    MonthLength(y, m);
    AddMod7(DaysFromCivil(y, m, 1) + 4, DaysInMonth(y, m));
  }

  // ---------------------------------------------------------------------------
  // The month grid
  // ---------------------------------------------------------------------------

  const DayHeaders: seq<string> := ["Dom", "Seg", "Ter", "Qua", "Qui", "Sex", "Sáb"]

  /** At most this many schedules are listed in a day cell. */
  const ShownPerDay := 3

  datatype Cell = Header(name: string) | Blank | DayCell(day: int, shown: seq<string>, more: Option<int>)

  /** `(nome_empresa || 'Empresa').substring(0, 12)` plus `...` when the name is longer. */
  function ScheduleLabel(nome: Option<string>): (r: string)
    ensures var n := if nome.Some? && nome.value != "" then nome.value else "Empresa";
      (|n| <= 12 ==> r == n) && (|n| > 12 ==> |r| == 15 && r == n[..12] + "...")
  {
    var n := if nome.Some? && nome.value != "" then nome.value else "Empresa";
    Prefix(n, 12) + (if |n| > 12 then "..." else "")
  }

  /** A day cell: the first three schedules and a `+k mais` line for the rest. */
  function MakeDay(day: int, names: seq<Option<string>>): (c: Cell)
    ensures c.DayCell? && c.day == day
    ensures |c.shown| <= ShownPerDay
    ensures c.more.Some? <==> |names| > ShownPerDay
    ensures |c.shown| + (if c.more.Some? then c.more.value else 0) == |names|
    ensures forall i :: 0 <= i < |c.shown| ==> c.shown[i] == ScheduleLabel(names[i])
  {
    var listed := if |names| <= ShownPerDay then names else names[..ShownPerDay];
    DayCell(day, seq(|listed|, i requires 0 <= i < |listed| => ScheduleLabel(listed[i])),
            if |names| > ShownPerDay then Some(|names| - ShownPerDay) else None)
  }

  /**
   * `renderCalendar`: seven headers, one blank per weekday before the first, then one cell per
   * day; `schedulesOn(d)` are the names of the schedules that fall on day `d`.
   */
  function Calendar(y: int, m: int, schedulesOn: int -> seq<Option<string>>): (cells: seq<Cell>)
    requires 0 <= m < 12
    ensures |cells| == 7 + FirstWeekday(y, m) + DaysInMonth(y, m)
    ensures forall i :: 0 <= i < 7 ==> cells[i] == Header(DayHeaders[i])
    ensures forall i :: 7 <= i < 7 + FirstWeekday(y, m) ==> cells[i] == Blank
    ensures forall d :: 1 <= d <= DaysInMonth(y, m) ==> cells[6 + FirstWeekday(y, m) + d] == MakeDay(d, schedulesOn(d))
  {
    Grid(FirstWeekday(y, m), DaysInMonth(y, m), schedulesOn)
  }

  /** The headers, `blanks` blank cells and one cell per day `1..days`. */
  function Grid(blanks: nat, days: nat, schedulesOn: int -> seq<Option<string>>): (cells: seq<Cell>)
    ensures |cells| == 7 + blanks + days
    ensures forall i :: 0 <= i < 7 ==> cells[i] == Header(DayHeaders[i])
    ensures forall i :: 7 <= i < 7 + blanks ==> cells[i] == Blank
    ensures forall d :: 1 <= d <= days ==> cells[6 + blanks + d] == MakeDay(d, schedulesOn(d))
  {
    seq(7, i requires 0 <= i < 7 => Header(DayHeaders[i]))
      + seq(blanks, i => Blank)
      + seq(days, i => MakeDay(i + 1, schedulesOn(i + 1)))
  }

  /** Each day sits in the column of its weekday: headers, blanks and days line up. */
  lemma DayInItsColumn(y: int, m: int, d: int)
    requires 0 <= m < 12 && 1 <= d <= DaysInMonth(y, m)
    ensures (6 + FirstWeekday(y, m) + d) % 7 == Weekday(DaysFromCivil(y, m, d))
  {
    var first := DaysFromCivil(y, m, 1);
    assert DaysFromCivil(y, m, d) == first + d - 1;
    AddMod7(first + 4, d + 6);
    AddMod7(first + d + 3, 7);
  }
}

=== FILE: consulta.dfy ===
/**
 * The direct, one-off consultation of the API (`executar_consulta` and its background
 * task `run_consulta_background`), guarded by the module-level `consulta_status` record.
 * The background task is counted in `tasks`, so "one consultation at a time" becomes
 * the invariant that a task exists exactly while the record says `running`.
 */
module Consulta {
  import opened Options
  import opened Outcomes

  /** The `consulta_status` dictionary. */
  datatype Status = Status(running: bool, message: string, progress: int, currentStep: string, lastResult: Option<string>)

  datatype Server = Server(status: Status, tasks: nat)

  const HttpOk := 200
  const HttpBadRequest := 400

  /** The record at import time, with no task scheduled. */
  function Boot(): (s: Server)
    ensures !s.status.running && s.tasks == 0
  {
    Server(Status(false, "Aguardando consulta", 0, "", None), 0)
  }

  /** `executar_consulta`: rejected with 400 while one is running; otherwise schedules the task. */
  function Request(s: Server): (r: (Server, int))
    ensures s.status.running ==> r == (s, HttpBadRequest)
    ensures !s.status.running ==>
      r.1 == HttpOk && r.0.tasks == s.tasks + 1
      && r.0.status == s.status.(running := true, message := "Consulta iniciada", progress := 0, currentStep := "Iniciando...")
  {
    if s.status.running then (s, HttpBadRequest)
    else
      (Server(s.status.(running := true, message := "Consulta iniciada", progress := 0, currentStep := "Iniciando..."), s.tasks + 1),
       HttpOk)
  }

  /**
   * The background task runs to its end.  Whatever the outcome, the `finally` clause
   * clears `running`; a truthy result is kept as `last_result`, a falsy one keeps the
   * previous result, and an exception resets the progress to 0.
   */
  function Complete(s: Server, outcome: Outcome): (r: Server)
    requires s.tasks > 0
    ensures !r.status.running && r.tasks == s.tasks - 1
    ensures outcome.Truthy? ==>
      r.status.message == "Consulta realizada com sucesso!" && r.status.progress == 100
      && r.status.currentStep == "Concluído" && r.status.lastResult == Some(outcome.result)
    ensures outcome.Falsy? ==>
      r.status.message == "Falha na consulta" && r.status.progress == 100
      && r.status.currentStep == "Erro" && r.status.lastResult == s.status.lastResult
    ensures outcome.Raise? ==>
      r.status.message == "Erro: " + outcome.message && r.status.progress == 0
      && r.status.currentStep == "Erro" && r.status.lastResult == s.status.lastResult
  {
    var st := s.status;
    var done := match outcome
      case Truthy(v) => st.(progress := 100, message := "Consulta realizada com sucesso!", currentStep := "Concluído", lastResult := Some(v))
      case Falsy => st.(progress := 100, message := "Falha na consulta", currentStep := "Erro")
      case Raise(msg) => st.(message := "Erro: " + msg, currentStep := "Erro", progress := 0);
    Server(done.(running := false), s.tasks - 1)
  }

  /** A background task exists exactly while the record says a consultation is running. */
  predicate OneAtATime(s: Server)
  {
    s.tasks == (if s.status.running then 1 else 0)
  }

  datatype Event = Requested | Completed(outcome: Outcome)

  /** One event; completion only happens while a task exists. */
  function Next(s: Server, e: Event): (r: Server)
  {
    match e
    case Requested => Request(s).0
    case Completed(o) => if s.tasks > 0 then Complete(s, o) else s
  }

  /** Every sequence of requests and completions keeps at most one consultation in flight. */
  lemma {:induction false} RunPreservesOneAtATime(s: Server, events: seq<Event>)
    requires OneAtATime(s)
    ensures OneAtATime(Run(s, events))
    ensures Run(s, events).tasks <= 1
    decreases |events|
  {
    if |events| > 0 {
      RunPreservesOneAtATime(Next(s, events[0]), events[1..]);
    }
  }

  function Run(s: Server, events: seq<Event>): Server
    decreases |events|
  {
    if |events| == 0 then s else Run(Next(s, events[0]), events[1..])
  }

  /** After any outcome the next request is accepted again. */
  lemma CompletionReopens(s: Server, outcome: Outcome)
    requires s.tasks > 0
    ensures Request(Complete(s, outcome)).1 == HttpOk
  {
  }
}

=== FILE: csv.dfy ===
/**
 * The company CSV import of the admin front end (`parseCSV` in `empresas.js`): delimiter
 * detection, the quote-aware line splitter, header normalisation, row filtering and the
 * duplicate-CNPJ report.  The file is its text; notifications become the returned value.
 */
module Csv {
  import opened Options
  import opened Text

  const Tab: char := '\t'

  // ---------------------------------------------------------------------------
  // Delimiter detection
  // ---------------------------------------------------------------------------

  /** Number of occurrences of `c` in `s` (`(line.match(/c/g) || []).length`). */
  function CountChar(s: string, c: char): (n: nat)
    ensures n <= |s|
    ensures n == 0 <==> c !in s
  {
    if |s| == 0 then 0 else (if s[0] == c then 1 else 0) + CountChar(s[1..], c)
  }

  lemma {:induction false} CountCharAppend(a: string, b: string, c: char)
    ensures CountChar(a + b, c) == CountChar(a, c) + CountChar(b, c)
    decreases |a|
  {
    if |a| > 0 {
      assert (a + b)[0] == a[0];
      assert (a + b)[1..] == a[1..] + b;
      CountCharAppend(a[1..], b, c);
    } else {
      assert a + b == b;
    }
  }

  /**
   * The delimiter of the header line: the most frequent of comma, tab and semicolon, where
   * a tie goes to the comma and then to the tab.
   */
  function DetectDelimiter(header: string): (d: char)
    ensures d == ',' || d == Tab || d == ';'
    ensures CountChar(header, d) >= CountChar(header, ',')
    ensures CountChar(header, d) >= CountChar(header, Tab)
    ensures CountChar(header, d) >= CountChar(header, ';')
    ensures d == ',' <==> CountChar(header, ',') >= CountChar(header, Tab) && CountChar(header, ',') >= CountChar(header, ';')
    ensures d == ';' <==> CountChar(header, ';') > CountChar(header, ',') && CountChar(header, ';') > CountChar(header, Tab)
  {
    var commas := CountChar(header, ',');
    var tabs := CountChar(header, Tab);
    var semicolons := CountChar(header, ';');
    var delimiter := if tabs > commas then Tab else ',';
    var maxCount := if tabs > commas then tabs else commas;
    if semicolons > maxCount then ';' else delimiter
  }

  // ---------------------------------------------------------------------------
  // The line splitter
  // ---------------------------------------------------------------------------

  /**
   * `parseCSVLine` on the rest of the line, given the field read so far and whether a quote
   * is open: the fields still to come, each trimmed.  A quote character toggles the quote
   * state and is dropped, except that a doubled quote inside quotes yields one quote; a
   * delimiter outside quotes ends the field.
   */
  function Scan(rest: string, d: char, cur: string, inQuotes: bool): (r: seq<string>)
    ensures |r| >= 1
    decreases |rest|
  {
    if |rest| == 0 then [JsTrim(cur)]
    else if rest[0] == '"' then
      if inQuotes && |rest| > 1 && rest[1] == '"' then Scan(rest[2..], d, cur + ['"'], inQuotes)
      else Scan(rest[1..], d, cur, !inQuotes)
    else if rest[0] == d && !inQuotes then [JsTrim(cur)] + Scan(rest[1..], d, [], false)
    else Scan(rest[1..], d, cur + [rest[0]], inQuotes)
  }

  /** `parseCSVLine`: at least one field, and never more fields than delimiters plus one. */
  function ParseLine(line: string, d: char): (fields: seq<string>)
    ensures 1 <= |fields| <= 1 + CountChar(line, d)
    ensures line == "" ==> fields == [""]
  {
    ScanFieldCount(line, d, [], false);
    Scan(line, d, [], false)
  }

  /** Each field after the first is opened by a delimiter of the rest of the line. */
  lemma {:induction false} ScanFieldCount(rest: string, d: char, cur: string, inQuotes: bool)
    ensures |Scan(rest, d, cur, inQuotes)| <= 1 + CountChar(rest, d)
    decreases |rest|
  {
    if |rest| > 0 {
      if rest[0] == '"' && inQuotes && |rest| > 1 && rest[1] == '"' {
        ScanFieldCount(rest[2..], d, cur + ['"'], inQuotes);
        assert rest[1..][1..] == rest[2..];
      } else if rest[0] == '"' {
        ScanFieldCount(rest[1..], d, cur, !inQuotes);
      } else if rest[0] == d && !inQuotes {
        ScanFieldCount(rest[1..], d, [], false);
      } else {
        ScanFieldCount(rest[1..], d, cur + [rest[0]], inQuotes);
      }
    }
  }

  /** `fields.map(f => f.trim())`. */
  function TrimAll(fields: seq<string>): (r: seq<string>)
    ensures |r| == |fields|
    ensures forall k :: 0 <= k < |r| ==> r[k] == JsTrim(fields[k])
  {
    seq(|fields|, k requires 0 <= k < |fields| => JsTrim(fields[k]))
  }

  /** A one-character separator with no occurrence in `s`. */
  lemma NoSeparator(s: string, d: char)
    requires d !in s
    ensures Split(s, [d]) == [s]
  {
    NotContainsByChar(s, [d], d);
    SplitNone(s, [d]);
  }

  /** The leftmost occurrence of a one-character separator. */
  lemma SplitAtChar(a: string, d: char, b: string)
    requires d !in a
    ensures Split(a + [d] + b, [d]) == [a] + Split(b, [d])
  {
    var s := a + [d] + b;
    assert OccursAt(s, [d], |a|) by {
      assert s[|a|..|a| + 1] == [d];
    }
    forall j | 0 <= j < |a| ensures !OccursAt(s, [d], j) {
      assert s[j..j + 1][0] == a[j];
    }
    SplitFirst(s, [d], |a|);
    assert s[..|a|] == a;
    assert s[|a| + 1..] == b;
  }

  lemma NoQuoteInTail(rest: string)
    requires |rest| > 0 && '"' !in rest
    ensures '"' !in rest[1..]
  {
    forall k | 0 <= k < |rest| - 1 ensures rest[1..][k] != '"' {
      assert rest[1..][k] == rest[k + 1];
    }
  }

  /** The inductive step of `ScanQuoteFree` at a delimiter. */
  lemma QuoteFreeAtDelimiter(rest: string, d: char, cur: string)
    requires d != '"' && |rest| > 0 && rest[0] == d && d !in cur
    requires Scan(rest[1..], d, [], false) == TrimAll(Split(rest[1..], [d]))
    ensures Scan(rest, d, cur, false) == TrimAll(Split(cur + rest, [d]))
  {
    ScanAtDelimiter(rest, d, cur);
    SplitAtDelimiter(rest, d, cur);
    TrimAllCons(cur, Split(rest[1..], [d]));
  }

  lemma ScanAtDelimiter(rest: string, d: char, cur: string)
    requires d != '"' && |rest| > 0 && rest[0] == d
    ensures Scan(rest, d, cur, false) == [JsTrim(cur)] + Scan(rest[1..], d, [], false)
  {
  }

  lemma SplitAtDelimiter(rest: string, d: char, cur: string)
    requires |rest| > 0 && rest[0] == d && d !in cur
    ensures Split(cur + rest, [d]) == [cur] + Split(rest[1..], [d])
  {
    assert cur + rest == cur + [d] + rest[1..];
    SplitAtChar(cur, d, rest[1..]);
  }

  lemma TrimAllCons(f: string, fields: seq<string>)
    ensures TrimAll([f] + fields) == [JsTrim(f)] + TrimAll(fields)
  {
  }

  /** The inductive step of `ScanQuoteFree` at any other character. */
  lemma QuoteFreeAtChar(rest: string, d: char, cur: string)
    requires |rest| > 0 && rest[0] != d && rest[0] != '"'
    requires Scan(rest[1..], d, cur + [rest[0]], false) == TrimAll(Split(cur + [rest[0]] + rest[1..], [d]))
    ensures Scan(rest, d, cur, false) == TrimAll(Split(cur + rest, [d]))
  {
    assert cur + [rest[0]] + rest[1..] == cur + rest;
  }

  /** The scan of a quote-free tail, generalised over the field read so far. */
  lemma {:induction false} ScanQuoteFree(rest: string, d: char, cur: string)
    requires d != '"' && '"' !in rest && d !in cur
    ensures Scan(rest, d, cur, false) == TrimAll(Split(cur + rest, [d]))
    decreases |rest|
  {
    if |rest| == 0 {
      assert cur + rest == cur;
      NoSeparator(cur, d);
    } else {
      NoQuoteInTail(rest);
      if rest[0] == d {
        ScanQuoteFree(rest[1..], d, []);
        assert [] + rest[1..] == rest[1..];
        QuoteFreeAtDelimiter(rest, d, cur);
      } else {
        ScanQuoteFree(rest[1..], d, cur + [rest[0]]);
        QuoteFreeAtChar(rest, d, cur);
      }
    }
  }

  /** A line without quote characters is `line.split(d)` with every field trimmed. */
  lemma QuoteFreeLine(line: string, d: char)
    requires '"' !in line && d != '"'
    ensures ParseLine(line, d) == TrimAll(Split(line, [d]))
  {
    ScanQuoteFree(line, d, []);
    assert [] + line == line;
  }

  /** No leftmost occurrence means no occurrence at all. */
  lemma NotFoundChar(s: string, d: char)
    requires Find(s, [d]).None?
    ensures d !in s
  {
    forall j | 0 <= j < |s| ensures s[j] != d {
      assert !OccursAt(s, [d], j);
      assert s[j..j + 1] == [s[j]];
    }
  }

  lemma FoundCharAt(s: string, d: char, k: nat)
    requires Find(s, [d]) == Some(k)
    ensures k < |s| && s[k] == d
  {
    assert OccursAt(s, [d], k);
    assert s[k] == s[k..k + 1][0];
  }

  lemma FoundCharFirst(s: string, d: char, k: nat)
    requires Find(s, [d]) == Some(k)
    ensures forall j :: 0 <= j < k ==> s[j] != d
  {
    forall j | 0 <= j < k ensures s[j] != d {
      assert !OccursAt(s, [d], j);
      assert s[j..j + 1] == [s[j]];
    }
  }

  lemma SplitAround(s: string, d: char, k: nat)
    requires k < |s| && s[k] == d
    requires forall j :: 0 <= j < k ==> s[j] != d
    ensures d !in s[..k] && s == s[..k] + [d] + s[k + 1..]
  {
    assert s == s[..k] + s[k..];
    assert s[k..] == [d] + s[k + 1..];
  }

  /** The leftmost occurrence splits the text around it, with no separator before it. */
  lemma FoundChar(s: string, d: char, k: nat)
    requires Find(s, [d]) == Some(k)
    ensures k < |s| && d !in s[..k] && s == s[..k] + [d] + s[k + 1..]
  {
    FoundCharAt(s, d, k);
    FoundCharFirst(s, d, k);
    SplitAround(s, d, k);
  }

  /** One separator after a separator-free prefix adds one to the count of the rest. */
  lemma CountAround(a: string, d: char, b: string)
    requires d !in a
    ensures CountChar(a + [d] + b, d) == 1 + CountChar(b, d)
  {
    CountCharAppend(a, [d] + b, d);
    CountCharAppend([d], b, d);
    assert a + [d] + b == a + ([d] + b);
  }

  /** Splitting at a one-character separator gives one more part than it has occurrences. */
  lemma {:induction false} SplitCount(s: string, d: char)
    ensures |Split(s, [d])| == 1 + CountChar(s, d)
    decreases |s|
  {
    match Find(s, [d])
    case None =>
      NotFoundChar(s, d);
      NoSeparator(s, d);
    case Some(k) =>
      FoundChar(s, d, k);
      var a, b := s[..k], s[k + 1..];
      SplitAtChar(a, d, b);
      SplitCount(b, d);
      CountAround(a, d, b);
  }

  /** On a quote-free line the field count is one more than the number of delimiters. */
  lemma QuoteFreeFieldCount(line: string, d: char)
    requires '"' !in line && d != '"'
    ensures |ParseLine(line, d)| == 1 + CountChar(line, d)
  {
    QuoteFreeLine(line, d);
    SplitCount(line, d);
  }

  /** Joining parts that lack the separator and splitting again gives the parts back. */
  lemma {:induction false} SplitJoin(parts: seq<string>, d: char)
    requires |parts| >= 1
    requires forall k :: 0 <= k < |parts| ==> d !in parts[k]
    ensures Split(Join(parts, [d]), [d]) == parts
    decreases |parts|
  {
    if |parts| == 1 {
      NoSeparator(parts[0], d);
    } else {
      SplitJoin(parts[1..], d);
      assert Join(parts, [d]) == parts[0] + [d] + Join(parts[1..], [d]);
      SplitAtChar(parts[0], d, Join(parts[1..], [d]));
      assert parts == [parts[0]] + parts[1..];
    }
  }

  /** A field the splitter reproduces: no quote, no delimiter, no white space at its ends. */
  predicate Plain(f: string, d: char)
  {
    '"' !in f && d !in f && JsTrim(f) == f
  }

  /** Round trip: writing plain fields joined by the delimiter and parsing the line gives them back. */
  lemma JoinThenParse(fields: seq<string>, d: char)
    requires |fields| >= 1 && d != '"'
    requires forall k :: 0 <= k < |fields| ==> Plain(fields[k], d)
    ensures ParseLine(Join(fields, [d]), d) == fields
  {
    var line := Join(fields, [d]);
    JoinKeeps(fields, [d], c => c != '"');
    assert '"' !in line by {
      assert forall i :: 0 <= i < |line| ==> line[i] != '"';
    }
    QuoteFreeLine(line, d);
    SplitJoin(fields, d);
  }

  /**
   * A run without quote characters (and, outside quotes, without delimiters) is copied into
   * the current field unchanged.
   */
  lemma {:induction false} ScanRun(run: string, post: string, d: char, cur: string, inQuotes: bool)
    requires forall k :: 0 <= k < |run| ==> run[k] != '"' && (inQuotes || run[k] != d)
    ensures Scan(run + post, d, cur, inQuotes) == Scan(post, d, cur + run, inQuotes)
    decreases |run|
  {
    if |run| == 0 {
      assert run + post == post && cur + run == cur;
    } else {
      assert (run + post)[0] == run[0];
      assert (run + post)[1..] == run[1..] + post;
      ScanRun(run[1..], post, d, cur + [run[0]], inQuotes);
      assert cur + [run[0]] + run[1..] == cur + run;
    }
  }

  /** An opening quote outside quotes is dropped and opens a quote. */
  lemma OpenQuote(rest: string, d: char, cur: string)
    ensures Scan("\"" + rest, d, cur, false) == Scan(rest, d, cur, true)
  {
    assert ("\"" + rest)[1..] == rest;
  }

  /** A quote inside quotes not followed by another one is dropped and closes the quote. */
  lemma CloseQuote(c: char, rest: string, d: char, cur: string)
    requires c != '"'
    ensures Scan("\"" + [c] + rest, d, cur, true) == Scan([c] + rest, d, cur, false)
  {
    assert ("\"" + [c] + rest)[1..] == [c] + rest;
  }

  /** Inside quotes two quotes in a row are one quote in the field. */
  lemma EscapedQuote(rest: string, d: char, cur: string)
    ensures Scan("\"\"" + rest, d, cur, true) == Scan(rest, d, cur + "\"", true)
  {
    assert ("\"\"" + rest)[2..] == rest;
  }

  /** A delimiter outside quotes ends the field. */
  lemma EndField(rest: string, d: char, cur: string)
    requires d != '"'
    ensures Scan([d] + rest, d, cur, false) == [JsTrim(cur)] + Scan(rest, d, [], false)
  {
    assert ([d] + rest)[1..] == rest;
  }

  /** A last field without quotes or delimiters is the field, trimmed. */
  lemma LastField(y: string, d: char)
    requires '"' !in y && d !in y
    ensures Scan(y, d, [], false) == [JsTrim(y)]
  {
    ScanRun(y, [], d, [], false);
    assert y + [] == y && [] + y == y;
  }

  /** The scan inside quotes of `x";y`: the field `x`, then the field `y`. */
  lemma AfterQuotedField(x: string, y: string, d: char)
    requires d != '"' && '"' !in x && '"' !in y && d !in y
    ensures Scan(x + ("\"" + [d] + y), d, [], true) == [JsTrim(x), JsTrim(y)]
  {
    ScanRun(x, "\"" + [d] + y, d, [], true);
    assert [] + x == x;
    CloseQuote(d, y, d, x);
    EndField(y, d, x);
    LastField(y, d);
  }

  /** A delimiter inside quotes belongs to the field: `"x";y` is the two fields `x` and `y`. */
  lemma QuotedDelimiter(x: string, y: string, d: char)
    requires d != '"' && '"' !in x && '"' !in y && d !in y
    ensures ParseLine("\"" + x + "\"" + [d] + y, d) == [JsTrim(x), JsTrim(y)]
  {
    assert "\"" + x + "\"" + [d] + y == "\"" + (x + ("\"" + [d] + y));
    OpenQuote(x + ("\"" + [d] + y), d, []);
    AfterQuotedField(x, y, d);
  }

  /** The scan from a doubled quote inside quotes: `""y";z` after the field `cur`. */
  lemma AfterEscapedQuote(y: string, z: string, d: char, cur: string)
    requires d != '"' && '"' !in y && '"' !in z && d !in z
    ensures Scan("\"\"" + (y + ("\"" + [d] + z)), d, cur, true) == [JsTrim(cur + "\"" + y), JsTrim(z)]
  {
    var afterY := "\"" + [d] + z;
    EscapedQuote(y + afterY, d, cur);
    ScanRun(y, afterY, d, cur + "\"", true);
    CloseQuote(d, z, d, cur + "\"" + y);
    EndField(z, d, cur + "\"" + y);
    ScanRun(z, [], d, [], false);
    assert z + [] == z && [] + z == z;
  }

  /** Inside quotes a doubled quote stands for one quote: `"x""y";z` is `x"y` and `z`. */
  lemma DoubledQuote(x: string, y: string, z: string, d: char)
    requires d != '"' && '"' !in x && '"' !in y && '"' !in z && d !in z
    ensures ParseLine("\"" + x + "\"\"" + y + "\"" + [d] + z, d) == [JsTrim(x + "\"" + y), JsTrim(z)]
  {
    var afterX := "\"\"" + (y + ("\"" + [d] + z));
    assert "\"" + x + "\"\"" + y + "\"" + [d] + z == "\"" + (x + afterX);
    OpenQuote(x + afterX, d, []);
    ScanRun(x, afterX, d, [], true);
    assert [] + x == x;
    AfterEscapedQuote(y, z, d, x);
  }

  // ---------------------------------------------------------------------------
  // Headers
  // ---------------------------------------------------------------------------

  predicate IsEdgeQuote(c: char) { c == '"' || c == '\'' }

  /**
   * `.replace(/^["']|["']$/g, '')`: one quote character at the start and one at the end
   * are removed, each at most once.
   */
  function DropEdgeQuotes(s: string): (r: string)
    ensures |r| <= |s| <= |r| + 2
    ensures |s| > 0 && IsEdgeQuote(s[0]) ==> |r| < |s| && r == s[1..|r| + 1]
    ensures !(|s| > 0 && IsEdgeQuote(s[0])) ==> r == s[..|r|]
    ensures |s| == 0 || (!IsEdgeQuote(s[0]) && !IsEdgeQuote(s[|s| - 1])) ==> r == s
    ensures |s| >= 2 && IsEdgeQuote(s[0]) && IsEdgeQuote(s[|s| - 1]) ==> r == s[1..|s| - 1]
  {
    var a := if |s| > 0 && IsEdgeQuote(s[0]) then 1 else 0;
    var t := s[a..];
    var b := if |t| > 0 && IsEdgeQuote(t[|t| - 1]) then 1 else 0;
    assert t[..|t| - b] == s[a..|s| - b];
    t[..|t| - b]
  }

  /** `.replace(/\s+/g, '_')`: every run of white space becomes one underscore. */
  function CollapseSpaces(s: string): (r: string)
    ensures forall i :: 0 <= i < |r| ==> !IsJsSpace(r[i])
    ensures (forall i :: 0 <= i < |s| ==> !IsJsSpace(s[i])) ==> r == s
    ensures |r| <= |s|
    decreases |s|
  {
    if |s| == 0 then []
    else if IsJsSpace(s[0]) then
      var n := LeadCount(s, IsJsSpace);
      "_" + CollapseSpaces(s[n..])
    else [s[0]] + CollapseSpaces(s[1..])
  }

  /** A header cell as the importer reads it: trimmed, lower-cased, spaces to `_`, edge quotes off. */
  function NormalizeHeader(h: string): (r: string)
    ensures forall i :: 0 <= i < |r| ==> !IsJsSpace(r[i]) && Lower(r[i]) == r[i]
  {
    var lowered := LowerStr(JsTrim(h));
    var collapsed := CollapseSpaces(lowered);
    LowerCollapsed(lowered);
    DropEdgeQuotes(collapsed)
  }

  /** Collapsing runs of space keeps a lower-case text lower-case. */
  lemma {:induction false} LowerCollapsed(s: string)
    requires forall i :: 0 <= i < |s| ==> Lower(s[i]) == s[i]
    ensures forall i :: 0 <= i < |CollapseSpaces(s)| ==> Lower(CollapseSpaces(s)[i]) == CollapseSpaces(s)[i]
    decreases |s|
  {
    if |s| > 0 {
      if IsJsSpace(s[0]) {
        var n := LeadCount(s, IsJsSpace);
        LowerCollapsed(s[n..]);
      } else {
        LowerCollapsed(s[1..]);
      }
    }
  }

  const ExpectedHeaders: seq<string> := ["nome_empresa", "cnpj", "inscricao_estadual", "cpf_socio", "senha", "observacoes"]

  /** The expected headers, in order, that the file lacks. */
  function MissingHeaders(headers: seq<string>): (r: seq<string>)
    ensures forall h :: h in r <==> h in ExpectedHeaders && h !in headers
    ensures |r| == 0 <==> forall h :: h in ExpectedHeaders ==> h in headers
  {
    var r := Missing(ExpectedHeaders, headers);
    assert |r| > 0 ==> r[0] in r;
    r
  }

  function Missing(wanted: seq<string>, headers: seq<string>): (r: seq<string>)
    ensures forall h :: h in r <==> h in wanted && h !in headers
  {
    if |wanted| == 0 then []
    else (if wanted[0] in headers then [] else [wanted[0]]) + Missing(wanted[1..], headers)
  }

  /** A header cell the normalisation leaves alone: lower-case, no white space, no edge quote. */
  predicate NormalForm(h: string)
  {
    (forall i :: 0 <= i < |h| ==> !IsJsSpace(h[i]) && Lower(h[i]) == h[i])
    && (|h| == 0 || (!IsEdgeQuote(h[0]) && !IsEdgeQuote(h[|h| - 1])))
  }

  /** Normalisation is the identity on headers already in normal form. */
  lemma NormalizeFixesNormalForm(h: string)
    requires NormalForm(h)
    ensures NormalizeHeader(h) == h
  {
    assert JsTrim(h) == h;
    var lowered := LowerStr(h);
    assert lowered == h by {
      assert |lowered| == |h| && forall i :: 0 <= i < |h| ==> lowered[i] == h[i];
    }
    assert CollapseSpaces(h) == h;
    assert DropEdgeQuotes(h) == h;
  }

  /** Each expected column name is read back as itself. */
  lemma ExpectedHeadersNormal()
    ensures forall k :: 0 <= k < |ExpectedHeaders| ==> NormalizeHeader(ExpectedHeaders[k]) == ExpectedHeaders[k]
  {
    forall k | 0 <= k < |ExpectedHeaders|
      ensures NormalizeHeader(ExpectedHeaders[k]) == ExpectedHeaders[k]
    {
      var h := ExpectedHeaders[k];
      assert forall i :: 0 <= i < |h| ==> 'a' <= h[i] <= 'z' || h[i] == '_';
      NormalizeFixesNormalForm(h);
    }
  }

  // ---------------------------------------------------------------------------
  // Data rows
  // ---------------------------------------------------------------------------

  const NumericFields: seq<string> := ["cnpj", "inscricao_estadual", "cpf_socio"]

  /** An exponent starts at `i`: `[eE][+-]?\d`. */
  predicate ExponentAt(v: string, i: nat)
  {
    i < |v| && (v[i] == 'e' || v[i] == 'E')
    && ((i + 1 < |v| && IsDigit(v[i + 1])) || (i + 2 < |v| && (v[i + 1] == '+' || v[i + 1] == '-') && IsDigit(v[i + 2])))
  }

  /** `/[eE][+-]?\d+/.test(v)`. */
  predicate HasExponent(v: string) { exists i :: 0 <= i < |v| && ExponentAt(v, i) }

  /**
   * `convertScientificNotationForNumericFields`: an empty value stays empty; otherwise the
   * edge quotes and white space go, and only a numeric column written with an exponent is
   * converted, by `toFixed`, which stands for `parseFloat(...).toFixed(0)`.
   */
  function ConvertField(value: string, field: string, toFixed: string -> string): (r: string)
    ensures value == "" ==> r == ""
    ensures field !in NumericFields && value != "" ==> r == JsTrim(DropEdgeQuotes(value))
  {
    if value == "" then ""
    else
      var v := JsTrim(DropEdgeQuotes(value));
      if field !in NumericFields || !HasExponent(v) then v else toFixed(v)
  }

  /**
   * A non-numeric column such as the password is never converted: its value does not depend
   * on the conversion, and is a piece of the cell with no white space at its ends.
   */
  lemma NonNumericPassThrough(value: string, field: string, f: string -> string, g: string -> string)
    requires field !in NumericFields
    ensures ConvertField(value, field, f) == ConvertField(value, field, g)
    ensures |ConvertField(value, field, f)| <= |value|
    ensures ConvertField(value, field, f) == JsTrim(ConvertField(value, field, f))
  {
    if value != "" {
      StripIdempotent(DropEdgeQuotes(value), IsJsSpace);
    }
  }

  /**
   * `headers.forEach((header, index) => row[header] = convert(values[index], header))`, for
   * any cell conversion `convert`.
   */
  function BuildRow(headers: seq<string>, values: seq<string>, convert: (string, string) -> string): (row: map<string, string>)
    requires |headers| == |values|
    ensures row.Keys == set h | h in headers
    decreases |headers|
  {
    if |headers| == 0 then map[]
    else
      var n := |headers| - 1;
      var prefix := BuildRow(headers[..n], values[..n], convert);
      assert forall h :: h in headers <==> h in headers[..n] || h == headers[n];
      prefix[headers[n] := convert(values[n], headers[n])]
  }

  /** A column is given the converted cell at its last position among the headers. */
  lemma {:induction false} BuildRowValue(headers: seq<string>, values: seq<string>, convert: (string, string) -> string, k: nat)
    requires |headers| == |values| && k < |headers|
    requires forall j :: k < j < |headers| ==> headers[j] != headers[k]
    ensures BuildRow(headers, values, convert)[headers[k]] == convert(values[k], headers[k])
    decreases |headers|
  {
    var n := |headers| - 1;
    var prefix := BuildRow(headers[..n], values[..n], convert);
    assert BuildRow(headers, values, convert) == prefix[headers[n] := convert(values[n], headers[n])];
    if k < n {
      assert headers[..n][k] == headers[k];
      assert values[..n][k] == values[k];
      assert headers[n] != headers[k];
      BuildRowValue(headers[..n], values[..n], convert, k);
      assert prefix[headers[k]] == convert(values[k], headers[k]);
      assert BuildRow(headers, values, convert)[headers[k]] == prefix[headers[k]];
    } else {
      assert BuildRow(headers, values, convert)[headers[n]] == convert(values[n], headers[n]);
    }
  }

  /** The importer's cell conversion. */
  function Converter(toFixed: string -> string): (string, string) -> string
  {
    (value, field) => ConvertField(value, field, toFixed)
  }

  /** Every cell of the line is empty. */
  predicate Blank(values: seq<string>) { forall k :: 0 <= k < |values| ==> values[k] == "" }

  /** The data lines kept: those with as many cells as headers, not all of them empty. */
  function AcceptedRows(lines: seq<string>, headers: seq<string>, d: char, convert: (string, string) -> string): (rows: seq<map<string, string>>)
    ensures |rows| <= |lines|
    ensures forall k :: 0 <= k < |rows| ==> rows[k].Keys == set h | h in headers
    decreases |lines|
  {
    if |lines| == 0 then []
    else
      var values := ParseLine(lines[0], d);
      var rest := AcceptedRows(lines[1..], headers, d, convert);
      if Blank(values) || |values| != |headers| then rest
      else [BuildRow(headers, values, convert)] + rest
  }

  /** A line holding a different number of cells than the header is skipped. */
  lemma WrongWidthSkipped(line: string, more: seq<string>, headers: seq<string>, d: char, convert: (string, string) -> string)
    requires |ParseLine(line, d)| != |headers|
    ensures AcceptedRows([line] + more, headers, d, convert) == AcceptedRows(more, headers, d, convert)
  {
    assert ([line] + more)[1..] == more;
  }

  /** A line of plain cells, as many as the headers and not all empty, gives the row of those cells. */
  lemma WellFormedLineKept(line: string, cells: seq<string>, more: seq<string>, headers: seq<string>, d: char, convert: (string, string) -> string)
    requires d != '"' && |cells| == |headers| >= 1 && line == Join(cells, [d]) && !Blank(cells)
    requires forall j :: 0 <= j < |cells| ==> Plain(cells[j], d)
    ensures AcceptedRows([line] + more, headers, d, convert)
         == [BuildRow(headers, cells, convert)] + AcceptedRows(more, headers, d, convert)
  {
    JoinThenParse(cells, d);
    assert ([line] + more)[0] == line && ([line] + more)[1..] == more;
  }

  /** The table of cells a sequence of lines is written from. */
  predicate WrittenFrom(lines: seq<string>, table: seq<seq<string>>, headers: seq<string>, d: char)
  {
    |table| == |lines|
    && (forall k :: 0 <= k < |lines| ==> |table[k]| == |headers| >= 1 && lines[k] == Join(table[k], [d]) && !Blank(table[k]))
    && (forall k, j :: 0 <= k < |lines| && 0 <= j < |table[k]| ==> Plain(table[k][j], d))
  }

  lemma WrittenFromTail(lines: seq<string>, table: seq<seq<string>>, headers: seq<string>, d: char)
    requires |lines| > 0 && WrittenFrom(lines, table, headers, d)
    ensures WrittenFrom(lines[1..], table[1..], headers, d)
  {
    forall k, j | 0 <= k < |lines| - 1 && 0 <= j < |table[1..][k]| ensures Plain(table[1..][k][j], d) {
      assert table[1..][k] == table[k + 1];
    }
  }

  /**
   * Lines written as plain cells joined by the delimiter, as many as there are headers and
   * not all empty, are all kept, each as the row of its own cells.
   */
  lemma {:induction false} WellFormedLinesKept(lines: seq<string>, table: seq<seq<string>>, headers: seq<string>, d: char, convert: (string, string) -> string)
    requires d != '"' && WrittenFrom(lines, table, headers, d)
    ensures |AcceptedRows(lines, headers, d, convert)| == |lines|
    ensures forall k :: 0 <= k < |lines| ==> AcceptedRows(lines, headers, d, convert)[k] == BuildRow(headers, table[k], convert)
    decreases |lines|
  {
    if |lines| > 0 {
      WrittenFromTail(lines, table, headers, d);
      WellFormedLinesKept(lines[1..], table[1..], headers, d, convert);
      var rest := AcceptedRows(lines[1..], headers, d, convert);
      HeadLineKept(lines, table, headers, d, convert);
      var all := AcceptedRows(lines, headers, d, convert);
      forall k | 0 <= k < |rest| ensures rest[k] == BuildRow(headers, table[k + 1], convert) {
        assert table[1..][k] == table[k + 1];
      }
      RowsStep(all, rest, table, headers, convert);
    }
  }

  /** The first of the written lines is kept as the row of its cells. */
  lemma HeadLineKept(lines: seq<string>, table: seq<seq<string>>, headers: seq<string>, d: char, convert: (string, string) -> string)
    requires d != '"' && |lines| > 0 && WrittenFrom(lines, table, headers, d)
    ensures AcceptedRows(lines, headers, d, convert)
         == [BuildRow(headers, table[0], convert)] + AcceptedRows(lines[1..], headers, d, convert)
  {
    var line, cells, more := lines[0], table[0], lines[1..];
    assert lines == [line] + more;
    assert |cells| == |headers| >= 1 && line == Join(cells, [d]) && !Blank(cells);
    forall j | 0 <= j < |cells| ensures Plain(cells[j], d) {
      assert Plain(table[0][j], d);
    }
    WellFormedLineKept(line, cells, more, headers, d, convert);
  }

  lemma RowsStep(all: seq<map<string, string>>, rest: seq<map<string, string>>, table: seq<seq<string>>, headers: seq<string>, convert: (string, string) -> string)
    requires |table| > 0 && forall k :: 0 <= k < |table| ==> |table[k]| == |headers|
    requires all == [BuildRow(headers, table[0], convert)] + rest
    requires |rest| == |table| - 1 && forall k :: 0 <= k < |rest| ==> rest[k] == BuildRow(headers, table[k + 1], convert)
    ensures |all| == |table| && forall k :: 0 <= k < |table| ==> all[k] == BuildRow(headers, table[k], convert)
  {
    forall k | 0 <= k < |table| ensures all[k] == BuildRow(headers, table[k], convert) {
      if k > 0 {
        assert all[k] == rest[k - 1];
      }
    }
  }

  // ---------------------------------------------------------------------------
  // Duplicate CNPJs
  // ---------------------------------------------------------------------------

  datatype Entry = Entry(name: string, cnpj: string)

  /** One warning: the line numbers given to the repeat and to the first row with its CNPJ. */
  datatype Duplicate = Duplicate(line: nat, name: string, cnpj: string, firstLine: nat)

  /** Some row before row `i` has the same CNPJ. */
  predicate SeenBefore(es: seq<Entry>, i: nat)
    requires i < |es|
  {
    exists j :: 0 <= j < i && es[j].cnpj == es[i].cnpj
  }

  /** The first of the rows before `k` with CNPJ `c`, or `k` when there is none. */
  function Earliest(es: seq<Entry>, c: string, k: nat): (e: nat)
    requires k <= |es|
    ensures e <= k
    ensures e < k ==> es[e].cnpj == c
    ensures forall t :: 0 <= t < e ==> es[t].cnpj != c
  {
    if k == 0 then 0
    else
      var e := Earliest(es, c, k - 1);
      if e < k - 1 then e else if es[k - 1].cnpj == c then k - 1 else k
  }

  /** The first row with the CNPJ of row `i`. */
  function FirstOf(es: seq<Entry>, i: nat): (j: nat)
    requires i < |es|
    ensures j <= i && es[j].cnpj == es[i].cnpj
    ensures forall t :: 0 <= t < j ==> es[t].cnpj != es[i].cnpj
    ensures j < i <==> SeenBefore(es, i)
  {
    Earliest(es, es[i].cnpj, i + 1)
  }

  /**
   * The warnings for the first `k` rows, in row order, numbered as the importer numbers them:
   * the row's index among the kept rows plus two.  That is the file line only when no line
   * before it was dropped (see `SkippedLineShiftsWarning`).
   */
  function DuplicatesIn(es: seq<Entry>, k: nat): (r: seq<Duplicate>)
    requires k <= |es|
    ensures |r| <= k
  {
    if k == 0 then []
    else
      var before := DuplicatesIn(es, k - 1);
      var i := k - 1;
      if SeenBefore(es, i) then before + [Duplicate(i + 2, es[i].name, es[i].cnpj, FirstOf(es, i) + 2)]
      else before
  }

  /** Every warning names a repeated row, after the first row with its CNPJ. */
  lemma {:induction false} DuplicatesSound(es: seq<Entry>, k: nat)
    requires k <= |es|
    ensures forall x :: x in DuplicatesIn(es, k) ==> 2 <= x.firstLine < x.line <= k + 1
    ensures forall x :: x in DuplicatesIn(es, k) ==> es[x.line - 2] == Entry(x.name, x.cnpj) && x.firstLine - 2 == FirstOf(es, x.line - 2)
  {
    if k > 0 {
      DuplicatesSound(es, k - 1);
    }
  }

  /** A row is warned about exactly when an earlier row has its CNPJ: first occurrences never are. */
  lemma {:induction false} DuplicatesComplete(es: seq<Entry>, k: nat, i: nat)
    requires i < k <= |es|
    ensures SeenBefore(es, i) <==> exists x :: x in DuplicatesIn(es, k) && x.line == i + 2
  {
    DuplicatesGrow(es, k);
    if i < k - 1 {
      DuplicatesComplete(es, k - 1, i);
    } else {
      DuplicatesSound(es, k - 1);
      if SeenBefore(es, i) {
        assert Duplicate(k + 1, es[i].name, es[i].cnpj, FirstOf(es, i) + 2) in DuplicatesIn(es, k);
      }
    }
  }

  /** The warnings for `k` rows are those for `k - 1` rows, plus one for row `k - 1` if it repeats. */
  lemma DuplicatesGrow(es: seq<Entry>, k: nat)
    requires 0 < k <= |es|
    ensures forall x :: x in DuplicatesIn(es, k) <==>
      (x in DuplicatesIn(es, k - 1)
       || (SeenBefore(es, k - 1) && x == Duplicate(k + 1, es[k - 1].name, es[k - 1].cnpj, FirstOf(es, k - 1) + 2)))
  {
  }

  /**
   * The loop of the importer, with its map from CNPJ to the line of its first occurrence: it
   * reports exactly `DuplicatesIn`.
   */
  method FindDuplicates(es: seq<Entry>) returns (dups: seq<Duplicate>)
    ensures dups == DuplicatesIn(es, |es|)
  {
    var firstLine: map<string, nat> := map[];
    dups := [];
    for i := 0 to |es|
      invariant FirstLines(es, firstLine, i)
      invariant dups == DuplicatesIn(es, i)
    {
      var c := es[i].cnpj;
      MapTellsSeen(es, firstLine, i);
      DuplicatesStep(es, i);
      ghost var before := firstLine;
      if c in firstLine {
        dups := dups + [Duplicate(i + 2, es[i].name, c, firstLine[c])];
      } else {
        firstLine := firstLine[c := i + 2];
      }
      FirstLinesStep(es, before, firstLine, i);
    }
  }

  /** The importer's map after `i` rows: each CNPJ seen so far, to the line of its first row. */
  ghost predicate FirstLines(es: seq<Entry>, firstLine: map<string, nat>, i: nat)
    requires i <= |es|
  {
    (forall c :: c in firstLine ==> Earliest(es, c, i) < i && firstLine[c] == Earliest(es, c, i) + 2)
    && (forall c :: c !in firstLine ==> Earliest(es, c, i) == i)
  }

  /** The map answers whether row `i` repeats a CNPJ, and with which line. */
  lemma MapTellsSeen(es: seq<Entry>, firstLine: map<string, nat>, i: nat)
    requires i < |es| && FirstLines(es, firstLine, i)
    ensures es[i].cnpj in firstLine <==> SeenBefore(es, i)
    ensures es[i].cnpj in firstLine ==> firstLine[es[i].cnpj] == FirstOf(es, i) + 2
  {
    EarliestSeen(es, i);
  }

  lemma FirstLinesStep(es: seq<Entry>, before: map<string, nat>, after: map<string, nat>, i: nat)
    requires i < |es| && FirstLines(es, before, i)
    requires after == if es[i].cnpj in before then before else before[es[i].cnpj := i + 2]
    ensures FirstLines(es, after, i + 1)
  {
    forall c | c in after ensures Earliest(es, c, i + 1) < i + 1 && after[c] == Earliest(es, c, i + 1) + 2 {
      EarliestStep(es, c, i);
    }
    forall c | c !in after ensures Earliest(es, c, i + 1) == i + 1 {
      EarliestStep(es, c, i);
    }
  }

  lemma DuplicatesStep(es: seq<Entry>, i: nat)
    requires i < |es|
    ensures DuplicatesIn(es, i + 1) == if SeenBefore(es, i)
      then DuplicatesIn(es, i) + [Duplicate(i + 2, es[i].name, es[i].cnpj, FirstOf(es, i) + 2)]
      else DuplicatesIn(es, i)
  {
  }

  lemma EarliestStep(es: seq<Entry>, c: string, i: nat)
    requires i < |es|
    ensures Earliest(es, c, i + 1) == if Earliest(es, c, i) < i then Earliest(es, c, i) else if es[i].cnpj == c then i else i + 1
  {
  }

  /** Row `i` repeats a CNPJ exactly when the first row with it comes before `i`. */
  lemma EarliestSeen(es: seq<Entry>, i: nat)
    requires i < |es|
    ensures SeenBefore(es, i) <==> Earliest(es, es[i].cnpj, i) < i
    ensures SeenBefore(es, i) ==> FirstOf(es, i) == Earliest(es, es[i].cnpj, i)
  {
    EarliestStep(es, es[i].cnpj, i);
  }

  // ---------------------------------------------------------------------------
  // Numbering the warnings by file line
  // ---------------------------------------------------------------------------

  /** The warning for row `i` when each row `j` is numbered `at[j]`. */
  function WarningAt(es: seq<Entry>, at: seq<nat>, i: nat): Duplicate
    requires i < |es| == |at|
  {
    Duplicate(at[i], es[i].name, es[i].cnpj, at[FirstOf(es, i)])
  }

  /** The warnings for the first `k` rows, in row order, each row `j` numbered `at[j]`. */
  function DuplicatesAt(es: seq<Entry>, at: seq<nat>, k: nat): (r: seq<Duplicate>)
    requires k <= |es| == |at|
    ensures |r| <= k
  {
    if k == 0 then []
    else if SeenBefore(es, k - 1) then DuplicatesAt(es, at, k - 1) + [WarningAt(es, at, k - 1)]
    else DuplicatesAt(es, at, k - 1)
  }

  /** One warning per repeated row, carrying its number and that of the first row with its CNPJ. */
  lemma {:induction false} DuplicatesAtExactly(es: seq<Entry>, at: seq<nat>, k: nat)
    requires k <= |es| == |at|
    ensures forall x :: x in DuplicatesAt(es, at, k) <==>
      exists i :: 0 <= i < k && SeenBefore(es, i) && x == WarningAt(es, at, i)
  {
    if k > 0 {
      DuplicatesAtExactly(es, at, k - 1);
    }
  }

  /** Each row numbered by its place among the kept rows, after a header line. */
  function IndexLines(n: nat): (at: seq<nat>)
    ensures |at| == n
  {
    seq(n, i requires 0 <= i < n => i + 2)
  }

  /** The importer numbers a warning by the row's place among the kept rows plus two. */
  lemma {:induction false} DuplicatesInIndexLines(es: seq<Entry>, k: nat)
    requires k <= |es|
    ensures DuplicatesIn(es, k) == DuplicatesAt(es, IndexLines(|es|), k)
  {
    if k > 0 {
      DuplicatesInIndexLines(es, k - 1);
    }
  }

  predicate Increasing(s: seq<nat>)
  {
    forall k, m :: 0 <= k < m < |s| ==> s[k] < s[m]
  }

  /** `s` with one added to every element. */
  function Shift(s: seq<nat>): (r: seq<nat>)
    ensures |r| == |s| && forall k :: 0 <= k < |s| ==> r[k] == s[k] + 1
  {
    seq(|s|, k requires 0 <= k < |s| => s[k] + 1)
  }

  /** The elements of `s` that `keep` holds of, in order. */
  function Filter<T>(s: seq<T>, keep: T -> bool): (r: seq<T>)
    decreases |s|
  {
    if |s| == 0 then []
    else
      var rest := Filter(s[1..], keep);
      if keep(s[0]) then [s[0]] + rest else rest
  }

  /** The positions in `s` of the elements `Filter` keeps, in order. */
  function Positions<T>(s: seq<T>, keep: T -> bool): (ix: seq<nat>)
    decreases |s|
  {
    if |s| == 0 then []
    else
      var rest := Shift(Positions(s[1..], keep));
      if keep(s[0]) then [0] + rest else rest
  }

  /** Prepending position 0 to positions shifted past it keeps them increasing. */
  lemma ShiftIncreasing(rest: seq<nat>, first: bool)
    requires Increasing(rest)
    ensures Increasing(if first then [0] + Shift(rest) else Shift(rest))
  {
    var sh := Shift(rest);
    var ix := if first then [0] + sh else sh;
    forall k, m | 0 <= k < m < |ix| ensures ix[k] < ix[m] {
      if first {
        if k > 0 {
          assert ix[k] == rest[k - 1] + 1 && ix[m] == rest[m - 1] + 1;
        } else {
          assert ix[m] == rest[m - 1] + 1;
        }
      } else {
        assert ix[k] == rest[k] + 1 && ix[m] == rest[m] + 1;
      }
    }
  }

  /** The `k`-th kept element sits at the `k`-th position, and the positions increase. */
  lemma {:induction false} FilterAt<T>(s: seq<T>, keep: T -> bool)
    ensures |Positions(s, keep)| == |Filter(s, keep)| && Increasing(Positions(s, keep))
    ensures forall k :: 0 <= k < |Positions(s, keep)| ==>
      Positions(s, keep)[k] < |s| && Filter(s, keep)[k] == s[Positions(s, keep)[k]] && keep(Filter(s, keep)[k])
    decreases |s|
  {
    if |s| > 0 {
      var tail := s[1..];
      FilterAt(tail, keep);
      var rest := Positions(tail, keep);
      var kept := Filter(tail, keep);
      ShiftIncreasing(rest, keep(s[0]));
      if keep(s[0]) {
        FilterAtKept(s, keep, rest, kept);
      } else {
        FilterAtSkipped(s, keep, rest, kept);
      }
    }
  }

  lemma FilterAtKept<T>(s: seq<T>, keep: T -> bool, rest: seq<nat>, kept: seq<T>)
    requires |s| > 0 && keep(s[0]) && rest == Positions(s[1..], keep) && kept == Filter(s[1..], keep)
    requires |rest| == |kept|
    requires forall k :: 0 <= k < |rest| ==> rest[k] < |s| - 1 && kept[k] == s[1..][rest[k]] && keep(kept[k])
    ensures |Positions(s, keep)| == |Filter(s, keep)|
    ensures forall k :: 0 <= k < |Positions(s, keep)| ==>
      Positions(s, keep)[k] < |s| && Filter(s, keep)[k] == s[Positions(s, keep)[k]] && keep(Filter(s, keep)[k])
  {
    var ix := Positions(s, keep);
    var all := Filter(s, keep);
    assert ix == [0] + Shift(rest);
    assert all == [s[0]] + kept;
    forall k | 1 <= k < |ix| ensures ix[k] < |s| && all[k] == s[ix[k]] && keep(all[k]) {
      assert ix[k] == rest[k - 1] + 1 && all[k] == kept[k - 1];
    }
  }

  lemma FilterAtSkipped<T>(s: seq<T>, keep: T -> bool, rest: seq<nat>, kept: seq<T>)
    requires |s| > 0 && !keep(s[0]) && rest == Positions(s[1..], keep) && kept == Filter(s[1..], keep)
    requires |rest| == |kept|
    requires forall k :: 0 <= k < |rest| ==> rest[k] < |s| - 1 && kept[k] == s[1..][rest[k]] && keep(kept[k])
    ensures |Positions(s, keep)| == |Filter(s, keep)|
    ensures forall k :: 0 <= k < |Positions(s, keep)| ==>
      Positions(s, keep)[k] < |s| && Filter(s, keep)[k] == s[Positions(s, keep)[k]] && keep(Filter(s, keep)[k])
  {
    var ix := Positions(s, keep);
    assert ix == Shift(rest);
    assert Filter(s, keep) == kept;
    forall k | 0 <= k < |ix| ensures ix[k] < |s| && kept[k] == s[ix[k]] {
      assert ix[k] == rest[k] + 1;
    }
  }

  predicate NonBlankLine(line: string)
  {
    JsTrim(line) != ""
  }

  /** `KeepNonBlank` is the filter of the non-blank lines. */
  lemma {:induction false} KeepNonBlankFilters(lines: seq<string>)
    ensures KeepNonBlank(lines) == Filter(lines, NonBlankLine)
    decreases |lines|
  {
    if |lines| > 0 {
      KeepNonBlankFilters(lines[1..]);
    }
  }

  /** A data line the importer keeps: as many cells as headers, not all of them empty. */
  predicate Accepted(line: string, headers: seq<string>, d: char)
  {
    var values := ParseLine(line, d);
    !Blank(values) && |values| == |headers|
  }

  function AcceptedBy(headers: seq<string>, d: char): string -> bool
  {
    line => Accepted(line, headers, d)
  }

  /** `AcceptedRows` builds one row from each accepted line, in order. */
  lemma {:induction false} AcceptedRowsFilter(lines: seq<string>, headers: seq<string>, d: char, convert: (string, string) -> string)
    ensures var kept := Filter(lines, AcceptedBy(headers, d));
      |AcceptedRows(lines, headers, d, convert)| == |kept|
      && forall k :: 0 <= k < |kept| ==>
        Accepted(kept[k], headers, d)
        && AcceptedRows(lines, headers, d, convert)[k] == BuildRow(headers, ParseLine(kept[k], d), convert)
    decreases |lines|
  {
    var keep := AcceptedBy(headers, d);
    FilterAt(lines, keep);
    if |lines| > 0 {
      AcceptedRowsFilter(lines[1..], headers, d, convert);
    }
  }

  /**
   * The file line, counting from 1, of each row kept from the lines `raw` of a file whose first
   * non-blank line is the header: the lines increase, lie after the first line, and hold the
   * accepted lines in order.
   */
  function RowLines(raw: seq<string>, headers: seq<string>, d: char): (at: seq<nat>)
    requires |KeepNonBlank(raw)| >= 1
    ensures LinesHold(raw, Filter(KeepNonBlank(raw)[1..], AcceptedBy(headers, d)), at)
  {
    RowLinesAt(raw, headers, d);
    Composed(Positions(raw, NonBlankLine), Positions(KeepNonBlank(raw)[1..], AcceptedBy(headers, d)))
  }

  /** `at` lists increasing file lines after the first, counting from 1, holding `kept` in order. */
  predicate LinesHold(raw: seq<string>, kept: seq<string>, at: seq<nat>)
  {
    |at| == |kept| && Increasing(at)
    && forall k :: 0 <= k < |at| ==> 2 <= at[k] <= |raw| && raw[at[k] - 1] == kept[k]
  }

  /** The composed positions of the accepted lines satisfy `RowLines`'s contract. */
  lemma RowLinesAt(raw: seq<string>, headers: seq<string>, d: char)
    requires |KeepNonBlank(raw)| >= 1
    ensures var data := KeepNonBlank(raw)[1..];
      var outer := Positions(raw, NonBlankLine);
      var inner := Positions(data, AcceptedBy(headers, d));
      (forall k :: 0 <= k < |inner| ==> inner[k] + 1 < |outer|)
      && LinesHold(raw, Filter(data, AcceptedBy(headers, d)), Composed(outer, inner))
  {
    var data := KeepNonBlank(raw)[1..];
    var outer := Positions(raw, NonBlankLine);
    var inner := Positions(data, AcceptedBy(headers, d));
    NonBlankPositions(raw);
    FilterAt(data, AcceptedBy(headers, d));
    ComposeAt(raw, KeepNonBlank(raw), outer, Filter(data, AcceptedBy(headers, d)), inner);
  }

  /** Line `outer[inner[k] + 1] + 1` for each `k`: positions in `mid[1..]` mapped back to `s`. */
  function Composed(outer: seq<nat>, inner: seq<nat>): (at: seq<nat>)
    requires forall k :: 0 <= k < |inner| ==> inner[k] + 1 < |outer|
    ensures |at| == |inner| && forall k :: 0 <= k < |inner| ==> at[k] == outer[inner[k] + 1] + 1
  {
    seq(|inner|, k requires 0 <= k < |inner| => outer[inner[k] + 1] + 1)
  }

  /**
   * Positions compose: when `outer` lists where the elements of `mid` sit in `s`, and `inner`
   * where those of `last` sit in `mid[1..]`, then `last[k]` is on line `outer[inner[k] + 1] + 1`
   * of `s`, counting from 1.
   */
  lemma ComposeAt<T>(s: seq<T>, mid: seq<T>, outer: seq<nat>, last: seq<T>, inner: seq<nat>)
    requires |mid| >= 1 && |outer| == |mid| && Increasing(outer)
    requires forall k :: 0 <= k < |outer| ==> outer[k] < |s| && mid[k] == s[outer[k]]
    requires |inner| == |last| && Increasing(inner)
    requires forall k :: 0 <= k < |inner| ==> inner[k] < |mid| - 1 && last[k] == mid[1..][inner[k]]
    ensures Increasing(Composed(outer, inner))
    ensures forall k :: 0 <= k < |inner| ==>
      2 <= Composed(outer, inner)[k] <= |s| && s[Composed(outer, inner)[k] - 1] == last[k]
  {
    var at := Composed(outer, inner);
    forall k | 0 <= k < |at| ensures 2 <= at[k] <= |s| && s[at[k] - 1] == last[k] {
      var j := inner[k] + 1;
      assert outer[0] < outer[j];
      assert last[k] == mid[j];
    }
    forall k, m | 0 <= k < m < |at| ensures at[k] < at[m] {
      assert inner[k] < inner[m];
      assert outer[inner[k] + 1] < outer[inner[m] + 1];
    }
  }

  /** `NonBlankAt`'s positions, in increasing order, hold the lines `KeepNonBlank` keeps. */
  lemma NonBlankPositions(raw: seq<string>)
    ensures var outer := Positions(raw, NonBlankLine);
      |outer| == |KeepNonBlank(raw)| && Increasing(outer)
      && forall k :: 0 <= k < |outer| ==> outer[k] < |raw| && KeepNonBlank(raw)[k] == raw[outer[k]]
  {
    KeepNonBlankFilters(raw);
    FilterAt(raw, NonBlankLine);
  }

  /**
   * Each kept row is the one built from the file line `RowLines` gives it, an accepted line after
   * the header, and the lines increase.
   */
  lemma RowLinesHoldRows(raw: seq<string>, headers: seq<string>, d: char, convert: (string, string) -> string)
    requires |KeepNonBlank(raw)| >= 1
    ensures var at := RowLines(raw, headers, d);
      var rows := AcceptedRows(KeepNonBlank(raw)[1..], headers, d, convert);
      |at| == |rows| && Increasing(at)
      && forall k :: 0 <= k < |at| ==>
        2 <= at[k] <= |raw| && Accepted(raw[at[k] - 1], headers, d)
        && rows[k] == BuildRow(headers, ParseLine(raw[at[k] - 1], d), convert)
  {
    AcceptedRowsFilter(KeepNonBlank(raw)[1..], headers, d, convert);
    assert LinesHold(raw, Filter(KeepNonBlank(raw)[1..], AcceptedBy(headers, d)), RowLines(raw, headers, d));
  }

  /** The `field` cell of the row built from file line `n`, when that line is kept and has the column. */
  function FieldOnLine(raw: seq<string>, n: nat, headers: seq<string>, d: char, convert: (string, string) -> string, field: string): Option<string>
  {
    if 1 <= n <= |raw| && Accepted(raw[n - 1], headers, d) && field in headers
    then Some(BuildRow(headers, ParseLine(raw[n - 1], d), convert)[field])
    else None
  }

  // ---------------------------------------------------------------------------
  // The whole import
  // ---------------------------------------------------------------------------

  /** `.filter(line => line.trim())`: the lines holding something besides white space. */
  function KeepNonBlank(lines: seq<string>): (r: seq<string>)
    ensures |r| <= |lines|
    ensures forall k :: 0 <= k < |r| ==> r[k] in lines && JsTrim(r[k]) != ""
    ensures forall k :: 0 <= k < |lines| && JsTrim(lines[k]) != "" ==> lines[k] in r
  {
    if |lines| == 0 then []
    else
      var rest := KeepNonBlank(lines[1..]);
      assert forall k :: 1 <= k < |lines| ==> lines[k] == lines[1..][k - 1];
      if JsTrim(lines[0]) != "" then [lines[0]] + rest else rest
  }

  function NonBlankLines(text: string): (r: seq<string>)
  {
    KeepNonBlank(Split(text, "\n"))
  }

  /** The header cells of the first line, split at its own delimiter and normalised. */
  function Headers(first: string): (r: seq<string>)
  {
    var cells := ParseLine(first, DetectDelimiter(first));
    seq(|cells|, k requires 0 <= k < |cells| => NormalizeHeader(cells[k]))
  }

  /** The name and CNPJ of every accepted row. */
  function Entries(rows: seq<map<string, string>>): (es: seq<Entry>)
    requires forall k :: 0 <= k < |rows| ==> "nome_empresa" in rows[k] && "cnpj" in rows[k]
    ensures |es| == |rows|
  {
    seq(|rows|, k requires 0 <= k < |rows| => Entry(rows[k]["nome_empresa"], rows[k]["cnpj"]))
  }

  /** What the import screen ends with. */
  datatype Import =
    | EmptyFile
    | MissingColumns(missing: seq<string>, found: seq<string>)
    | Parsed(headers: seq<string>, rows: seq<map<string, string>>, duplicates: seq<Duplicate>)

  /**
   * The preview of a file with lines `raw` whose first non-blank line gave `headers` and the
   * delimiter `d`: the accepted rows, and a warning for each repeated CNPJ, numbered by file line.
   */
  function Preview(raw: seq<string>, headers: seq<string>, d: char, convert: (string, string) -> string): (r: Import)
    requires |KeepNonBlank(raw)| >= 1 && "nome_empresa" in headers && "cnpj" in headers
    ensures r.Parsed? && r.headers == headers && r.rows == AcceptedRows(KeepNonBlank(raw)[1..], headers, d, convert)
    ensures |r.rows| < |KeepNonBlank(raw)| && |r.duplicates| <= |r.rows|
  {
    var rows := AcceptedRows(KeepNonBlank(raw)[1..], headers, d, convert);
    RowLinesHoldRows(raw, headers, d, convert);
    Parsed(headers, rows, DuplicatesAt(Entries(rows), RowLines(raw, headers, d), |rows|))
  }

  /**
   * `parseCSV`: fewer than two non-blank lines is an empty file; a missing expected column
   * aborts; otherwise the accepted rows are previewed together with the duplicate-CNPJ
   * warnings, and the import is offered even when there are duplicates.
   */
  function ParseCsv(text: string, toFixed: string -> string): (r: Import)
    ensures r.EmptyFile? <==> |NonBlankLines(text)| < 2
    ensures r.MissingColumns? ==> |r.missing| > 0 && forall h :: h in r.missing ==> h in ExpectedHeaders && h !in r.found
    ensures r.Parsed? ==> forall h :: h in ExpectedHeaders ==> h in r.headers
    ensures r.Parsed? ==> |r.rows| < |NonBlankLines(text)| && |r.duplicates| <= |r.rows|
    ensures |NonBlankLines(text)| >= 2 && (forall h :: h in ExpectedHeaders ==> h in Headers(NonBlankLines(text)[0])) ==> r.Parsed?
  {
    var lines := NonBlankLines(text);
    if |lines| < 2 then EmptyFile
    else
      var headers := Headers(lines[0]);
      var missing := MissingHeaders(headers);
      if |missing| > 0 then MissingColumns(missing, headers)
      else
        assert "nome_empresa" in headers && "cnpj" in headers by {
          assert "nome_empresa" in ExpectedHeaders && "cnpj" in ExpectedHeaders;
        }
        Preview(Split(text, "\n"), headers, DetectDelimiter(lines[0]), Converter(toFixed))
  }

  /** The rows `rows`, each built from file line `at[k]` of `raw`, in increasing order. */
  ghost predicate RowsOnLines(raw: seq<string>, headers: seq<string>, d: char, convert: (string, string) -> string,
                              rows: seq<map<string, string>>, at: seq<nat>)
  {
    |at| == |rows| && Increasing(at)
    && forall k :: 0 <= k < |at| ==>
      2 <= at[k] <= |raw| && Accepted(raw[at[k] - 1], headers, d)
      && rows[k] == BuildRow(headers, ParseLine(raw[at[k] - 1], d), convert)
  }

  /**
   * A warning told by file line: the repeat comes after its first occurrence, both are file lines
   * after the header holding the warned CNPJ, and the repeat's line holds the warned name.
   */
  predicate OnFileLines(raw: seq<string>, headers: seq<string>, d: char, convert: (string, string) -> string, x: Duplicate)
  {
    2 <= x.firstLine < x.line <= |raw|
    && FieldOnLine(raw, x.line, headers, d, convert, "cnpj") == Some(x.cnpj)
    && FieldOnLine(raw, x.firstLine, headers, d, convert, "cnpj") == Some(x.cnpj)
    && FieldOnLine(raw, x.line, headers, d, convert, "nome_empresa") == Some(x.name)
  }

  /** The warning for a repeated row names its line and its first occurrence's, both holding the CNPJ. */
  lemma WarningOnLines(raw: seq<string>, headers: seq<string>, d: char, convert: (string, string) -> string,
                       rows: seq<map<string, string>>, at: seq<nat>, i: nat)
    requires "nome_empresa" in headers && "cnpj" in headers
    requires RowsOnLines(raw, headers, d, convert, rows, at)
    requires forall k :: 0 <= k < |rows| ==> "nome_empresa" in rows[k] && "cnpj" in rows[k]
    requires i < |rows| && SeenBefore(Entries(rows), i)
    ensures var x := WarningAt(Entries(rows), at, i);
      OnFileLines(raw, headers, d, convert, x)
  {
    var es := Entries(rows);
    var j := FirstOf(es, i);
    assert j < i;
    assert es[i] == Entry(rows[i]["nome_empresa"], rows[i]["cnpj"]);
    assert es[j] == Entry(rows[j]["nome_empresa"], rows[j]["cnpj"]);
  }

  /** Every warning over rows placed on file lines names lines that hold its CNPJ. */
  lemma WarningsOnLines(raw: seq<string>, headers: seq<string>, d: char, convert: (string, string) -> string,
                        rows: seq<map<string, string>>, at: seq<nat>)
    requires "nome_empresa" in headers && "cnpj" in headers
    requires RowsOnLines(raw, headers, d, convert, rows, at)
    requires forall k :: 0 <= k < |rows| ==> "nome_empresa" in rows[k] && "cnpj" in rows[k]
    ensures forall x :: x in DuplicatesAt(Entries(rows), at, |rows|) ==> OnFileLines(raw, headers, d, convert, x)
  {
    var es := Entries(rows);
    DuplicatesAtExactly(es, at, |rows|);
    forall x | x in DuplicatesAt(es, at, |rows|) ensures OnFileLines(raw, headers, d, convert, x) {
      var i :| 0 <= i < |rows| && SeenBefore(es, i) && x == WarningAt(es, at, i);
      WarningOnLines(raw, headers, d, convert, rows, at, i);
    }
  }

  lemma PreviewDuplicates(raw: seq<string>, headers: seq<string>, d: char, convert: (string, string) -> string)
    requires |KeepNonBlank(raw)| >= 1 && "nome_empresa" in headers && "cnpj" in headers
    ensures var rows := AcceptedRows(KeepNonBlank(raw)[1..], headers, d, convert);
      |RowLines(raw, headers, d)| == |rows|
      && Preview(raw, headers, d, convert).duplicates == DuplicatesAt(Entries(rows), RowLines(raw, headers, d), |rows|)
  {
    RowLinesHoldRows(raw, headers, d, convert);
  }

  /**
   * Each warning names the file line of the repeated row and that of the first row with its CNPJ,
   * in that order; both lines are kept rows holding that CNPJ, and the repeat holds the name shown.
   */
  lemma PreviewWarnsAtFileLines(raw: seq<string>, headers: seq<string>, d: char, convert: (string, string) -> string)
    requires |KeepNonBlank(raw)| >= 1 && "nome_empresa" in headers && "cnpj" in headers
    ensures forall x :: x in Preview(raw, headers, d, convert).duplicates ==> OnFileLines(raw, headers, d, convert, x)
  {
    var rows := AcceptedRows(KeepNonBlank(raw)[1..], headers, d, convert);
    var at := RowLines(raw, headers, d);
    assert RowsOnLines(raw, headers, d, convert, rows, at) by {
      RowLinesHoldRows(raw, headers, d, convert);
    }
    var dups := DuplicatesAt(Entries(rows), at, |rows|);
    assert Preview(raw, headers, d, convert).duplicates == dups by {
      PreviewDuplicates(raw, headers, d, convert);
    }
    assert forall x :: x in dups ==> OnFileLines(raw, headers, d, convert, x) by {
      WarningsOnLines(raw, headers, d, convert, rows, at);
    }
  }

  /** The import's warnings are numbered by file line (see `PreviewWarnsAtFileLines`). */
  lemma ParseCsvWarnsAtFileLines(text: string, toFixed: string -> string)
    ensures var r := ParseCsv(text, toFixed);
      r.Parsed? ==>
        var raw := Split(text, "\n");
        var d := DetectDelimiter(NonBlankLines(text)[0]);
        forall x :: x in r.duplicates ==> OnFileLines(raw, r.headers, d, Converter(toFixed), x)
  {
    var r := ParseCsv(text, toFixed);
    if r.Parsed? {
      var lines := NonBlankLines(text);
      assert "nome_empresa" in r.headers && "cnpj" in r.headers by {
        assert "nome_empresa" in ExpectedHeaders && "cnpj" in ExpectedHeaders;
      }
      PreviewWarnsAtFileLines(Split(text, "\n"), r.headers, DetectDelimiter(lines[0]), Converter(toFixed));
    }
  }

  /** Nothing to drop: every element is kept, each at its own position. */
  lemma {:induction false} AllKept<T>(s: seq<T>, keep: T -> bool)
    requires forall k :: 0 <= k < |s| ==> keep(s[k])
    ensures Filter(s, keep) == s
    ensures |Positions(s, keep)| == |s| && forall k :: 0 <= k < |s| ==> Positions(s, keep)[k] == k
    decreases |s|
  {
    if |s| > 0 {
      AllKept(s[1..], keep);
      assert s == [s[0]] + s[1..];
      var ix := Positions(s, keep);
      assert ix == [0] + Shift(Positions(s[1..], keep));
      forall k | 1 <= k < |s| ensures ix[k] == k {
        assert ix[k] == Positions(s[1..], keep)[k - 1] + 1;
      }
    }
  }

  /** A file without blank lines keeps them all. */
  lemma AllNonBlank(lines: seq<string>)
    requires forall k :: 0 <= k < |lines| ==> NonBlankLine(lines[k])
    ensures KeepNonBlank(lines) == lines
  {
    KeepNonBlankFilters(lines);
    AllKept(lines, NonBlankLine);
  }

  /** Of three data lines, the first and last accepted and the middle one not. */
  lemma KeptFirstAndLast(data: seq<string>, headers: seq<string>, d: char)
    requires |data| == 3
    requires Accepted(data[0], headers, d) && !Accepted(data[1], headers, d) && Accepted(data[2], headers, d)
    ensures Positions(data, AcceptedBy(headers, d)) == [0, 2]
  {
    var keep := AcceptedBy(headers, d);
    assert keep(data[0]) && !keep(data[1]) && keep(data[2]);
    var last := data[1..][1..];
    assert last == [data[2]] && last[1..] == [];
    assert Positions(last, keep) == [0] + Shift([]) == [0];
    assert Positions(data[1..], keep) == Shift([0]) == [1];
    assert Positions(data, keep) == [0] + Shift([1]) == [0, 2];
  }

  /** The rows of those three lines: the first and the last. */
  lemma RowsOfFirstAndLast(data: seq<string>, headers: seq<string>, d: char, convert: (string, string) -> string)
    requires |data| == 3
    requires Accepted(data[0], headers, d) && !Accepted(data[1], headers, d) && Accepted(data[2], headers, d)
    ensures AcceptedRows(data, headers, d, convert)
      == [BuildRow(headers, ParseLine(data[0], d), convert), BuildRow(headers, ParseLine(data[2], d), convert)]
  {
    var last := data[1..][1..];
    assert last == [data[2]] && last[1..] == [];
    var b0 := BuildRow(headers, ParseLine(data[0], d), convert);
    var b2 := BuildRow(headers, ParseLine(data[2], d), convert);
    assert AcceptedRows(last, headers, d, convert) == [b2];
    assert AcceptedRows(data[1..], headers, d, convert) == [b2];
    assert AcceptedRows(data, headers, d, convert) == [b0] + [b2];
  }

  /** Two rows with one CNPJ: one warning, for the second row, pointing back at the first. */
  lemma TwoRowsOneCnpj(rows: seq<map<string, string>>, at: seq<nat>)
    requires |rows| == 2 == |at|
    requires forall k :: 0 <= k < 2 ==> "nome_empresa" in rows[k] && "cnpj" in rows[k]
    requires rows[0]["cnpj"] == rows[1]["cnpj"]
    ensures DuplicatesIn(Entries(rows), 2) == [Duplicate(3, rows[1]["nome_empresa"], rows[1]["cnpj"], 2)]
    ensures DuplicatesAt(Entries(rows), at, 2) == [Duplicate(at[1], rows[1]["nome_empresa"], rows[1]["cnpj"], at[0])]
  {
    var es := Entries(rows);
    assert es[0].cnpj == es[1].cnpj;
    assert SeenBefore(es, 1) && !SeenBefore(es, 0);
    assert FirstOf(es, 1) == 0;
  }

  /**
   * The duplicate warnings of the kept rows of `raw`, numbered as the importer numbers them:
   * by row, so no number exceeds the row count plus one, however many lines the file has.
   */
  function ImporterWarnings(raw: seq<string>, headers: seq<string>, d: char, convert: (string, string) -> string): (r: seq<Duplicate>)
    requires |KeepNonBlank(raw)| >= 1 && "nome_empresa" in headers && "cnpj" in headers
    ensures |r| <= |Preview(raw, headers, d, convert).rows|
    ensures forall x :: x in r ==> 2 <= x.firstLine < x.line <= |Preview(raw, headers, d, convert).rows| + 1
  {
    var rows := AcceptedRows(KeepNonBlank(raw)[1..], headers, d, convert);
    DuplicatesSound(Entries(rows), |rows|);
    DuplicatesIn(Entries(rows), |rows|)
  }

  /**
   * As written, the importer numbers a warning by the row's place among the kept rows plus two.
   * A file whose header is followed by a row, a line of the wrong width and a row with the same
   * CNPJ is warned about at line 3, the skipped line, which holds no row; `Preview` only ever
   * names kept lines (`PreviewWarnsAtFileLines`), here line 4.
   */
  lemma SkippedLineShiftsWarning(raw: seq<string>, headers: seq<string>, d: char, convert: (string, string) -> string)
    requires |raw| == 4 && forall k :: 0 <= k < 4 ==> NonBlankLine(raw[k])
    requires "nome_empresa" in headers && "cnpj" in headers
    requires Accepted(raw[1], headers, d) && !Accepted(raw[2], headers, d) && Accepted(raw[3], headers, d)
    requires BuildRow(headers, ParseLine(raw[1], d), convert)["cnpj"] == BuildRow(headers, ParseLine(raw[3], d), convert)["cnpj"]
    ensures KeepNonBlank(raw) == raw && |AcceptedRows(raw[1..], headers, d, convert)| == 2
    ensures var asWritten := ImporterWarnings(raw, headers, d, convert);
      |asWritten| == 1 && asWritten[0].line == 3 && asWritten[0].firstLine == 2
      && !Accepted(raw[asWritten[0].line - 1], headers, d)
    ensures var fixed := Preview(raw, headers, d, convert).duplicates;
      |fixed| == 1 && fixed[0].line == 4 && fixed[0].firstLine == 2
  {
    AllNonBlank(raw);
    RowsOfFirstAndLast(raw[1..], headers, d, convert);
    var rows := AcceptedRows(raw[1..], headers, d, convert);
    var at := RowLines(raw, headers, d);
    assert |at| == 2 && at[0] == 2 && at[1] == 4 by {
      SkippedLineLines(raw, headers, d);
    }
    TwoRowsOneCnpj(rows, at);
  }

  /** In that file the kept rows sit on lines 2 and 4. */
  lemma SkippedLineLines(raw: seq<string>, headers: seq<string>, d: char)
    requires |raw| == 4 && forall k :: 0 <= k < 4 ==> NonBlankLine(raw[k])
    requires Accepted(raw[1], headers, d) && !Accepted(raw[2], headers, d) && Accepted(raw[3], headers, d)
    requires KeepNonBlank(raw) == raw
    ensures |RowLines(raw, headers, d)| == 2 && RowLines(raw, headers, d)[0] == 2 && RowLines(raw, headers, d)[1] == 4
  {
    var at := RowLines(raw, headers, d);
    assert |at| == 2 by {
      assert KeepNonBlank(raw)[1..] == raw[1..];
      KeptFirstAndLast(raw[1..], headers, d);
      FilterAt(raw[1..], AcceptedBy(headers, d));
    }
    var first, second := at[0], at[1];
    assert 2 <= first < second <= 4 && Accepted(raw[first - 1], headers, d) && Accepted(raw[second - 1], headers, d) by {
      FilterAt(KeepNonBlank(raw)[1..], AcceptedBy(headers, d));
    }
    assert first != 3 && second != 3;
  }
}

=== FILE: error_messages.dfy ===
/**
 * The user-facing rewording of raw error texts (`get_user_friendly_error_message`) and
 * their coarse category (`get_error_category`).  Both lower-case the text and test keyword
 * groups in a fixed order; the first group with a keyword in the text decides.
 *
 * `Friendly` is the if-chain as written; `FriendlyByTable` reads the same rules from the
 * table `Groups`, where "the first matching group wins" is a proved property of `Classify`.
 */
module ErrorMessages {
  import opened Options
  import opened Text

  /** Some keyword of the list occurs in the text. */
  predicate Any(low: string, keywords: seq<string>)
  {
    exists i :: 0 <= i < |keywords| && Contains(low, keywords[i])
  }

  /** `error_message.lower() if error_message else ""` */
  function Lowered(m: Option<string>): (low: string)
    ensures m.Some? ==> |low| == |m.value|
    ensures m.None? ==> low == ""
  {
    if m.Some? then LowerStr(m.value) else ""
  }

  const Unknown := "❌ Erro desconhecido na execução"
  const Limit := 100

  /** The fallback for a text no keyword group claims: empty, or the text cut at 100 characters. */
  function Unmatched(m: Option<string>): (r: string)
    ensures m.None? || PyStrip(m.value) == "" ==> r == Unknown
    ensures m.Some? && PyStrip(m.value) != "" && |m.value| <= Limit ==> r == "❌ Erro: " + m.value
    ensures m.Some? && PyStrip(m.value) != "" && |m.value| > Limit ==> r == "❌ Erro: " + m.value[..Limit] + "..."
  {
    if m.None? || m.value == "" || PyStrip(m.value) == "" then Unknown
    else if |m.value| > Limit then "❌ Erro: " + m.value[..Limit] + "..."
    else "❌ Erro: " + m.value
  }

  const LoginKeywords := ["login", "senha", "usuário", "usuario", "autenticação", "autenticacao"]
  const NavigationKeywords := ["navegação", "navegacao", "navigation", "página", "pagina"]
  const MenuKeywords := ["menu", "árvore", "arvore", "jstree"]
  const ExtractionKeywords := ["extração", "extracao", "extraction", "dados"]
  const SessionKeywords := ["sessão", "sessao", "session", "conflito"]
  const ValidationKeywords := ["cpf", "inscri", "ie", "inválido", "invalido"]
  const DebtKeywords := ["dívida", "divida", "tvi", "débito", "debito"]
  const BrowserKeywords := ["browser", "navegador", "chrome", "playwright"]
  const DatabaseKeywords := ["database", "banco", "sql", "sqlite"]
  const ElementKeywords := ["elemento", "element", "não encontrado", "not found"]

  const CaptchaMessage := "🤖 Erro de Captcha: Sistema detectou automação ou requer verificação"
  const TimeoutMessage := "⏱️ Erro de Timeout: Operação demorou muito tempo"
  const ElementMessage := "🔍 Erro de Interface: Elemento não encontrado na página"
  const WrongPassword := "❌ Erro de Login: Senha incorreta ou inválida"
  const InvalidIe := "📝 Erro de Validação: Inscrição Estadual inválida ou não cadastrada"

  function LoginMessage(low: string): string
  {
    if Contains(low, "senha") || Contains(low, "password") then WrongPassword
    else if Contains(low, "usuário") || Contains(low, "usuario") || Contains(low, "user") then
      "❌ Erro de Login: Usuário não encontrado ou inválido"
    else if Contains(low, "campo") && Contains(low, "não encontrado") then
      "❌ Erro de Login: Página de login não carregou corretamente"
    else if Contains(low, "botão") || Contains(low, "botao") then "❌ Erro de Login: Botão de login não encontrado"
    else if Contains(low, "timeout") then "❌ Erro de Login: Timeout - página demorou muito para responder"
    else "❌ Erro de Login: Falha ao autenticar no sistema"
  }

  function NavigationMessage(low: string): string
  {
    if Contains(low, "timeout") then "⏱️ Erro de Navegação: Timeout ao carregar página"
    else if Contains(low, "não encontr") then "🔍 Erro de Navegação: Página ou elemento não encontrado"
    else "🧭 Erro de Navegação: Falha ao acessar página do sistema"
  }

  function MenuMessage(low: string): string
  {
    if Contains(low, "não encontr") || Contains(low, "not found") then
      "📋 Erro de Menu: Menu ou opção não encontrada no sistema"
    else if Contains(low, "timeout") then "📋 Erro de Menu: Timeout ao carregar menu do sistema"
    else "📋 Erro de Menu: Falha ao navegar no menu do sistema"
  }

  function ExtractionMessage(low: string): string
  {
    if Contains(low, "timeout") then "📊 Erro de Extração: Timeout ao buscar dados"
    else if Contains(low, "não encontr") then "📊 Erro de Extração: Dados não encontrados na página"
    else "📊 Erro de Extração: Falha ao coletar informações do sistema"
  }

  function SessionMessage(low: string): string
  {
    if Contains(low, "conflito") || Contains(low, "conflict") then
      "🔐 Erro de Sessão: Usuário já está logado em outra sessão"
    else if Contains(low, "expirou") || Contains(low, "expired") then
      "🔐 Erro de Sessão: Sessão expirada, faça login novamente"
    else "🔐 Erro de Sessão: Problema com a sessão do usuário"
  }

  function ValidationMessage(low: string): string
  {
    if Contains(low, "cpf") then "📝 Erro de Validação: CPF inválido ou não cadastrado"
    else if Contains(low, "inscri") || Contains(low, "ie") then InvalidIe
    else "📝 Erro de Validação: Dados fornecidos são inválidos"
  }

  function DebtMessage(low: string): string
  {
    if Contains(low, "timeout") then "💰 Erro de Consulta: Timeout ao verificar dívidas/TVIs"
    else "💰 Erro de Consulta: Falha ao verificar dívidas e TVIs"
  }

  function BrowserMessage(low: string): string
  {
    if Contains(low, "não encontrado") || Contains(low, "not found") then
      "🌐 Erro de Navegador: Chrome não encontrado ou não instalado"
    else if Contains(low, "timeout") then "🌐 Erro de Navegador: Timeout ao iniciar navegador"
    else if Contains(low, "permissão") || Contains(low, "permission") then
      "🌐 Erro de Navegador: Sem permissão para acessar o navegador"
    else "🌐 Erro de Navegador: Falha ao iniciar ou conectar ao navegador"
  }

  function DatabaseMessage(low: string): string
  {
    if Contains(low, "duplicate") || Contains(low, "duplicado") then "💾 Erro de Banco: Registro já existe no sistema"
    else if Contains(low, "permissão") || Contains(low, "permission") then
      "💾 Erro de Banco: Sem permissão para acessar banco de dados"
    else "💾 Erro de Banco: Falha ao salvar ou consultar dados"
  }

  /** `get_user_friendly_error_message` as written: twelve keyword groups, then the fallback. */
  function Friendly(m: Option<string>): (r: string)
    ensures Contains(Lowered(m), "senha") ==> r == WrongPassword
  {
    var low := Lowered(m);
    assert Contains(low, "senha") ==> Contains(low, LoginKeywords[1]);
    if Any(low, LoginKeywords) then LoginMessage(low)
    else if Any(low, NavigationKeywords) then NavigationMessage(low)
    else if Any(low, MenuKeywords) then MenuMessage(low)
    else if Any(low, ExtractionKeywords) then ExtractionMessage(low)
    else if Any(low, SessionKeywords) then SessionMessage(low)
    else if Contains(low, "captcha") then CaptchaMessage
    else if Any(low, ValidationKeywords) then ValidationMessage(low)
    else if Any(low, DebtKeywords) then DebtMessage(low)
    else if Any(low, BrowserKeywords) then BrowserMessage(low)
    else if Any(low, DatabaseKeywords) then DatabaseMessage(low)
    else if Contains(low, "timeout") then TimeoutMessage
    else if Any(low, ElementKeywords) then ElementMessage
    else Unmatched(m)
  }

  // ---------------------------------------------------------------------------
  // The same rules as a table
  // ---------------------------------------------------------------------------

  /** A rule fires when every clause has one of its keywords in the text. */
  datatype Rule = Rule(clauses: seq<seq<string>>, message: string)

  /** A group claims the text when one of its keywords occurs; its first firing rule, or its fallback, answers. */
  datatype Group = Group(keywords: seq<string>, rules: seq<Rule>, fallback: string)

  predicate Fires(low: string, r: Rule)
  {
    forall i :: 0 <= i < |r.clauses| ==> Any(low, r.clauses[i])
  }

  function FirstRule(low: string, rules: seq<Rule>, fallback: string): (r: string)
    ensures (forall i :: 0 <= i < |rules| ==> !Fires(low, rules[i])) ==> r == fallback
    ensures forall i :: (0 <= i < |rules| && Fires(low, rules[i]) && (forall j :: 0 <= j < i ==> !Fires(low, rules[j]))
      ==> r == rules[i].message)
    decreases |rules|
  {
    if |rules| == 0 then fallback
    else if Fires(low, rules[0]) then rules[0].message
    else
      var r := FirstRule(low, rules[1..], fallback);
      assert forall i :: 1 <= i < |rules| ==> rules[i] == rules[1..][i - 1];
      r
  }

  /** The answer of the first group that claims the text, if any. */
  function Classify(low: string, groups: seq<Group>): (r: Option<string>)
    ensures r.None? <==> forall i :: 0 <= i < |groups| ==> !Any(low, groups[i].keywords)
    ensures forall i :: (0 <= i < |groups| && Any(low, groups[i].keywords)
      && (forall j :: 0 <= j < i ==> !Any(low, groups[j].keywords))
      ==> r == Some(FirstRule(low, groups[i].rules, groups[i].fallback)))
    decreases |groups|
  {
    if |groups| == 0 then None
    else if Any(low, groups[0].keywords) then Some(FirstRule(low, groups[0].rules, groups[0].fallback))
    else
      var r := Classify(low, groups[1..]);
      assert forall i :: 1 <= i < |groups| ==> groups[i] == groups[1..][i - 1];
      r
  }

  function One(k: string, message: string): Rule { Rule([[k]], message) }

  function Either(ks: seq<string>, message: string): Rule { Rule([ks], message) }

  const LoginGroup := Group(LoginKeywords, [
      Either(["senha", "password"], WrongPassword),
      Either(["usuário", "usuario", "user"], "❌ Erro de Login: Usuário não encontrado ou inválido"),
      Rule([["campo"], ["não encontrado"]], "❌ Erro de Login: Página de login não carregou corretamente"),
      Either(["botão", "botao"], "❌ Erro de Login: Botão de login não encontrado"),
      One("timeout", "❌ Erro de Login: Timeout - página demorou muito para responder")],
    "❌ Erro de Login: Falha ao autenticar no sistema")
  const NavigationGroup := Group(NavigationKeywords, [
      One("timeout", "⏱️ Erro de Navegação: Timeout ao carregar página"),
      One("não encontr", "🔍 Erro de Navegação: Página ou elemento não encontrado")],
    "🧭 Erro de Navegação: Falha ao acessar página do sistema")
  const MenuGroup := Group(MenuKeywords, [
      Either(["não encontr", "not found"], "📋 Erro de Menu: Menu ou opção não encontrada no sistema"),
      One("timeout", "📋 Erro de Menu: Timeout ao carregar menu do sistema")],
    "📋 Erro de Menu: Falha ao navegar no menu do sistema")
  const ExtractionGroup := Group(ExtractionKeywords, [
      One("timeout", "📊 Erro de Extração: Timeout ao buscar dados"),
      One("não encontr", "📊 Erro de Extração: Dados não encontrados na página")],
    "📊 Erro de Extração: Falha ao coletar informações do sistema")
  const SessionGroup := Group(SessionKeywords, [
      Either(["conflito", "conflict"], "🔐 Erro de Sessão: Usuário já está logado em outra sessão"),
      Either(["expirou", "expired"], "🔐 Erro de Sessão: Sessão expirada, faça login novamente")],
    "🔐 Erro de Sessão: Problema com a sessão do usuário")
  const CaptchaGroup := Group(["captcha"], [], CaptchaMessage)
  const ValidationGroup := Group(ValidationKeywords, [
      One("cpf", "📝 Erro de Validação: CPF inválido ou não cadastrado"),
      Either(["inscri", "ie"], InvalidIe)],
    "📝 Erro de Validação: Dados fornecidos são inválidos")
  const DebtGroup := Group(DebtKeywords, [
      One("timeout", "💰 Erro de Consulta: Timeout ao verificar dívidas/TVIs")],
    "💰 Erro de Consulta: Falha ao verificar dívidas e TVIs")
  const BrowserGroup := Group(BrowserKeywords, [
      Either(["não encontrado", "not found"], "🌐 Erro de Navegador: Chrome não encontrado ou não instalado"),
      One("timeout", "🌐 Erro de Navegador: Timeout ao iniciar navegador"),
      Either(["permissão", "permission"], "🌐 Erro de Navegador: Sem permissão para acessar o navegador")],
    "🌐 Erro de Navegador: Falha ao iniciar ou conectar ao navegador")
  const DatabaseGroup := Group(DatabaseKeywords, [
      Either(["duplicate", "duplicado"], "💾 Erro de Banco: Registro já existe no sistema"),
      Either(["permissão", "permission"], "💾 Erro de Banco: Sem permissão para acessar banco de dados")],
    "💾 Erro de Banco: Falha ao salvar ou consultar dados")
  const TimeoutGroup := Group(["timeout"], [], TimeoutMessage)
  const ElementGroup := Group(ElementKeywords, [], ElementMessage)

  /** The twelve groups in the order they are tried. */
  const Groups: seq<Group> := [
    LoginGroup, NavigationGroup, MenuGroup, ExtractionGroup, SessionGroup, CaptchaGroup,
    ValidationGroup, DebtGroup, BrowserGroup, DatabaseGroup, TimeoutGroup, ElementGroup]

  /** The answer of the first group whose keywords occur in the lower-cased text, else the fallback. */
  function FriendlyByTable(m: Option<string>): (r: string)
    ensures (forall i :: 0 <= i < |Groups| ==> !Any(Lowered(m), Groups[i].keywords)) ==> r == Unmatched(m)
    ensures forall i :: (0 <= i < |Groups| && Any(Lowered(m), Groups[i].keywords)
      && (forall j :: 0 <= j < i ==> !Any(Lowered(m), Groups[j].keywords))
      ==> r == FirstRule(Lowered(m), Groups[i].rules, Groups[i].fallback))
  {
    match Classify(Lowered(m), Groups)
    case Some(msg) => msg
    case None => Unmatched(m)
  }

  // ---------------------------------------------------------------------------
  // Categories
  // ---------------------------------------------------------------------------

  const Categories: set<string> := {
    "LOGIN", "NAVEGACAO", "MENU", "EXTRACAO", "SESSAO", "CAPTCHA",
    "VALIDACAO", "CONSULTA", "BROWSER", "BANCO", "TIMEOUT", "GERAL"}

  const LoginCategoryKeywords := ["login", "senha", "usuário", "usuario"]
  const NavigationCategoryKeywords := ["navegação", "navegacao", "página", "pagina"]
  const MenuCategoryKeywords := ["menu", "árvore", "arvore"]
  const ExtractionCategoryKeywords := ["extração", "extracao", "dados"]
  const SessionCategoryKeywords := ["sessão", "sessao", "conflito"]
  const BrowserCategoryKeywords := ["browser", "navegador", "chrome"]
  const DatabaseCategoryKeywords := ["database", "banco", "sql"]

  /** `get_error_category` as written, on the lower-cased text. */
  function CategoryOf(low: string): (r: string)
    ensures r in Categories
  {
    if Any(low, LoginCategoryKeywords) then "LOGIN"
    else if Any(low, NavigationCategoryKeywords) then "NAVEGACAO"
    else if Any(low, MenuCategoryKeywords) then "MENU"
    else if Any(low, ExtractionCategoryKeywords) then "EXTRACAO"
    else if Any(low, SessionCategoryKeywords) then "SESSAO"
    else if Contains(low, "captcha") then "CAPTCHA"
    else if Any(low, ValidationKeywords) then "VALIDACAO"
    else if Any(low, DebtKeywords) then "CONSULTA"
    else if Any(low, BrowserCategoryKeywords) then "BROWSER"
    else if Any(low, DatabaseCategoryKeywords) then "BANCO"
    else if Contains(low, "timeout") then "TIMEOUT"
    else "GERAL"
  }

  /** A category's name and the keywords that select it. */
  datatype Labelled = Labelled(keywords: seq<string>, name: string)

  /** The eleven keyword groups of `get_error_category`, in the order they are tried. */
  const CategoryGroups: seq<Labelled> := [
    Labelled(LoginCategoryKeywords, "LOGIN"),
    Labelled(NavigationCategoryKeywords, "NAVEGACAO"),
    Labelled(MenuCategoryKeywords, "MENU"),
    Labelled(ExtractionCategoryKeywords, "EXTRACAO"),
    Labelled(SessionCategoryKeywords, "SESSAO"),
    Labelled(["captcha"], "CAPTCHA"),
    Labelled(ValidationKeywords, "VALIDACAO"),
    Labelled(DebtKeywords, "CONSULTA"),
    Labelled(BrowserCategoryKeywords, "BROWSER"),
    Labelled(DatabaseCategoryKeywords, "BANCO"),
    Labelled(["timeout"], "TIMEOUT")]

  /** The name of the first group from `k` on with a keyword in the text, `GERAL` when there is none. */
  function CategoryFrom(low: string, k: nat): (r: string)
    requires k <= |CategoryGroups|
    ensures r == "GERAL" <==> forall i :: k <= i < |CategoryGroups| ==> !Any(low, CategoryGroups[i].keywords)
    ensures forall i :: (k <= i < |CategoryGroups| && Any(low, CategoryGroups[i].keywords)
      && (forall j :: k <= j < i ==> !Any(low, CategoryGroups[j].keywords))
      ==> r == CategoryGroups[i].name)
    decreases |CategoryGroups| - k
  {
    if k == |CategoryGroups| then "GERAL"
    else if Any(low, CategoryGroups[k].keywords) then
      assert CategoryGroups[k].name != "GERAL";
      CategoryGroups[k].name
    else CategoryFrom(low, k + 1)
  }

  lemma AnySingle(low: string, k: string)
    ensures Any(low, [k]) <==> Contains(low, k)
  {
    if Contains(low, k) { assert [k][0] == k; }
  }

  lemma CategoryStep0(low: string)
    ensures CategoryFrom(low, 0) == if Any(low, LoginCategoryKeywords) then "LOGIN" else CategoryFrom(low, 1)
  {
    assert CategoryGroups[0] == Labelled(LoginCategoryKeywords, "LOGIN");
  }

  lemma CategoryStep1(low: string)
    ensures CategoryFrom(low, 1) == if Any(low, NavigationCategoryKeywords) then "NAVEGACAO" else CategoryFrom(low, 2)
  {
    assert CategoryGroups[1] == Labelled(NavigationCategoryKeywords, "NAVEGACAO");
  }

  lemma CategoryStep2(low: string)
    ensures CategoryFrom(low, 2) == if Any(low, MenuCategoryKeywords) then "MENU" else CategoryFrom(low, 3)
  {
    assert CategoryGroups[2] == Labelled(MenuCategoryKeywords, "MENU");
  }

  lemma CategoryStep3(low: string)
    ensures CategoryFrom(low, 3) == if Any(low, ExtractionCategoryKeywords) then "EXTRACAO" else CategoryFrom(low, 4)
  {
    assert CategoryGroups[3] == Labelled(ExtractionCategoryKeywords, "EXTRACAO");
  }

  lemma CategoryStep4(low: string)
    ensures CategoryFrom(low, 4) == if Any(low, SessionCategoryKeywords) then "SESSAO" else CategoryFrom(low, 5)
  {
    assert CategoryGroups[4] == Labelled(SessionCategoryKeywords, "SESSAO");
  }

  lemma CategoryStep5(low: string)
    ensures CategoryFrom(low, 5) == if Any(low, ["captcha"]) then "CAPTCHA" else CategoryFrom(low, 6)
  {
    assert CategoryGroups[5] == Labelled(["captcha"], "CAPTCHA");
  }

  lemma CategoryStep6(low: string)
    ensures CategoryFrom(low, 6) == if Any(low, ValidationKeywords) then "VALIDACAO" else CategoryFrom(low, 7)
  {
    assert CategoryGroups[6] == Labelled(ValidationKeywords, "VALIDACAO");
  }

  lemma CategoryStep7(low: string)
    ensures CategoryFrom(low, 7) == if Any(low, DebtKeywords) then "CONSULTA" else CategoryFrom(low, 8)
  {
    assert CategoryGroups[7] == Labelled(DebtKeywords, "CONSULTA");
  }

  lemma CategoryStep8(low: string)
    ensures CategoryFrom(low, 8) == if Any(low, BrowserCategoryKeywords) then "BROWSER" else CategoryFrom(low, 9)
  {
    assert CategoryGroups[8] == Labelled(BrowserCategoryKeywords, "BROWSER");
  }

  lemma CategoryStep9(low: string)
    ensures CategoryFrom(low, 9) == if Any(low, DatabaseCategoryKeywords) then "BANCO" else CategoryFrom(low, 10)
  {
    assert CategoryGroups[9] == Labelled(DatabaseCategoryKeywords, "BANCO");
  }

  lemma CategoryStep10(low: string)
    ensures CategoryFrom(low, 10) == if Any(low, ["timeout"]) then "TIMEOUT" else CategoryFrom(low, 11)
  {
    assert CategoryGroups[10] == Labelled(["timeout"], "TIMEOUT");
  }

  /** The if-chain reads the groups of `CategoryGroups` in order. */
  lemma CategoryChainIsTable(low: string)
    ensures CategoryOf(low) == CategoryFrom(low, 0)
  {
    CategoryStep0(low); CategoryStep1(low); CategoryStep2(low); CategoryStep3(low);
    CategoryStep4(low); CategoryStep5(low); CategoryStep6(low); CategoryStep7(low);
    CategoryStep8(low); CategoryStep9(low); CategoryStep10(low);
    assert CategoryFrom(low, 11) == "GERAL";
    AnySingle(low, "captcha");
    AnySingle(low, "timeout");
  }

  /**
   * `get_error_category`: the name of the first keyword group present, and `GERAL`
   * exactly when no group has a keyword in the lower-cased text.
   */
  function Category(m: Option<string>): (r: string)
    ensures r in Categories
    ensures r == "GERAL" <==> forall i :: 0 <= i < |CategoryGroups| ==> !Any(Lowered(m), CategoryGroups[i].keywords)
    ensures forall i :: (0 <= i < |CategoryGroups| && Any(Lowered(m), CategoryGroups[i].keywords)
      && (forall j :: 0 <= j < i ==> !Any(Lowered(m), CategoryGroups[j].keywords))
      ==> r == CategoryGroups[i].name)
  {
    var low := Lowered(m);
    CategoryChainIsTable(low);
    CategoryOf(low)
  }
}

/** What the classifiers do on particular texts, and how the two classifiers relate. */
module ErrorMessageFacts {
  import opened Options
  import opened Text
  import opened ErrorMessages

  lemma AnyOne(low: string, k: string)
    ensures Any(low, [k]) <==> Contains(low, k)
  {
    if Contains(low, k) { assert [k][0] == k; }
  }

  lemma AnyTwo(low: string, k1: string, k2: string)
    ensures Any(low, [k1, k2]) <==> Contains(low, k1) || Contains(low, k2)
  {
    if Contains(low, k1) { assert [k1, k2][0] == k1; }
    if Contains(low, k2) { assert [k1, k2][1] == k2; }
  }

  lemma AnyThree(low: string, k1: string, k2: string, k3: string)
    ensures Any(low, [k1, k2, k3]) <==> Contains(low, k1) || Contains(low, k2) || Contains(low, k3)
  {
    if Contains(low, k1) { assert [k1, k2, k3][0] == k1; }
    if Contains(low, k2) { assert [k1, k2, k3][1] == k2; }
    if Contains(low, k3) { assert [k1, k2, k3][2] == k3; }
  }

  lemma FiresOne(low: string, k: string, msg: string)
    ensures Fires(low, One(k, msg)) <==> Contains(low, k)
  {
    AnyOne(low, k);
    var r := One(k, msg);
    assert |r.clauses| == 1 && r.clauses[0] == [k];
  }

  lemma FiresEither2(low: string, k1: string, k2: string, msg: string)
    ensures Fires(low, Either([k1, k2], msg)) <==> Contains(low, k1) || Contains(low, k2)
  {
    AnyTwo(low, k1, k2);
    var r := Either([k1, k2], msg);
    assert |r.clauses| == 1 && r.clauses[0] == [k1, k2];
  }

  lemma FiresEither3(low: string, k1: string, k2: string, k3: string, msg: string)
    ensures Fires(low, Either([k1, k2, k3], msg)) <==> Contains(low, k1) || Contains(low, k2) || Contains(low, k3)
  {
    AnyThree(low, k1, k2, k3);
    var r := Either([k1, k2, k3], msg);
    assert |r.clauses| == 1 && r.clauses[0] == [k1, k2, k3];
  }

  lemma FiresBoth(low: string, k1: string, k2: string, msg: string)
    ensures Fires(low, Rule([[k1], [k2]], msg)) <==> Contains(low, k1) && Contains(low, k2)
  {
    AnyOne(low, k1);
    AnyOne(low, k2);
    var r := Rule([[k1], [k2]], msg);
    assert |r.clauses| == 2 && r.clauses[0] == [k1] && r.clauses[1] == [k2];
  }

  lemma FirstRuleCons(low: string, rules: seq<Rule>, fallback: string)
    requires |rules| > 0
    ensures FirstRule(low, rules, fallback)
      == if Fires(low, rules[0]) then rules[0].message else FirstRule(low, rules[1..], fallback)
  {
  }

  lemma LoginGroupAgrees(low: string)
    ensures FirstRule(low, LoginGroup.rules, LoginGroup.fallback) == LoginMessage(low)
  {
    var rs := LoginGroup.rules;
    FiresEither2(low, "senha", "password", rs[0].message);
    FiresEither3(low, "usuário", "usuario", "user", rs[1].message);
    FiresBoth(low, "campo", "não encontrado", rs[2].message);
    FiresEither2(low, "botão", "botao", rs[3].message);
    FiresOne(low, "timeout", rs[4].message);
    FirstRuleCons(low, rs, LoginGroup.fallback);
    FirstRuleCons(low, rs[1..], LoginGroup.fallback);
    FirstRuleCons(low, rs[2..], LoginGroup.fallback);
    FirstRuleCons(low, rs[3..], LoginGroup.fallback);
    FirstRuleCons(low, rs[4..], LoginGroup.fallback);
    assert rs[1..][1..] == rs[2..] && rs[2..][1..] == rs[3..] && rs[3..][1..] == rs[4..] && rs[4..][1..] == [];
  }

  lemma NavigationGroupAgrees(low: string)
    ensures FirstRule(low, NavigationGroup.rules, NavigationGroup.fallback) == NavigationMessage(low)
  {
    var rs := NavigationGroup.rules;
    FiresOne(low, "timeout", rs[0].message);
    FiresOne(low, "não encontr", rs[1].message);
    FirstRuleCons(low, rs, NavigationGroup.fallback);
    FirstRuleCons(low, rs[1..], NavigationGroup.fallback);
    assert rs[1..][1..] == [];
  }

  lemma MenuGroupAgrees(low: string)
    ensures FirstRule(low, MenuGroup.rules, MenuGroup.fallback) == MenuMessage(low)
  {
    var rs := MenuGroup.rules;
    FiresEither2(low, "não encontr", "not found", rs[0].message);
    FiresOne(low, "timeout", rs[1].message);
    FirstRuleCons(low, rs, MenuGroup.fallback);
    FirstRuleCons(low, rs[1..], MenuGroup.fallback);
    assert rs[1..][1..] == [];
  }

  lemma ExtractionGroupAgrees(low: string)
    ensures FirstRule(low, ExtractionGroup.rules, ExtractionGroup.fallback) == ExtractionMessage(low)
  {
    var rs := ExtractionGroup.rules;
    FiresOne(low, "timeout", rs[0].message);
    FiresOne(low, "não encontr", rs[1].message);
    FirstRuleCons(low, rs, ExtractionGroup.fallback);
    FirstRuleCons(low, rs[1..], ExtractionGroup.fallback);
    assert rs[1..][1..] == [];
  }

  lemma SessionGroupAgrees(low: string)
    ensures FirstRule(low, SessionGroup.rules, SessionGroup.fallback) == SessionMessage(low)
  {
    var rs := SessionGroup.rules;
    FiresEither2(low, "conflito", "conflict", rs[0].message);
    FiresEither2(low, "expirou", "expired", rs[1].message);
    FirstRuleCons(low, rs, SessionGroup.fallback);
    FirstRuleCons(low, rs[1..], SessionGroup.fallback);
    assert rs[1..][1..] == [];
  }

  lemma ValidationGroupAgrees(low: string)
    ensures FirstRule(low, ValidationGroup.rules, ValidationGroup.fallback) == ValidationMessage(low)
  {
    var rs := ValidationGroup.rules;
    FiresOne(low, "cpf", rs[0].message);
    FiresEither2(low, "inscri", "ie", rs[1].message);
    FirstRuleCons(low, rs, ValidationGroup.fallback);
    FirstRuleCons(low, rs[1..], ValidationGroup.fallback);
    assert rs[1..][1..] == [];
  }

  lemma DebtGroupAgrees(low: string)
    ensures FirstRule(low, DebtGroup.rules, DebtGroup.fallback) == DebtMessage(low)
  {
    var rs := DebtGroup.rules;
    FiresOne(low, "timeout", rs[0].message);
    FirstRuleCons(low, rs, DebtGroup.fallback);
    assert rs[1..] == [];
  }

  lemma BrowserGroupAgrees(low: string)
    ensures FirstRule(low, BrowserGroup.rules, BrowserGroup.fallback) == BrowserMessage(low)
  {
    var rs := BrowserGroup.rules;
    FiresEither2(low, "não encontrado", "not found", rs[0].message);
    FiresOne(low, "timeout", rs[1].message);
    FiresEither2(low, "permissão", "permission", rs[2].message);
    FirstRuleCons(low, rs, BrowserGroup.fallback);
    FirstRuleCons(low, rs[1..], BrowserGroup.fallback);
    FirstRuleCons(low, rs[2..], BrowserGroup.fallback);
    assert rs[1..][1..] == rs[2..] && rs[2..][1..] == [];
  }

  lemma DatabaseGroupAgrees(low: string)
    ensures FirstRule(low, DatabaseGroup.rules, DatabaseGroup.fallback) == DatabaseMessage(low)
  {
    var rs := DatabaseGroup.rules;
    FiresEither2(low, "duplicate", "duplicado", rs[0].message);
    FiresEither2(low, "permissão", "permission", rs[1].message);
    FirstRuleCons(low, rs, DatabaseGroup.fallback);
    FirstRuleCons(low, rs[1..], DatabaseGroup.fallback);
    assert rs[1..][1..] == [];
  }

  /** The answer of group `k` of the table, as the if-chain computes it. */
  function ChainAnswer(low: string, k: nat): string
    requires k < 12
  {
    if k == 0 then LoginMessage(low)
    else if k == 1 then NavigationMessage(low)
    else if k == 2 then MenuMessage(low)
    else if k == 3 then ExtractionMessage(low)
    else if k == 4 then SessionMessage(low)
    else if k == 5 then CaptchaMessage
    else if k == 6 then ValidationMessage(low)
    else if k == 7 then DebtMessage(low)
    else if k == 8 then BrowserMessage(low)
    else if k == 9 then DatabaseMessage(low)
    else if k == 10 then TimeoutMessage
    else ElementMessage
  }

  lemma GroupAt0Agrees(low: string)
    ensures FirstRule(low, Groups[0].rules, Groups[0].fallback) == LoginMessage(low)
  {
    assert Groups[0] == LoginGroup;
    LoginGroupAgrees(low);
  }

  lemma GroupAt1Agrees(low: string)
    ensures FirstRule(low, Groups[1].rules, Groups[1].fallback) == NavigationMessage(low)
  {
    assert Groups[1] == NavigationGroup;
    NavigationGroupAgrees(low);
  }

  lemma GroupAt2Agrees(low: string)
    ensures FirstRule(low, Groups[2].rules, Groups[2].fallback) == MenuMessage(low)
  {
    assert Groups[2] == MenuGroup;
    MenuGroupAgrees(low);
  }

  lemma GroupAt3Agrees(low: string)
    ensures FirstRule(low, Groups[3].rules, Groups[3].fallback) == ExtractionMessage(low)
  {
    assert Groups[3] == ExtractionGroup;
    ExtractionGroupAgrees(low);
  }

  lemma GroupAt4Agrees(low: string)
    ensures FirstRule(low, Groups[4].rules, Groups[4].fallback) == SessionMessage(low)
  {
    assert Groups[4] == SessionGroup;
    SessionGroupAgrees(low);
  }

  lemma GroupAt6Agrees(low: string)
    ensures FirstRule(low, Groups[6].rules, Groups[6].fallback) == ValidationMessage(low)
  {
    assert Groups[6] == ValidationGroup;
    ValidationGroupAgrees(low);
  }

  lemma GroupAt7Agrees(low: string)
    ensures FirstRule(low, Groups[7].rules, Groups[7].fallback) == DebtMessage(low)
  {
    assert Groups[7] == DebtGroup;
    DebtGroupAgrees(low);
  }

  lemma GroupAt8Agrees(low: string)
    ensures FirstRule(low, Groups[8].rules, Groups[8].fallback) == BrowserMessage(low)
  {
    assert Groups[8] == BrowserGroup;
    BrowserGroupAgrees(low);
  }

  lemma GroupAt9Agrees(low: string)
    ensures FirstRule(low, Groups[9].rules, Groups[9].fallback) == DatabaseMessage(low)
  {
    assert Groups[9] == DatabaseGroup;
    DatabaseGroupAgrees(low);
  }

  lemma GroupAgrees(low: string, k: nat)
    requires k < 12
    ensures FirstRule(low, Groups[k].rules, Groups[k].fallback) == ChainAnswer(low, k)
  {
    if k == 0 { GroupAt0Agrees(low); }
    else if k == 1 { GroupAt1Agrees(low); }
    else if k == 2 { GroupAt2Agrees(low); }
    else if k == 3 { GroupAt3Agrees(low); }
    else if k == 4 { GroupAt4Agrees(low); }
    else if k == 6 { GroupAt6Agrees(low); }
    else if k == 7 { GroupAt7Agrees(low); }
    else if k == 8 { GroupAt8Agrees(low); }
    else if k == 9 { GroupAt9Agrees(low); }
  }

  /** The first group of `Groups[k..]` claiming the text answers, as the if-chain from group `k` on. */
  function ChainFrom(low: string, k: nat): Option<string>
    requires k <= 12
    decreases 12 - k
  {
    if k == 12 then None
    else if Any(low, Groups[k].keywords) then Some(ChainAnswer(low, k))
    else ChainFrom(low, k + 1)
  }

  lemma {:induction false} ClassifyFrom(low: string, k: nat)
    requires k <= 12
    ensures Classify(low, Groups[k..]) == ChainFrom(low, k)
    decreases 12 - k
  {
    if k < 12 {
      ClassifyFrom(low, k + 1);
      GroupAgrees(low, k);
      assert Groups[k..][0] == Groups[k];
      assert Groups[k..][1..] == Groups[k + 1..];
    }
  }

  lemma ChainStep0(low: string)
    ensures ChainFrom(low, 0) == if Any(low, LoginKeywords) then Some(LoginMessage(low)) else ChainFrom(low, 1)
  {
    assert Groups[0] == LoginGroup;
  }

  lemma ChainStep1(low: string)
    ensures ChainFrom(low, 1) == if Any(low, NavigationKeywords) then Some(NavigationMessage(low)) else ChainFrom(low, 2)
  {
    assert Groups[1] == NavigationGroup;
  }

  lemma ChainStep2(low: string)
    ensures ChainFrom(low, 2) == if Any(low, MenuKeywords) then Some(MenuMessage(low)) else ChainFrom(low, 3)
  {
    assert Groups[2] == MenuGroup;
  }

  lemma ChainStep3(low: string)
    ensures ChainFrom(low, 3) == if Any(low, ExtractionKeywords) then Some(ExtractionMessage(low)) else ChainFrom(low, 4)
  {
    assert Groups[3] == ExtractionGroup;
  }

  lemma ChainStep4(low: string)
    ensures ChainFrom(low, 4) == if Any(low, SessionKeywords) then Some(SessionMessage(low)) else ChainFrom(low, 5)
  {
    assert Groups[4] == SessionGroup;
  }

  lemma ChainStep5(low: string)
    ensures ChainFrom(low, 5) == if Any(low, ["captcha"]) then Some(CaptchaMessage) else ChainFrom(low, 6)
  {
    assert Groups[5] == CaptchaGroup;
  }

  lemma ChainStep6(low: string)
    ensures ChainFrom(low, 6) == if Any(low, ValidationKeywords) then Some(ValidationMessage(low)) else ChainFrom(low, 7)
  {
    assert Groups[6] == ValidationGroup;
  }

  lemma ChainStep7(low: string)
    ensures ChainFrom(low, 7) == if Any(low, DebtKeywords) then Some(DebtMessage(low)) else ChainFrom(low, 8)
  {
    assert Groups[7] == DebtGroup;
  }

  lemma ChainStep8(low: string)
    ensures ChainFrom(low, 8) == if Any(low, BrowserKeywords) then Some(BrowserMessage(low)) else ChainFrom(low, 9)
  {
    assert Groups[8] == BrowserGroup;
  }

  lemma ChainStep9(low: string)
    ensures ChainFrom(low, 9) == if Any(low, DatabaseKeywords) then Some(DatabaseMessage(low)) else ChainFrom(low, 10)
  {
    assert Groups[9] == DatabaseGroup;
  }

  lemma ChainStep10(low: string)
    ensures ChainFrom(low, 10) == if Any(low, ["timeout"]) then Some(TimeoutMessage) else ChainFrom(low, 11)
  {
    assert Groups[10] == TimeoutGroup;
  }

  lemma ChainStep11(low: string)
    ensures ChainFrom(low, 11) == if Any(low, ElementKeywords) then Some(ElementMessage) else ChainFrom(low, 12)
  {
    assert Groups[11] == ElementGroup;
  }

  lemma ChainFromUnfolds(low: string)
    ensures ChainFrom(low, 0) == (
      if Any(low, LoginKeywords) then Some(LoginMessage(low))
      else if Any(low, NavigationKeywords) then Some(NavigationMessage(low))
      else if Any(low, MenuKeywords) then Some(MenuMessage(low))
      else if Any(low, ExtractionKeywords) then Some(ExtractionMessage(low))
      else if Any(low, SessionKeywords) then Some(SessionMessage(low))
      else if Contains(low, "captcha") then Some(CaptchaMessage)
      else if Any(low, ValidationKeywords) then Some(ValidationMessage(low))
      else if Any(low, DebtKeywords) then Some(DebtMessage(low))
      else if Any(low, BrowserKeywords) then Some(BrowserMessage(low))
      else if Any(low, DatabaseKeywords) then Some(DatabaseMessage(low))
      else if Contains(low, "timeout") then Some(TimeoutMessage)
      else if Any(low, ElementKeywords) then Some(ElementMessage)
      else None)
  {
    ChainStep0(low); ChainStep1(low); ChainStep2(low); ChainStep3(low);
    ChainStep4(low); ChainStep5(low); ChainStep6(low); ChainStep7(low);
    ChainStep8(low); ChainStep9(low); ChainStep10(low); ChainStep11(low);
    AnyOne(low, "captcha");
    AnyOne(low, "timeout");
  }

  /** The if-chain and the table give the same answer on every input. */
  lemma FriendlyMatchesTable(m: Option<string>)
    ensures Friendly(m) == FriendlyByTable(m)
  {
    var low := Lowered(m);
    ClassifyFrom(low, 0);
    assert Groups[0..] == Groups;
    ChainFromUnfolds(low);
  }

  /** Any text mentioning `senha`, in any case, is reported as a wrong password. */
  lemma SenhaMeansWrongPassword(m: Option<string>)
    requires Contains(Lowered(m), "senha")
    ensures Friendly(m) == WrongPassword
  {
    assert Contains(Lowered(m), LoginKeywords[1]);
  }

  lemma NoneInEmpty(kws: seq<string>)
    requires forall i :: 0 <= i < |kws| ==> |kws[i]| > 0
    ensures !Any("", kws)
  {
    forall i | 0 <= i < |kws| ensures !Contains("", kws[i]) { NothingInEmpty(kws[i]); }
  }

  /** No keyword occurs in an absent or empty text, so it is reported as unknown. */
  lemma EmptyIsUnknown(m: Option<string>)
    requires m.None? || m.value == ""
    ensures Friendly(m) == Unknown
  {
    assert Lowered(m) == "";
    NoneInEmpty(LoginKeywords);
    NoneInEmpty(NavigationKeywords);
    NoneInEmpty(MenuKeywords);
    NoneInEmpty(ExtractionKeywords);
    NoneInEmpty(SessionKeywords);
    NoneInEmpty(ValidationKeywords);
    NoneInEmpty(DebtKeywords);
    NoneInEmpty(BrowserKeywords);
    NoneInEmpty(DatabaseKeywords);
    NoneInEmpty(ElementKeywords);
    NothingInEmpty("captcha");
    NothingInEmpty("timeout");
  }

  /** An absent or empty text falls in the default category. */
  lemma EmptyIsGeral(m: Option<string>)
    requires m.None? || m.value == ""
    ensures Category(m) == "GERAL"
  {
    assert Lowered(m) == "";
    NoneInEmpty(LoginCategoryKeywords);
    NoneInEmpty(NavigationCategoryKeywords);
    NoneInEmpty(MenuCategoryKeywords);
    NoneInEmpty(ExtractionCategoryKeywords);
    NoneInEmpty(SessionCategoryKeywords);
    NoneInEmpty(ValidationKeywords);
    NoneInEmpty(DebtKeywords);
    NoneInEmpty(BrowserCategoryKeywords);
    NoneInEmpty(DatabaseCategoryKeywords);
    NothingInEmpty("captcha");
    NothingInEmpty("timeout");
  }

  const ClientTimeout := "client timeout"

  lemma LowerClientTimeout()
    ensures LowerStr(ClientTimeout) == ClientTimeout
  {
    var low := LowerStr(ClientTimeout);
    forall i | 0 <= i < |ClientTimeout| ensures low[i] == ClientTimeout[i] { }
  }

  /** No keyword occurs when each has a character the text lacks. */
  lemma NoneByChars(s: string, kws: seq<string>, cs: seq<char>)
    requires |cs| == |kws|
    requires forall i :: 0 <= i < |kws| ==> cs[i] in kws[i] && cs[i] !in s
    ensures !Any(s, kws)
  {
    forall i | 0 <= i < |kws| ensures !Contains(s, kws[i]) {
      NotContainsByChar(s, kws[i], cs[i]);
    }
  }

  /** What "client timeout" looks like to the keyword tests: its letters, and no `n` followed by `u`. */
  predicate ShapedLikeClientTimeout(low: string)
  {
    (forall c :: c in low ==> c in ClientTimeout)
    && forall j :: 0 <= j < |low| - 1 ==> !(low[j] == 'n' && low[j + 1] == 'u')
  }

  lemma ClientTimeoutShape()
    ensures ShapedLikeClientTimeout(ClientTimeout)
  {
  }

  lemma NoMenuKeyword(low: string)
    requires ShapedLikeClientTimeout(low)
    ensures !Any(low, MenuKeywords)
  {
    NotContainsByPair(low, "menu", 2);
    NotContainsByChar(low, "árvore", 'r');
    NotContainsByChar(low, "arvore", 'r');
    NotContainsByChar(low, "jstree", 'j');
  }

  lemma NoSessionOrCaptcha(low: string)
    requires ShapedLikeClientTimeout(low)
    ensures !Any(low, SessionKeywords) && !Contains(low, "captcha")
  {
    NoneByChars(low, SessionKeywords, "sssf");
    NotContainsByChar(low, "captcha", 'a');
  }

  /** None of the groups tried before the validation group claims "client timeout". */
  lemma NoEarlierGroup(low: string)
    requires ShapedLikeClientTimeout(low)
    ensures !Any(low, LoginKeywords) && !Any(low, NavigationKeywords) && !Any(low, MenuKeywords)
    ensures !Any(low, ExtractionKeywords) && !Any(low, SessionKeywords) && !Contains(low, "captcha")
  {
    assert !Any(low, LoginKeywords) by { NoneByChars(low, LoginKeywords, "gsssaa"); }
    assert !Any(low, NavigationKeywords) by { NoneByChars(low, NavigationKeywords, "aaapp"); }
    assert !Any(low, MenuKeywords) by { NoMenuKeyword(low); }
    assert !Any(low, ExtractionKeywords) by { NoneByChars(low, ExtractionKeywords, "xxxd"); }
    NoSessionOrCaptcha(low);
  }

  /**
   * Timeouts are classified late: the `ie` inside `client` sends "client timeout" to the
   * IE validation message rather than to the timeout message.
   */
  /** A text with `ie`, built from the letters of "client timeout", gets the IE message whatever else it says. */
  lemma ShapedIeIsIe(m: Option<string>)
    requires ShapedLikeClientTimeout(Lowered(m)) && Contains(Lowered(m), "ie")
    ensures Friendly(m) == InvalidIe
  {
    var low := Lowered(m);
    NoEarlierGroup(low);
    assert Any(low, ValidationKeywords) by { assert ValidationKeywords[2] == "ie"; }
    NotContainsByChar(low, "cpf", 'p');
  }

  lemma ClientTimeoutIsIe()
    ensures Friendly(Some(ClientTimeout)) == InvalidIe
  {
    var m := Some(ClientTimeout);
    LowerClientTimeout();
    ClientTimeoutShape();
    assert Contains(Lowered(m), "ie") by {
      ContainsWitness("cl", "ie", "nt timeout");
      assert "cl" + "ie" + "nt timeout" == ClientTimeout;
    }
    ShapedIeIsIe(m);
  }

  const LoginMessages: set<string> := {
    WrongPassword,
    "❌ Erro de Login: Usuário não encontrado ou inválido",
    "❌ Erro de Login: Página de login não carregou corretamente",
    "❌ Erro de Login: Botão de login não encontrado",
    "❌ Erro de Login: Timeout - página demorou muito para responder",
    "❌ Erro de Login: Falha ao autenticar no sistema"}

  /**
   * The two classifiers agree on logins: a text in the `LOGIN` category always gets a
   * login message (the converse fails, since only the message also knows `autenticação`).
   */
  lemma LoginCategoryGetsLoginMessage(m: Option<string>)
    ensures Category(m) == "LOGIN" ==> Friendly(m) in LoginMessages
  {
    var low := Lowered(m);
    if Category(m) == "LOGIN" {
      LoginCategoryHasKeyword(m);
      ShortLoginKeywords(low);
      LoginMessageIsLogin(low);
    }
  }

  lemma LoginCategoryHasKeyword(m: Option<string>)
    ensures Category(m) == "LOGIN" ==> Any(Lowered(m), LoginCategoryKeywords)
  {
    var low := Lowered(m);
    assert Category(m) == CategoryOf(low);
    assert CategoryOf(low) == "LOGIN" ==> Any(low, LoginCategoryKeywords);
  }

  lemma ShortLoginKeywords(low: string)
    requires Any(low, LoginCategoryKeywords)
    ensures Any(low, LoginKeywords)
  {
    var short := LoginCategoryKeywords;
    var i :| 0 <= i < |short| && Contains(low, short[i]);
    assert Contains(low, LoginKeywords[i]);
  }

  lemma LoginMessageIsLogin(low: string)
    ensures LoginMessage(low) in LoginMessages
  {
  }
}

=== FILE: exceptions.dfy ===
/**
 * The bot's exception classes (`SEFAZBotException` and its specialisations), their
 * `str()` rendering, the session-conflict detector with seven indicators, and the
 * table of user-facing messages keyed by error code.
 *
 * An exception is its three attributes; each specialised class is one constructor of
 * `Raised`, and `Build` runs that class's `__init__`.
 */
module Exceptions {
  import opened Options
  import opened Text
  import Validators

  datatype BotError = BotError(message: string, errorCode: Option<string>, details: Option<string>)

  /** Python truthiness of an optional string. */
  predicate Given(x: Option<string>) { x.Some? && x.value != "" }

  /** Python truthiness of an optional integer. */
  predicate GivenInt(x: Option<int>) { x.Some? && x.value != 0 }

  function CodePart(code: string): string { "[Código: " + code + "]" }

  function DetailsPart(details: string): string { "Detalhes: " + details }

  /** The list `__str__` joins with `' - '`. */
  function Parts(e: BotError): seq<string>
  {
    [e.message]
    + (if Given(e.errorCode) then [CodePart(e.errorCode.value)] else [])
    + (if Given(e.details) then [DetailsPart(e.details.value)] else [])
  }

  lemma JoinTwo(a: string, b: string, sep: string)
    ensures Join([a, b], sep) == a + sep + b
  {
    assert [a, b][1..] == [b];
  }

  lemma JoinThree(a: string, b: string, c: string, sep: string)
    ensures Join([a, b, c], sep) == a + sep + b + sep + c
  {
    assert [a, b, c][1..] == [b, c];
    JoinTwo(b, c, sep);
  }

  /**
   * `SEFAZBotException.__str__`: the message, then the code segment only when a code is
   * set, then the details segment only when the details are non-empty.
   */
  function Str(e: BotError): (r: string)
    ensures StartsWith(r, e.message)
    ensures !Given(e.errorCode) && !Given(e.details) <==> r == e.message
  {
    e.message
    + (if Given(e.errorCode) then " - " + CodePart(e.errorCode.value) else "")
    + (if Given(e.details) then " - " + DetailsPart(e.details.value) else "")
  }

  /** The rendering is the `' - '`-join of the parts list the source builds. */
  lemma StrJoinsParts(e: BotError)
    ensures Str(e) == Join(Parts(e), " - ")
  {
    var p := Parts(e);
    if Given(e.errorCode) && Given(e.details) {
      assert p == [p[0], p[1], p[2]];
      JoinThree(p[0], p[1], p[2], " - ");
    } else if Given(e.errorCode) || Given(e.details) {
      assert p == [p[0], p[1]];
      JoinTwo(p[0], p[1], " - ");
    }
  }

  // ---------------------------------------------------------------------------
  // `str.title()`, used by `ElementNotFoundException`
  // ---------------------------------------------------------------------------

  predicate IsUpperLetter(c: char) { 'A' <= c <= 'Z' || ('\U{c0}' <= c <= '\U{de}' && c != '\U{d7}') }

  predicate IsLowerLetter(c: char) { 'a' <= c <= 'z' || ('\U{df}' <= c <= '\U{ff}' && c != '\U{f7}') }

  predicate IsCased(c: char) { IsUpperLetter(c) || IsLowerLetter(c) }

  /** Upper-casing of one letter; `ß` and `ÿ`, whose capitals lie outside Latin-1, are kept. */
  function Upper(c: char): (r: char)
    ensures IsLowerLetter(c) && c != '\U{df}' && c != '\U{ff}' ==> r as int == c as int - 32
    ensures IsUpperLetter(c) || !IsCased(c) ==> r == c
  {
    if 'a' <= c <= 'z' || ('\U{e0}' <= c <= '\U{fe}' && c != '\U{f7}') then (c as int - 32) as char else c
  }

  /** `str.title()`: a cased character is upper-cased after an uncased one and lower-cased after a cased one. */
  function TitleFrom(s: string, afterCased: bool): (r: string)
    ensures |r| == |s|
    ensures forall i :: 0 <= i < |s| ==> IsCased(r[i]) == IsCased(s[i])
    ensures forall i :: 0 <= i < |s| ==> Lower(r[i]) == Lower(s[i])
    ensures forall i :: 0 <= i < |s| && !IsCased(s[i]) ==> r[i] == s[i]
    decreases |s|
  {
    if |s| == 0 then []
    else if !IsCased(s[0]) then [s[0]] + TitleFrom(s[1..], false)
    else if afterCased then [Lower(s[0])] + TitleFrom(s[1..], true)
    else [Upper(s[0])] + TitleFrom(s[1..], true)
  }

  /** Title-casing changes only the case of letters: the lower-cased text is the same. */
  function Title(s: string): (r: string)
    ensures |r| == |s|
    ensures LowerStr(r) == LowerStr(s)
    ensures forall i :: 0 <= i < |s| && !IsCased(s[i]) ==> r[i] == s[i]
  {
    TitleFrom(s, false)
  }

  /** Title-casing a title-cased text changes nothing. */
  lemma {:induction false} TitleFromIdempotent(s: string, afterCased: bool)
    ensures TitleFrom(TitleFrom(s, afterCased), afterCased) == TitleFrom(s, afterCased)
    decreases |s|
  {
    if |s| > 0 {
      var t := TitleFrom(s, afterCased);
      assert IsCased(t[0]) == IsCased(s[0]);
      assert t[1..] == TitleFrom(s[1..], IsCased(s[0]));
      TitleFromIdempotent(s[1..], IsCased(s[0]));
    }
  }

  lemma TitleIdempotent(s: string)
    ensures Title(Title(s)) == Title(s)
  {
    TitleFromIdempotent(s, false);
  }

  // ---------------------------------------------------------------------------
  // The specialised classes
  // ---------------------------------------------------------------------------

  const DefaultReason := "formato inválido"
  const DefaultPasswordReason := "senha não atende critérios"

  datatype Raised =
    | InvalidCpf(cpf: string, reason: string)
    | InvalidIe(ie: string, reason: string)
    | InvalidPassword(reason: string)
    | BrowserLaunch(msg: string, browserType: string)
    | BrowserClose(msg: string)
    | PageLoad(url: string, msg: string, timeoutSeconds: Option<int>)
    | LoginFailed(msg: string, username: Option<string>, step: Option<string>)
    | SessionConflict(msg: string)
    | SessionExpired(msg: string)
    | Captcha(msg: string)
    | MenuNotFound(menuName: string, pageUrl: Option<string>)
    | ElementNotFound(selector: string, elementType: string, timeoutSeconds: Option<int>)
    | OperationTimeout(operation: string, limitSeconds: int, extra: Option<string>)
    | DataNotFound(dataType: string, pageContext: Option<string>)
    | DataParsing(dataType: string, rawData: Option<string>, parsingError: Option<string>)
    | DbConnection(dbPath: string, errorDetails: string)
    | Query(query: string, errorDetails: string)
    | Duplicate(table: string, keyField: Option<string>, keyValue: Option<string>)
    | Encryption(dataType: string)
    | Decryption(dataType: string)
    | MissingKey(keyType: string)
    | RetryExhausted(operation: string, maxAttempts: int, lastError: Option<string>)
    | ConnectionTimeout(url: string, limitSeconds: int)
    | ServerError(statusCode: int, url: string, responseText: Option<string>)
    | ClientError(statusCode: int, url: string)

  /** The error code each specialised class fixes. */
  function Code(k: Raised): (c: string)
    ensures c != ""
  {
    match k
    case InvalidCpf(_, _) => "CPF_INVALID"
    case InvalidIe(_, _) => "IE_INVALID"
    case InvalidPassword(_) => "PASSWORD_INVALID"
    case BrowserLaunch(_, _) => "BROWSER_LAUNCH_FAILED"
    case BrowserClose(_) => "BROWSER_CLOSE_FAILED"
    case PageLoad(_, _, _) => "PAGE_LOAD_FAILED"
    case LoginFailed(_, _, _) => "LOGIN_FAILED"
    case SessionConflict(_) => "SESSION_CONFLICT"
    case SessionExpired(_) => "SESSION_EXPIRED"
    case Captcha(_) => "CAPTCHA_REQUIRED"
    case MenuNotFound(_, _) => "MENU_NOT_FOUND"
    case ElementNotFound(_, _, _) => "ELEMENT_NOT_FOUND"
    case OperationTimeout(_, _, _) => "OPERATION_TIMEOUT"
    case DataNotFound(_, _) => "DATA_NOT_FOUND"
    case DataParsing(_, _, _) => "DATA_PARSING_FAILED"
    case DbConnection(_, _) => "DB_CONNECTION_FAILED"
    case Query(_, _) => "QUERY_EXECUTION_FAILED"
    case Duplicate(_, _, _) => "DUPLICATE_RECORD"
    case Encryption(_) => "ENCRYPTION_FAILED"
    case Decryption(_) => "DECRYPTION_FAILED"
    case MissingKey(_) => "KEY_NOT_FOUND"
    case RetryExhausted(_, _, _) => "RETRY_EXHAUSTED"
    case ConnectionTimeout(_, _) => "CONNECTION_TIMEOUT"
    case ServerError(_, _, _) => "SERVER_ERROR"
    case ClientError(_, _) => "CLIENT_ERROR"
  }

  /** `" | ".join` of the optional parts that are present and non-empty. */
  function JoinGiven(a: Option<string>, b: Option<string>): (r: string)
    ensures !Given(a) && !Given(b) ==> r == ""
    ensures Given(a) && Given(b) ==> r == a.value + " | " + b.value
    ensures Given(a) != Given(b) ==> r == (if Given(a) then a.value else b.value)
  {
    var parts := (if Given(a) then [a.value] else []) + (if Given(b) then [b.value] else []);
    if Given(a) && Given(b) then JoinTwo(a.value, b.value, " | "); Join(parts, " | ")
    else Join(parts, " | ")
  }

  function Labelled(caption: string, x: Option<string>): (r: Option<string>)
    ensures r.Some? <==> Given(x)
    ensures Given(x) ==> r == Some(caption + x.value) && Given(r)
  {
    if Given(x) then Some(caption + x.value) else None
  }

  /**
   * The caller-supplied text each class puts at the end of its message: the `message`
   * argument, or the CPF, IE, menu, operation, data type, table, key type or status code.
   * It is empty for the four classes with a fixed message and for `ElementNotFound`,
   * whose element type leads the message instead.
   */
  function Subject(k: Raised): string
  {
    match k
    case InvalidCpf(cpf, _) => cpf
    case InvalidIe(ie, _) => ie
    case InvalidPassword(_) => ""
    case BrowserLaunch(m, _) => m
    case BrowserClose(m) => m
    case PageLoad(_, m, _) => m
    case LoginFailed(m, _, _) => m
    case SessionConflict(m) => m
    case SessionExpired(m) => m
    case Captcha(m) => m
    case MenuNotFound(menu, _) => menu
    case ElementNotFound(_, _, _) => ""
    case OperationTimeout(op, _, _) => op
    case DataNotFound(t, _) => t
    case DataParsing(t, _, _) => t
    case DbConnection(_, _) => ""
    case Query(_, _) => ""
    case Duplicate(table, _, _) => table
    case Encryption(t) => t
    case Decryption(t) => t
    case MissingKey(t) => t
    case RetryExhausted(op, _, _) => op
    case ConnectionTimeout(_, _) => ""
    case ServerError(status, _, _) => IntToString(status)
    case ClientError(status, _) => IntToString(status)
  }

  /**
   * The fixed text each class puts before the subject; it is the whole message for the
   * four classes with a fixed message, and empty for the three that pass the caller's
   * message through unchanged.
   */
  function Caption(k: Raised): string
  {
    match k
    case InvalidCpf(_, _) => "CPF inválido: "
    case InvalidIe(_, _) => "IE inválida: "
    case InvalidPassword(_) => "Senha inválida"
    case BrowserLaunch(_, b) => "Falha ao iniciar navegador " + b + ": "
    case BrowserClose(_) => "Falha ao fechar navegador: "
    case PageLoad(_, _, _) => "Falha ao carregar página: "
    case LoginFailed(_, _, _) => "Falha no login: "
    case SessionConflict(_) => ""
    case SessionExpired(_) => ""
    case Captcha(_) => ""
    case MenuNotFound(_, _) => "Menu não encontrado: "
    case ElementNotFound(_, _, _) => ""
    case OperationTimeout(_, _, _) => "Timeout na operação: "
    case DataNotFound(_, _) => "Dados não encontrados: "
    case DataParsing(_, _, _) => "Erro ao processar dados: "
    case DbConnection(_, _) => "Falha na conexão com banco de dados"
    case Query(_, _) => "Erro na execução de query"
    case Duplicate(_, _, _) => "Registro duplicado na tabela "
    case Encryption(_) => "Falha ao criptografar "
    case Decryption(_) => "Falha ao descriptografar "
    case MissingKey(_) => "Chave não encontrada: "
    case RetryExhausted(_, n, _) => "Esgotadas " + IntToString(n) + " tentativas para: "
    case ConnectionTimeout(_, _) => "Timeout de conexão"
    case ServerError(_, _, _) => "Erro do servidor: "
    case ClientError(_, _) => "Erro do cliente: "
  }

  /**
   * The message each specialised class's `__init__` passes to the base class: its caption
   * followed by its subject, except for `ElementNotFound`, whose title-cased element type
   * leads.
   */
  function Message(k: Raised): (m: string)
    ensures EndsWith(m, Subject(k))
    ensures k.SessionConflict? || k.SessionExpired? || k.Captcha? ==> m == Subject(k)
    ensures k.ElementNotFound? ==> StartsWith(m, Title(k.elementType))
  {
    if k.ElementNotFound? then
      var m := Title(k.elementType) + " não encontrado";
      assert m[..|Title(k.elementType)|] == Title(k.elementType);
      m
    else
      var m := Caption(k) + Subject(k);
      assert m[|m| - |Subject(k)|..] == Subject(k);
      m
  }

  /** The details each specialised class's `__init__` passes to the base class. */
  function Details(k: Raised): Option<string>
  {
    match k
    case InvalidCpf(_, reason) => Some(reason)
    case InvalidIe(_, reason) => Some(reason)
    case InvalidPassword(reason) => Some(reason)
    case BrowserLaunch(_, _) => None
    case BrowserClose(_) => None
    case PageLoad(url, _, t) =>
      Some("URL: " + url + (if GivenInt(t) then " | Timeout: " + IntToString(t.value) + "s" else ""))
    case LoginFailed(_, user, step) => Some(JoinGiven(Labelled("Usuário: ", user), Labelled("Etapa: ", step)))
    case SessionConflict(_) => Some("Aguarde alguns minutos ou encerre a sessão anterior")
    case SessionExpired(_) => Some("Necessário fazer login novamente")
    case Captcha(_) => Some("Intervenção manual necessária")
    case MenuNotFound(_, url) => Labelled("URL: ", url)
    case ElementNotFound(sel, _, t) =>
      Some("Seletor: " + sel + (if GivenInt(t) then " | Timeout: " + IntToString(t.value) + "s" else ""))
    case OperationTimeout(_, secs, extra) =>
      Some("Limite: " + IntToString(secs) + "s" + (if Given(extra) then " | " + extra.value else ""))
    case DataNotFound(_, ctx) => ctx
    case DataParsing(_, raw, err) =>
      var rawPart := if Given(raw) then Some("Dados brutos: " + Prefix(raw.value, 100) + "...") else None;
      Some(JoinGiven(rawPart, Labelled("Erro: ", err)))
    case DbConnection(path, err) => Some("Caminho: " + path + " | Erro: " + err)
    case Query(q, err) => Some("Query: " + Prefix(q, 100) + "... | Erro: " + err)
    case Duplicate(_, field, value) =>
      if Given(field) && Given(value) then Some("Campo: " + field.value + " | Valor: " + value.value) else None
    case Encryption(_) => None
    case Decryption(_) => None
    case MissingKey(_) => None
    case RetryExhausted(_, _, last) => last
    case ConnectionTimeout(url, secs) => Some("URL: " + url + " | Timeout: " + IntToString(secs) + "s")
    case ServerError(_, url, resp) =>
      Some("URL: " + url + (if Given(resp) then " | Resposta: " + Prefix(resp.value, 200) + "..." else ""))
    case ClientError(_, url) => Some("URL: " + url)
  }

  /** The `__init__` of each specialised class. */
  function Build(k: Raised): (e: BotError)
    ensures e.errorCode == Some(Code(k)) && Given(e.errorCode)
    ensures EndsWith(e.message, Subject(k))
    ensures k.SessionConflict? || k.SessionExpired? || k.Captcha? ==> e.message == Subject(k)
    ensures k.ElementNotFound? ==> StartsWith(e.message, Title(k.elementType))
  {
    BotError(Message(k), Some(Code(k)), Details(k))
  }

  /** The rendering of every raised error shows the caller-supplied subject of its message. */
  lemma StrShowsSubject(k: Raised)
    ensures Contains(Str(Build(k)), Subject(k))
  {
    var e := Build(k);
    var m, sub, r := e.message, Subject(k), Str(e);
    assert EndsWith(m, sub) && StartsWith(r, m);
    var head := m[..|m| - |sub|];
    assert r == head + sub + r[|m|..] by {
      assert m == head + sub;
      assert r == m + r[|m|..];
    }
    ContainsWitness(head, sub, r[|m|..]);
  }

  /** A login failure with neither user nor step renders without a details segment. */
  lemma LoginFailedBare(m: string)
    ensures Str(Build(LoginFailed(m, None, None))) == "Falha no login: " + m + " - " + CodePart("LOGIN_FAILED")
  {
  }

  /** The login details list exactly the supplied parts, in order, separated by `' | '`. */
  lemma LoginFailedDetails(m: string, user: Option<string>, step: Option<string>)
    ensures Given(user) && Given(step) ==>
      Build(LoginFailed(m, user, step)).details == Some(("Usuário: " + user.value) + " | " + ("Etapa: " + step.value))
    ensures Given(user) && !Given(step) ==> Build(LoginFailed(m, user, step)).details == Some("Usuário: " + user.value)
    ensures !Given(user) && Given(step) ==> Build(LoginFailed(m, user, step)).details == Some("Etapa: " + step.value)
  {
    var u, s := Labelled("Usuário: ", user), Labelled("Etapa: ", step);
    assert Build(LoginFailed(m, user, step)).details == Some(JoinGiven(u, s));
  }

  /** Parsing errors keep only the first 100 characters of the raw data: what follows cannot matter. */
  lemma DataParsingKeepsPrefix(t: string, raw1: string, raw2: string, err: Option<string>)
    requires raw1 != "" && raw2 != ""
    requires Prefix(raw1, 100) == Prefix(raw2, 100)
    ensures Build(DataParsing(t, Some(raw1), err)) == Build(DataParsing(t, Some(raw2), err))
  {
  }

  /** Query errors keep only the first 100 characters of the query. */
  lemma QueryKeepsPrefix(q1: string, q2: string, err: string)
    requires Prefix(q1, 100) == Prefix(q2, 100)
    ensures Build(Query(q1, err)) == Build(Query(q2, err))
  {
  }

  /** The details of a parsing error are bounded whatever the size of the raw data. */
  lemma DataParsingDetailsBounded(t: string, raw: Option<string>, err: Option<string>)
    ensures |Build(DataParsing(t, raw, err)).details.value| <= 14 + 100 + 3 + 3 + 6 + (if err.Some? then |err.value| else 0)
  {
  }

  // ---------------------------------------------------------------------------
  // Session conflict and user-facing messages
  // ---------------------------------------------------------------------------

  const ConflictIndicators: seq<string> := [
    "já está conectado", "outra sessão", "sessão ativa", "usuário logado",
    "login simultâneo", "multiple sessions", "session conflict"]

  /** `is_session_conflict_message` of the exceptions module: any of seven indicators in the lower-cased text. */
  function IsSessionConflict(text: string): (r: bool)
    ensures text == "" ==> !r
    ensures r <==> text != "" && exists i :: 0 <= i < |ConflictIndicators| && Contains(LowerStr(text), ConflictIndicators[i])
  {
    text != "" && exists i :: 0 <= i < |ConflictIndicators| && Contains(LowerStr(text), ConflictIndicators[i])
  }

  /** Every text the two-indicator detector of the validators flags is flagged here as well. */
  lemma ShortConflictImpliesLong(text: string)
    ensures Validators.IsSessionConflictShort(text) ==> IsSessionConflict(text)
  {
    if Validators.IsSessionConflictShort(text) {
      if Contains(LowerStr(text), ConflictIndicators[0]) {
      } else {
        assert Contains(LowerStr(text), ConflictIndicators[1]);
      }
    }
  }

  lemma LowerSample()
    ensures LowerStr("Sessão ativa") == "sessão ativa"
  {
    var t := LowerStr("Sessão ativa");
    forall i | 0 <= i < 12 ensures t[i] == "sessão ativa"[i] { }
  }

  lemma SampleMentionsActiveSession()
    ensures Contains(LowerStr("Sessão ativa"), "sessão ativa")
  {
    var pat := ConflictIndicators[2];
    LowerSample();
    ContainsWitness([], pat, []);
    assert [] + pat + [] == LowerStr("Sessão ativa");
  }

  lemma LacksShortIndicators(low: string)
    requires low == "sessão ativa"
    ensures !Contains(low, "já está conectado") && !Contains(low, "outra sessão")
  {
    NotContainsByChar(low, "já está conectado", 'j');
    NotContainsByChar(low, "outra sessão", 'u');
  }

  /** A text about an active session (`sessão ativa`) is a conflict here but not for the validators. */
  lemma LongDetectorIsWider()
    ensures IsSessionConflict("Sessão ativa") && !Validators.IsSessionConflictShort("Sessão ativa")
  {
    SampleMentionsActiveSession();
    LowerSample();
    LacksShortIndicators(LowerStr("Sessão ativa"));
    ShortMissesActiveSession("Sessão ativa");
  }

  /** Any text whose lower-cased form mentions an active session is a conflict for this detector. */
  lemma LongFlagsActiveSession(text: string)
    requires Contains(LowerStr(text), "sessão ativa")
    ensures IsSessionConflict(text)
  {
    var low := LowerStr(text);
    assert text != "" by {
      assert OccursAt(low, "sessão ativa", Find(low, "sessão ativa").value);
    }
    assert Contains(low, ConflictIndicators[2]);
  }

  /**
   * A text mentioning an active session but neither of the validators' two indicators is
   * a conflict here and not for the validators: the detectors disagree on all of them.
   */
  lemma ShortMissesActiveSession(text: string)
    requires Contains(LowerStr(text), "sessão ativa")
    requires !Contains(LowerStr(text), "já está conectado") && !Contains(LowerStr(text), "outra sessão")
    ensures IsSessionConflict(text) && !Validators.IsSessionConflictShort(text)
  {
    LongFlagsActiveSession(text);
  }

  const FriendlyTable: map<string, string> := map[
    "CPF_INVALID" := "❌ CPF inválido. Verifique o formato (000.000.000-00).",
    "IE_INVALID" := "❌ Inscrição Estadual inválida. Verifique o número.",
    "PASSWORD_INVALID" := "❌ Senha inválida. Verifique se atende aos critérios.",
    "BROWSER_LAUNCH_FAILED" := "❌ Não foi possível iniciar o navegador. Verifique se o Chrome está instalado.",
    "PAGE_LOAD_FAILED" := "❌ Página não carregou. Verifique sua conexão com a internet.",
    "LOGIN_FAILED" := "❌ Falha no login. Verifique suas credenciais.",
    "SESSION_CONFLICT" := "⚠️ Você já está logado em outra sessão. Aguarde alguns minutos.",
    "SESSION_EXPIRED" := "⚠️ Sua sessão expirou. Faça login novamente.",
    "CAPTCHA_REQUIRED" := "🔍 CAPTCHA detectado. Intervenção manual necessária.",
    "MENU_NOT_FOUND" := "❌ Menu não encontrado. O site pode ter mudado.",
    "ELEMENT_NOT_FOUND" := "❌ Elemento não encontrado na página.",
    "OPERATION_TIMEOUT" := "⏰ Operação demorou muito tempo. Tente novamente.",
    "DATA_NOT_FOUND" := "❌ Dados não encontrados na página.",
    "DB_CONNECTION_FAILED" := "❌ Erro no banco de dados. Contate o suporte.",
    "DUPLICATE_RECORD" := "⚠️ Registro já existe no banco de dados.",
    "RETRY_EXHAUSTED" := "❌ Máximo de tentativas atingido. Tente mais tarde.",
    "CONNECTION_TIMEOUT" := "❌ Timeout de conexão. Verifique sua internet.",
    "SERVER_ERROR" := "❌ Erro no servidor SEFAZ. Tente mais tarde."]

  /** `create_user_friendly_error_message`: the table entry of the code, or the raw message. */
  function FriendlyMessage(e: BotError): (r: string)
    ensures e.errorCode.Some? && e.errorCode.value in FriendlyTable ==> r == FriendlyTable[e.errorCode.value]
    ensures e.errorCode.None? || e.errorCode.value !in FriendlyTable ==> r == "❌ Erro: " + e.message
  {
    match e.errorCode
    case Some(c) => if c in FriendlyTable then FriendlyTable[c] else "❌ Erro: " + e.message
    case None => "❌ Erro: " + e.message
  }

  /** The user never sees the details: they do not influence the friendly message. */
  lemma FriendlyIgnoresDetails(e: BotError, d: Option<string>)
    ensures FriendlyMessage(e.(details := d)) == FriendlyMessage(e)
  {
  }

  /**
   * Seven classes have no table entry — browser close, data parsing, query, encryption,
   * decryption, missing key and client error — and fall back to their raw message.
   */
  lemma FriendlyFallbackClasses(k: Raised)
    ensures Code(k) !in FriendlyTable <==>
      k.BrowserClose? || k.DataParsing? || k.Query? || k.Encryption? || k.Decryption? || k.MissingKey? || k.ClientError?
    ensures Code(k) !in FriendlyTable ==> FriendlyMessage(Build(k)) == "❌ Erro: " + Build(k).message
  {
  }
}

=== FILE: extraction.dfy ===
/**
 * Field extraction of `DataExtractor`: the selector fall-back chain, the three pending-status
 * check boxes, and the four DIEF receipt fields read out of a message's text with regular
 * expressions.  The page itself is not modelled: what a selector query returned is an input.
 */
module Extraction {
  import opened Options
  import opened Text

  // ---------------------------------------------------------------------------
  // Selector fall-backs
  // ---------------------------------------------------------------------------

  /**
   * What one selector query gave: no element, an element whose text content was read
   * (`None` for an empty or absent content), or an exception.
   */
  datatype Probe = Missing | Found(content: Option<string>) | Fails

  /** The value `_extract_field_with_fallbacks` stores for a found element: stripped text, or nothing. */
  function FoundValue(content: Option<string>): (r: Option<string>)
    ensures content.None? || content.value == "" ==> r.None?
    ensures r.Some? ==> r.value == PyStrip(content.value)
  {
    if content.Some? && content.value != "" then Some(PyStrip(content.value)) else None
  }

  /** A probe that ends the chain: an element with text that is not blank. */
  predicate Useful(p: Probe) { p.Found? && FoundValue(p.content).Some? && FoundValue(p.content).value != "" }

  /** The first useful probe, if any. */
  function FirstUseful(probes: seq<Probe>): (r: Option<nat>)
    ensures r.Some? ==> r.value < |probes| && Useful(probes[r.value])
    ensures r.Some? ==> forall j :: 0 <= j < r.value ==> !Useful(probes[j])
    ensures r.None? ==> forall j :: 0 <= j < |probes| ==> !Useful(probes[j])
  {
    if |probes| == 0 then None
    else if Useful(probes[0]) then Some(0)
    else
      assert forall j :: 1 <= j < |probes| ==> probes[j] == probes[1..][j - 1];
      match FirstUseful(probes[1..])
      case None => None
      case Some(i) =>
        NoneUsefulShift(probes, i);
        Some(i + 1)
  }

  /** No useful probe before `i` in the tail and none at the head: none before `i + 1` in all. */
  lemma NoneUsefulShift(probes: seq<Probe>, i: nat)
    requires |probes| > 0 && !Useful(probes[0]) && i < |probes|
    requires forall j :: 0 <= j < i ==> !Useful(probes[1..][j])
    ensures forall j :: 0 <= j <= i ==> !Useful(probes[j])
  {
    forall j | 0 <= j <= i ensures !Useful(probes[j]) {
      if j > 0 {
        assert probes[j] == probes[1..][j - 1];
      }
    }
  }

  /** The last probe that found an element, if any. */
  function LastFound(probes: seq<Probe>): (r: Option<nat>)
    ensures r.Some? ==> r.value < |probes| && probes[r.value].Found?
    ensures r.Some? ==> forall j :: r.value < j < |probes| ==> !probes[j].Found?
    ensures r.None? <==> forall j :: 0 <= j < |probes| ==> !probes[j].Found?
  {
    if |probes| == 0 then None
    else
      assert forall j :: 1 <= j < |probes| ==> probes[j] == probes[1..][j - 1];
      match LastFound(probes[1..])
      case Some(i) => Some(i + 1)
      case None => if probes[0].Found? then Some(0) else None
  }

  /**
   * `_extract_field_with_fallbacks`: the selectors are tried in order; every element found
   * overwrites the field, and the first non-blank value ends the search.  Missing elements
   * and failing queries leave the field as it was.
   */
  function Fallback(current: Option<string>, probes: seq<Probe>): (r: Option<string>)
    ensures FirstUseful(probes).Some? ==>
      r == FoundValue(probes[FirstUseful(probes).value].content)
    ensures FirstUseful(probes).None? && (exists j :: 0 <= j < |probes| && probes[j].Found?) ==>
      r.None? || r.value == ""
    ensures FirstUseful(probes).None? && LastFound(probes).Some? ==>
      r == FoundValue(probes[LastFound(probes).value].content)
    ensures (forall j :: 0 <= j < |probes| ==> !probes[j].Found?) ==> r == current
    decreases |probes|
  {
    if |probes| == 0 then current
    else
      var tail := probes[1..];
      assert forall j :: 1 <= j < |probes| ==> probes[j] == tail[j - 1];
      match probes[0]
      case Found(content) =>
        var v := FoundValue(content);
        if v.Some? && v.value != "" then v else Fallback(v, tail)
      case _ => Fallback(current, tail)
  }

  // ---------------------------------------------------------------------------
  // Pending-status check boxes
  // ---------------------------------------------------------------------------

  datatype PendingFlags = PendingFlags(divida: string, omisso: string, restritivo: string)

  const Unchecked := "NÃO VERIFICADO"

  /** A check box found gives "SIM", none found gives "NÃO". */
  function YesNo(found: bool): (r: string)
    ensures r == "SIM" <==> found
  {
    if found then "SIM" else "NÃO"
  }

  /**
   * `_extract_pending_status_flags`: each query result (`None` when it raised) in order;
   * `selectorsFail` is the selector table itself failing.  An exception anywhere replaces
   * all three answers, including the ones already written.
   */
  function ReadPendingFlags(selectorsFail: bool, divida: Option<bool>, omisso: Option<bool>, restritivo: Option<bool>): (r: PendingFlags)
    ensures r.divida == Unchecked <==> r.omisso == Unchecked
    ensures r.omisso == Unchecked <==> r.restritivo == Unchecked
    ensures r.divida == Unchecked <==> selectorsFail || divida.None? || omisso.None? || restritivo.None?
    ensures r.divida != Unchecked ==> (r.divida == "SIM" <==> divida == Some(true))
    ensures r.omisso != Unchecked ==> (r.omisso == "SIM" <==> omisso == Some(true))
    ensures r.restritivo != Unchecked ==> (r.restritivo == "SIM" <==> restritivo == Some(true))
  {
    if selectorsFail || divida.None? || omisso.None? || restritivo.None? then
      PendingFlags(Unchecked, Unchecked, Unchecked)
    else
      PendingFlags(YesNo(divida.value), YesNo(omisso.value), YesNo(restritivo.value))
  }

  // ---------------------------------------------------------------------------
  // DIEF receipt fields
  // ---------------------------------------------------------------------------

  /** The capture groups `(\d{6})`, `([^\n]+)`, `([\d-]+)` and `(\d+)`. */
  datatype Capture = SixDigits | RestOfLine | DigitsAndDashes | DigitRun

  /** A pattern `<label>\s*(<capture>)` and the key its stripped group is stored under. */
  datatype DiefPattern = DiefPattern(key: string, heading: string, capture: Capture)

  const ContentKey := "conteudo_mensagem"

  const CompetenciaLabel := "Período da DIEF:"
  const SituacaoLabel := "Situação:"
  const ChaveLabel := "Chave de segurança:"
  const ProtocoloLabel := "Protocolo DIEF:"

  const Competencia := DiefPattern("competencia_dief", CompetenciaLabel, SixDigits)
  const Situacao := DiefPattern("status_dief", SituacaoLabel, RestOfLine)
  const Chave := DiefPattern("chave_dief", ChaveLabel, DigitsAndDashes)
  const Protocolo := DiefPattern("protocolo_dief", ProtocoloLabel, DigitRun)

  const DiefPatterns := [Competencia, Situacao, Chave, Protocolo]

  predicate NotNewline(c: char) { c != '\n' }
  predicate IsDigitOrDash(c: char) { IsDigit(c) || c == '-' }

  /** What a group of each kind looks like. */
  predicate GroupShape(c: Capture, g: string)
  {
    |g| > 0 &&
    match c
    case SixDigits => |g| == 6 && AllDigits(g)
    case DigitRun => AllDigits(g)
    case DigitsAndDashes => forall i :: 0 <= i < |g| ==> IsDigitOrDash(g[i])
    case RestOfLine => forall i :: 0 <= i < |g| ==> NotNewline(g[i])
  }

  /**
   * Where `[^\n]+` starts when the white space after the label runs to the end of the text:
   * the engine hands back white space from the right until the group can take a character
   * that is not a newline.
   */
  function LastNotNewline(u: string, k: nat): (r: Option<nat>)
    requires k <= |u|
    ensures r.Some? ==> r.value < k && u[r.value] != '\n'
    ensures r.Some? ==> forall j :: r.value < j < k ==> u[j] == '\n'
    ensures r.None? ==> forall j :: 0 <= j < k ==> u[j] == '\n'
  {
    if k == 0 then None
    else if u[k - 1] != '\n' then Some(k - 1)
    else LastNotNewline(u, k - 1)
  }

  /** The group the pattern captures in `u`, the text right after its label (before `.strip()`). */
  function GroupAfter(u: string, c: Capture): (r: Option<string>)
    ensures r.Some? ==> GroupShape(c, r.value)
  {
    var k := LeadCount(u, IsPySpace);
    match c
    case SixDigits =>
      if k + 6 <= |u| && AllDigits(u[k..k + 6]) then Some(u[k..k + 6]) else None
    case DigitRun =>
      var run := TakeWhile(u[k..], IsDigit);
      if |run| > 0 then Some(run) else None
    case DigitsAndDashes =>
      var run := TakeWhile(u[k..], IsDigitOrDash);
      if |run| > 0 then Some(run) else None
    case RestOfLine =>
      if k < |u| then
        assert u[k..][0] == u[k];
        Some(TakeWhile(u[k..], NotNewline))
      else
        match LastNotNewline(u, k)
        case None => None
        case Some(p) =>
          assert u[p..][0] == u[p];
          Some(TakeWhile(u[p..], NotNewline))
  }

  /** The group of a match of the pattern starting at `i`, if one starts there. */
  function MatchAt(s: string, p: DiefPattern, i: nat): (r: Option<string>)
    ensures r.Some? ==> OccursAt(s, p.heading, i) && GroupShape(p.capture, r.value)
  {
    if OccursAt(s, p.heading, i) then GroupAfter(s[i + |p.heading|..], p.capture) else None
  }

  /** `re.search`: the leftmost position at or after `from` where a match starts. */
  function FirstMatch(s: string, p: DiefPattern, from: nat): (r: Option<nat>)
    ensures r.Some? ==> from <= r.value <= |s| && MatchAt(s, p, r.value).Some?
    ensures r.Some? ==> forall j :: from <= j < r.value ==> MatchAt(s, p, j).None?
    ensures r.None? ==> forall j :: from <= j ==> MatchAt(s, p, j).None?
    decreases |s| + 1 - from
  {
    if from > |s| then None
    else if MatchAt(s, p, from).Some? then Some(from)
    else FirstMatch(s, p, from + 1)
  }

  /** The value stored for the pattern: the stripped group of the leftmost match. */
  function Search(s: string, p: DiefPattern): (r: Option<string>)
    ensures r.Some? ==> Contains(s, p.heading)
  {
    match FirstMatch(s, p, 0)
    case None => None
    case Some(i) =>
      assert OccursAt(s, p.heading, i);
      Some(PyStrip(MatchAt(s, p, i).value))
  }

  /** A match with none further left is the one `re.search` reports. */
  lemma FirstMatchIs(s: string, p: DiefPattern, m: nat)
    requires MatchAt(s, p, m).Some?
    requires forall j :: 0 <= j < m ==> MatchAt(s, p, j).None?
    ensures FirstMatch(s, p, 0) == Some(m)
  {
  }

  /** The stored values have the shape of their groups: strip never disturbs a digit group. */
  lemma SearchShape(s: string, p: DiefPattern)
    requires Search(s, p).Some? && p.capture != RestOfLine
    ensures GroupShape(p.capture, Search(s, p).value)
  {
    var g := MatchAt(s, p, FirstMatch(s, p, 0).value).value;
    ShapedGroupUnstripped(p.capture, g);
  }

  /** Digit and dash groups have no white space at either end, so stripping keeps them. */
  lemma ShapedGroupUnstripped(c: Capture, g: string)
    requires GroupShape(c, g) && c != RestOfLine
    ensures PyStrip(g) == g
  {
    assert !IsPySpace(g[0]) && !IsPySpace(g[|g| - 1]);
  }

  /** A status is one line: neither it nor anything the search stores for it holds a newline. */
  lemma StatusIsOneLine(s: string)
    requires Search(s, Situacao).Some?
    ensures forall i :: 0 <= i < |Search(s, Situacao).value| ==> Search(s, Situacao).value[i] != '\n'
  {
    var at := FirstMatch(s, Situacao, 0).value;
    var g := MatchAt(s, Situacao, at).value;
    SearchFound(s, Situacao, at);
    assert GroupShape(RestOfLine, g);
    StripKeepsOneLine(g);
  }

  /** Stripping a text without line breaks leaves none. */
  lemma StripKeepsOneLine(g: string)
    requires forall i :: 0 <= i < |g| ==> NotNewline(g[i])
    ensures forall i :: 0 <= i < |PyStrip(g)| ==> PyStrip(g)[i] != '\n'
  {
    var v := PyStrip(g);
    assert v == StripWith(g, IsPySpace);
    forall i | 0 <= i < |v| ensures v[i] != '\n' {
      assert v[i] == g[LeadCount(g, IsPySpace) + i];
    }
  }

  /**
   * `\s*` cannot give back what `(\d{6})` needs: white space and digits are disjoint, so the six
   * digits that follow any run of white space are the group.
   */
  lemma SixDigitsAfterSpace(u: string, k: nat)
    requires k + 6 <= |u|
    requires forall j :: 0 <= j < k ==> IsPySpace(u[j])
    requires AllDigits(u[k..k + 6])
    ensures GroupAfter(u, SixDigits) == Some(u[k..k + 6])
  {
    assert u == u[..k] + u[k..];
    assert u[k..][0] == u[k + 0];
    LeadCountWhole(u[..k], u[k..], IsPySpace);
  }

  /**
   * A status label followed only by white space at the very end of the text still matches:
   * the group is one white-space character handed back by `\s*`, and the stored status is
   * empty.
   */
  lemma BlankStatusAtEnd(s: string, tail: string)
    requires forall j :: 0 <= j < |tail| ==> IsPySpace(tail[j])
    requires exists j :: 0 <= j < |tail| && tail[j] != '\n'
    ensures MatchAt(s + SituacaoLabel + tail, Situacao, |s|).Some?
    ensures PyStrip(MatchAt(s + SituacaoLabel + tail, Situacao, |s|).value) == ""
  {
    var t := s + SituacaoLabel + tail;
    assert t[|s|..|s| + |SituacaoLabel|] == SituacaoLabel;
    assert t[|s| + |SituacaoLabel|..] == tail;
    var j :| 0 <= j < |tail| && tail[j] != '\n';
    assert LastNotNewline(tail, |tail|).Some?;
    var g := MatchAt(t, Situacao, |s|).value;
    assert forall i :: 0 <= i < |g| ==> IsPySpace(g[i]);
  }

  /** A label with nothing but white space behind it on the whole text gives no status at all when that white space is all newlines. */
  lemma NewlinesOnlyNoStatus(s: string, tail: string)
    requires forall j :: 0 <= j < |tail| ==> tail[j] == '\n'
    ensures MatchAt(s + SituacaoLabel + tail, Situacao, |s|).None?
  {
    var t := s + SituacaoLabel + tail;
    assert t[|s|..|s| + |SituacaoLabel|] == SituacaoLabel;
    assert t[|s| + |SituacaoLabel|..] == tail;
    assert LeadCount(tail, IsPySpace) == |tail|;
  }

  // ---------------------------------------------------------------------------
  // Matches across blocks of text
  // ---------------------------------------------------------------------------

  /** The label occurs past `a` in `a + b` exactly where it occurs in `b`. */
  lemma OccursShift(a: string, b: string, pat: string, j: nat)
    ensures OccursAt(a + b, pat, |a| + j) <==> OccursAt(b, pat, j)
  {
    if j + |pat| <= |b| {
      assert (a + b)[|a| + j..|a| + j + |pat|] == b[j..j + |pat|];
    }
  }

  /** The text after a position past `a` is the text after the same position in `b`. */
  lemma TailShift(a: string, b: string, n: nat)
    requires n <= |b|
    ensures (a + b)[|a| + n..] == b[n..]
  {
  }

  /** A match that starts after `a` sees only what follows `a`. */
  lemma MatchShift(a: string, b: string, p: DiefPattern, j: nat)
    ensures MatchAt(a + b, p, |a| + j) == MatchAt(b, p, j)
  {
    OccursShift(a, b, p.heading, j);
    if OccursAt(b, p.heading, j) {
      TailShift(a, b, j + |p.heading|);
    }
  }

  /** Before `a` ends nothing matches when no occurrence of the label starts inside `a`. */
  lemma NoMatchInside(a: string, b: string, p: DiefPattern, j: nat)
    requires forall j :: 0 <= j < |a| ==> !OccursAt(a + b, p.heading, j)
    requires j < |a|
    ensures MatchAt(a + b, p, j).None?
  {
  }

  lemma SkipNone(a: string, b: string, p: DiefPattern)
    requires forall j :: 0 <= j < |a| ==> !OccursAt(a + b, p.heading, j)
    requires FirstMatch(b, p, 0).None?
    ensures FirstMatch(a + b, p, 0).None?
  {
    NoMatchBefore(a, b, p, |b| + 1);
  }

  /** Nothing matches in `a + b` before the shifted position of a match in `b` with none before it. */
  lemma NoMatchBefore(a: string, b: string, p: DiefPattern, m: nat)
    requires forall j :: 0 <= j < |a| ==> !OccursAt(a + b, p.heading, j)
    requires forall j :: 0 <= j < m ==> MatchAt(b, p, j).None?
    ensures forall j :: 0 <= j < |a| + m ==> MatchAt(a + b, p, j).None?
  {
    forall j | 0 <= j < |a| + m ensures MatchAt(a + b, p, j).None? {
      if j < |a| {
        NoMatchInside(a, b, p, j);
      } else {
        var i := j - |a|;
        MatchShift(a, b, p, i);
        assert |a| + i == j && MatchAt(b, p, i).None?;
      }
    }
  }

  lemma FirstMatchAfter(a: string, b: string, p: DiefPattern, m: nat)
    requires MatchAt(a + b, p, |a| + m).Some?
    requires forall j :: 0 <= j < |a| + m ==> MatchAt(a + b, p, j).None?
    ensures FirstMatch(a + b, p, 0) == Some(|a| + m)
  {
    FirstMatchIs(a + b, p, |a| + m);
  }

  lemma ShiftedFirst(a: string, b: string, p: DiefPattern, m: nat)
    requires forall j :: 0 <= j < |a| ==> !OccursAt(a + b, p.heading, j)
    requires MatchAt(b, p, m).Some?
    requires forall j :: 0 <= j < m ==> MatchAt(b, p, j).None?
    ensures FirstMatch(a + b, p, 0) == Some(|a| + m)
  {
    MatchShift(a, b, p, m);
    NoMatchBefore(a, b, p, m);
    FirstMatchAfter(a, b, p, m);
  }

  lemma SkipSome(a: string, b: string, p: DiefPattern, m: nat)
    requires forall j :: 0 <= j < |a| ==> !OccursAt(a + b, p.heading, j)
    requires FirstMatch(b, p, 0) == Some(m)
    ensures FirstMatch(a + b, p, 0) == Some(|a| + m)
    ensures MatchAt(a + b, p, |a| + m) == MatchAt(b, p, m)
  {
    MatchShift(a, b, p, m);
    ShiftedFirst(a, b, p, m);
  }

  lemma SearchFound(s: string, p: DiefPattern, i: nat)
    requires FirstMatch(s, p, 0) == Some(i)
    ensures Search(s, p) == Some(PyStrip(MatchAt(s, p, i).value))
  {
  }

  lemma SearchMissing(s: string, p: DiefPattern)
    requires FirstMatch(s, p, 0).None?
    ensures Search(s, p).None?
  {
  }

  /** When no occurrence of the label starts inside `a`, searching `a + b` is searching `b`. */
  lemma SearchSkips(a: string, b: string, p: DiefPattern)
    requires forall j :: 0 <= j < |a| ==> !OccursAt(a + b, p.heading, j)
    ensures Search(a + b, p) == Search(b, p)
  {
    var first := FirstMatch(b, p, 0);
    if first.None? {
      SkipNone(a, b, p);
      SearchMissing(a + b, p);
      SearchMissing(b, p);
    } else {
      var m := first.value;
      var k: nat := |a| + m;
      SkipSome(a, b, p, m);
      SearchFound(a + b, p, k);
      SearchFound(b, p, m);
    }
  }

  /** No occurrence starts in `a` when `a` lacks the label's first character. */
  lemma NoStartByFirstChar(a: string, b: string, L: string)
    requires |L| > 0 && L[0] !in a
    ensures forall j :: 0 <= j < |a| ==> !OccursAt(a + b, L, j)
  {
    forall j | 0 <= j < |a| ensures !OccursAt(a + b, L, j) {
      if j + |L| <= |a + b| {
        assert (a + b)[j..j + |L|][0] == a[j];
      }
    }
  }

  /** No occurrence starts in `a` when `a` is whole lines free of a label that fits on one line. */
  lemma NoStartByLines(a: string, b: string, L: string)
    requires '\n' !in L && !Contains(a, L)
    requires |a| > 0 && a[|a| - 1] == '\n'
    ensures forall j :: 0 <= j < |a| ==> !OccursAt(a + b, L, j)
  {
    forall j | 0 <= j < |a| ensures !OccursAt(a + b, L, j) {
      if j + |L| <= |a| {
        assert !OccursAt(a, L, j);
        assert (a + b)[j..j + |L|] == a[j..j + |L|];
      } else if j + |L| <= |a + b| {
        assert (a + b)[j..j + |L|][|a| - 1 - j] == '\n';
        assert L[|a| - 1 - j] != '\n';
      }
    }
  }

  /** What a value must look like for the pattern to capture exactly it, given what follows it. */
  predicate Fits(c: Capture, v: string, rest: string)
  {
    |v| > 0 && !IsPySpace(v[0]) && !IsPySpace(v[|v| - 1]) &&
    match c
    case SixDigits => |v| == 6 && AllDigits(v)
    case DigitRun => AllDigits(v) && (|rest| == 0 || !IsDigit(rest[0]))
    case DigitsAndDashes =>
      (forall i :: 0 <= i < |v| ==> IsDigitOrDash(v[i])) && (|rest| == 0 || !IsDigitOrDash(rest[0]))
    case RestOfLine => (forall i :: 0 <= i < |v| ==> NotNewline(v[i])) && (|rest| == 0 || rest[0] == '\n')
  }

  /** A run that fills the whole text is the text. */
  lemma TakeWhileAll(s: string, q: char -> bool)
    requires forall i :: 0 <= i < |s| ==> q(s[i])
    ensures TakeWhile(s, q) == s
  {
  }

  lemma TakeWhileValue(v: string, rest: string, q: char -> bool)
    requires forall i :: 0 <= i < |v| ==> q(v[i])
    requires |rest| == 0 || !q(rest[0])
    ensures TakeWhile(v + rest, q) == v
  {
    if |rest| == 0 {
      assert v + rest == v;
      TakeWhileAll(v, q);
    } else {
      TakeWhileWhole(v, rest, q);
    }
  }

  lemma GroupOfValue(ws: string, v: string, rest: string, c: Capture)
    requires forall i :: 0 <= i < |ws| ==> IsPySpace(ws[i])
    requires Fits(c, v, rest)
    ensures GroupAfter(ws + v + rest, c) == Some(v)
  {
    var u := ws + v + rest;
    assert u == ws + (v + rest);
    assert (v + rest)[0] == v[0];
    LeadCountWhole(ws, v + rest, IsPySpace);
    assert u[|ws|..] == v + rest;
    match c
    case SixDigits =>
      assert u[|ws|..|ws| + 6] == v;
    case DigitRun =>
      TakeWhileValue(v, rest, IsDigit);
    case DigitsAndDashes =>
      TakeWhileValue(v, rest, IsDigitOrDash);
    case RestOfLine =>
      TakeWhileValue(v, rest, NotNewline);
  }

  /** A text that opens with the label, white space and a fitting value yields that value. */
  lemma LabelledValue(p: DiefPattern, ws: string, v: string, rest: string)
    requires forall i :: 0 <= i < |ws| ==> IsPySpace(ws[i])
    requires Fits(p.capture, v, rest)
    ensures Search(p.heading + ws + v + rest, p) == Some(v)
  {
    var s := p.heading + ws + v + rest;
    assert s[0..|p.heading|] == p.heading;
    assert s[|p.heading|..] == ws + v + rest;
    GroupOfValue(ws, v, rest, p.capture);
    FirstMatchIs(s, p, 0);
  }

  /** The same for a line `label + ws + v + t` followed by the rest of the text. */
  lemma LabelledLine(p: DiefPattern, ws: string, v: string, t: string, more: string)
    requires forall i :: 0 <= i < |ws| ==> IsPySpace(ws[i])
    requires Fits(p.capture, v, t + more)
    ensures Search(p.heading + ws + v + t + more, p) == Some(v)
  {
    assert p.heading + ws + v + t + more == p.heading + ws + v + (t + more);
    LabelledValue(p, ws, v, t + more);
  }

  // ---------------------------------------------------------------------------
  // Storing the fields
  // ---------------------------------------------------------------------------

  const DiefKeys := {Competencia.key, Situacao.key, Chave.key, Protocolo.key}

  /** `dados.get('conteudo_mensagem', '')`. */
  function Content(dados: map<string, string>): (r: string)
    ensures ContentKey in dados ==> r == dados[ContentKey]
    ensures ContentKey !in dados ==> r == ""
  {
    if ContentKey in dados then dados[ContentKey] else ""
  }

  /** What `r` holds under `key`: the value found, or what `m` held when nothing was found. */
  predicate Stored(r: map<string, string>, m: map<string, string>, key: string, found: Option<string>)
  {
    match found
    case Some(v) => key in r && r[key] == v
    case None => (key in r <==> key in m) && (key in m ==> r[key] == m[key])
  }

  /** One pattern stored: its value when it matched, nothing touched otherwise. */
  function Store(m: map<string, string>, text: string, p: DiefPattern): (r: map<string, string>)
    ensures forall k :: k != p.key ==> (k in r <==> k in m) && (k in m ==> r[k] == m[k])
    ensures Stored(r, m, p.key, Search(text, p))
  {
    Put(m, p.key, Search(text, p))
  }

  function Put(m: map<string, string>, key: string, found: Option<string>): (r: map<string, string>)
    ensures forall k :: k != key ==> (k in r <==> k in m) && (k in m ==> r[k] == m[k])
    ensures Stored(r, m, key, found)
  {
    match found
    case Some(v) => m[key := v]
    case None => m
  }

  /** The empty text holds no match. */
  lemma NothingInEmptyText(p: DiefPattern)
    ensures Search("", p).None?
  {
  }

  /**
   * `_extract_dief_data_from_content`: with no message text nothing changes; otherwise each
   * pattern that matches stores its stripped group under its key, and no other key changes.
   */
  function ExtractDief(dados: map<string, string>): (r: map<string, string>)
    ensures Content(dados) == "" ==> r == dados
    ensures forall k :: k !in DiefKeys ==> (k in r <==> k in dados) && (k in dados ==> r[k] == dados[k])
    ensures Stored(r, dados, Competencia.key, Search(Content(dados), Competencia))
    ensures Stored(r, dados, Situacao.key, Search(Content(dados), Situacao))
    ensures Stored(r, dados, Chave.key, Search(Content(dados), Chave))
    ensures Stored(r, dados, Protocolo.key, Search(Content(dados), Protocolo))
  {
    var text := Content(dados);
    if text == "" then
      NothingInEmptyText(Competencia);
      NothingInEmptyText(Situacao);
      NothingInEmptyText(Chave);
      NothingInEmptyText(Protocolo);
      dados
    else
      DiefKeysDistinct();
      PutFour(dados, Competencia.key, Search(text, Competencia), Situacao.key, Search(text, Situacao),
              Chave.key, Search(text, Chave), Protocolo.key, Search(text, Protocolo))
  }

  /** Four values put under different keys in order. */
  function PutFour(m: map<string, string>, a: string, fa: Option<string>, b: string, fb: Option<string>,
                   c: string, fc: Option<string>, d: string, fd: Option<string>): (r: map<string, string>)
    requires a != b && a != c && a != d && b != c && b != d && c != d
    ensures forall k :: k !in {a, b, c, d} ==> (k in r <==> k in m) && (k in m ==> r[k] == m[k])
    ensures Stored(r, m, a, fa) && Stored(r, m, b, fb) && Stored(r, m, c, fc) && Stored(r, m, d, fd)
  {
    var mid := Put(Put(m, a, fa), b, fb);
    StoredCarried(mid, Put(m, a, fa), m, a, fa);
    var r := Put(Put(mid, c, fc), d, fd);
    StoredCarried(Put(mid, c, fc), mid, m, a, fa);
    StoredCarried(r, Put(mid, c, fc), m, a, fa);
    StoredCarried(Put(mid, c, fc), mid, m, b, fb);
    StoredCarried(r, Put(mid, c, fc), m, b, fb);
    r
  }

  lemma DiefKeysDistinct()
    ensures Competencia.key != Situacao.key && Competencia.key != Chave.key && Competencia.key != Protocolo.key
    ensures Situacao.key != Chave.key && Situacao.key != Protocolo.key && Chave.key != Protocolo.key
  {
  }

  /** A key stored by an earlier step and left alone by a later one stays stored. */
  lemma StoredCarried(r: map<string, string>, mid: map<string, string>, m: map<string, string>, key: string, found: Option<string>)
    requires Stored(mid, m, key, found)
    requires (key in r <==> key in mid) && (key in mid ==> r[key] == mid[key])
    ensures Stored(r, m, key, found)
  {
  }

  // ---------------------------------------------------------------------------
  // A processed-DIEF receipt
  // ---------------------------------------------------------------------------

  // The text of a receipt for a processed declaration, block by block; each block that
  // holds a field is its label, one space, the value and the rest of its line.

  const SampleHead := "DADOS DO PROCESSAMENTO\n"
  const SampleProtocoloLine :=
    ProtocoloLabel + " " + "1590248" +
    "                           Versão: 646\n"
  const SampleDates :=
    "Data Recepção: 14/11/2025 10:53:56\n" +
    "Data Processamento: 14/11/2025 " +
    "11:08:32\n"
  const SampleSituacaoLine := SituacaoLabel + " " + "DIEF PROCESSADA" + "\n"
  const CompanyIe := "Inscrição Estadual: 12538398-3      "
  const CompanyCnpj := "              CNPJ: 28494306000160\n"
  const CompanyName := "Razão Social: A&D SOLUTIONS LTDA\n"
  const CompanyRegime := "Regime Pagamento: SIMPLES NACIONAL\n"
  const CompanyOrigin := "Origem Declaração: DIEF SIMPLES\n"
  const SampleCompany := "\n" + CompanyIe + CompanyCnpj + CompanyName + CompanyRegime + CompanyOrigin
  const PeriodoRest := "       Tipo Declaração: ORIGINAL    " + " Movimento: NÃO\n"
  const SamplePeriodoLine := CompetenciaLabel + " " + "202510" + PeriodoRest
  const ProcessedIntro := "\n" + "Informamos que sua declaração foi "
  const ProcessedBase := "processada com sucesso na base de " + "dados da SEFAZ-MA.\n" + "\n"
  const NoticeProcessed := ProcessedIntro + ProcessedBase
  const PendingIntro := "O percentual apurado no confronto "
  const PendingWait := "está em processamento, aguarde e "
  const PendingRetry := "consulte novamente em até 1 hora "
  const PendingView := "para visualizar esta informação\n" + "\n"
  const NoticePending := PendingIntro + PendingWait + PendingRetry + PendingView
  const ContactsSite := "Maiores informações poderão ser " + "obtidas no endereço " + "http://www.sefaz.ma.gov.br, através "
  const ContactsMail := "de contato pelos e-mails " + "dief@sefaz.ma.gov.br e " + "decof@sefaz.ma.gov.br ou pelo "
  const NoticeContacts := ContactsSite + ContactsMail
  const SampleNotice := NoticeProcessed + NoticePending + NoticeContacts
  const SampleClosing :=
    "Call Center 0800-5958100.\n" +
    "\n" +
    "São Luís, 14/11/2025 11:08\n" +
    "\n"
  const SampleChaveLine := ChaveLabel + " " + "7713-9134-5865-7139-1345-8046-7921"

  const FromClosing := SampleClosing + SampleChaveLine
  const FromNotice := SampleNotice + FromClosing
  const FromPeriodo := SamplePeriodoLine + FromNotice
  const FromCompany := SampleCompany + FromPeriodo
  const FromSituacao := SampleSituacaoLine + FromCompany
  const FromDates := SampleDates + FromSituacao
  const FromProtocolo := SampleProtocoloLine + FromDates
  const SampleText := SampleHead + FromProtocolo

  // Each field is first found in a text of the receipt's shape, with the blocks as
  // parameters, and then in the receipt itself.

  lemma ProtocoloHeading()
    ensures Protocolo.heading == ProtocoloLabel && Protocolo.capture == DigitRun
    ensures 'r' in ProtocoloLabel && '\n' !in ProtocoloLabel
  {
    assert ProtocoloLabel[1] == 'r';
  }

  lemma CompetenciaHeading()
    ensures Competencia.heading == CompetenciaLabel && Competencia.capture == SixDigits
    ensures 'í' in CompetenciaLabel && '\n' !in CompetenciaLabel
  {
    assert CompetenciaLabel[3] == 'í';
  }

  lemma ChaveHeading()
    ensures Chave.heading == ChaveLabel && Chave.capture == DigitsAndDashes
    ensures |ChaveLabel| > 0 && ChaveLabel[0] == 'C' && 'h' in ChaveLabel && '\n' !in ChaveLabel
  {
    assert ChaveLabel[1] == 'h';
  }

  lemma ProtocoloInShape(head: string, v: string, t: string, more: string)
    requires 'r' !in head && |head| > 0 && head[|head| - 1] == '\n'
    requires Fits(DigitRun, v, t + more)
    ensures Search(head + (ProtocoloLabel + " " + v + t + more), Protocolo) == Some(v)
  {
    ProtocoloHeading();
    NotContainsByChar(head, ProtocoloLabel, 'r');
    NoStartByLines(head, ProtocoloLabel + " " + v + t + more, ProtocoloLabel);
    SearchSkips(head, ProtocoloLabel + " " + v + t + more, Protocolo);
    LabelledLine(Protocolo, " ", v, t, more);
  }

  /** A block of whole lines lacking a character of the label is skipped. */
  lemma SkipLines(a: string, b: string, p: DiefPattern, c: char)
    requires c in p.heading && '\n' !in p.heading
    requires c !in a && |a| > 0 && a[|a| - 1] == '\n'
    ensures Search(a + b, p) == Search(b, p)
  {
    NotContainsByChar(a, p.heading, c);
    NoStartByLines(a, b, p.heading);
    SearchSkips(a, b, p);
  }

  /** A block lacking the first character of the label is skipped. */
  lemma SkipByFirst(a: string, b: string, p: DiefPattern)
    requires |p.heading| > 0 && p.heading[0] !in a
    ensures Search(a + b, p) == Search(b, p)
  {
    NoStartByFirstChar(a, b, p.heading);
    SearchSkips(a, b, p);
  }

  lemma SituacaoInShape(head: string, pl: string, dates: string, v: string, t: string, more: string)
    requires 'u' !in head && |head| > 0 && head[|head| - 1] == '\n'
    requires 'S' !in pl && 'S' !in dates
    requires Fits(RestOfLine, v, t + more)
    ensures Search(head + (pl + (dates + (SituacaoLabel + " " + v + t + more))), Situacao) == Some(v)
  {
    var rest := SituacaoLabel + " " + v + t + more;
    SkipLines(head, pl + (dates + rest), Situacao, 'u');
    SkipByFirst(pl, dates + rest, Situacao);
    SkipByFirst(dates, rest, Situacao);
    LabelledLine(Situacao, " ", v, t, more);
  }

  lemma CompetenciaInShape(b1: string, b2: string, b3: string, b4: string, b5: string, v: string, t: string, more: string)
    requires 'í' !in b1 && |b1| > 0 && b1[|b1| - 1] == '\n'
    requires 'í' !in b2 && |b2| > 0 && b2[|b2| - 1] == '\n'
    requires 'í' !in b3 && |b3| > 0 && b3[|b3| - 1] == '\n'
    requires 'í' !in b4 && |b4| > 0 && b4[|b4| - 1] == '\n'
    requires 'í' !in b5 && |b5| > 0 && b5[|b5| - 1] == '\n'
    requires Fits(SixDigits, v, t + more)
    ensures Search(b1 + (b2 + (b3 + (b4 + (b5 + (CompetenciaLabel + " " + v + t + more))))), Competencia) == Some(v)
  {
    CompetenciaHeading();
    var rest := CompetenciaLabel + " " + v + t + more;
    SkipLines(b1, b2 + (b3 + (b4 + (b5 + rest))), Competencia, 'í');
    SkipLines(b2, b3 + (b4 + (b5 + rest)), Competencia, 'í');
    SkipLines(b3, b4 + (b5 + rest), Competencia, 'í');
    SkipLines(b4, b5 + rest, Competencia, 'í');
    SkipLines(b5, rest, Competencia, 'í');
    LabelledLine(Competencia, " ", v, t, more);
  }

  /** The security key as the whole text. */
  lemma ChaveAlone(v: string)
    requires Fits(DigitsAndDashes, v, "")
    ensures Search(ChaveLabel + " " + v, Chave) == Some(v)
  {
    assert ChaveLabel + " " + v + "" == ChaveLabel + " " + v;
    LabelledValue(Chave, " ", v, "");
  }

  /** The security key after the last two blocks before it. */
  lemma ChaveAfterNotice(notice: string, closing: string, v: string)
    requires 'C' !in notice
    requires 'h' !in closing && EndsLine(closing)
    requires Fits(DigitsAndDashes, v, "")
    ensures Search(notice + (closing + (ChaveLabel + " " + v)), Chave) == Some(v)
  {
    ChaveHeading();
    var r8 := ChaveLabel + " " + v;
    SkipByFirst(notice, closing + r8, Chave);
    SkipLines(closing, r8, Chave, 'h');
    ChaveAlone(v);
  }

  /** The security key after the last five blocks before it. */
  lemma ChaveAfterStatus(sl: string, company: string, perl: string, notice: string, closing: string, v: string)
    requires 'h' !in sl && EndsLine(sl)
    requires 'h' !in company && EndsLine(company)
    requires 'C' !in perl && 'C' !in notice
    requires 'h' !in closing && EndsLine(closing)
    requires Fits(DigitsAndDashes, v, "")
    ensures Search(sl + (company + (perl + (notice + (closing + (ChaveLabel + " " + v))))), Chave) == Some(v)
  {
    var r6 := notice + (closing + (ChaveLabel + " " + v));
    SkipLines(sl, company + (perl + r6), Chave, 'h');
    SkipLines(company, perl + r6, Chave, 'h');
    SkipByFirst(perl, r6, Chave);
    ChaveAfterNotice(notice, closing, v);
  }

  /** The security key closes the receipt: it is found after eight blocks, and ends the text. */
  lemma ChaveInShape(head: string, pl: string, dates: string, sl: string, company: string,
                     perl: string, notice: string, closing: string, v: string)
    requires 'h' !in head && EndsLine(head)
    requires 'C' !in pl && 'C' !in dates
    requires 'h' !in sl && EndsLine(sl)
    requires 'h' !in company && EndsLine(company)
    requires 'C' !in perl && 'C' !in notice
    requires 'h' !in closing && EndsLine(closing)
    requires Fits(DigitsAndDashes, v, "")
    ensures Search(head + (pl + (dates + (sl + (company + (perl + (notice + (closing + (ChaveLabel + " " + v)))))))), Chave)
      == Some(v)
  {
    var r3 := sl + (company + (perl + (notice + (closing + (ChaveLabel + " " + v)))));
    SkipLines(head, pl + (dates + r3), Chave, 'h');
    SkipByFirst(pl, dates + r3, Chave);
    SkipByFirst(dates, r3, Chave);
    ChaveAfterStatus(sl, company, perl, notice, closing, v);
  }

  predicate EndsLine(s: string) { |s| > 0 && s[|s| - 1] == '\n' }

  lemma HeadFacts()
    ensures 'r' !in SampleHead && 'u' !in SampleHead && 'í' !in SampleHead && 'h' !in SampleHead
    ensures EndsLine(SampleHead)
  {
  }

  // One fact per lemma: together they exceed what the solver handles in one go.

  lemma ProtocoloLineLacksS()
    ensures 'S' !in SampleProtocoloLine
  {
  }

  lemma ProtocoloLineLacksC()
    ensures 'C' !in SampleProtocoloLine
  {
  }

  lemma ProtocoloLineLacksIAcute()
    ensures 'í' !in SampleProtocoloLine
  {
  }

  lemma ProtocoloLineEndsLine()
    ensures EndsLine(SampleProtocoloLine)
  {
  }

  lemma NotInJoin(c: char, a: string, b: string)
    requires c !in a && c !in b
    ensures c !in a + b
  {
  }

  lemma DatesLacksS()
    ensures 'S' !in SampleDates
  {
  }

  lemma DatesLacksC()
    ensures 'C' !in SampleDates
  {
  }

  lemma DatesLacksIAcute()
    ensures 'í' !in SampleDates
  {
  }

  lemma DatesEndsLine()
    ensures EndsLine(SampleDates)
  {
  }

  lemma SituacaoLineLacksIAcute()
    ensures 'í' !in SampleSituacaoLine
  {
  }

  lemma SituacaoLineLacksh()
    ensures 'h' !in SampleSituacaoLine
  {
  }

  lemma SituacaoLineEndsLine()
    ensures EndsLine(SampleSituacaoLine)
  {
  }

  lemma CompanyIeLacks()
    ensures 'í' !in CompanyIe && 'h' !in CompanyIe
  {
  }

  lemma CompanyCnpjLacks()
    ensures 'í' !in CompanyCnpj && 'h' !in CompanyCnpj
  {
  }

  lemma CompanyNameLacks()
    ensures 'í' !in CompanyName && 'h' !in CompanyName
  {
  }

  lemma CompanyRegimeLacks()
    ensures 'í' !in CompanyRegime && 'h' !in CompanyRegime
  {
  }

  lemma CompanyOriginLacks()
    ensures 'í' !in CompanyOrigin && 'h' !in CompanyOrigin
  {
  }

  lemma CompanyPiecesLack()
    ensures 'í' !in "\n" && 'h' !in "\n"
    ensures 'í' !in CompanyIe && 'h' !in CompanyIe
    ensures 'í' !in CompanyCnpj && 'h' !in CompanyCnpj
    ensures 'í' !in CompanyName && 'h' !in CompanyName
    ensures 'í' !in CompanyRegime && 'h' !in CompanyRegime
    ensures 'í' !in CompanyOrigin && 'h' !in CompanyOrigin
  {
    CompanyIeLacks();
    CompanyCnpjLacks();
    CompanyNameLacks();
    CompanyRegimeLacks();
    CompanyOriginLacks();
  }

  lemma ContactsPiecesLackC()
    ensures 'C' !in ContactsSite && 'C' !in ContactsMail
  {
    ContactsSiteLacksC();
    ContactsMailLacksC();
  }

  lemma ContactsSiteLacksC()
    ensures 'C' !in ContactsSite
  {
  }

  lemma ContactsMailLacksC()
    ensures 'C' !in ContactsMail
  {
  }

  lemma CompanyLacksIAcute()
    ensures 'í' !in SampleCompany
  {
    CompanyPiecesLack();
    NotInJoin('í', "\n", CompanyIe);
    NotInJoin('í', "\n" + CompanyIe, CompanyCnpj);
    NotInJoin('í', "\n" + CompanyIe + CompanyCnpj, CompanyName);
    NotInJoin('í', "\n" + CompanyIe + CompanyCnpj + CompanyName, CompanyRegime);
    NotInJoin('í', "\n" + CompanyIe + CompanyCnpj + CompanyName + CompanyRegime, CompanyOrigin);
  }

  lemma CompanyLacksh()
    ensures 'h' !in SampleCompany
  {
    CompanyPiecesLack();
    NotInJoin('h', "\n", CompanyIe);
    NotInJoin('h', "\n" + CompanyIe, CompanyCnpj);
    NotInJoin('h', "\n" + CompanyIe + CompanyCnpj, CompanyName);
    NotInJoin('h', "\n" + CompanyIe + CompanyCnpj + CompanyName, CompanyRegime);
    NotInJoin('h', "\n" + CompanyIe + CompanyCnpj + CompanyName + CompanyRegime, CompanyOrigin);
  }

  lemma CompanyEndsLine()
    ensures EndsLine(SampleCompany)
  {
  }

  lemma PeriodoLineLacksC()
    ensures 'C' !in SamplePeriodoLine
  {
  }

  lemma ProcessedIntroLacksC()
    ensures 'C' !in ProcessedIntro
  {
  }

  lemma ProcessedBaseLacksC()
    ensures 'C' !in ProcessedBase
  {
  }

  lemma PendingIntroLacksC()
    ensures 'C' !in PendingIntro
  {
  }

  lemma PendingWaitLacksC()
    ensures 'C' !in PendingWait
  {
  }

  lemma PendingRetryLacksC()
    ensures 'C' !in PendingRetry
  {
  }

  lemma PendingViewLacksC()
    ensures 'C' !in PendingView
  {
  }

  lemma NoticeProcessedLacksC()
    ensures 'C' !in NoticeProcessed
  {
    ProcessedIntroLacksC();
    ProcessedBaseLacksC();
    NotInJoin('C', ProcessedIntro, ProcessedBase);
  }

  lemma NoticePendingLacksC()
    ensures 'C' !in NoticePending
  {
    PendingIntroLacksC();
    PendingWaitLacksC();
    PendingRetryLacksC();
    PendingViewLacksC();
    NotInJoin('C', PendingIntro, PendingWait);
    NotInJoin('C', PendingIntro + PendingWait, PendingRetry);
    NotInJoin('C', PendingIntro + PendingWait + PendingRetry, PendingView);
  }

  lemma NoticeContactsLacksC()
    ensures 'C' !in NoticeContacts
  {
    ContactsPiecesLackC();
    NotInJoin('C', ContactsSite, ContactsMail);
  }

  lemma NoticeLacksC()
    ensures 'C' !in SampleNotice
  {
    NoticeProcessedLacksC();
    NoticePendingLacksC();
    NoticeContactsLacksC();
  }

  lemma ClosingLacksh()
    ensures 'h' !in SampleClosing
  {
  }

  lemma ClosingEndsLine()
    ensures EndsLine(SampleClosing)
  {
  }

  lemma ProtocoloValueFits(t: string, more: string)
    requires |t| > 0 && t[0] == ' '
    ensures Fits(DigitRun, "1590248", t + more)
  {
    assert (t + more)[0] == ' ';
  }

  lemma SituacaoValueFits(more: string)
    ensures Fits(RestOfLine, "DIEF PROCESSADA", "\n" + more)
  {
    assert ("\n" + more)[0] == '\n';
  }

  lemma ChaveValueFits()
    ensures Fits(DigitsAndDashes, "7713-9134-5865-7139-1345-8046-7921", "")
  {
  }

  lemma SampleProtocolo()
    ensures Search(SampleText, Protocolo) == Some("1590248")
  {
    HeadFacts();
    var t := "                           Versão: 646\n";
    assert SampleText == SampleHead + (ProtocoloLabel + " " + "1590248" + t + FromDates);
    ProtocoloValueFits(t, FromDates);
    ProtocoloInShape(SampleHead, "1590248", t, FromDates);
  }

  lemma SampleSituacao()
    ensures Search(SampleText, Situacao) == Some("DIEF PROCESSADA")
  {
    HeadFacts();
    ProtocoloLineLacksS();
    ProtocoloLineLacksC();
    ProtocoloLineLacksIAcute();
    ProtocoloLineEndsLine();
    DatesLacksS();
    DatesLacksC();
    DatesLacksIAcute();
    DatesEndsLine();
    SituacaoValueFits(FromCompany);
    SituacaoInShape(SampleHead, SampleProtocoloLine, SampleDates, "DIEF PROCESSADA", "\n", FromCompany);
  }

  lemma SampleCompetencia()
    ensures Search(SampleText, Competencia) == Some("202510")
  {
    HeadFacts();
    ProtocoloLineLacksS();
    ProtocoloLineLacksC();
    ProtocoloLineLacksIAcute();
    ProtocoloLineEndsLine();
    DatesLacksS();
    DatesLacksC();
    DatesLacksIAcute();
    DatesEndsLine();
    SituacaoLineLacksIAcute();
    SituacaoLineLacksh();
    SituacaoLineEndsLine();
    CompanyLacksIAcute();
    CompanyLacksh();
    CompanyEndsLine();
    assert Fits(SixDigits, "202510", PeriodoRest + FromNotice);
    CompetenciaInShape(SampleHead, SampleProtocoloLine, SampleDates, SampleSituacaoLine, SampleCompany,
      "202510", PeriodoRest, FromNotice);
  }

  lemma SampleChave()
    ensures Search(SampleText, Chave) == Some("7713-9134-5865-7139-1345-8046-7921")
  {
    HeadFacts();
    ProtocoloLineLacksS();
    ProtocoloLineLacksC();
    ProtocoloLineLacksIAcute();
    ProtocoloLineEndsLine();
    DatesLacksS();
    DatesLacksC();
    DatesLacksIAcute();
    DatesEndsLine();
    SituacaoLineLacksIAcute();
    SituacaoLineLacksh();
    SituacaoLineEndsLine();
    CompanyLacksIAcute();
    CompanyLacksh();
    CompanyEndsLine();
    PeriodoLineLacksC();
    NoticeLacksC();
    ClosingLacksh();
    ClosingEndsLine();
    ChaveValueFits();
    ChaveInShape(SampleHead, SampleProtocoloLine, SampleDates, SampleSituacaoLine, SampleCompany,
      SamplePeriodoLine, SampleNotice, SampleClosing, "7713-9134-5865-7139-1345-8046-7921");
  }

  /** Four values found in the text are the four values stored. */
  lemma StoredValues(dados: map<string, string>, c: string, st: string, k: string, pr: string)
    requires Search(Content(dados), Competencia) == Some(c) && Search(Content(dados), Situacao) == Some(st)
    requires Search(Content(dados), Chave) == Some(k) && Search(Content(dados), Protocolo) == Some(pr)
    ensures ExtractDief(dados)[Competencia.key] == c && ExtractDief(dados)[Situacao.key] == st
    ensures ExtractDief(dados)[Chave.key] == k && ExtractDief(dados)[Protocolo.key] == pr
  {
  }

  /** The four fields of the receipt; with `StoredValues` these are what the extractor stores. */
  lemma SampleSearches(text: string)
    requires text == SampleText
    ensures Search(text, Competencia) == Some("202510") && Search(text, Situacao) == Some("DIEF PROCESSADA")
    ensures Search(text, Chave) == Some("7713-9134-5865-7139-1345-8046-7921") && Search(text, Protocolo) == Some("1590248")
  {
    SampleCompetencia();
    SampleSituacao();
    SampleChave();
    SampleProtocolo();
  }
}

=== FILE: fila.dfy ===
/**
 * The processing-queue page of the admin front end (`fila.js`): the status filter cards,
 * the newest-first ordering of the fetched jobs, the page slice and the page buttons, and
 * the per-row actions.  `data_adicao` is an integer timestamp; the fetch itself is a
 * parameter (the rows it returned).
 */
module Fila {
  import opened Options
  import Queue

  /** The columns of a fetched job the page logic reads. */
  datatype Row = Row(id: int, status: string, added: int)

  // ---------------------------------------------------------------------------
  // Status names
  // ---------------------------------------------------------------------------

  /** The Portuguese names on the filter cards, and the statuses stored in the database. */
  const CardNames: seq<string> := ["pendente", "processando", "concluido", "falha"]
  const DbNames: seq<string> := ["pending", "running", "completed", "failed"]

  /** `statusMap[status] || status` of `filterByStatus`. */
  function ToDb(status: string): (r: string)
    ensures status !in CardNames ==> r == status
    ensures status in CardNames ==> r in DbNames
  {
    match status
    case "pendente" => "pending"
    case "processando" => "running"
    case "concluido" => "completed"
    case "falha" => "failed"
    case _ => status
  }

  /** The reverse map of `updateFilterIndicators`; unknown statuses have no card. */
  function ToCard(status: string): (r: Option<string>)
    ensures r.Some? <==> status in DbNames
    ensures r.Some? ==> r.value in CardNames
  {
    match status
    case "pending" => Some("pendente")
    case "running" => Some("processando")
    case "completed" => Some("concluido")
    case "failed" => Some("falha")
    case _ => None
  }

  /** Card name and database status correspond one to one: each map undoes the other. */
  lemma StatusNamesRoundTrip(card: string, db: string)
    ensures card in CardNames ==> ToCard(ToDb(card)) == Some(card)
    ensures db in DbNames ==> ToCard(db).Some? && ToDb(ToCard(db).value) == db
  {
  }

  /** The status the job table stores for each queue state. */
  function StatusName(s: Queue.Status): (r: string)
    ensures r in DbNames
  {
    match s
    case Pending => "pending"
    case Running => "running"
    case Completed => "completed"
    case Failed => "failed"
  }

  // ---------------------------------------------------------------------------
  // Filter cards
  // ---------------------------------------------------------------------------

  /** `if (filaStatusFilter)`: a filter is applied only when set and non-empty. */
  predicate Active(filter: Option<string>) { filter.Some? && filter.value != "" }

  /** `filterByStatus`: clicking the active card clears the filter, any other card selects it. */
  function FilterByStatus(filter: Option<string>, status: string): (r: Option<string>)
    ensures r.None? <==> filter == Some(ToDb(status))
    ensures r.Some? ==> r.value == ToDb(status)
  {
    var db := ToDb(status);
    if filter == Some(db) then None else Some(db)
  }

  /** Clicking the same card twice from any other filter gives back "no filter". */
  lemma SameCardTwiceClears(filter: Option<string>, status: string)
    requires filter != Some(ToDb(status))
    ensures FilterByStatus(FilterByStatus(filter, status), status) == None
  {
  }

  /** The card highlighted after a click is the card clicked. */
  lemma HighlightedCardIsClicked(filter: Option<string>, card: string)
    requires card in CardNames
    ensures var r := FilterByStatus(filter, card);
      r.Some? ==> ToCard(r.value) == Some(card)
  {
    StatusNamesRoundTrip(card, "");
  }

  /**
   * `filterByAllStatus`: with no filter nothing happens (no refresh); otherwise the filter
   * is cleared and the list refreshed.  The second component says whether it refreshes.
   */
  function FilterByAll(filter: Option<string>): (r: (Option<string>, bool))
    ensures r.0 == None
    ensures r.1 <==> filter.Some?
  {
    if filter.None? then (None, false) else (None, true)
  }

  // ---------------------------------------------------------------------------
  // Ordering and filtering (`applyFilaFilters`)
  // ---------------------------------------------------------------------------

  /** Newest first. */
  ghost predicate SortedDesc(s: seq<Row>)
  {
    forall i, j :: 0 <= i < j < |s| ==> s[i].added >= s[j].added
  }

  /** Places `x`, the latest arrival, after every row at least as recent: the sort is stable. */
  function Insert(x: Row, s: seq<Row>): (r: seq<Row>)
    ensures |r| == |s| + 1
    ensures multiset(r) == multiset(s) + multiset{x}
  {
    if |s| == 0 then [x]
    else if s[0].added >= x.added then
      assert s == [s[0]] + s[1..];
      [s[0]] + Insert(x, s[1..])
    else [x] + s
  }

  lemma {:induction false} InsertSorted(x: Row, s: seq<Row>)
    requires SortedDesc(s)
    ensures SortedDesc(Insert(x, s))
  {
    if |s| > 0 && s[0].added >= x.added {
      InsertSorted(x, s[1..]);
      var r := Insert(x, s);
      var t := Insert(x, s[1..]);
      assert r == [s[0]] + t;
      forall k | 0 <= k < |t|
        ensures s[0].added >= t[k].added
      {
        assert t[k] in multiset(t);
        assert t[k] in multiset(s[1..]) + multiset{x};
        if t[k] != x {
          assert t[k] in s[1..];
        }
      }
    }
  }

  /** `[...jobs].sort((a, b) => dateB - dateA)`, as the stable insertion the engine performs. */
  function SortByAdded(s: seq<Row>): (r: seq<Row>)
    ensures |r| == |s|
    ensures multiset(r) == multiset(s)
  {
    if |s| == 0 then []
    else
      assert s == s[..|s| - 1] + [s[|s| - 1]];
      Insert(s[|s| - 1], SortByAdded(s[..|s| - 1]))
  }

  /** The sorted list is newest first. */
  lemma {:induction false} SortByAddedSorted(s: seq<Row>)
    ensures SortedDesc(SortByAdded(s))
  {
    if |s| > 0 {
      SortByAddedSorted(s[..|s| - 1]);
      InsertSorted(s[|s| - 1], SortByAdded(s[..|s| - 1]));
    }
  }

  /** `jobsOrdenados.filter(job => job.status === filaStatusFilter)`. */
  function KeepStatus(s: seq<Row>, status: string): (r: seq<Row>)
    ensures forall i :: 0 <= i < |r| ==> r[i].status == status
    ensures forall x: Row :: x.status == status ==> multiset(r)[x] == multiset(s)[x]
    ensures forall x: Row :: x.status != status ==> multiset(r)[x] == 0
  {
    if |s| == 0 then []
    else
      assert s == [s[0]] + s[1..];
      (if s[0].status == status then [s[0]] else []) + KeepStatus(s[1..], status)
  }

  /** A row at least as recent as every row of a newest-first list can go in front of it. */
  lemma ConsSorted(h: Row, t: seq<Row>)
    requires SortedDesc(t)
    requires forall x :: x in t ==> h.added >= x.added
    ensures SortedDesc([h] + t)
  {
    var r := [h] + t;
    forall i, j | 0 <= i < j < |r| ensures r[i].added >= r[j].added {
      if i == 0 { assert r[j] == t[j - 1]; assert r[j] in t; }
      else { assert r[i] == t[i - 1] && r[j] == t[j - 1]; }
    }
  }

  /** The head of a newest-first list is at least as recent as the rest. */
  lemma HeadNewest(s: seq<Row>)
    requires SortedDesc(s) && |s| > 0
    ensures forall x :: x in s[1..] ==> s[0].added >= x.added
  {
    forall x | x in s[1..] ensures s[0].added >= x.added {
      var k :| 0 <= k < |s[1..]| && s[1..][k] == x;
      assert s[k + 1] == x;
    }
  }

  /** Filtering keeps only rows of the input. */
  lemma KeepStatusMembers(s: seq<Row>, status: string)
    ensures forall x :: x in KeepStatus(s, status) ==> x in s
  {
    var r := KeepStatus(s, status);
    forall x | x in r ensures x in s {
      assert x in multiset(r);
      assert x.status == status;
      assert x in multiset(s);
    }
  }

  /** Filtering a newest-first list keeps it newest first. */
  lemma {:induction false} KeepStatusSorted(s: seq<Row>, status: string)
    requires SortedDesc(s)
    ensures SortedDesc(KeepStatus(s, status))
  {
    if |s| > 0 {
      var t := KeepStatus(s[1..], status);
      assert SortedDesc(s[1..]) by {
        forall i, j | 0 <= i < j < |s[1..]| ensures s[1..][i].added >= s[1..][j].added {
          assert s[1..][i] == s[i + 1] && s[1..][j] == s[j + 1];
        }
      }
      KeepStatusSorted(s[1..], status);
      if s[0].status == status {
        HeadNewest(s);
        KeepStatusMembers(s[1..], status);
        assert KeepStatus(s, status) == [s[0]] + t;
        ConsSorted(s[0], t);
      } else {
        assert KeepStatus(s, status) == [] + t;
      }
    }
  }

  // ---------------------------------------------------------------------------
  // Pages
  // ---------------------------------------------------------------------------

  /** `Math.ceil(total / n)`. */
  function TotalPages(total: nat, n: nat): (p: nat)
    requires n > 0
    ensures p * n >= total
    ensures p > 0 ==> (p - 1) * n < total
  {
    (total + n - 1) / n
  }

  function Max(a: int, b: int): int { if a >= b then a else b }

  /** What the page state of `fila.js` holds. */
  datatype View = View(filter: Option<string>, data: seq<Row>, total: nat, page: int, perPage: nat)

  /** The invariant the page buttons keep: a positive page size and a page in range. */
  predicate Valid(v: View)
  {
    v.perPage > 0 && v.total == |v.data| && 1 <= v.page <= Max(1, TotalPages(v.total, v.perPage))
  }

  /** `filaData.slice((p - 1) * n, (p - 1) * n + n)`. */
  function Visible(data: seq<Row>, page: nat, n: nat): (r: seq<Row>)
    requires page >= 1
    ensures |r| <= n
    ensures forall i :: 0 <= i < |r| ==> (page - 1) * n + i < |data| && r[i] == data[(page - 1) * n + i]
    ensures (page - 1) * n + n <= |data| ==> |r| == n
    ensures (page - 1) * n < |data| ==> |r| > 0 || n == 0
  {
    var start := (page - 1) * n;
    var end := start + n;
    if start >= |data| then [] else data[start..if end <= |data| then end else |data|]
  }

  /** Every row is on exactly one reachable page, at its offset within the page. */
  lemma EveryRowOnItsPage(data: seq<Row>, n: nat, j: nat)
    requires n > 0 && j < |data|
    ensures 1 <= j / n + 1 <= TotalPages(|data|, n)
    ensures j % n < |Visible(data, j / n + 1, n)|
    ensures Visible(data, j / n + 1, n)[j % n] == data[j]
  {
    var p := j / n;
    assert p * n + j % n == j;
    assert p * n <= j;
    assert (p + 1 - 1) * n == p * n;
  }

  /** A page in range shows at least one row whenever there is one. */
  lemma ValidPageNotEmpty(v: View)
    requires Valid(v) && |v.data| > 0
    ensures |Visible(v.data, v.page, v.perPage)| > 0
  {
    var t := TotalPages(v.total, v.perPage);
    assert v.page <= t;
    assert (v.page - 1) * v.perPage <= (t - 1) * v.perPage;
  }

  /** `nextFilaPage`: one page on while there is a next page. */
  function NextPage(v: View): (r: View)
    requires Valid(v)
    ensures Valid(r)
    ensures r == v.(page := r.page)
    ensures r.page == v.page + 1 <==> v.page < TotalPages(v.total, v.perPage)
    ensures r.page == v.page || r.page == v.page + 1
  {
    if v.page < TotalPages(v.total, v.perPage) then v.(page := v.page + 1) else v
  }

  /** `prevFilaPage`: one page back while not on the first. */
  function PrevPage(v: View): (r: View)
    requires Valid(v)
    ensures Valid(r)
    ensures r == v.(page := r.page)
    ensures r.page == v.page - 1 <==> v.page > 1
    ensures r.page == v.page || r.page == v.page - 1
  {
    if v.page > 1 then v.(page := v.page - 1) else v
  }

  /** `changeFilaItemsPerPage`: a new page size starts again at page 1. */
  function ChangePerPage(v: View, n: nat): (r: View)
    requires Valid(v) && n > 0
    ensures Valid(r) && r.page == 1 && r.perPage == n
    ensures r.data == v.data && r.filter == v.filter
  {
    v.(perPage := n, page := 1)
  }

  /**
   * `applyFilaFilters`: the fetched jobs newest first, restricted to the active status, with
   * the total recounted and the page reset to 1.
   */
  function ApplyFilters(jobs: seq<Row>, filter: Option<string>, perPage: nat): (r: View)
    requires perPage > 0
    ensures Valid(r) && r.page == 1 && r.filter == filter && r.perPage == perPage
    ensures r.total == |r.data|
    ensures SortedDesc(r.data)
    ensures Active(filter) ==> forall i :: 0 <= i < |r.data| ==> r.data[i].status == filter.value
    ensures Active(filter) ==> forall x: Row :: x.status == filter.value ==> multiset(r.data)[x] == multiset(jobs)[x]
    ensures !Active(filter) ==> multiset(r.data) == multiset(jobs)
  {
    var sorted := SortByAdded(jobs);
    SortByAddedSorted(jobs);
    if Active(filter) then
      KeepStatusSorted(sorted, filter.value);
      var data := KeepStatus(sorted, filter.value);
      View(filter, data, |data|, 1, perPage)
    else
      View(filter, sorted, |sorted|, 1, perPage)
  }

  // ---------------------------------------------------------------------------
  // Row actions
  // ---------------------------------------------------------------------------

  /** The delete button (`job.status === 'pending'`). */
  predicate DeleteOffered(status: string) { status == "pending" }

  /** The cancel button (`job.status === 'running'`). */
  predicate CancelOffered(status: string) { status == "running" }

  /**
   * A row never offers both actions, and each offered action is one the job endpoints accept:
   * a pending job can be deleted, a running one cancelled; the running job the delete endpoint
   * refuses never shows the delete button.
   */
  lemma OfferedActionsAccepted(s: Queue.State, id: int, now: int)
    requires id in s.jobs
    ensures var name := StatusName(s.jobs[id].status);
      && !(DeleteOffered(name) && CancelOffered(name))
      && (DeleteOffered(name) ==> Queue.Delete(s, id).1 == Queue.HttpOk)
      && (CancelOffered(name) ==> Queue.Cancel(s, id, now).1 == Queue.HttpOk)
      && (Queue.Delete(s, id).1 == Queue.HttpBadRequest ==> !DeleteOffered(name))
  {
  }
}

=== FILE: link_migration.dfy ===
/**
 * The receipt-link back-fill (`migrar_link_recibo`): make sure the `link_recibo` column
 * exists, then give every stored message without a link the link found in its HTML (or,
 * when the HTML is empty, in its text).  The database is a sequence of rows.
 */
module LinkMigration {
  import opened Options
  import opened MessageText

  const LinkColumn := "link_recibo"

  /** How `ALTER TABLE … ADD COLUMN` ended. */
  datatype AlterError = NoError | DuplicateColumn | OtherError

  /**
   * Step 1: the column is added when missing; a "duplicate column" failure is taken as the
   * column being there already; any other failure is raised (`None`).  `failure` is what the
   * database reports besides a duplicate.
   */
  function EnsureColumn(columns: set<string>, otherFailure: bool): (r: Option<set<string>>)
    ensures otherFailure ==> r.None?
    ensures !otherFailure ==> r == Some(columns + {LinkColumn})
  {
    var outcome := if otherFailure then OtherError else if LinkColumn in columns then DuplicateColumn else NoError;
    match outcome
    case NoError => Some(columns + {LinkColumn})
    case DuplicateColumn =>
      assert columns + {LinkColumn} == columns;
      Some(columns)
    case OtherError => None
  }

  /** Running the first step twice is running it once. */
  lemma EnsureColumnIdempotent(columns: set<string>)
    ensures EnsureColumn(columns, false).Some?
    ensures EnsureColumn(EnsureColumn(columns, false).value, false) == EnsureColumn(columns, false)
  {
  }

  datatype Row = Row(id: int, html: Option<string>, text: Option<string>, link: Option<string>)

  /** `link_recibo IS NULL OR link_recibo = ''`. */
  predicate Candidate(r: Row) { r.link.None? || r.link.value == "" }

  /** `conteudo_html or conteudo_mensagem or ''`. */
  function Source(r: Row): (s: string)
    ensures r.html.Some? && r.html.value != "" ==> s == r.html.value
    ensures (r.html.None? || r.html.value == "") && r.text.Some? ==> s == r.text.value
  {
    if r.html.Some? && r.html.value != "" then r.html.value
    else if r.text.Some? && r.text.value != "" then r.text.value
    else ""
  }

  /** One row after the back-fill. */
  function Backfill(r: Row): (out: Row)
    ensures out.id == r.id && out.html == r.html && out.text == r.text
    ensures !Candidate(r) ==> out == r
    ensures Candidate(r) && ReceiptLink(Source(r)).Some? ==> out.link == ReceiptLink(Source(r))
    ensures ReceiptLink(Source(r)).None? ==> out == r
  {
    if Candidate(r) then
      match ReceiptLink(Source(r))
      case Some(l) => r.(link := Some(l))
      case None => r
    else r
  }

  /** Whether the back-fill writes to the row. */
  predicate Updated(r: Row) { Candidate(r) && ReceiptLink(Source(r)).Some? }

  /** A row given a link is no longer a candidate, so a second run leaves every row alone. */
  lemma BackfillIdempotent(r: Row)
    ensures Backfill(Backfill(r)) == Backfill(r)
    ensures Updated(r) ==> !Updated(Backfill(r))
  {
    if Updated(r) {
      ReceiptLinkNonEmpty(Source(r));
    }
  }

  /** The number of rows among the first `k` that the back-fill writes to. */
  function UpdatedIn(rows: seq<Row>, k: nat): (n: nat)
    requires k <= |rows|
    ensures n <= k
  {
    if k == 0 then 0 else UpdatedIn(rows, k - 1) + (if Updated(rows[k - 1]) then 1 else 0)
  }

  /** The number of candidates among the first `k`. */
  function CandidatesIn(rows: seq<Row>, k: nat): (n: nat)
    requires k <= |rows|
    ensures n <= k
  {
    if k == 0 then 0 else CandidatesIn(rows, k - 1) + (if Candidate(rows[k - 1]) then 1 else 0)
  }

  /** Never more rows updated than rows selected: the "atualizadas de N" count. */
  lemma {:induction false} UpdatedAmongCandidates(rows: seq<Row>, k: nat)
    requires k <= |rows|
    ensures UpdatedIn(rows, k) <= CandidatesIn(rows, k)
  {
    if k > 0 {
      UpdatedAmongCandidates(rows, k - 1);
    }
  }

  /**
   * Steps 2 and 3: every row is back-filled in order and the rows written to are counted;
   * rows that already had a link, and rows whose content has no receipt link, keep their value.
   */
  method Migrate(rows: seq<Row>) returns (out: seq<Row>, updated: nat)
    ensures |out| == |rows|
    ensures forall i :: 0 <= i < |rows| ==> out[i] == Backfill(rows[i])
    ensures updated == UpdatedIn(rows, |rows|)
    ensures updated <= CandidatesIn(rows, |rows|)
  {
    out := seq(|rows|, j requires 0 <= j < |rows| => Backfill(rows[j]));
    updated := 0;
    var i := 0;
    while i < |rows|
      invariant 0 <= i <= |rows|
      invariant updated == UpdatedIn(rows, i)
    {
      if Updated(rows[i]) {
        updated := updated + 1;
      }
      i := i + 1;
    }
    UpdatedAmongCandidates(rows, |rows|);
  }
}

=== FILE: mensagens.dfy ===
/**
 * The message list of the admin front end (`mensagens.js`): the client-side date filter and
 * the pagination built on the server's `limit`/`offset` pages.
 *
 * Instants are integer milliseconds since the epoch.  The browser's time zone is a fixed
 * `offset` in minutes east of UTC (Brasília is -180); a date filter value `YYYY-MM-DD` is the
 * number of its day since the epoch.  A message's `data_envio` is absent, unparsable (`new
 * Date` gives NaN) or an instant.
 */
module Mensagens {
  const MinuteMs := 60_000
  const DayMs := 86_400_000

  datatype Sent = NoDate | Unparsable | At(ms: int)

  /** An optional date filter field: the day it names, or none when the field is empty. */
  datatype Day = NoDay | OnDay(day: int)

  // ---------------------------------------------------------------------------
  // Calendar arithmetic in the browser's zone
  // ---------------------------------------------------------------------------

  /** The local calendar day holding the instant `ms`. */
  function LocalDay(ms: int, offset: int): int
  {
    (ms + offset * MinuteMs) / DayMs
  }

  lemma DayOf(x: int, q: int)
    requires q * DayMs <= x < q * DayMs + DayMs
    ensures x / DayMs == q
  {
  }

  /** The instant local midnight of `day` begins. */
  function StartOfLocalDay(day: int, offset: int): (r: int)
    ensures LocalDay(r, offset) == day
    ensures LocalDay(r - 1, offset) == day - 1
  {
    DayOf(day * DayMs, day);
    DayOf(day * DayMs - 1, day - 1);
    day * DayMs - offset * MinuteMs
  }

  /** The local day of an instant is the day whose local midnights bracket it. */
  lemma LocalDayBounds(t: int, offset: int)
    ensures StartOfLocalDay(LocalDay(t, offset), offset) <= t < StartOfLocalDay(LocalDay(t, offset), offset) + DayMs
  {
  }

  // ---------------------------------------------------------------------------
  // The date filter as written
  // ---------------------------------------------------------------------------

  /** `new Date("YYYY-MM-DD")`: a date-only string is read as midnight UTC. */
  function UtcMidnight(day: int): int { day * DayMs }

  /** `dataFinal.setHours(23, 59, 59, 999)`: the last millisecond of the local day holding `ms`. */
  function EndOfLocalDay(ms: int, offset: int): (r: int)
    ensures LocalDay(r, offset) == LocalDay(ms, offset)
    ensures LocalDay(r + 1, offset) == LocalDay(ms, offset) + 1
  {
    var d := LocalDay(ms, offset);
    DayOf(d * DayMs + DayMs - 1, d);
    DayOf(d * DayMs + DayMs, d + 1);
    d * DayMs + DayMs - 1 - offset * MinuteMs
  }

  /**
   * The predicate of `mensagens.filter`: no date is kept; NaN fails both comparisons and is
   * kept; otherwise not before the start date (read as UTC midnight) and not after the end of
   * the local day holding the end date's UTC midnight.
   */
  predicate KeptAsWritten(m: Sent, inicial: Day, final: Day, offset: int)
  {
    match m
    case NoDate => true
    case Unparsable => true
    case At(t) =>
      (inicial.NoDay? || !(t < UtcMidnight(inicial.day)))
      && (final.NoDay? || !(t > EndOfLocalDay(UtcMidnight(final.day), offset)))
  }

  /**
   * West of UTC the end date's UTC midnight falls on the previous local day, so the end bound
   * is one millisecond before the chosen day begins: nothing sent on the chosen day passes.
   */
  lemma FinalDayExcludedWestOfUtc(d: int, t: int, offset: int)
    requires -1440 < offset < 0
    requires LocalDay(t, offset) == d
    ensures EndOfLocalDay(UtcMidnight(d), offset) == StartOfLocalDay(d, offset) - 1
    ensures !KeptAsWritten(At(t), NoDay, OnDay(d), offset)
  {
    DayOf(d * DayMs + offset * MinuteMs, d - 1);
    LocalDayBounds(t, offset);
  }

  /** Brasília, 2025-10-10 (day 20371): a message sent at local noon is dropped by "until 10/10". */
  lemma SampleFinalDayDropped()
    ensures LocalDay(20371 * DayMs + 15 * 3_600_000, -180) == 20371
    ensures !KeptAsWritten(At(20371 * DayMs + 15 * 3_600_000), NoDay, OnDay(20371), -180)
  {
    DayOf(20371 * DayMs + 12 * 3_600_000, 20371);
    FinalDayExcludedWestOfUtc(20371, 20371 * DayMs + 15 * 3_600_000, -180);
  }

  /** West of UTC the start bound also lets in the last hours of the previous local day. */
  lemma PreviousEveningKeptWestOfUtc(d: int, offset: int)
    requires -1440 < offset < 0
    ensures LocalDay(UtcMidnight(d), offset) == d - 1
    ensures KeptAsWritten(At(UtcMidnight(d)), OnDay(d), NoDay, offset)
  {
    DayOf(d * DayMs + offset * MinuteMs, d - 1);
  }

  // ---------------------------------------------------------------------------
  // The date filter as intended
  // ---------------------------------------------------------------------------

  /** Both bounds taken in the browser's zone: from local midnight of the start date to the last millisecond of the end date. */
  predicate Kept(m: Sent, inicial: Day, final: Day, offset: int)
  {
    match m
    case NoDate => true
    case Unparsable => true
    case At(t) =>
      (inicial.NoDay? || t >= StartOfLocalDay(inicial.day, offset))
      && (final.NoDay? || t <= StartOfLocalDay(final.day, offset) + DayMs - 1)
  }

  /** The intended filter keeps a message exactly when its local day lies between the two dates. */
  lemma KeptIffWithinDays(t: int, inicial: Day, final: Day, offset: int)
    ensures Kept(At(t), inicial, final, offset) <==>
      (inicial.NoDay? || inicial.day <= LocalDay(t, offset)) && (final.NoDay? || LocalDay(t, offset) <= final.day)
  {
    var d := LocalDay(t, offset);
    LocalDayBounds(t, offset);
    if inicial.OnDay? {
      if inicial.day > d {
        assert StartOfLocalDay(inicial.day, offset) >= StartOfLocalDay(d + 1, offset);
      }
    }
    if final.OnDay? {
      if final.day < d {
        assert StartOfLocalDay(final.day, offset) + DayMs <= StartOfLocalDay(d, offset);
      }
    }
  }

  /** In a browser on UTC the code as written already filters as intended. */
  lemma AsWrittenAgreesOnUtc(m: Sent, inicial: Day, final: Day)
    ensures KeptAsWritten(m, inicial, final, 0) == Kept(m, inicial, final, 0)
  {
    if m.At? && final.OnDay? {
      DayOf(final.day * DayMs, final.day);
    }
  }

  /** The messages of `ms` that `keep` accepts, in order. */
  function KeepIf(ms: seq<Sent>, keep: Sent -> bool): (r: seq<Sent>)
    ensures |r| <= |ms|
    ensures forall i :: 0 <= i < |r| ==> keep(r[i])
    ensures (forall i :: 0 <= i < |ms| ==> keep(ms[i])) ==> r == ms
    ensures forall x :: multiset(r)[x] == if keep(x) then multiset(ms)[x] else 0
  {
    if |ms| == 0 then []
    else
      assert ms == [ms[0]] + ms[1..];
      (if keep(ms[0]) then [ms[0]] else []) + KeepIf(ms[1..], keep)
  }

  /** The date filter of `loadMensagens` as written, applied only when one of the two dates is set. */
  function DateFilterAsWritten(ms: seq<Sent>, inicial: Day, final: Day, offset: int): (r: seq<Sent>)
    ensures inicial.NoDay? && final.NoDay? ==> r == ms
    ensures forall i :: 0 <= i < |r| ==> KeptAsWritten(r[i], inicial, final, offset)
    ensures forall x :: multiset(r)[x] == if KeptAsWritten(x, inicial, final, offset) then multiset(ms)[x] else 0
  {
    if inicial.OnDay? || final.OnDay? then KeepIf(ms, m => KeptAsWritten(m, inicial, final, offset)) else ms
  }

  /** The same filter with both bounds in the browser's zone. */
  function DateFilter(ms: seq<Sent>, inicial: Day, final: Day, offset: int): (r: seq<Sent>)
    ensures inicial.NoDay? && final.NoDay? ==> r == ms
    ensures forall i :: 0 <= i < |r| ==> Kept(r[i], inicial, final, offset)
    ensures forall x :: multiset(r)[x] == if Kept(x, inicial, final, offset) then multiset(ms)[x] else 0
  {
    if inicial.OnDay? || final.OnDay? then KeepIf(ms, m => Kept(m, inicial, final, offset)) else ms
  }

  // ---------------------------------------------------------------------------
  // Pages
  // ---------------------------------------------------------------------------

  /** `Math.ceil(total / size)`. */
  function CeilDiv(total: nat, size: nat): (p: nat)
    requires size > 0
    ensures p * size >= total
    ensures p > 0 ==> (p - 1) * size < total
  {
    (total + size - 1) / size
  }

  /** `limit: size, offset: page * size`: the server's window over the matching messages. */
  function Window<T>(s: seq<T>, start: nat, size: nat): (r: seq<T>)
    ensures |r| <= size
    ensures start <= |s| ==> |r| == if start + size <= |s| then size else |s| - start
    ensures start > |s| ==> r == []
    ensures forall i :: 0 <= i < |r| ==> start + i < |s| && r[i] == s[start + i]
  {
    if start >= |s| then [] else s[start..if start + size <= |s| then start + size else |s|]
  }

  /** The paging state: zero-based page, page size, and the total the page reports. */
  datatype Pager = Pager(page: nat, size: nat, total: nat)

  /** The page stays in range: the first page, or one that holds messages. */
  predicate Valid(p: Pager) { p.size > 0 && (p.page == 0 || p.page < CeilDiv(p.total, p.size)) }

  /** `nextPage`: one on while `currentPage < ceil(total / size) - 1`. */
  function NextPage(p: Pager): (r: Pager)
    requires Valid(p)
    ensures Valid(r)
    ensures r == p.(page := r.page)
    ensures r.page == p.page + 1 <==> (p.page + 1) * p.size < p.total
    ensures r.page == p.page || r.page == p.page + 1
  {
    if p.page < CeilDiv(p.total, p.size) - 1 then p.(page := p.page + 1) else p
  }

  /** `previousPage`: one back while `currentPage > 0`. */
  function PreviousPage(p: Pager): (r: Pager)
    requires Valid(p)
    ensures Valid(r)
    ensures r == p.(page := r.page)
    ensures r.page == p.page - 1 <==> p.page > 0
    ensures r.page == p.page || r.page == p.page - 1
  {
    if p.page > 0 then p.(page := p.page - 1) else p
  }

  /** `changeItemsPerPage` and `applyFilters`: any change of size or filters goes back to page 0. */
  function Reset(p: Pager, size: nat): (r: Pager)
    requires size > 0
    ensures Valid(r) && r.page == 0 && r.size == size && r.total == p.total
  {
    p.(page := 0, size := size)
  }

  /** `end = Math.min(start + currentCount - 1, total)` with `start = page * size + 1`. */
  function LastShown(page: nat, size: nat, count: nat, total: nat): (e: int)
    ensures e <= total
    ensures e == total || e == page * size + count
  {
    var start := page * size + 1;
    if start + count - 1 <= total then start + count - 1 else total
  }

  /** `nextBtn.disabled = end >= total`. */
  predicate NextDisabled(page: nat, size: nat, count: nat, total: nat): (disabled: bool)
    ensures disabled <==> total <= page * size + count
  {
    LastShown(page, size, count, total) >= total
  }

  // ---------------------------------------------------------------------------
  // Pagination with a date filter, as written and as intended
  // ---------------------------------------------------------------------------

  /**
   * `updatePagination` with a date filter set: the server's window is fetched, filtered by
   * date, and the count of what survived becomes the total.
   */
  function ShownAsWritten(all: seq<Sent>, page: nat, size: nat, inicial: Day, final: Day, offset: int): (r: (seq<Sent>, nat))
    ensures |r.0| <= size
    ensures inicial.OnDay? || final.OnDay? ==> r.1 == |r.0|
  {
    var shown := DateFilterAsWritten(Window(all, page * size, size), inicial, final, offset);
    (shown, if inicial.OnDay? || final.OnDay? then |shown| else |all|)
  }

  /** `k` stands for `page * size`, so that the bound is linear. */
  lemma LastShownAt(page: nat, size: nat, count: nat, total: nat, k: nat)
    requires k == page * size
    ensures NextDisabled(page, size, count, total) <==> k + count >= total
  {
  }

  lemma CeilAtMostOne(count: nat, size: nat)
    requires 0 < size && count <= size
    ensures CeilDiv(count, size) <= 1
  {
  }

  /** With a date filter the next button is disabled and `nextPage` stays put, on every page. */
  lemma DateFilterBlocksNext(all: seq<Sent>, page: nat, size: nat, inicial: Day, final: Day, offset: int)
    requires size > 0
    requires inicial.OnDay? || final.OnDay?
    ensures var r := ShownAsWritten(all, page, size, inicial, final, offset);
      NextDisabled(page, size, |r.0|, r.1) && CeilDiv(r.1, size) <= 1
  {
    var r := ShownAsWritten(all, page, size, inicial, final, offset);
    BlocksNextWhenTotalIsCount(page, size, |r.0|, r.1);
  }

  lemma BlocksNextWhenTotalIsCount(page: nat, size: nat, count: nat, total: nat)
    requires 0 < size && count <= size && total == count
    ensures NextDisabled(page, size, count, total) && CeilDiv(total, size) <= 1
  {
    LastShownAt(page, size, count, total, page * size);
    CeilAtMostOne(count, size);
  }

  /** Twenty-five messages without a date and a start date set: only ten are ever reachable. */
  lemma SampleDateFilterHidesMessages()
    ensures var all := seq(25, i => NoDate);
      var r := ShownAsWritten(all, 0, 10, OnDay(20371), NoDay, -180);
      |DateFilterAsWritten(all, OnDay(20371), NoDay, -180)| == 25 && |r.0| == 10 && NextDisabled(0, 10, |r.0|, r.1)
  {
    var all := seq(25, i => NoDate);
    assert forall i :: 0 <= i < |all| ==> KeptAsWritten(all[i], OnDay(20371), NoDay, -180);
    var w := Window(all, 0, 10);
    assert forall i :: 0 <= i < |w| ==> KeptAsWritten(w[i], OnDay(20371), NoDay, -180);
  }

  /**
   * The intended pagination: the date filter applies to every matching message, the total is
   * the number that pass, and the page is a window over them.
   */
  function Shown(all: seq<Sent>, page: nat, size: nat, inicial: Day, final: Day, offset: int): (r: (seq<Sent>, nat))
    ensures |r.0| <= size
    ensures r.1 == |DateFilter(all, inicial, final, offset)|
    ensures forall i :: 0 <= i < |r.0| ==> Kept(r.0[i], inicial, final, offset)
  {
    var matching := DateFilter(all, inicial, final, offset);
    (Window(matching, page * size, size), |matching|)
  }

  /**
   * With the intended total the next button is disabled exactly when no matching message lies
   * beyond this page, which is exactly when `nextPage` stays put.
   */
  lemma NextDisabledIffLastPage(all: seq<Sent>, page: nat, size: nat, inicial: Day, final: Day, offset: int)
    requires size > 0
    ensures var r := Shown(all, page, size, inicial, final, offset);
      && (NextDisabled(page, size, |r.0|, r.1) <==> (page + 1) * size >= r.1)
      && (Valid(Pager(page, size, r.1)) ==>
            (NextDisabled(page, size, |r.0|, r.1) <==> NextPage(Pager(page, size, r.1)).page == page))
  {
    var r := Shown(all, page, size, inicial, final, offset);
    ProductIsNat(page, size);
    var k: nat := page * size;
    assert (page + 1) * size == k + size;
    LastShownAt(page, size, |r.0|, r.1, k);
    WindowCount(DateFilter(all, inicial, final, offset), k, size);
  }

  lemma ProductIsNat(a: nat, b: nat)
    ensures a * b >= 0
  {
  }

  lemma WindowCount(s: seq<Sent>, k: nat, size: nat)
    ensures k + |Window(s, k, size)| >= |s| <==> k + size >= |s|
  {
  }

  /** A page whose first message exists is a page in range. */
  lemma PageInRange(page: nat, size: nat, total: nat, k: nat)
    requires size > 0 && k == page * size && k < total
    ensures page < CeilDiv(total, size)
  {
    var c := CeilDiv(total, size);
    if c <= page {
      MulMono(c, page, size);
    }
  }

  lemma MulMono(a: nat, b: nat, n: nat)
    requires a <= b
    ensures a * n <= b * n
  {
  }
}

=== FILE: message_text.dfy ===
/**
 * The text handling of the message reader (`SEFAZMessageProcessor` and `MessageExtractor`):
 * the receipt-link extractor, the "IE - NAME" cell splitter, the resolution of relative
 * links, the counter of the per-message loop and the result of the single-message run.
 * What the browser page would have produced (cell texts, link counts, outcomes of the
 * page actions) is passed in as plain values.
 */
module MessageText {
  import opened Options
  import opened Text

  // ---------------------------------------------------------------------------
  // Receipt link
  // ---------------------------------------------------------------------------

  predicate IsQuote(c: char) { c == '"' || c == '\'' }

  predicate NotQuote(c: char) { !IsQuote(c) }

  predicate QuoteFree(s: string) { forall i :: 0 <= i < |s| ==> NotQuote(s[i]) }

  /** The exact-case token the HTML must hold before the pattern is tried. */
  const ReceiptToken: string := "listIReciboDief"

  /** The literal part `listIReciboDief\.do` of the pattern, in ASCII lower case; the model compares case-insensitively over ASCII only. */
  const ReceiptPath: string := "listirecibodief.do"

  /**
   * `href=["']([^"']*listIReciboDief\.do[^"']*)["']` matches at position `i` with group `v`:
   * `href=` in any ASCII case, an opening quote, a quote-free `v` holding the path in any
   * case, and a closing quote (either quote character closes).
   */
  predicate HrefMatch(s: string, i: nat, v: string)
  {
    i + 6 + |v| < |s| && AsciiLowerStr(s[i..i + 5]) == "href=" && IsQuote(s[i + 5])
    && s[i + 6..i + 6 + |v|] == v && QuoteFree(v) && Contains(AsciiLowerStr(v), ReceiptPath)
    && IsQuote(s[i + 6 + |v|])
  }

  /** The pattern tried at one position: the group can only be the whole quote-free run after the opening quote. */
  function HrefAt(s: string, i: nat): (r: Option<string>)
    ensures r.Some? ==> HrefMatch(s, i, r.value)
  {
    if i + 6 <= |s| && AsciiLowerStr(s[i..i + 5]) == "href=" && IsQuote(s[i + 5]) then
      var v := TakeWhile(s[i + 6..], NotQuote);
      if |v| < |s| - (i + 6) && Contains(AsciiLowerStr(v), ReceiptPath) then Some(v) else None
    else None
  }

  /** Both directions: `HrefAt` answers exactly the match the pattern defines, so the group is unique. */
  lemma HrefAtIsTheMatch(s: string, i: nat, v: string)
    ensures HrefMatch(s, i, v) <==> HrefAt(s, i) == Some(v)
  {
    if HrefMatch(s, i, v) {
      var tail := s[i + 6 + |v|..];
      assert s[i + 6..] == v + tail;
      TakeWhileWhole(v, tail, NotQuote);
    }
  }

  /** `re.search`: the leftmost position from `from` on where the pattern matches. */
  function FirstHref(s: string, from: nat): (r: Option<nat>)
    ensures r.Some? ==> from <= r.value < |s| && HrefAt(s, r.value).Some?
    ensures r.Some? ==> forall j :: from <= j < r.value ==> HrefAt(s, j).None?
    ensures r.None? ==> forall j :: from <= j ==> HrefAt(s, j).None?
    decreases |s| - from
  {
    if from >= |s| then None
    else if HrefAt(s, from).Some? then Some(from)
    else FirstHref(s, from + 1)
  }

  /** `.replace('&amp;', '&')`. */
  function Unescape(v: string): (r: string)
    ensures !Contains(v, "&amp;") ==> r == v
    ensures QuoteFree(v) ==> QuoteFree(r)
  {
    if QuoteFree(v) then ReplaceKeeps(v, "&amp;", "&", NotQuote); Replace(v, "&amp;", "&")
    else Replace(v, "&amp;", "&")
  }

  /**
   * `_extract_receipt_link` (and the same steps in the link back-fill script): nothing for
   * empty HTML or HTML without the exact-case token; otherwise the unescaped group of the
   * leftmost match, if any.
   */
  function ReceiptLink(html: string): (r: Option<string>)
    ensures html == "" || !Contains(html, ReceiptToken) ==> r == None
    ensures r.Some? ==> QuoteFree(r.value)
  {
    if html == "" || !Contains(html, ReceiptToken) then None
    else match FirstHref(html, 0)
      case None => None
      case Some(i) =>
        Some(Unescape(HrefAt(html, i).value))
  }

  /**
   * The declarative reading of `ReceiptLink`: a link comes back exactly when the token is
   * present and the pattern matches somewhere, and it is the unescaped group of a match
   * with no match further left.
   */
  lemma ReceiptLinkIsLeftmostMatch(html: string)
    ensures ReceiptLink(html).Some? <==>
      html != "" && Contains(html, ReceiptToken) && exists i: nat, v :: HrefMatch(html, i, v)
    ensures ReceiptLink(html).Some? ==>
      exists i: nat, v :: HrefMatch(html, i, v) && ReceiptLink(html).value == Unescape(v)
        && forall j: nat, w :: j < i ==> !HrefMatch(html, j, w)
  {
    if html != "" && Contains(html, ReceiptToken) && exists i: nat, v :: HrefMatch(html, i, v) {
      var i: nat, v :| HrefMatch(html, i, v);
      HrefAtIsTheMatch(html, i, v);
      assert FirstHref(html, 0).Some?;
    }
    if ReceiptLink(html).Some? {
      var i := FirstHref(html, 0).value;
      var v := HrefAt(html, i).value;
      forall j: nat, w | j < i ensures !HrefMatch(html, j, w) {
        HrefAtIsTheMatch(html, j, w);
      }
      assert HrefMatch(html, i, v);
    }
  }

  /** A link found is never empty: the group holds the receipt path. */
  lemma ReceiptLinkNonEmpty(html: string)
    requires ReceiptLink(html).Some?
    ensures ReceiptLink(html).value != ""
  {
    var v := HrefAt(html, FirstHref(html, 0).value).value;
    assert |AsciiLowerStr(v)| >= |ReceiptPath|;
    ReplaceNonEmpty(v, "&amp;", "&");
  }

  /** The path as it appears in the URL the portal sends. */
  lemma ReceiptPathFacts()
    ensures AsciiLowerStr(ReceiptToken + ".do") == ReceiptPath
    ensures QuoteFree(ReceiptToken + ".do") && ';' !in ReceiptToken + ".do"
  {
  }

  lemma QuoteFreeAppend(a: string, b: string)
    requires QuoteFree(a) && QuoteFree(b)
    ensures QuoteFree(a + b)
  {
    assert forall i :: |a| <= i < |a + b| ==> (a + b)[i] == b[i - |a|];
  }

  /** A URL built around the receipt path is a valid group and has nothing to unescape. */
  lemma ReceiptUrlShape(a: string, b: string, url: string)
    requires QuoteFree(a) && QuoteFree(b) && ';' !in a && ';' !in b
    requires url == a + ReceiptToken + ".do" + b
    ensures QuoteFree(url) && Contains(AsciiLowerStr(url), ReceiptPath) && Unescape(url) == url
  {
    var mid := ReceiptToken + ".do";
    ReceiptPathFacts();
    assert url == a + mid + b;
    QuoteFreeAppend(a, mid);
    QuoteFreeAppend(a + mid, b);
    AsciiLowerAppend(a, mid);
    AsciiLowerAppend(a + mid, b);
    ContainsWitness(AsciiLowerStr(a), ReceiptPath, AsciiLowerStr(b));
    assert ';' !in url;
    NotContainsByChar(url, "&amp;", ';');
  }

  /** An anchor `href="url"` after `pre` is a match at `|pre|`. */
  lemma AnchorMatches(pre: string, url: string, post: string)
    requires QuoteFree(url) && Contains(AsciiLowerStr(url), ReceiptPath)
    ensures HrefMatch(pre + "href=\"" + url + "\"" + post, |pre|, url)
  {
    var html := pre + "href=\"" + url + "\"" + post;
    var i := |pre|;
    assert html[i..i + 5] == "href=" && html[i + 5] == '"';
    assert html[i + 6..i + 6 + |url|] == url;
    assert html[i + 6 + |url|] == '"';
  }

  /** No position inside a prefix without an `h` starts a match. */
  lemma NoHrefBefore(pre: string, rest: string)
    requires forall j :: 0 <= j < |pre| ==> AsciiLower(pre[j]) != 'h'
    ensures forall j :: 0 <= j < |pre| ==> HrefAt(pre + rest, j).None?
  {
    var html := pre + rest;
    forall j | 0 <= j < |pre| ensures HrefAt(html, j).None? {
      if j + 6 <= |html| {
        assert AsciiLowerStr(html[j..j + 5])[0] == AsciiLower(pre[j]);
      }
    }
  }

  /** The first match of the pattern is the anchor right after the prefix. */
  lemma FirstHrefAtAnchor(html: string, i: nat, url: string)
    requires forall j :: 0 <= j < i ==> HrefAt(html, j).None?
    requires HrefAt(html, i) == Some(url)
    ensures FirstHref(html, 0) == Some(i)
  {
  }

  /** A page whose anchor holds the receipt path gives back its URL when nothing before the anchor starts with `h`. */
  lemma ReceiptLinkOfShape(pre: string, a: string, b: string, post: string, url: string)
    requires forall j :: 0 <= j < |pre| ==> AsciiLower(pre[j]) != 'h'
    requires QuoteFree(a) && QuoteFree(b) && ';' !in a && ';' !in b
    requires url == a + ReceiptToken + ".do" + b
    ensures ReceiptLink(pre + "href=\"" + url + "\"" + post) == Some(url)
  {
    var html := pre + "href=\"" + url + "\"" + post;
    var i := |pre|;
    assert html == (pre + "href=\"" + a) + ReceiptToken + (".do" + b + "\"" + post);
    ContainsWitness(pre + "href=\"" + a, ReceiptToken, ".do" + b + "\"" + post);
    assert html == pre + ("href=\"" + url + "\"" + post);
    NoHrefBefore(pre, "href=\"" + url + "\"" + post);
    ReceiptUrlShape(a, b, url);
    AnchorMatches(pre, url, post);
    HrefAtIsTheMatch(html, i, url);
    FirstHrefAtAnchor(html, i, url);
  }

  /** The pieces of the sample receipt message. */
  const SamplePrefix: string := "    <a target=\"_blank\" "
  const SampleHost: string := "https://sefaznet.sefaz" + ".ma.gov.br/sefaznet/"
  const SampleQuery: string := "?method=reciboDIEF" + "&idRecibo=30369794"

  /** The anchor of the sample receipt message. */
  const SampleReceiptUrl: string := SampleHost + ReceiptToken + ".do" + SampleQuery

  const SampleAnchorLine: string := SamplePrefix + "href=\"" + SampleReceiptUrl + "\"" + ">aqui</a>"

  lemma SamplePrefixHasNoH()
    ensures forall j :: 0 <= j < |SamplePrefix| ==> AsciiLower(SamplePrefix[j]) != 'h'
  {
  }

  lemma SampleHostPlain()
    ensures QuoteFree(SampleHost) && ';' !in SampleHost
  {
    var a, b := "https://sefaznet.sefaz", ".ma.gov.br/sefaznet/";
    assert QuoteFree(a) && ';' !in a;
    assert QuoteFree(b) && ';' !in b;
    QuoteFreeAppend(a, b);
  }

  lemma SampleQueryPlain()
    ensures QuoteFree(SampleQuery) && ';' !in SampleQuery
  {
    var a, b := "?method=reciboDIEF", "&idRecibo=30369794";
    assert QuoteFree(a) && ';' !in a;
    assert QuoteFree(b) && ';' !in b;
    QuoteFreeAppend(a, b);
  }

  lemma SampleReceiptLink()
    ensures ReceiptLink(SampleAnchorLine) == Some(SampleReceiptUrl)
  {
    SamplePrefixHasNoH();
    SampleHostPlain();
    SampleQueryPlain();
    ReceiptLinkOfShape(SamplePrefix, SampleHost, SampleQuery, ">aqui</a>", SampleReceiptUrl);
  }

  /**
   * The token check is case-sensitive although the pattern is not: an anchor whose path
   * is written in capitals is a match of the pattern, yet no link is returned.
   */
  lemma TokenCheckIsCaseSensitive(url: string)
    requires QuoteFree(url) && Contains(AsciiLowerStr(url), ReceiptPath) && 'l' !in url
    ensures HrefAt("" + "href=\"" + url + "\"" + "", 0) == Some(url)
    ensures ReceiptLink("" + "href=\"" + url + "\"" + "") == None
  {
    var html := "" + "href=\"" + url + "\"" + "";
    AnchorMatches("", url, "");
    HrefAtIsTheMatch(html, 0, url);
    assert 'l' !in html;
    NotContainsByChar(html, ReceiptToken, 'l');
  }

  lemma CapitalPathLowers()
    ensures AsciiLowerStr("LISTIRECIBODIEF.DO") == ReceiptPath
  {
    var a, b := "LISTIRECI", "BODIEF.DO";
    assert "LISTIRECIBODIEF.DO" == a + b;
    AsciiLowerAppend(a, b);
    assert AsciiLowerStr(a) == "listireci";
    assert AsciiLowerStr(b) == "bodief.do";
  }

  lemma CapitalPathPlain()
    ensures QuoteFree("LISTIRECIBODIEF.DO") && 'l' !in "LISTIRECIBODIEF.DO"
  {
    var a, b := "LISTIRECI", "BODIEF.DO";
    assert "LISTIRECIBODIEF.DO" == a + b;
    assert QuoteFree(a) && 'l' !in a;
    assert QuoteFree(b) && 'l' !in b;
    QuoteFreeAppend(a, b);
  }

  /** The path written in capitals meets the conditions above, so such an anchor is ignored. */
  lemma CapitalisedPathIgnored()
    ensures QuoteFree("LISTIRECIBODIEF.DO") && 'l' !in "LISTIRECIBODIEF.DO"
    ensures Contains(AsciiLowerStr("LISTIRECIBODIEF.DO"), ReceiptPath)
  {
    CapitalPathPlain();
    CapitalPathLowers();
    ContainsWitness("", ReceiptPath, "");
    assert "" + ReceiptPath + "" == ReceiptPath;
  }

  // ---------------------------------------------------------------------------
  // The "IE - NAME" cell
  // ---------------------------------------------------------------------------

  const IeSeparator: string := " - "

  datatype IeCell = IeCell(ie: string, name: Option<string>)

  /**
   * The text of the "Inscrição Estadual" cell, stripped: with a separator, the first piece
   * is the IE and the second piece the company name (each stripped); otherwise it is all IE.
   */
  function SplitIeCell(text: string): (r: IeCell)
    ensures r.name.Some? <==> Contains(PyStrip(text), IeSeparator)
    ensures r.name.None? ==> r.ie == PyStrip(text)
    ensures r.name.Some? ==> !Contains(r.ie, IeSeparator) && !Contains(r.name.value, IeSeparator)
  {
    var t := PyStrip(text);
    if Contains(t, IeSeparator) then
      SplitAtSeparator(t, IeSeparator);
      var parts := Split(t, IeSeparator);
      StripKeepsAbsence(parts[0], IeSeparator);
      StripKeepsAbsence(parts[1], IeSeparator);
      IeCell(PyStrip(parts[0]), Some(PyStrip(parts[1])))
    else IeCell(t, None)
  }

  /** A digit-only IE never holds a space, so the first separator follows it. */
  lemma SeparatorAfterDigits(ie: string, rest: string)
    requires AllDigits(ie)
    requires StartsWith(rest, IeSeparator)
    ensures Split(ie + rest, IeSeparator) == [ie] + Split(rest[3..], IeSeparator)
  {
    var t := ie + rest;
    assert t[|ie|..|ie| + 3] == rest[..3];
    forall j | 0 <= j < |ie| ensures !OccursAt(t, IeSeparator, j) {
      if j + 3 <= |t| {
        assert t[j..j + 3][0] == ie[j];
      }
    }
    SplitFirst(t, IeSeparator, |ie|);
    assert t[..|ie|] == ie && t[|ie| + 3..] == rest[3..];
  }

  /** A stripped cell holding the separator yields its first two pieces, stripped. */
  lemma IeCellOfParts(t: string, x: string, y: string)
    requires PyStrip(t) == t && Contains(t, IeSeparator)
    requires |Split(t, IeSeparator)| >= 2 && Split(t, IeSeparator)[0] == x && Split(t, IeSeparator)[1] == y
    ensures SplitIeCell(t) == IeCell(PyStrip(x), Some(PyStrip(y)))
  {
  }

  lemma FirstTwo<T>(s: seq<T>, x: T, y: T, rest: seq<T>)
    requires s == [x, y] + rest
    ensures |s| >= 2 && s[0] == x && s[1] == y
  {
  }

  /** A stripped cell whose first two pieces are stripped yields those two pieces. */
  lemma SplitIeCellOf(t: string, x: string, y: string, rest: seq<string>)
    requires PyStrip(t) == t && Split(t, IeSeparator) == [x, y] + rest
    requires PyStrip(x) == x && PyStrip(y) == y
    ensures SplitIeCell(t) == IeCell(x, Some(y))
  {
    FirstTwo(Split(t, IeSeparator), x, y, rest);
    SeparatorOfSplit(t, IeSeparator);
    IeCellOfParts(t, x, y);
  }

  lemma RoundTripParts(ie: string, name: string)
    requires AllDigits(ie) && !Contains(name, IeSeparator)
    ensures Split(ie + IeSeparator + name, IeSeparator) == [ie, name]
  {
    assert ie + IeSeparator + name == ie + (IeSeparator + name);
    assert (IeSeparator + name)[3..] == name;
    SeparatorAfterDigits(ie, IeSeparator + name);
    SplitNone(name, IeSeparator);
  }

  lemma DigitsStripped(ie: string)
    requires |ie| > 0 && AllDigits(ie)
    ensures PyStrip(ie) == ie
  {
    assert !IsPySpace(ie[0]) && !IsPySpace(ie[|ie| - 1]);
  }

  /** A cell that starts with a digit and ends in a non-space is already stripped. */
  lemma CellStripped(ie: string, mid: string, name: string)
    requires |ie| > 0 && AllDigits(ie) && |name| > 0 && !IsPySpace(name[|name| - 1])
    ensures PyStrip(ie + mid + name) == ie + mid + name
  {
    var t := ie + mid + name;
    assert t[0] == ie[0] && t[|t| - 1] == name[|name| - 1];
  }

  /** Round trip: the cell the portal shows for a digit-only IE and a plain name splits back into both. */
  lemma IeCellRoundTrip(ie: string, name: string)
    requires |ie| > 0 && AllDigits(ie)
    requires |name| > 0 && !IsPySpace(name[0]) && !IsPySpace(name[|name| - 1])
    requires !Contains(name, IeSeparator)
    ensures SplitIeCell(ie + IeSeparator + name) == IeCell(ie, Some(name))
  {
    CellStripped(ie, IeSeparator, name);
    DigitsStripped(ie);
    RoundTripParts(ie, name);
    SplitIeCellOf(ie + IeSeparator + name, ie, name, []);
  }

  /** The first separator after a name that does not end in a space or `-` is the one put after it. */
  lemma NameThenSeparator(a: string, b: string)
    requires |a| > 0 && !IsPySpace(a[|a| - 1]) && a[|a| - 1] != '-'
    requires !Contains(a, IeSeparator)
    ensures Split(a + IeSeparator + b, IeSeparator) == [a] + Split(b, IeSeparator)
  {
    var rest := a + IeSeparator + b;
    assert rest[|a|..|a| + 3] == IeSeparator;
    forall j | 0 <= j < |a| ensures !OccursAt(rest, IeSeparator, j) {
      if j + 3 <= |a| {
        assert rest[j..j + 3] == a[j..j + 3];
        assert !OccursAt(a, IeSeparator, j);
      } else if j == |a| - 1 {
        assert rest[j..j + 3][0] == a[|a| - 1];
      } else if j == |a| - 2 {
        assert rest[j..j + 3][1] == a[|a| - 1];
      }
    }
    SplitFirst(rest, IeSeparator, |a|);
    assert rest[..|a|] == a && rest[|a| + 3..] == b;
  }

  lemma SecondPieceParts(ie: string, a: string, b: string)
    requires AllDigits(ie)
    requires |a| > 0 && !IsPySpace(a[|a| - 1]) && a[|a| - 1] != '-'
    requires !Contains(a, IeSeparator)
    ensures Split(ie + IeSeparator + a + IeSeparator + b, IeSeparator) == [ie, a] + Split(b, IeSeparator)
  {
    var rest := a + IeSeparator + b;
    assert ie + IeSeparator + a + IeSeparator + b == ie + (IeSeparator + rest);
    assert (IeSeparator + rest)[3..] == rest;
    SeparatorAfterDigits(ie, IeSeparator + rest);
    NameThenSeparator(a, b);
  }

  /**
   * Only the second piece becomes the name: a company name that itself holds the
   * separator loses everything from its own separator on.
   */
  lemma NameKeepsSecondPieceOnly(ie: string, a: string, b: string)
    requires |ie| > 0 && AllDigits(ie)
    requires |a| > 0 && !IsPySpace(a[0]) && !IsPySpace(a[|a| - 1]) && a[|a| - 1] != '-'
    requires !Contains(a, IeSeparator)
    requires |b| > 0 && !IsPySpace(b[|b| - 1])
    ensures SplitIeCell(ie + IeSeparator + a + IeSeparator + b) == IeCell(ie, Some(a))
  {
    var t := ie + IeSeparator + a + IeSeparator + b;
    CellStripped(ie, IeSeparator + a + IeSeparator, b);
    assert ie + (IeSeparator + a + IeSeparator) + b == t;
    DigitsStripped(ie);
    SecondPieceParts(ie, a, b);
    SplitIeCellOf(t, ie, a, Split(b, IeSeparator));
  }

  /** The IE and company name a stored message ends up with. */
  datatype Identity = Identity(ie: Option<string>, name: Option<string>)

  /**
   * The IE of the company being consulted is only a default: when the page has the
   * cell (`cell` is its text), the cell decides the IE and, with a separator, the name.
   */
  function ReadIdentity(context: Option<string>, cell: Option<string>): (r: Identity)
    ensures cell.None? ==> r.name.None? && (r.ie.Some? <==> context.Some? && context.value != "")
    ensures cell.None? && r.ie.Some? ==> r.ie == context
    ensures cell.Some? ==> r.ie == Some(SplitIeCell(cell.value).ie) && r.name == SplitIeCell(cell.value).name
  {
    var initial := if context.Some? && context.value != "" then Identity(context, None) else Identity(None, None);
    match cell
    case None => initial
    case Some(text) =>
      var c := SplitIeCell(text);
      Identity(Some(c.ie), c.name)
  }

  /** Whatever the context says, a cell `IE - NAME` wins. */
  lemma CellOverridesContext(context: Option<string>, ie: string, name: string)
    requires |ie| > 0 && AllDigits(ie)
    requires |name| > 0 && !IsPySpace(name[0]) && !IsPySpace(name[|name| - 1])
    requires !Contains(name, IeSeparator)
    ensures ReadIdentity(context, Some(ie + IeSeparator + name)) == Identity(Some(ie), Some(name))
  {
    IeCellRoundTrip(ie, name);
  }

  // ---------------------------------------------------------------------------
  // Relative links
  // ---------------------------------------------------------------------------

  /** `'/'.join(current.split('/')[:3])`: for `scheme://host/...` that is `scheme://host`. */
  function Origin(current: string): (r: string)
  {
    var parts := Split(current, "/");
    Join(parts[..if |parts| < 3 then |parts| else 3], "/")
  }

  /** A link starting with `/` is put after the origin of the current page; any other link is kept. */
  function ResolveLink(current: string, link: string): (r: string)
    ensures !StartsWith(link, "/") ==> r == link
    ensures |r| >= |link| && r[|r| - |link|..] == link
  {
    if StartsWith(link, "/") then Origin(current) + link else link
  }

  /** A text without `/` splits at a leading `/` into itself and the rest. */
  lemma SlashAfter(seg: string, rest: string)
    requires '/' !in seg && |rest| > 0 && rest[0] == '/'
    ensures Split(seg + rest, "/") == [seg] + Split(rest[1..], "/")
  {
    var t := seg + rest;
    assert t[|seg|..|seg| + 1] == "/";
    forall j | 0 <= j < |seg| ensures !OccursAt(t, "/", j) {
      if j + 1 <= |t| {
        assert t[j..j + 1][0] == seg[j];
      }
    }
    SplitFirst(t, "/", |seg|);
    assert t[..|seg|] == seg && t[|seg| + 1..] == rest[1..];
  }

  lemma SchemePart(scheme: string, host: string, path: string)
    requires '/' !in scheme
    ensures Split(scheme + "//" + host + path, "/") == [scheme] + Split("/" + host + path, "/")
  {
    var r1 := "//" + host + path;
    assert scheme + "//" + host + path == scheme + r1;
    assert r1[1..] == "/" + host + path;
    SlashAfter(scheme, r1);
  }

  lemma EmptyPart(host: string, path: string)
    ensures Split("/" + host + path, "/") == [""] + Split(host + path, "/")
  {
    var r2 := "/" + host + path;
    assert "" + r2 == r2;
    assert r2[1..] == host + path;
    SlashAfter("", r2);
  }

  lemma HostPart(host: string, path: string)
    requires '/' !in host
    requires path == "" || path[0] == '/'
    ensures Split(host + path, "/") == [host] + (if path == "" then [] else Split(path[1..], "/"))
  {
    if path == "" {
      assert host + path == host;
      NotContainsByChar(host, "/", '/');
      SplitNone(host, "/");
    } else {
      SlashAfter(host, path);
    }
  }

  /** The parts of `scheme://host` followed by any path, split at `/`. */
  lemma UrlParts(scheme: string, host: string, path: string)
    requires '/' !in scheme && '/' !in host
    requires path == "" || path[0] == '/'
    ensures |Split(scheme + "//" + host + path, "/")| >= 3
    ensures Split(scheme + "//" + host + path, "/")[..3] == [scheme, "", host]
  {
    SchemePart(scheme, host, path);
    EmptyPart(host, path);
    HostPart(host, path);
    ThreeHead(Split(scheme + "//" + host + path, "/"), scheme, "", host,
      if path == "" then [] else Split(path[1..], "/"));
  }

  lemma ThreeHead(x: seq<string>, a: string, b: string, c: string, tail: seq<string>)
    requires x == [a] + ([b] + ([c] + tail))
    ensures |x| >= 3 && x[..3] == [a, b, c]
  {
  }

  /** The origin of `scheme://host` followed by any path is `scheme://host`. */
  lemma OriginOfUrl(scheme: string, host: string, path: string)
    requires '/' !in scheme && '/' !in host
    requires path == "" || path[0] == '/'
    ensures Origin(scheme + "//" + host + path) == scheme + "//" + host
  {
    UrlParts(scheme, host, path);
    var three := [scheme, "", host];
    assert Join(three, "/") == scheme + "/" + Join(three[1..], "/");
    assert three[1..] == ["", host] && ["", host][1..] == [host];
    assert Join(["", host], "/") == "" + "/" + host;
    assert "/" + ("" + "/" + host) == "//" + host;
  }

  /** A link relative to the root lands on the same scheme and host as the current page. */
  lemma RootRelativeLink(scheme: string, host: string, path: string, link: string)
    requires '/' !in scheme && '/' !in host
    requires path == "" || path[0] == '/'
    requires StartsWith(link, "/")
    ensures ResolveLink(scheme + "//" + host + path, link) == scheme + "//" + host + link
  {
    OriginOfUrl(scheme, host, path);
  }

  // ---------------------------------------------------------------------------
  // The per-message loop
  // ---------------------------------------------------------------------------

  /**
   * What one turn of `_process_each_message` met: the number of unread-message links
   * on the list page (`None` when querying them raised), the URL read out of the link
   * (`None` when there was none), and what processing the message reported (`None`
   * when it raised).
   */
  datatype Visit = Visit(links: Option<nat>, url: Option<string>, result: Option<bool>)

  /** The loop leaves at the first turn whose index is past the links still on the page. */
  predicate Exhausted(v: Visit, idx: nat) { v.links.Some? && idx >= v.links.value }

  /** A turn that counts: the links were read, a URL was found and processing reported success. */
  predicate Counts(v: Visit) { v.links.Some? && v.url.Some? && v.url.value != "" && v.result == Some(true) }

  /** The index at which the loop leaves (the length when it runs to the end). */
  function StopIndex(visits: seq<Visit>, from: nat): (r: nat)
    requires from <= |visits|
    ensures from <= r <= |visits|
    ensures forall j :: from <= j < r ==> !Exhausted(visits[j], j)
    ensures r < |visits| ==> Exhausted(visits[r], r)
    decreases |visits| - from
  {
    if from == |visits| || Exhausted(visits[from], from) then from else StopIndex(visits, from + 1)
  }

  /** The number of counting turns among the first `k`. */
  function CountedIn(visits: seq<Visit>, k: nat): (r: nat)
    requires k <= |visits|
    ensures r <= k
  {
    if k == 0 then 0 else CountedIn(visits, k - 1) + (if Counts(visits[k - 1]) then 1 else 0)
  }

  /** Counting more turns never counts fewer. */
  lemma {:induction false} CountedInMonotone(visits: seq<Visit>, k: nat, m: nat)
    requires k <= m <= |visits|
    ensures CountedIn(visits, k) <= CountedIn(visits, m)
    decreases m - k
  {
    if k < m {
      CountedInMonotone(visits, k, m - 1);
    }
  }

  /** Without a single successful turn nothing is counted. */
  lemma {:induction false} NoSuccessNoCount(visits: seq<Visit>, k: nat)
    requires k <= |visits|
    requires forall j :: 0 <= j < k ==> visits[j].result != Some(true)
    ensures CountedIn(visits, k) == 0
  {
    if k > 0 {
      NoSuccessNoCount(visits, k - 1);
    }
  }

  /**
   * `_process_each_message`: one turn per link found at the start; a turn whose index is past
   * the links still listed ends the loop, failures of any kind skip to the next turn, and
   * only a successful turn adds one.
   */
  method ProcessEach(visits: seq<Visit>) returns (count: nat)
    ensures count == CountedIn(visits, StopIndex(visits, 0))
    ensures count <= |visits|
  {
    count := 0;
    var idx := 0;
    while idx < |visits|
      invariant 0 <= idx <= |visits|
      invariant forall j :: 0 <= j < idx ==> !Exhausted(visits[j], j)
      invariant count == CountedIn(visits, idx)
    {
      var v := visits[idx];
      if v.links.Some? && idx >= v.links.value {
        break;
      }
      if v.links.Some? && v.url.Some? && v.url.value != "" && v.result == Some(true) {
        count := count + 1;
      }
      idx := idx + 1;
    }
  }

  // ---------------------------------------------------------------------------
  // One message on its own
  // ---------------------------------------------------------------------------

  /** Which steps of `processar_mensagem_individual` ran, and its result. */
  datatype IndividualRun = IndividualRun(saveTried: bool, ackTried: bool, ok: bool)

  /**
   * `processar_mensagem_individual`: `extracted` is the number of cells read besides the IE
   * (`None` when extraction raised), `rowId` what the insert reported (`None` on failure)
   * and `ack` whether the acknowledgement went through.  The record holds the IE of the
   * company whenever it is non-empty, so such a record is never empty.
   */
  function ProcessIndividual(context: string, extracted: Option<nat>, rowId: Option<int>, ack: bool): (r: IndividualRun)
    ensures r.ok <==> (extracted.Some? && (context != "" || extracted.value > 0)
                       && rowId.Some? && rowId.value != 0 && ack)
    ensures r.ackTried ==> r.saveTried
    ensures r.ok ==> r.ackTried
    ensures extracted.Some? && context != "" ==> r.saveTried
  {
    var nonEmpty := extracted.Some? && (context != "" || extracted.value > 0);
    if !nonEmpty then IndividualRun(false, false, false)
    else if rowId.None? || rowId.value == 0 then IndividualRun(true, false, false)
    else IndividualRun(true, true, ack)
  }
}

=== FILE: migrations.dfy ===
/**
 * The schema migrations of `queue_jobs` that add the scheduling columns (`migrar_agendamento`
 * and its second version `migrar_agendamento_v2`) and the checks of `validate_agendamento`.
 *
 * A table is its set of column names and its rows, each row a map from every column to a
 * SQL value.  What the database answers to `ALTER TABLE` is the `alter` oracle; the
 * environment checks, the backup file and the integrity pragma are booleans.
 */
module Migrations {
  import opened Options
  import LinkMigration

  datatype Value = Null | Int(i: int) | Text(s: string)

  type Row = map<string, Value>

  datatype Table = Table(columns: set<string>, rows: seq<Row>)

  /** Every row has a value for exactly the table's columns. */
  predicate WellFormed(t: Table)
  {
    forall i :: 0 <= i < |t.rows| ==> t.rows[i].Keys == t.columns
  }

  /** A column to add and the value `ADD COLUMN … DEFAULT` gives the existing rows. */
  datatype Column = Column(name: string, default: Value)

  const DataAgendada := "data_agendada"
  const TipoExecucao := "tipo_execucao"
  const Recorrencia := "recorrencia"
  const AtivoAgendamento := "ativo_agendamento"
  const CriadoPor := "criado_por"

  /** The five scheduling columns, in the order both scripts add them. */
  const Required: seq<Column> := [
    Column(DataAgendada, Null),
    Column(TipoExecucao, Text("imediata")),
    Column(Recorrencia, Null),
    Column(AtivoAgendamento, Int(1)),
    Column(CriadoPor, Text("manual"))]

  const RequiredNames: set<string> := {DataAgendada, TipoExecucao, Recorrencia, AtivoAgendamento, CriadoPor}

  /** The three columns whose NULLs the migrations replace by the column default. */
  const Defaulted: set<string> := {TipoExecucao, AtivoAgendamento, CriadoPor}

  function Names(cols: seq<Column>): set<string> { set c | c in cols :: c.name }

  lemma RequiredNamesAgree()
    ensures Names(Required) == RequiredNames
  {
    assert Required[0].name == DataAgendada && Required[1].name == TipoExecucao && Required[2].name == Recorrencia;
    assert Required[3].name == AtivoAgendamento && Required[4].name == CriadoPor;
  }

  // ---------------------------------------------------------------------------
  // Adding columns
  // ---------------------------------------------------------------------------

  /** `ALTER TABLE queue_jobs ADD COLUMN`: existing rows get the column default. */
  function AddColumn(t: Table, c: Column): (r: Table)
    requires WellFormed(t)
    ensures WellFormed(r) && r.columns == t.columns + {c.name} && |r.rows| == |t.rows|
    ensures forall i, k :: 0 <= i < |t.rows| && k in t.columns && k != c.name ==> r.rows[i][k] == t.rows[i][k]
    ensures forall i :: 0 <= i < |t.rows| ==> r.rows[i][c.name] == c.default
  {
    Table(t.columns + {c.name}, seq(|t.rows|, i requires 0 <= i < |t.rows| => t.rows[i][c.name := c.default]))
  }

  /** The default of the first column of `cols` called `k`. */
  function DefaultOf(cols: seq<Column>, k: string): Value
    requires k in Names(cols)
  {
    if cols[0].name == k then cols[0].default
    else
      assert k in Names(cols[1..]) by {
        var c :| c in cols && c.name == k;
        assert c in cols[1..];
      }
      DefaultOf(cols[1..], k)
  }

  /** Each column of `cols` absent from the table is added; present ones are skipped. */
  function AddMissing(t: Table, cols: seq<Column>): (r: Table)
    requires WellFormed(t)
    ensures WellFormed(r) && r.columns == t.columns + Names(cols) && |r.rows| == |t.rows|
    ensures forall i, k :: 0 <= i < |t.rows| && k in t.columns ==> r.rows[i][k] == t.rows[i][k]
    ensures forall i, k :: 0 <= i < |t.rows| && k in Names(cols) && k !in t.columns ==> r.rows[i][k] == DefaultOf(cols, k)
    decreases |cols|
  {
    if |cols| == 0 then t
    else
      var next := if cols[0].name in t.columns then t else AddColumn(t, cols[0]);
      var r := AddMissing(next, cols[1..]);
      AddMissingStep(t, cols, next, r);
      r
  }

  lemma NamesCons(cols: seq<Column>)
    requires |cols| > 0
    ensures Names(cols) == {cols[0].name} + Names(cols[1..])
  {
    assert cols == [cols[0]] + cols[1..];
  }

  /** What adding the first column and then the rest does, in terms of the whole list. */
  lemma AddMissingStep(t: Table, cols: seq<Column>, next: Table, r: Table)
    requires WellFormed(t) && |cols| > 0
    requires next == if cols[0].name in t.columns then t else AddColumn(t, cols[0])
    requires WellFormed(next)
    requires WellFormed(r) && r.columns == next.columns + Names(cols[1..]) && |r.rows| == |next.rows|
    requires forall i, k :: 0 <= i < |next.rows| && k in next.columns ==> r.rows[i][k] == next.rows[i][k]
    requires forall i, k :: 0 <= i < |next.rows| && k in Names(cols[1..]) && k !in next.columns ==> r.rows[i][k] == DefaultOf(cols[1..], k)
    ensures r.columns == t.columns + Names(cols) && |r.rows| == |t.rows|
    ensures forall i, k :: 0 <= i < |t.rows| && k in t.columns ==> r.rows[i][k] == t.rows[i][k]
    ensures forall i, k :: 0 <= i < |t.rows| && k in Names(cols) && k !in t.columns ==> r.rows[i][k] == DefaultOf(cols, k)
  {
    StepColumns(t, cols, next, r);
    StepKept(t, cols, next, r);
    forall i, k | 0 <= i < |t.rows| && k in Names(cols) && k !in t.columns
      ensures r.rows[i][k] == DefaultOf(cols, k)
    {
      AddedAt(t, cols, next, r, i, k);
    }
  }

  lemma StepColumns(t: Table, cols: seq<Column>, next: Table, r: Table)
    requires WellFormed(t) && |cols| > 0
    requires next == if cols[0].name in t.columns then t else AddColumn(t, cols[0])
    requires r.columns == next.columns + Names(cols[1..])
    ensures r.columns == t.columns + Names(cols)
  {
    NamesCons(cols);
  }

  lemma StepKept(t: Table, cols: seq<Column>, next: Table, r: Table)
    requires WellFormed(t) && |cols| > 0
    requires next == if cols[0].name in t.columns then t else AddColumn(t, cols[0])
    requires WellFormed(r) && next.columns <= r.columns && |r.rows| == |next.rows|
    requires forall i, k :: 0 <= i < |next.rows| && k in next.columns ==> r.rows[i][k] == next.rows[i][k]
    ensures forall i, k :: 0 <= i < |t.rows| && k in t.columns ==> r.rows[i][k] == t.rows[i][k]
  {
  }

  /** A column of the list missing from the table holds its default after the whole list is added. */
  lemma AddedAt(t: Table, cols: seq<Column>, next: Table, r: Table, i: int, k: string)
    requires WellFormed(t) && |cols| > 0 && 0 <= i < |t.rows| && k in Names(cols) && k !in t.columns
    requires next == if cols[0].name in t.columns then t else AddColumn(t, cols[0])
    requires WellFormed(r) && r.columns == next.columns + Names(cols[1..]) && |r.rows| == |next.rows|
    requires forall k :: k in next.columns ==> r.rows[i][k] == next.rows[i][k]
    requires forall k :: k in Names(cols[1..]) && k !in next.columns ==> r.rows[i][k] == DefaultOf(cols[1..], k)
    ensures r.rows[i][k] == DefaultOf(cols, k)
  {
    NamesCons(cols);
    if k == cols[0].name {
      AddedHead(t, cols, next, r, i);
    } else {
      DefaultOfTail(cols, k);
    }
  }

  /** The first column, when missing, holds its own default after the whole list is added. */
  lemma AddedHead(t: Table, cols: seq<Column>, next: Table, r: Table, i: int)
    requires WellFormed(t) && |cols| > 0 && cols[0].name !in t.columns && 0 <= i < |t.rows|
    requires next == AddColumn(t, cols[0])
    requires WellFormed(r) && next.columns <= r.columns && |r.rows| == |next.rows|
    requires forall k :: k in next.columns ==> r.rows[i][k] == next.rows[i][k]
    ensures cols[0].name in Names(cols) && r.rows[i][cols[0].name] == DefaultOf(cols, cols[0].name)
  {
    DefaultOfHead(cols);
    assert r.rows[i][cols[0].name] == next.rows[i][cols[0].name];
  }

  lemma DefaultOfHead(cols: seq<Column>)
    requires |cols| > 0
    ensures cols[0].name in Names(cols) && DefaultOf(cols, cols[0].name) == cols[0].default
  {
  }

  lemma DefaultOfTail(cols: seq<Column>, k: string)
    requires |cols| > 0 && k != cols[0].name && k in Names(cols[1..])
    ensures k in Names(cols) && DefaultOf(cols, k) == DefaultOf(cols[1..], k)
  {
    NamesCons(cols);
  }

  lemma {:induction false} AddMissingNoop(t: Table, cols: seq<Column>)
    requires WellFormed(t) && Names(cols) <= t.columns
    ensures AddMissing(t, cols) == t
    decreases |cols|
  {
    if |cols| > 0 {
      assert cols[0].name in Names(cols);
      assert Names(cols[1..]) <= Names(cols) by {
        forall k | k in Names(cols[1..]) ensures k in Names(cols) {
          var c :| c in cols[1..] && c.name == k;
          assert c in cols;
        }
      }
      AddMissingNoop(t, cols[1..]);
    }
  }

  // ---------------------------------------------------------------------------
  // NULL defaults
  // ---------------------------------------------------------------------------

  /** `UPDATE queue_jobs SET c = default WHERE c IS NULL`. */
  function FillNull(t: Table, c: Column): (r: Table)
    requires WellFormed(t) && c.name in t.columns
    ensures WellFormed(r) && r.columns == t.columns && |r.rows| == |t.rows|
    ensures forall i, k :: 0 <= i < |t.rows| && k in t.columns && k != c.name ==> r.rows[i][k] == t.rows[i][k]
    ensures forall i :: 0 <= i < |t.rows| && t.rows[i][c.name] != Null ==> r.rows[i][c.name] == t.rows[i][c.name]
    ensures forall i :: 0 <= i < |t.rows| && t.rows[i][c.name] == Null ==> r.rows[i][c.name] == c.default
  {
    Table(t.columns, seq(|t.rows|, i requires 0 <= i < |t.rows| =>
      if t.rows[i][c.name] == Null then t.rows[i][c.name := c.default] else t.rows[i]))
  }

  lemma FillNullNoop(t: Table, c: Column)
    requires WellFormed(t) && c.name in t.columns
    requires forall i :: 0 <= i < |t.rows| ==> t.rows[i][c.name] != Null
    ensures FillNull(t, c) == t
  {
    var r := FillNull(t, c);
    assert forall i :: 0 <= i < |t.rows| ==> r.rows[i] == t.rows[i];
  }

  /** `cursor.rowcount` of that update: the rows holding NULL in column `k`. */
  function NullCount(rows: seq<Row>, k: string): (n: nat)
    ensures n <= |rows|
    ensures n == 0 <==> forall i :: 0 <= i < |rows| && k in rows[i] ==> rows[i][k] != Null
  {
    if |rows| == 0 then 0
    else
      assert forall i :: 1 <= i < |rows| ==> rows[i] == rows[1..][i - 1];
      (if k in rows[0] && rows[0][k] == Null then 1 else 0) + NullCount(rows[1..], k)
  }

  /** The three updates of both scripts, in order. */
  function FillDefaults(t: Table): (r: Table)
    requires WellFormed(t) && RequiredNames <= t.columns
    ensures WellFormed(r) && r.columns == t.columns && |r.rows| == |t.rows|
    ensures forall i, k :: 0 <= i < |t.rows| && k in Defaulted ==> r.rows[i][k] != Null
    ensures forall i, k :: 0 <= i < |t.rows| && k in t.columns && t.rows[i][k] != Null ==> r.rows[i][k] == t.rows[i][k]
    ensures forall i, k :: 0 <= i < |t.rows| && k in t.columns && k !in Defaulted ==> r.rows[i][k] == t.rows[i][k]
    ensures forall i :: 0 <= i < |t.rows| && t.rows[i][TipoExecucao] == Null ==> r.rows[i][TipoExecucao] == Text("imediata")
    ensures forall i :: 0 <= i < |t.rows| && t.rows[i][AtivoAgendamento] == Null ==> r.rows[i][AtivoAgendamento] == Int(1)
    ensures forall i :: 0 <= i < |t.rows| && t.rows[i][CriadoPor] == Null ==> r.rows[i][CriadoPor] == Text("manual")
  {
    assert Required[1] == Column(TipoExecucao, Text("imediata"));
    assert Required[3] == Column(AtivoAgendamento, Int(1));
    assert Required[4] == Column(CriadoPor, Text("manual"));
    FillNull(FillNull(FillNull(t, Required[1]), Required[3]), Required[4])
  }

  lemma FillDefaultsNoop(t: Table)
    requires WellFormed(t) && RequiredNames <= t.columns
    requires forall i, k :: 0 <= i < |t.rows| && k in Defaulted ==> t.rows[i][k] != Null
    ensures FillDefaults(t) == t
  {
    FillNullNoop(t, Required[1]);
    FillNullNoop(t, Required[3]);
    FillNullNoop(t, Required[4]);
  }

  // ---------------------------------------------------------------------------
  // migrar_agendamento
  // ---------------------------------------------------------------------------

  /**
   * `migrate_database`: each scheduling column is added when absent, then NULL
   * `tipo_execucao`, `ativo_agendamento` and `criado_por` become `'imediata'`, 1 and `'manual'`.
   */
  function MigrateV1(t: Table): (r: Table)
    requires WellFormed(t)
    ensures WellFormed(r) && r.columns == t.columns + RequiredNames && |r.rows| == |t.rows|
    ensures forall i, k :: 0 <= i < |r.rows| && k in Defaulted ==> r.rows[i][k] != Null
    ensures forall i, k :: 0 <= i < |t.rows| && k in t.columns && t.rows[i][k] != Null ==> r.rows[i][k] == t.rows[i][k]
    ensures forall i, k :: 0 <= i < |t.rows| && k in t.columns && k !in Defaulted ==> r.rows[i][k] == t.rows[i][k]
  {
    RequiredNamesAgree();
    FillDefaults(AddMissing(t, Required))
  }

  /** Running the migration twice leaves the same schema and data as running it once. */
  lemma MigrateV1Idempotent(t: Table)
    requires WellFormed(t)
    ensures MigrateV1(MigrateV1(t)) == MigrateV1(t)
  {
    var once := MigrateV1(t);
    RequiredNamesAgree();
    AddMissingNoop(once, Required);
    FillDefaultsNoop(once);
  }

  /**
   * The column loop of `migrate_database` against a database that may refuse an `ALTER`: it
   * stops at the first refusal.  Each `ALTER` is committed on its own (the script opens no
   * transaction), so the columns added before the refusal stay; the third component counts
   * the columns of `cols` that were dealt with.
   */
  function AddMissingV1(t: Table, cols: seq<Column>, alter: string -> LinkMigration.AlterError): (r: (Table, bool, nat))
    requires WellFormed(t)
    ensures WellFormed(r.0) && r.2 <= |cols| && r.0 == AddMissing(t, cols[..r.2])
    ensures r.1 ==> r.2 == |cols|
    ensures r.1 <==> forall c :: c in cols && c.name !in t.columns ==> alter(c.name) == LinkMigration.NoError
    decreases |cols|
  {
    if |cols| == 0 then (t, true, 0)
    else if cols[0].name in t.columns || alter(cols[0].name) == LinkMigration.NoError then
      var next := if cols[0].name in t.columns then t else AddColumn(t, cols[0]);
      var (u, ok, n) := AddMissingV1(next, cols[1..], alter);
      AddMissingV1Extends(t, cols, next, alter, u, ok, n);
      (u, ok, n + 1)
    else
      assert cols[..0] == [] && cols[0] in cols;
      (t, false, 0)
  }

  /** What the rest of the columns gives, once the first is dealt with, holds of the whole list. */
  lemma AddMissingV1Extends(t: Table, cols: seq<Column>, next: Table, alter: string -> LinkMigration.AlterError,
                            u: Table, ok: bool, n: nat)
    requires WellFormed(t) && |cols| > 0
    requires cols[0].name in t.columns || alter(cols[0].name) == LinkMigration.NoError
    requires next == if cols[0].name in t.columns then t else AddColumn(t, cols[0])
    requires n < |cols| && u == AddMissing(next, cols[1..][..n]) && (ok ==> n + 1 == |cols|)
    requires ok <==> forall c :: c in cols[1..] && c.name !in next.columns ==> alter(c.name) == LinkMigration.NoError
    ensures u == AddMissing(t, cols[..n + 1])
    ensures ok <==> forall c :: c in cols && c.name !in t.columns ==> alter(c.name) == LinkMigration.NoError
  {
    AddMissingV1Step(t, cols, next, n);
    AlterableStep(t, cols, next, alter);
  }

  lemma AddMissingV1Step(t: Table, cols: seq<Column>, next: Table, n: nat)
    requires WellFormed(t) && n < |cols|
    requires next == if cols[0].name in t.columns then t else AddColumn(t, cols[0])
    ensures AddMissing(t, cols[..n + 1]) == AddMissing(next, cols[1..][..n])
  {
    assert cols[..n + 1][0] == cols[0];
    assert cols[..n + 1][1..] == cols[1..][..n];
  }

  /** Once the first column is dealt with, the rest can all be altered iff the whole list can. */
  lemma AlterableStep(t: Table, cols: seq<Column>, next: Table, alter: string -> LinkMigration.AlterError)
    requires WellFormed(t) && |cols| > 0
    requires cols[0].name in t.columns || alter(cols[0].name) == LinkMigration.NoError
    requires next == if cols[0].name in t.columns then t else AddColumn(t, cols[0])
    ensures (forall c :: c in cols[1..] && c.name !in next.columns ==> alter(c.name) == LinkMigration.NoError)
      <==> (forall c :: c in cols && c.name !in t.columns ==> alter(c.name) == LinkMigration.NoError)
  {
    assert cols == [cols[0]] + cols[1..];
  }

  /** How `migrate_database` ends: committed, or re-raised after part of the work. */
  datatype V1Outcome = V1Done(table: Table) | V1Raised(table: Table)

  /** `migrate_database` with the database's answers to each `ALTER`; any refusal is re-raised. */
  function MigrateV1Run(t: Table, alter: string -> LinkMigration.AlterError): (r: V1Outcome)
    requires WellFormed(t)
    ensures r.V1Done? <==> forall c :: c in Required && c.name !in t.columns ==> alter(c.name) == LinkMigration.NoError
    ensures r.V1Done? ==> r.table == MigrateV1(t)
    ensures r.V1Raised? ==> WellFormed(r.table) && t.columns <= r.table.columns <= t.columns + RequiredNames
    ensures r.V1Raised? ==> |r.table.rows| == |t.rows|
    ensures r.V1Raised? ==> forall i, k :: 0 <= i < |t.rows| && k in t.columns ==> r.table.rows[i][k] == t.rows[i][k]
  {
    var (u, ok, n) := AddMissingV1(t, Required, alter);
    RequiredNamesAgree();
    NamesPrefix(Required, n);
    if ok then
      assert Required[..n] == Required;
      V1Done(FillDefaults(u))
    else V1Raised(u)
  }

  lemma NamesPrefix(cols: seq<Column>, n: nat)
    requires n <= |cols|
    ensures Names(cols[..n]) <= Names(cols)
  {
    forall k | k in Names(cols[..n]) ensures k in Names(cols) {
      var c :| c in cols[..n] && c.name == k;
      assert c in cols;
    }
  }

  lemma {:induction false} DefaultOfPrefix(cols: seq<Column>, n: nat, k: string)
    requires n <= |cols| && k in Names(cols[..n])
    ensures k in Names(cols) && DefaultOf(cols[..n], k) == DefaultOf(cols, k)
    decreases n
  {
    NamesPrefix(cols, n);
    var p := cols[..n];
    assert p[0] == cols[0];
    if cols[0].name != k {
      assert p[1..] == cols[1..][..n - 1];
      assert k in Names(p[1..]) by {
        var c :| c in p && c.name == k;
        assert c in p[1..] by { assert p == [p[0]] + p[1..]; }
      }
      DefaultOfPrefix(cols[1..], n - 1, k);
    }
  }

  /** Two well-formed tables with the same columns and the same values are the same table. */
  lemma TableExtensionality(a: Table, b: Table)
    requires WellFormed(a) && WellFormed(b) && a.columns == b.columns && |a.rows| == |b.rows|
    requires forall i, k :: 0 <= i < |a.rows| && k in a.columns ==> a.rows[i][k] == b.rows[i][k]
    ensures a == b
  {
    forall i | 0 <= i < |a.rows| ensures a.rows[i] == b.rows[i] {
      assert a.rows[i].Keys == b.rows[i].Keys;
    }
  }

  /** Adding the columns of `cols` after a prefix of them was added adds them all, once. */
  lemma AddMissingAfterPrefix(t: Table, cols: seq<Column>, n: nat)
    requires WellFormed(t) && n <= |cols|
    ensures AddMissing(AddMissing(t, cols[..n]), cols) == AddMissing(t, cols)
  {
    var p := AddMissing(t, cols[..n]);
    var q := AddMissing(p, cols);
    var s := AddMissing(t, cols);
    NamesPrefix(cols, n);
    assert q.columns == s.columns;
    forall i, k | 0 <= i < |s.rows| && k in s.columns ensures q.rows[i][k] == s.rows[i][k] {
      SameValue(t, cols, n, i, k);
    }
    TableExtensionality(q, s);
  }

  lemma SameValue(t: Table, cols: seq<Column>, n: nat, i: int, k: string)
    requires WellFormed(t) && n <= |cols| && 0 <= i < |t.rows| && k in t.columns + Names(cols)
    ensures AddMissing(AddMissing(t, cols[..n]), cols).rows[i][k] == AddMissing(t, cols).rows[i][k]
  {
    var p := AddMissing(t, cols[..n]);
    NamesPrefix(cols, n);
    if k in t.columns {
      KeptValue(t, cols, i, k);
      KeptValue(t, cols[..n], i, k);
      KeptValue(p, cols, i, k);
    } else if k in Names(cols[..n]) {
      DefaultOfPrefix(cols, n, k);
      KeptValue(p, cols, i, k);
      AddedValue(t, cols[..n], i, k);
      AddedValue(t, cols, i, k);
    } else {
      AddedValue(p, cols, i, k);
      AddedValue(t, cols, i, k);
    }
  }

  lemma KeptValue(t: Table, cols: seq<Column>, i: int, k: string)
    requires WellFormed(t) && 0 <= i < |t.rows| && k in t.columns
    ensures AddMissing(t, cols).rows[i][k] == t.rows[i][k]
  {
  }

  lemma AddedValue(t: Table, cols: seq<Column>, i: int, k: string)
    requires WellFormed(t) && 0 <= i < |t.rows| && k in Names(cols) && k !in t.columns
    ensures AddMissing(t, cols).rows[i][k] == DefaultOf(cols, k)
  {
  }

  /** Re-running `migrate_database` after it raised leaves what one clean run would have. */
  lemma RerunAfterRaise(t: Table, alter: string -> LinkMigration.AlterError)
    requires WellFormed(t) && MigrateV1Run(t, alter).V1Raised?
    ensures MigrateV1(MigrateV1Run(t, alter).table) == MigrateV1(t)
  {
    var (u, ok, n) := AddMissingV1(t, Required, alter);
    AddMissingAfterPrefix(t, Required, n);
  }

  // ---------------------------------------------------------------------------
  // migrar_agendamento_v2
  // ---------------------------------------------------------------------------

  /** `check_migration_needed`: some scheduling column is missing. */
  function MigrationNeeded(columns: set<string>): (needed: bool)
    ensures needed <==> exists k :: k in RequiredNames && k !in columns
  {
    !(RequiredNames <= columns)
  }

  /**
   * The column loop of `execute_migration`: a missing column is added; a duplicate-column
   * answer is taken as the column being there; any other failure aborts (`None`).  The
   * second component lists the columns this run added.
   */
  function AddMissingV2(t: Table, cols: seq<Column>, alter: string -> LinkMigration.AlterError): (r: Option<(Table, seq<string>)>)
    requires WellFormed(t)
    ensures r.Some? ==> r.value.0 == AddMissing(t, cols)
    ensures r.Some? ==> forall k :: k in r.value.1 ==> k in Names(cols) && k !in t.columns && alter(k) == LinkMigration.NoError
    ensures r.None? <==> exists c :: c in cols && c.name !in t.columns && alter(c.name) == LinkMigration.OtherError
    decreases |cols|
  {
    if |cols| == 0 then Some((t, []))
    else
      assert cols == [cols[0]] + cols[1..];
      assert Names(cols) == {cols[0].name} + Names(cols[1..]);
      if cols[0].name in t.columns then AddMissingV2(t, cols[1..], alter)
      else match alter(cols[0].name)
        case OtherError => None
        case DuplicateColumn => AddMissingV2(AddColumn(t, cols[0]), cols[1..], alter)
        case NoError =>
          match AddMissingV2(AddColumn(t, cols[0]), cols[1..], alter)
          case None => None
          case Some((r, added)) => Some((r, [cols[0].name] + added))
  }

  /** What a successful `execute_migration` leaves: the table, the columns added, the update count. */
  datatype Executed = Executed(table: Table, added: seq<string>, updates: nat)

  /**
   * `execute_migration`: the missing columns, then (unless the table was empty) the NULL
   * defaults, in one transaction; a failure rolls everything back (`None`).
   */
  function ExecuteMigration(t: Table, alter: string -> LinkMigration.AlterError): (r: Option<Executed>)
    requires WellFormed(t)
    ensures r.None? <==> exists c :: c in Required && c.name !in t.columns && alter(c.name) == LinkMigration.OtherError
    ensures r.Some? ==> WellFormed(r.value.table) && RequiredNames <= r.value.table.columns
    ensures r.Some? ==> forall k :: k in r.value.added ==> k in RequiredNames && k !in t.columns
    ensures r.Some? && |t.rows| == 0 ==> r.value.updates == 0
    ensures r.Some? ==> r.value.updates <= 3 * |t.rows|
  {
    RequiredNamesAgree();
    match AddMissingV2(t, Required, alter)
    case None => None
    case Some((added, names)) =>
      if |t.rows| == 0 then Some(Executed(added, names, 0))
      else
        var updates := NullCount(added.rows, TipoExecucao) + NullCount(added.rows, AtivoAgendamento) + NullCount(added.rows, CriadoPor);
        Some(Executed(FillDefaults(added), names, updates))
  }

  /** Both scripts leave the same table: a successful v2 migration is the v1 migration. */
  lemma V2AgreesWithV1(t: Table, alter: string -> LinkMigration.AlterError)
    requires WellFormed(t)
    ensures var r := ExecuteMigration(t, alter);
      r.Some? ==> r.value.table == MigrateV1(t)
  {
    RequiredNamesAgree();
    if |t.rows| == 0 {
      var a := AddMissing(t, Required);
      var f := FillDefaults(a);
      assert a.rows == [] && f.rows == [];
    }
  }

  /** `validate_migration`: every scheduling column present and the integrity check answering `ok`. */
  predicate MigrationValid(t: Table, integrityOk: bool)
  {
    RequiredNames <= t.columns && integrityOk
  }

  /** The end of `run_migration`: the database file afterwards, success, and whether a backup was made. */
  datatype RunResult = RunResult(db: Table, ok: bool, backedUp: bool)

  /**
   * `run_migration`: environment check, no-op when nothing is missing, backup, migration and
   * validation; a migration error after the backup exists restores the backup and is re-raised
   * (`ok` false).  `environmentOk` stands for the existence, permission, space and integrity
   * checks; `integrityAfter` for the integrity pragma after the migration.
   */
  function RunMigration(t: Table, environmentOk: bool, alter: string -> LinkMigration.AlterError, integrityAfter: bool): (r: RunResult)
    requires WellFormed(t)
    ensures !r.ok ==> r.db == t
    ensures r.ok ==> WellFormed(r.db) && RequiredNames <= r.db.columns && |r.db.rows| == |t.rows|
    ensures r.backedUp <==> environmentOk && MigrationNeeded(t.columns)
    ensures environmentOk && !MigrationNeeded(t.columns) ==> r.ok && r.db == t
    ensures r.ok && MigrationNeeded(t.columns) ==> r.db == MigrateV1(t)
  {
    if !environmentOk then RunResult(t, false, false)
    else if !MigrationNeeded(t.columns) then RunResult(t, true, false)
    else
      V2AgreesWithV1(t, alter);
      match ExecuteMigration(t, alter)
      case None => RunResult(t, false, true)
      case Some(e) =>
        if MigrationValid(e.table, integrityAfter) then RunResult(e.table, true, true)
        else RunResult(t, false, true)
  }

  /** After a successful run a second run finds nothing to do: no backup, no change. */
  lemma RunMigrationIdempotent(t: Table, alter: string -> LinkMigration.AlterError, integrityAfter: bool,
                               alter2: string -> LinkMigration.AlterError, integrity2: bool)
    requires WellFormed(t)
    requires RunMigration(t, true, alter, integrityAfter).ok
    ensures var once := RunMigration(t, true, alter, integrityAfter).db;
      RunMigration(once, true, alter2, integrity2) == RunResult(once, true, false)
  {
  }

  // ---------------------------------------------------------------------------
  // validate_agendamento
  // ---------------------------------------------------------------------------

  /** The fourteen columns the validator expects of `queue_jobs`. */
  const BaseColumns: set<string> := {"id", "empresa_id", "status", "prioridade", "data_adicao", "data_processamento",
                                    "tentativas", "max_tentativas", "erro_detalhes"}
  const ExpectedColumns: set<string> := BaseColumns + RequiredNames

  datatype Structure = Structure(success: bool, missing: set<string>, extra: set<string>)

  /** `validate_table_structure`: missing and extra columns; only missing ones fail it. */
  function ValidateStructure(columns: set<string>): (r: Structure)
    ensures r.missing !! columns && r.extra !! ExpectedColumns
    ensures r.missing + (columns * ExpectedColumns) == ExpectedColumns
    ensures r.extra + (columns * ExpectedColumns) == columns
    ensures r.success <==> ExpectedColumns <= columns
  {
    var missing := ExpectedColumns - columns;
    Structure(missing == {}, missing, columns - ExpectedColumns)
  }

  /** The scheduling columns the integrity queries name; a query naming a missing one raises. */
  const IntegrityColumns: set<string> := {TipoExecucao, AtivoAgendamento, DataAgendada}

  /**
   * `validate_data_integrity`: the integrity pragma answers `ok` and no `tipo_execucao` is NULL.
   * When a column its counting queries name is missing, the query raises and the `except`
   * answers failure.
   */
  function ValidateIntegrity(t: Table, integrityOk: bool): (success: bool)
    requires WellFormed(t)
    ensures success <==> IntegrityColumns <= t.columns && integrityOk
                         && forall i :: 0 <= i < |t.rows| ==> t.rows[i][TipoExecucao] != Null
  {
    IntegrityColumns <= t.columns && integrityOk && NullCount(t.rows, TipoExecucao) == 0
  }

  /**
   * The two scripts fit together on integrity: after the migration every column the integrity
   * queries name exists and no `tipo_execucao` is NULL, so the verdict is the pragma's alone.
   */
  lemma MigratedIntegrity(t: Table, integrityOk: bool)
    requires WellFormed(t)
    ensures ValidateIntegrity(MigrateV1(t), integrityOk) == integrityOk
  {
    var m := MigrateV1(t);
    assert IntegrityColumns <= m.columns;
    assert TipoExecucao in Defaulted;
  }

  /** The columns `test_create_agendamento` inserts. */
  const TestColumns: set<string> := {"empresa_id", "status", "prioridade", TipoExecucao, DataAgendada, Recorrencia, AtivoAgendamento, CriadoPor}

  /**
   * The test row: the values the insert names, and the id the database assigns.  Any other
   * column reads as NULL here; the SQL defaults of `data_adicao`, `tentativas` and
   * `max_tentativas` are not part of the model, since the row is deleted before the commit.
   */
  function TestRow(columns: set<string>, id: int, empresaId: int, when: string): (row: Row)
    ensures row.Keys == columns + {"id"}
    ensures row["id"] == Int(id)
    ensures "empresa_id" in columns ==> row["empresa_id"] == Int(empresaId)
    ensures TestColumns <= columns ==>
      row["status"] == Text("pending") && row["prioridade"] == Int(0) && row[TipoExecucao] == Text("agendada")
      && row[DataAgendada] == Text(when) && row[Recorrencia] == Text("unica")
      && row[AtivoAgendamento] == Int(1) && row[CriadoPor] == Text("teste")
  {
    map k | k in columns + {"id"} ::
      if k == "id" then Int(id)
      else if k == "empresa_id" then Int(empresaId)
      else if k == "status" then Text("pending")
      else if k == "prioridade" then Int(0)
      else if k == TipoExecucao then Text("agendada")
      else if k == DataAgendada then Text(when)
      else if k == Recorrencia then Text("unica")
      else if k == AtivoAgendamento then Int(1)
      else if k == CriadoPor then Text("teste")
      else Null
  }

  /** `DELETE FROM queue_jobs WHERE id = ?`. */
  /** The row carries the given id. */
  predicate HasId(row: Row, id: int) { "id" in row && row["id"] == Int(id) }

  function DeleteId(rows: seq<Row>, id: int): (r: seq<Row>)
    ensures |r| <= |rows|
    ensures (forall i :: 0 <= i < |rows| ==> "id" !in rows[i] || rows[i]["id"] != Int(id)) ==> r == rows
  {
    if |rows| == 0 then []
    else (if HasId(rows[0], id) then [] else [rows[0]]) + DeleteId(rows[1..], id)
  }

  /** `DELETE … WHERE id = ?` removes exactly the rows with that id and keeps every other row. */
  lemma {:induction false} DeleteIdExactly(rows: seq<Row>, id: int)
    ensures forall x :: multiset(DeleteId(rows, id))[x] == if HasId(x, id) then 0 else multiset(rows)[x]
    decreases |rows|
  {
    if |rows| > 0 {
      DeleteIdExactly(rows[1..], id);
      assert rows == [rows[0]] + rows[1..];
    }
  }

  lemma DeleteIdAppend(rows: seq<Row>, extra: Row, id: int)
    requires forall i :: 0 <= i < |rows| ==> "id" !in rows[i] || rows[i]["id"] != Int(id)
    requires "id" in extra && extra["id"] == Int(id)
    ensures DeleteId(rows + [extra], id) == rows
    decreases |rows|
  {
    if |rows| == 0 {
      assert rows + [extra] == [extra];
    } else {
      assert (rows + [extra])[1..] == rows[1..] + [extra];
      DeleteIdAppend(rows[1..], extra, id);
    }
  }

  /** The end of `test_create_agendamento`: success and the rows it commits. */
  datatype CreateTest = CreateTest(success: bool, rows: seq<Row>)

  /**
   * `test_create_agendamento`: without an active empresa it fails before inserting; otherwise
   * it inserts a scheduled job under a fresh id, reads it back and deletes it before the commit.
   * An insert naming a column the table lacks fails.
   */
  function TestCreate(t: Table, activeEmpresa: Option<int>, freshId: int, when: string): (r: CreateTest)
    requires WellFormed(t) && "id" in t.columns
    requires forall i :: 0 <= i < |t.rows| ==> t.rows[i]["id"] != Int(freshId)
    ensures r.rows == t.rows
    ensures r.success <==> activeEmpresa.Some? && TestColumns <= t.columns
  {
    if activeEmpresa.None? || !(TestColumns <= t.columns) then CreateTest(false, t.rows)
    else
      var row := TestRow(t.columns, freshId, activeEmpresa.value, when);
      var inserted := t.rows + [row];
      assert inserted[|t.rows|] == row;
      DeleteIdAppend(t.rows, row, freshId);
      CreateTest(true, DeleteId(inserted, freshId))
  }

  /** The result of `run_full_validation`; `overall` is absent when the database file is missing. */
  datatype Validation = Validation(overall: Option<bool>, structure: Option<Structure>)

  /**
   * `run_full_validation`: with no database file nothing else runs; otherwise the verdict is
   * the conjunction of the structure, integrity and creation tests.
   */
  function FullValidation(exists_: bool, t: Table, integrityOk: bool, activeEmpresa: Option<int>, freshId: int, when: string): (r: Validation)
    requires WellFormed(t) && "id" in t.columns
    requires forall i :: 0 <= i < |t.rows| ==> t.rows[i]["id"] != Int(freshId)
    ensures !exists_ ==> r == Validation(None, None)
    ensures exists_ ==> r.overall.Some? && r.structure == Some(ValidateStructure(t.columns))
    ensures exists_ ==> (r.overall.value <==> ExpectedColumns <= t.columns
                                              && (forall i :: 0 <= i < |t.rows| ==> t.rows[i][TipoExecucao] != Null)
                                              && integrityOk && activeEmpresa.Some?)
  {
    if !exists_ then Validation(None, None)
    else
      var structure := ValidateStructure(t.columns);
      var integrity := ValidateIntegrity(t, integrityOk);
      var created := TestCreate(t, activeEmpresa, freshId, when);
      Validation(Some(structure.success && integrity && created.success), Some(structure))
  }

  /** A table with every expected column and no NULL `tipo_execucao` passes the full validation. */
  lemma CompleteTableValidates(db: Table, integrityOk: bool, empresa: int, freshId: int, when: string)
    requires WellFormed(db) && ExpectedColumns <= db.columns
    requires forall i :: 0 <= i < |db.rows| ==> db.rows[i][TipoExecucao] != Null
    requires forall i :: 0 <= i < |db.rows| ==> db.rows[i]["id"] != Int(freshId)
    requires integrityOk
    ensures FullValidation(true, db, integrityOk, Some(empresa), freshId, when).overall == Some(true)
  {
  }

  /**
   * The two scripts fit together: a table holding the nine base columns that the migration
   * brought up to date passes the full validation whenever the integrity check is clean and
   * there is an active empresa.
   */
  lemma MigratedTableValidates(t: Table, alter: string -> LinkMigration.AlterError, integrityOk: bool,
                               empresa: int, freshId: int, when: string)
    requires WellFormed(t) && BaseColumns <= t.columns && integrityOk
    requires RunMigration(t, true, alter, integrityOk).ok
    requires var db := RunMigration(t, true, alter, integrityOk).db;
      forall i :: 0 <= i < |db.rows| ==> db.rows[i]["id"] != Int(freshId)
    requires MigrationNeeded(t.columns) || forall i :: 0 <= i < |t.rows| ==> t.rows[i][TipoExecucao] != Null
    ensures var db := RunMigration(t, true, alter, integrityOk).db;
      FullValidation(true, db, integrityOk, Some(empresa), freshId, when).overall == Some(true)
  {
    var db := RunMigration(t, true, alter, integrityOk).db;
    if MigrationNeeded(t.columns) {
      assert db == MigrateV1(t);
      assert db.columns == t.columns + RequiredNames;
    } else {
      assert db == t;
      assert RequiredNames <= t.columns;
    }
    assert TipoExecucao in Defaulted;
    CompleteTableValidates(db, integrityOk, empresa, freshId, when);
  }
}

=== FILE: options.dfy ===
/** Optional values, standing in for Python's `None` and JavaScript's `null`. */
module Options {

  datatype Option<T> = None | Some(value: T)
  {
    /** The value, or `default` when there is none (Python's `x if x is not None else default`). */
    function GetOr(default: T): (r: T)
      ensures Some? ==> r == value
      ensures None? ==> r == default
    {
      match this
      case Some(v) => v
      case None => default
    }
  }
}

=== FILE: outcome.dfy ===
/**
 * What a run of the portal automation (`SEFAZBot.executar_consulta`) can come back with,
 * as seen by its callers: a truthy result, a falsy result, or a raised exception with
 * its `str()` text.  The automation itself drives a web browser and is not modelled.
 */
module Outcomes {

  datatype Outcome = Truthy(result: string) | Falsy | Raise(message: string)
}

=== FILE: queue.dfy ===
/**
 * The processing queue of the admin back end (`queue_jobs` plus the worker loop
 * `processar_fila` and the queue endpoints of the API).
 *
 * The database table is a map from job id to row; the worker loop is a small
 * state machine whose two atomic steps are `Tick` (test the flag, select, mark
 * running) and `Finish` (record what the executor returned).  API calls may be
 * interleaved between the two steps, exactly as the event loop interleaves them
 * while the executor awaits the portal.  Timestamps are integers supplied by the
 * caller (`now`); the executor is the `Outcome` oracle.
 */
module Queue {
  import opened Options
  import opened Outcomes

  datatype Status = Pending | Running | Completed | Failed

  /** One row of `queue_jobs`. `prioridade` is NULL when the request sends `null`. */
  datatype Job = Job(
    empresaId: int,
    status: Status,
    prioridade: Option<int>,
    dataAdicao: int,
    dataProcessamento: Option<int>,
    tentativas: int,
    maxTentativas: int,
    erro: Option<string>)
  {
    /** The statuses the de-duplication check of `adicionar_fila` treats as "already queued". */
    predicate Live() { status == Pending || status == Running }
  }

  /** The worker task: not running, between jobs, or awaiting the executor for one job. */
  datatype Loop = Stopped | Idle | Executing(jobId: int)

  /**
   * `jobs` is the table, `nextId` the AUTOINCREMENT counter, `empresas` maps each
   * company id to its `ativo` flag, `processingActive` is the module-level flag.
   */
  datatype State = State(
    jobs: map<int, Job>,
    nextId: int,
    empresas: map<int, bool>,
    processingActive: bool,
    loop: Loop)

  /** Reply of the start/stop endpoints. */
  datatype Reply = Reply(message: string, processando: bool)

  const DefaultMaxTentativas := 3
  const ErroFalhaExecucao := "Falha na execução da consulta"
  const ErroCancelado := "Cancelado pelo usuário"

  const HttpOk := 200
  const HttpBadRequest := 400
  const HttpNotFound := 404
  const HttpServerError := 500

  // ---------------------------------------------------------------------------
  // Well-formedness
  // ---------------------------------------------------------------------------

  /**
   * Ids are positive and below the AUTOINCREMENT counter, attempts stay within
   * `[0, max_tentativas]`, and the only `running` row is the one the worker awaits.
   */
  predicate Wf(s: State)
  {
    s.nextId >= 1
    && (forall id :: id in s.jobs ==> 1 <= id < s.nextId)
    && (forall id :: id in s.jobs ==> 0 <= s.jobs[id].tentativas <= s.jobs[id].maxTentativas)
    && (forall id :: id in s.jobs && s.jobs[id].status == Running ==> s.loop == Executing(id))
  }

  /** An empty table with the worker off. */
  function Initial(empresas: map<int, bool>): (s: State)
    ensures Wf(s) && !s.processingActive && s.loop == Stopped
  {
    State(map[], 1, empresas, false, Stopped)
  }

  // ---------------------------------------------------------------------------
  // Selection of the next job (src/api/main.py:1409-1418)
  // ---------------------------------------------------------------------------

  /** A row the worker's SELECT returns: pending, attempts left, and its company row exists. */
  predicate Eligible(s: State, id: int): (r: bool)
    ensures id !in s.jobs ==> !r
    ensures id in s.jobs && s.jobs[id].status != Pending ==> !r
    ensures id in s.jobs && s.jobs[id].tentativas >= s.jobs[id].maxTentativas ==> !r
    ensures id in s.jobs && s.jobs[id].empresaId !in s.empresas ==> !r
  {
    id in s.jobs && s.jobs[id].status == Pending
    && s.jobs[id].tentativas < s.jobs[id].maxTentativas
    && s.jobs[id].empresaId in s.empresas
  }

  /** `ORDER BY prioridade DESC` puts NULL after every number. */
  predicate PrioGreater(a: Option<int>, b: Option<int>)
  {
    a.Some? && (b.None? || a.value > b.value)
  }

  /**
   * Job `a` is served before job `b`: higher priority, then older `data_adicao`;
   * rows equal on both are taken in id order.
   */
  predicate Ahead(jobs: map<int, Job>, a: int, b: int)
    requires a in jobs && b in jobs
  {
    var ja := jobs[a];
    var jb := jobs[b];
    if ja.prioridade != jb.prioridade then PrioGreater(ja.prioridade, jb.prioridade)
    else if ja.dataAdicao != jb.dataAdicao then ja.dataAdicao < jb.dataAdicao
    else a < b
  }

  /**
   * Job `a` comes strictly first under `ORDER BY prioridade DESC, data_adicao ASC` (SQLite
   * sorts NULL lowest, so a missing priority comes last in descending order).
   */
  predicate SqlBefore(a: Job, b: Job): (r: bool)
    ensures a.prioridade == b.prioridade && a.dataAdicao == b.dataAdicao ==> !r
    ensures a.prioridade.None? && b.prioridade.Some? ==> !r
    ensures a.prioridade.Some? && b.prioridade.None? ==> r
  {
    PrioGreater(a.prioridade, b.prioridade) || (a.prioridade == b.prioridade && a.dataAdicao < b.dataAdicao)
  }

  /** The SQL order is a strict order, total except between rows equal on both sort keys. */
  lemma SqlOrderIsStrict(a: Job, b: Job, c: Job)
    ensures !(SqlBefore(a, b) && SqlBefore(b, a))
    ensures SqlBefore(a, b) && SqlBefore(b, c) ==> SqlBefore(a, c)
    ensures SqlBefore(a, b) || SqlBefore(b, a) || (a.prioridade == b.prioridade && a.dataAdicao == b.dataAdicao)
  {
  }

  /** Being ahead is never contradicted by the SQL order: the id tie-break only refines it. */
  lemma AheadRefinesSqlOrder(jobs: map<int, Job>, a: int, b: int)
    requires a in jobs && b in jobs && Ahead(jobs, a, b)
    ensures !SqlBefore(jobs[b], jobs[a])
  {
  }

  /** Best eligible job among the ids in `[1, hi)`, by a scan that keeps the leader so far. */
  function BestBelow(s: State, hi: int): (r: Option<int>)
    ensures r.Some? ==> 1 <= r.value < hi && Eligible(s, r.value)
    ensures r.Some? ==> forall id :: 1 <= id < hi && Eligible(s, id) && id != r.value ==> Ahead(s.jobs, r.value, id)
    ensures r.None? ==> forall id :: 1 <= id < hi ==> !Eligible(s, id)
    decreases hi
  {
    if hi <= 1 then None
    else
      var rest := BestBelow(s, hi - 1);
      var id := hi - 1;
      if !Eligible(s, id) then rest
      else if rest.None? then Some(id)
      else if Ahead(s.jobs, id, rest.value) then Some(id)
      else rest
  }

  /** The row `LIMIT 1` returns: the eligible job ahead of every other, or none when none is eligible. */
  function SelectNext(s: State): (r: Option<int>)
    requires Wf(s)
    ensures r.Some? ==> Eligible(s, r.value)
    ensures r.Some? ==> forall id :: Eligible(s, id) && id != r.value ==> Ahead(s.jobs, r.value, id)
    ensures r.None? <==> forall id :: !Eligible(s, id)
    ensures r.Some? ==> forall id :: Eligible(s, id) ==> !SqlBefore(s.jobs[id], s.jobs[r.value])
  {
    var r := BestBelow(s, s.nextId);
    if r.Some? then
      assert forall id :: Eligible(s, id) && id != r.value ==> !SqlBefore(s.jobs[id], s.jobs[r.value]) by {
        forall id | Eligible(s, id) && id != r.value
          ensures !SqlBefore(s.jobs[id], s.jobs[r.value])
        {
          AheadRefinesSqlOrder(s.jobs, r.value, id);
        }
      }
      r
    else r
  }

  /** A pending job whose attempts are used up is never picked again. */
  lemma ExhaustedNeverSelected(s: State, id: int)
    requires Wf(s) && id in s.jobs && s.jobs[id].tentativas >= s.jobs[id].maxTentativas
    ensures SelectNext(s) != Some(id)
  {
  }

  // ---------------------------------------------------------------------------
  // adicionar_fila (src/api/main.py:1231-1293)
  // ---------------------------------------------------------------------------

  predicate HasLiveJob(jobs: map<int, Job>, empresaId: int)
  {
    exists id :: id in jobs && jobs[id].empresaId == empresaId && jobs[id].Live()
  }

  predicate Active(empresas: map<int, bool>, empresaId: int)
  {
    empresaId in empresas && empresas[empresaId]
  }

  function NewJob(empresaId: int, prioridade: Option<int>, now: int): Job
  {
    Job(empresaId, Pending, prioridade, now, None, 0, DefaultMaxTentativas, None)
  }

  /** The first requested id that is unknown or inactive, if any. */
  function FirstInactive(empresas: map<int, bool>, ids: seq<int>): (r: Option<int>)
    ensures r.None? <==> forall i :: 0 <= i < |ids| ==> Active(empresas, ids[i])
    ensures r.Some? ==> r.value in ids && !Active(empresas, r.value)
    ensures r.Some? ==> exists i :: 0 <= i < |ids| && ids[i] == r.value && forall k :: 0 <= k < i ==> Active(empresas, ids[k])
  {
    if |ids| == 0 then None
    else if !Active(empresas, ids[0]) then Some(ids[0])
    else
      var r := FirstInactive(empresas, ids[1..]);
      if r.Some? then
        var i :| 0 <= i < |ids[1..]| && ids[1..][i] == r.value && forall k :: 0 <= k < i ==> Active(empresas, ids[1..][k]);
        assert ids[i + 1] == r.value;
        r
      else r
  }

  /** No company has two pending/running rows. */
  predicate OneLive(jobs: map<int, Job>)
  {
    forall a, b :: a in jobs && b in jobs && a != b && jobs[a].Live() && jobs[b].Live() ==>
      jobs[a].empresaId != jobs[b].empresaId
  }

  /**
   * The insert loop for ids that are all active: each id is checked against the table
   * as it stands, including this request's own earlier inserts, and gets a new
   * `pending` row only if it has no live one.  Returns the table and the counter.
   */
  function InsertAll(jobs: map<int, Job>, nextId: int, ids: seq<int>, prioridade: Option<int>, now: int)
    : (r: (map<int, Job>, int))
    requires forall id :: id in jobs ==> id < nextId
    ensures nextId <= r.1
    ensures forall id :: id in r.0 <==> id in jobs || nextId <= id < r.1
    ensures forall id :: id in jobs ==> r.0[id] == jobs[id]
    ensures forall id :: nextId <= id < r.1 ==>
      r.0[id] == NewJob(r.0[id].empresaId, prioridade, now)
      && r.0[id].empresaId in ids && !HasLiveJob(jobs, r.0[id].empresaId)
    decreases |ids|
  {
    if |ids| == 0 then (jobs, nextId)
    else if HasLiveJob(jobs, ids[0]) then
      InsertAll(jobs, nextId, ids[1..], prioridade, now)
    else
      var jobs1 := jobs[nextId := NewJob(ids[0], prioridade, now)];
      var r := InsertAll(jobs1, nextId + 1, ids[1..], prioridade, now);
      assert forall x :: !HasLiveJob(jobs, x) && x != ids[0] ==> !HasLiveJob(jobs1, x);
      assert forall id :: nextId + 1 <= id < r.1 ==> r.0[id].empresaId != ids[0] by {
        assert jobs1[nextId].Live() && jobs1[nextId].empresaId == ids[0];
      }
      r
  }

  /** After the loop every requested company has a live job, pre-existing or new. */
  lemma {:induction false} InsertAllCovers(jobs: map<int, Job>, nextId: int, ids: seq<int>, prioridade: Option<int>, now: int)
    requires forall id :: id in jobs ==> id < nextId
    ensures forall e :: e in ids ==> HasLiveJob(InsertAll(jobs, nextId, ids, prioridade, now).0, e)
    decreases |ids|
  {
    if |ids| > 0 {
      var r := InsertAll(jobs, nextId, ids, prioridade, now);
      assert forall x :: x in ids ==> x == ids[0] || x in ids[1..];
      if HasLiveJob(jobs, ids[0]) {
        InsertAllCovers(jobs, nextId, ids[1..], prioridade, now);
        var w :| w in jobs && jobs[w].empresaId == ids[0] && jobs[w].Live();
        assert r.0[w] == jobs[w];
      } else {
        var jobs1 := jobs[nextId := NewJob(ids[0], prioridade, now)];
        InsertAllCovers(jobs1, nextId + 1, ids[1..], prioridade, now);
        assert r.0[nextId] == jobs1[nextId];
      }
    }
  }

  /** The loop keeps at most one live job per company: repeated ids never create a second one. */
  lemma {:induction false} InsertAllKeepsOneLive(jobs: map<int, Job>, nextId: int, ids: seq<int>, prioridade: Option<int>, now: int)
    requires forall id :: id in jobs ==> id < nextId
    requires OneLive(jobs)
    ensures OneLive(InsertAll(jobs, nextId, ids, prioridade, now).0)
    decreases |ids|
  {
    if |ids| > 0 {
      if HasLiveJob(jobs, ids[0]) {
        InsertAllKeepsOneLive(jobs, nextId, ids[1..], prioridade, now);
      } else {
        var jobs1 := jobs[nextId := NewJob(ids[0], prioridade, now)];
        assert OneLive(jobs1);
        InsertAllKeepsOneLive(jobs1, nextId + 1, ids[1..], prioridade, now);
      }
    }
  }

  /** The ids `lo, lo + 1, ..., hi - 1`. */
  function Range(lo: int, hi: int): (r: seq<int>)
    ensures |r| == if lo <= hi then hi - lo else 0
    ensures forall i :: 0 <= i < |r| ==> r[i] == lo + i
    decreases hi - lo
  {
    if lo >= hi then [] else [lo] + Range(lo + 1, hi)
  }

  /** Reply of `adicionar_fila`: the created ids, or the error status with the company that caused it. */
  datatype AddReply = Added(jobIds: seq<int>) | Rejected(httpStatus: int, empresaId: int)

  /**
   * `adicionar_fila`.  An unknown or inactive company aborts the whole request before
   * the commit (the 404 raised in the loop is caught by the handler and re-raised as 500),
   * so nothing is persisted; otherwise the new jobs are committed and the worker is
   * started when at least one job was added and the flag was off.
   */
  function Enqueue(s: State, ids: seq<int>, prioridade: Option<int>, now: int): (r: (State, AddReply))
    requires Wf(s)
    ensures r.1.Rejected? <==> exists i :: 0 <= i < |ids| && !Active(s.empresas, ids[i])
    ensures r.1.Rejected? ==> r.0 == s && r.1.httpStatus == HttpServerError && !Active(s.empresas, r.1.empresaId)
    ensures r.1.Added? ==> r.0.empresas == s.empresas && s.nextId <= r.0.nextId
    ensures r.1.Added? ==> forall id :: id in s.jobs ==> id in r.0.jobs && r.0.jobs[id] == s.jobs[id]
    ensures r.1.Added? ==> forall id :: id in r.0.jobs && id !in s.jobs <==> id in r.1.jobIds
    ensures r.1.Added? ==> forall id :: id in r.1.jobIds ==>
      (s.nextId <= id < r.0.nextId
       && r.0.jobs[id] == NewJob(r.0.jobs[id].empresaId, prioridade, now)
       && r.0.jobs[id].empresaId in ids && !HasLiveJob(s.jobs, r.0.jobs[id].empresaId))
    ensures r.1.Added? && |r.1.jobIds| > 0 && !s.processingActive ==> r.0.processingActive && r.0.loop != Stopped
    ensures r.1.Added? && (|r.1.jobIds| == 0 || s.processingActive) ==>
      r.0.processingActive == s.processingActive && r.0.loop == s.loop
  {
    match FirstInactive(s.empresas, ids)
    case Some(e) => (s, Rejected(HttpServerError, e))
    case None =>
      var ins := InsertAll(s.jobs, s.nextId, ids, prioridade, now);
      var newIds := Range(s.nextId, ins.1);
      var s1 := s.(jobs := ins.0, nextId := ins.1);
      assert forall id :: id in newIds <==> s.nextId <= id < ins.1 by {
        forall id | s.nextId <= id < ins.1 ensures id in newIds { assert newIds[id - s.nextId] == id; }
      }
      if |newIds| > 0 && !s.processingActive then
        (s1.(processingActive := true, loop := if s.loop.Stopped? then Idle else s.loop), Added(newIds))
      else
        (s1, Added(newIds))
  }

  /**
   * The per-company promise of `adicionar_fila`: after an accepted request every
   * requested company has a live job, and if no company had two live jobs before,
   * none has after, however often an id is repeated in the request.
   */
  lemma EnqueueOnePerCompany(s: State, ids: seq<int>, prioridade: Option<int>, now: int)
    requires Wf(s)
    ensures var r := Enqueue(s, ids, prioridade, now);
      r.1.Added? ==>
        (forall e :: e in ids ==> HasLiveJob(r.0.jobs, e)) && (OneLive(s.jobs) ==> OneLive(r.0.jobs))
  {
    if FirstInactive(s.empresas, ids).None? {
      InsertAllCovers(s.jobs, s.nextId, ids, prioridade, now);
      if OneLive(s.jobs) {
        InsertAllKeepsOneLive(s.jobs, s.nextId, ids, prioridade, now);
      }
    }
  }

  // ---------------------------------------------------------------------------
  // The worker loop (src/api/main.py:1403-1516)
  // ---------------------------------------------------------------------------

  /**
   * One pass of the loop head: the flag is checked first, so a stopped worker never
   * selects; an empty selection sleeps and polls again; otherwise the chosen row is
   * marked running with one more attempt.
   */
  function Tick(s: State, now: int): (r: State)
    requires Wf(s) && s.loop == Idle
    ensures !s.processingActive ==> r == s.(loop := Stopped)
    ensures s.processingActive && (forall id :: !Eligible(s, id)) ==> r == s
    ensures s.processingActive && (exists id :: Eligible(s, id)) ==>
      (exists id :: Eligible(s, id) && r.loop == Executing(id)
        && (forall other :: Eligible(s, other) && other != id ==> Ahead(s.jobs, id, other))
        && r.jobs == s.jobs[id := s.jobs[id].(status := Running, dataProcessamento := Some(now), tentativas := s.jobs[id].tentativas + 1)])
    ensures r.empresas == s.empresas && r.nextId == s.nextId && r.processingActive == s.processingActive
  {
    if !s.processingActive then s.(loop := Stopped)
    else
      match SelectNext(s)
      case None => s
      case Some(id) =>
        var j := s.jobs[id];
        s.(jobs := s.jobs[id := j.(status := Running, dataProcessamento := Some(now), tentativas := j.tentativas + 1)],
           loop := Executing(id))
  }

  /** The row the worker writes for an executor outcome, given the row as it now stands. */
  function Recorded(j: Job, outcome: Outcome, now: int): (r: Job)
    ensures r.empresaId == j.empresaId && r.prioridade == j.prioridade && r.dataAdicao == j.dataAdicao
    ensures r.tentativas == j.tentativas && r.maxTentativas == j.maxTentativas
    ensures outcome.Truthy? ==> r.status == Completed && r.dataProcessamento == Some(now) && r.erro == j.erro
    ensures outcome.Falsy? ==> r.status == Failed && r.erro == Some(ErroFalhaExecucao) && r.dataProcessamento == j.dataProcessamento
    ensures outcome.Raise? ==> r.erro == Some(outcome.message) && r.dataProcessamento == j.dataProcessamento
    ensures outcome.Raise? ==> (r.status == Pending <==> j.tentativas < j.maxTentativas)
    ensures outcome.Raise? ==> (r.status == Failed <==> j.tentativas >= j.maxTentativas)
  {
    match outcome
    case Truthy(_) => j.(status := Completed, dataProcessamento := Some(now))
    case Falsy => j.(status := Failed, erro := Some(ErroFalhaExecucao))
    case Raise(msg) =>
      if j.tentativas >= j.maxTentativas then j.(status := Failed, erro := Some(msg))
      else j.(status := Pending, erro := Some(msg))
  }

  /**
   * The worker records the outcome by id, whatever the row's status is now.  If the row
   * was deleted meanwhile, the UPDATEs of the success and failure paths match nothing;
   * the exception path unpacks `fetchone()` of a missing row, and that `TypeError`
   * leaves the loop through the outer handler: the task ends with the flag still set.
   */
  function Finish(s: State, outcome: Outcome, now: int): (r: State)
    requires s.loop.Executing?
    ensures s.loop.jobId in s.jobs ==>
      r == s.(jobs := s.jobs[s.loop.jobId := Recorded(s.jobs[s.loop.jobId], outcome, now)], loop := Idle)
    ensures s.loop.jobId !in s.jobs && outcome.Raise? ==> r == s.(loop := Stopped)
    ensures s.loop.jobId !in s.jobs && !outcome.Raise? ==> r == s.(loop := Idle)
  {
    var id := s.loop.jobId;
    if id in s.jobs then s.(jobs := s.jobs[id := Recorded(s.jobs[id], outcome, now)], loop := Idle)
    else if outcome.Raise? then s.(loop := Stopped)
    else s.(loop := Idle)
  }

  /**
   * The evidently intended outcome update: it only touches the row if it is still the
   * running job (`WHERE id = ? AND status = 'running'`), and a vanished row is skipped
   * rather than crashing the loop.
   */
  function FinishGuarded(s: State, outcome: Outcome, now: int): (r: State)
    requires s.loop.Executing?
    ensures r.loop == Idle && r.processingActive == s.processingActive
    ensures forall id :: id in r.jobs <==> id in s.jobs
    ensures forall id :: id in s.jobs && (id != s.loop.jobId || s.jobs[id].status != Running) ==> r.jobs[id] == s.jobs[id]
    ensures s.loop.jobId in s.jobs && s.jobs[s.loop.jobId].status == Running ==>
      r.jobs[s.loop.jobId] == Recorded(s.jobs[s.loop.jobId], outcome, now)
  {
    var id := s.loop.jobId;
    if id in s.jobs && s.jobs[id].status == Running then
      s.(jobs := s.jobs[id := Recorded(s.jobs[id], outcome, now)], loop := Idle)
    else s.(loop := Idle)
  }

  // ---------------------------------------------------------------------------
  // Control endpoints (src/api/main.py:1525-1548)
  // ---------------------------------------------------------------------------

  /** `iniciar_processamento`: a no-op while active; otherwise sets the flag and starts the task. */
  function Start(s: State): (r: (State, Reply))
    ensures s.processingActive ==> r.0 == s && r.1 == Reply("Processamento já está ativo", true)
    ensures !s.processingActive ==> r.0.processingActive && r.0.loop != Stopped && r.1 == Reply("Processamento iniciado", true)
    ensures r.0.jobs == s.jobs && r.0.nextId == s.nextId && r.0.empresas == s.empresas
    ensures !s.processingActive && !s.loop.Stopped? ==> r.0.loop == s.loop
  {
    if s.processingActive then (s, Reply("Processamento já está ativo", true))
    else (s.(processingActive := true, loop := if s.loop.Stopped? then Idle else s.loop), Reply("Processamento iniciado", true))
  }

  /** `parar_processamento`: only clears the flag; an in-flight job is left to finish. */
  function Stop(s: State): (r: (State, Reply))
    ensures !s.processingActive ==> r.0 == s && r.1 == Reply("Processamento já está parado", false)
    ensures s.processingActive ==>
      r.0 == s.(processingActive := false) && r.1 == Reply("Processamento será pausado após o job atual", false)
  {
    if !s.processingActive then (s, Reply("Processamento já está parado", false))
    else (s.(processingActive := false), Reply("Processamento será pausado após o job atual", false))
  }

  // ---------------------------------------------------------------------------
  // Job endpoints (src/api/main.py:1550-1613)
  // ---------------------------------------------------------------------------

  /** `deletar_job`: 404 for an unknown id, 400 for a running job, otherwise exactly that row goes. */
  function Delete(s: State, id: int): (r: (State, int))
    ensures id !in s.jobs ==> r == (s, HttpNotFound)
    ensures id in s.jobs && s.jobs[id].status == Running ==> r == (s, HttpBadRequest)
    ensures id in s.jobs && s.jobs[id].status != Running ==> r.1 == HttpOk && r.0 == s.(jobs := s.jobs - {id})
  {
    if id !in s.jobs then (s, HttpNotFound)
    else if s.jobs[id].status == Running then (s, HttpBadRequest)
    else (s.(jobs := s.jobs - {id}), HttpOk)
  }

  /**
   * `cancelar_job`: 404 for an unknown id; any existing row, whatever its status,
   * becomes `failed` with the cancellation text.  The worker is not told.
   */
  function Cancel(s: State, id: int, now: int): (r: (State, int))
    ensures id !in s.jobs ==> r == (s, HttpNotFound)
    ensures id in s.jobs ==>
      r.1 == HttpOk && r.0.loop == s.loop && r.0.processingActive == s.processingActive
      && r.0.nextId == s.nextId && r.0.empresas == s.empresas
    ensures id in s.jobs ==>
      r.0.jobs.Keys == s.jobs.Keys
      && r.0.jobs[id].status == Failed && r.0.jobs[id].erro == Some(ErroCancelado)
      && r.0.jobs[id].dataProcessamento == Some(now)
      && r.0.jobs[id].tentativas == s.jobs[id].tentativas && r.0.jobs[id].maxTentativas == s.jobs[id].maxTentativas
      && r.0.jobs[id].empresaId == s.jobs[id].empresaId && r.0.jobs[id].prioridade == s.jobs[id].prioridade
      && r.0.jobs[id].dataAdicao == s.jobs[id].dataAdicao
      && (forall other :: other in s.jobs && other != id ==> r.0.jobs[other] == s.jobs[other])
  {
    if id !in s.jobs then (s, HttpNotFound)
    else
      var j := s.jobs[id];
      (s.(jobs := s.jobs[id := j.(status := Failed, erro := Some(ErroCancelado), dataProcessamento := Some(now))]), HttpOk)
  }

  /** Cancelling twice leaves the row as cancelling once (same status and text). */
  lemma CancelIdempotent(s: State, id: int, now: int)
    requires id in s.jobs
    ensures Cancel(Cancel(s, id, now).0, id, now) == Cancel(s, id, now)
  {
    var c := Cancel(s, id, now).0;
    assert c.jobs[id := c.jobs[id].(status := Failed, erro := Some(ErroCancelado), dataProcessamento := Some(now))] == c.jobs;
  }

  // ---------------------------------------------------------------------------
  // Each operation keeps the well-formedness invariant
  // ---------------------------------------------------------------------------

  lemma EnqueueKeepsWf(s: State, ids: seq<int>, prioridade: Option<int>, now: int)
    requires Wf(s)
    ensures Wf(Enqueue(s, ids, prioridade, now).0)
  {
    var r := Enqueue(s, ids, prioridade, now);
    if r.1.Added? {
      assert forall id :: id in r.0.jobs && id !in s.jobs ==> r.0.jobs[id].status == Pending && r.0.jobs[id].tentativas == 0;
    }
  }

  lemma TickKeepsWf(s: State, now: int)
    requires Wf(s) && s.loop == Idle
    ensures Wf(Tick(s, now))
  {
  }

  lemma FinishKeepsWf(s: State, outcome: Outcome, now: int)
    requires Wf(s) && s.loop.Executing?
    ensures Wf(Finish(s, outcome, now)) && Wf(FinishGuarded(s, outcome, now))
  {
  }

  lemma ControlKeepsWf(s: State, id: int, now: int)
    requires Wf(s)
    ensures Wf(Start(s).0) && Wf(Stop(s).0) && Wf(Delete(s, id).0) && Wf(Cancel(s, id, now).0)
  {
  }

  // ---------------------------------------------------------------------------
  // The system as a whole
  // ---------------------------------------------------------------------------

  datatype Action =
    | AddJobs(ids: seq<int>, prioridade: Option<int>, now: int)
    | StartWorker
    | StopWorker
    | DeleteJob(id: int)
    | CancelJob(id: int, now: int)
    | WorkerTick(now: int)
    | WorkerFinish(outcome: Outcome, now: int)

  /** The worker steps only happen in the loop state that enables them. */
  predicate Enabled(s: State, a: Action)
  {
    match a
    case WorkerTick(_) => s.loop == Idle
    case WorkerFinish(_, _) => s.loop.Executing?
    case _ => true
  }

  /** One step of the system as written; a disabled step changes nothing. */
  function Step(s: State, a: Action): (r: State)
    requires Wf(s)
    ensures Wf(r)
  {
    if !Enabled(s, a) then s
    else
      match a
      case AddJobs(ids, p, now) => EnqueueKeepsWf(s, ids, p, now); Enqueue(s, ids, p, now).0
      case StartWorker => ControlKeepsWf(s, 0, 0); Start(s).0
      case StopWorker => ControlKeepsWf(s, 0, 0); Stop(s).0
      case DeleteJob(id) => ControlKeepsWf(s, id, 0); Delete(s, id).0
      case CancelJob(id, now) => ControlKeepsWf(s, id, now); Cancel(s, id, now).0
      case WorkerTick(now) => TickKeepsWf(s, now); Tick(s, now)
      case WorkerFinish(o, now) => FinishKeepsWf(s, o, now); Finish(s, o, now)
  }

  /** The same system with the guarded outcome update. */
  function StepGuarded(s: State, a: Action): (r: State)
    requires Wf(s)
    ensures Wf(r)
  {
    if a.WorkerFinish? && Enabled(s, a) then
      FinishKeepsWf(s, a.outcome, a.now);
      FinishGuarded(s, a.outcome, a.now)
    else Step(s, a)
  }

  /** The worker task exists whenever the flag says processing is active. */
  predicate LoopAlive(s: State) { s.processingActive ==> s.loop != Stopped }

  /** With the guarded outcome update, the worker never dies while the flag is set. */
  lemma StepGuardedKeepsLoopAlive(s: State, a: Action)
    requires Wf(s) && LoopAlive(s)
    ensures LoopAlive(StepGuarded(s, a))
  {
  }

  /** With the guarded outcome update, no company ever has two live jobs. */
  lemma StepGuardedKeepsOneLive(s: State, a: Action)
    requires Wf(s) && OneLive(s.jobs)
    ensures OneLive(StepGuarded(s, a).jobs)
  {
    if a.AddJobs? {
      EnqueueOnePerCompany(s, a.ids, a.prioridade, a.now);
    }
  }

  // ---------------------------------------------------------------------------
  // The system as written: two traces
  // ---------------------------------------------------------------------------

  /** One queued job for company 7, the worker idle with the flag set. */
  function Scenario(): (s: State)
    ensures Wf(s) && LoopAlive(s) && OneLive(s.jobs)
  {
    State(map[1 := NewJob(7, Some(0), 100)], 2, map[7 := true], true, Idle)
  }

  /** The worker takes job 1 of the scenario. */
  lemma ScenarioTick()
    ensures Step(Scenario(), WorkerTick(110)) ==
      Scenario().(jobs := map[1 := NewJob(7, Some(0), 100).(status := Running, dataProcessamento := Some(110), tentativas := 1)],
                  loop := Executing(1))
  {
    var s := Scenario();
    assert Eligible(s, 1);
    assert SelectNext(s) == Some(1);
  }

  /**
   * The job is cancelled and then deleted while the executor runs, and the executor
   * raises: the worker task is gone but the flag stays set, and afterwards neither the
   * start endpoint nor a new enqueue brings the task back, so the queue no longer moves.
   */
  lemma WorkerDiesWithFlagSet()
    ensures var s1 := Step(Scenario(), WorkerTick(110));
            var s3 := Step(Step(s1, CancelJob(1, 120)), DeleteJob(1));
            var s4 := Step(s3, WorkerFinish(Raise("timeout"), 130));
            var s5 := Step(s4, AddJobs([7], Some(0), 140));
            var s6 := Step(s5, StartWorker);
            LoopAlive(s1) && s4.processingActive && !LoopAlive(s4)
            && 2 in s6.jobs && s6.jobs[2].status == Pending && s6.loop == Stopped
  {
    ScenarioTick();
    EmptiedWhileRunning();
    var s3 := Step(Step(Step(Scenario(), WorkerTick(110)), CancelJob(1, 120)), DeleteJob(1));
    var s4 := Step(s3, WorkerFinish(Raise("timeout"), 130));
    assert s4 == s3.(loop := Stopped);
    var s5 := Step(s4, AddJobs([7], Some(0), 140));
    assert InsertAll(map[], 2, [7], Some(0), 140) == (map[2 := NewJob(7, Some(0), 140)], 3);
    assert s5 == s4.(jobs := map[2 := NewJob(7, Some(0), 140)], nextId := 3);
  }

  lemma EmptiedWhileRunning()
    ensures Step(Step(Step(Scenario(), WorkerTick(110)), CancelJob(1, 120)), DeleteJob(1)) ==
      Scenario().(jobs := map[], loop := Executing(1))
  {
    ScenarioTick();
    var s1 := Step(Scenario(), WorkerTick(110));
    var s2 := Step(s1, CancelJob(1, 120));
    assert Step(s2, DeleteJob(1)) == s1.(jobs := map[]);
  }

  /** Job 1 of the scenario after the worker took it and it was cancelled at 120. */
  const CancelledRow := NewJob(7, Some(0), 100).(status := Failed, erro := Some(ErroCancelado), dataProcessamento := Some(120), tentativas := 1)

  lemma CancelAfterTick()
    ensures Step(Step(Scenario(), WorkerTick(110)), CancelJob(1, 120)) ==
      Scenario().(jobs := map[1 := CancelledRow], loop := Executing(1))
  {
    ScenarioTick();
    var s1 := Step(Scenario(), WorkerTick(110));
    assert Step(s1, CancelJob(1, 120)) == s1.(jobs := map[1 := CancelledRow]);
  }

  lemma RequeueAfterCancel()
    ensures Step(Step(Step(Scenario(), WorkerTick(110)), CancelJob(1, 120)), AddJobs([7], Some(0), 125)) ==
      Scenario().(jobs := map[1 := CancelledRow, 2 := NewJob(7, Some(0), 125)], nextId := 3, loop := Executing(1))
  {
    CancelAfterTick();
    var s2 := Step(Step(Scenario(), WorkerTick(110)), CancelJob(1, 120));
    assert !HasLiveJob(s2.jobs, 7);
    assert InsertAll(map[1 := CancelledRow], 2, [7], Some(0), 125) == (map[1 := CancelledRow, 2 := NewJob(7, Some(0), 125)], 3);
  }

  /**
   * The job is cancelled while running, the company is queued again, and the executor
   * then raises with attempts left: the cancelled row goes back to `pending`, and the
   * company now has two live jobs.
   */
  lemma CancelledJobComesBack()
    ensures var s1 := Step(Scenario(), WorkerTick(110));
            var s2 := Step(s1, CancelJob(1, 120));
            var s3 := Step(s2, AddJobs([7], Some(0), 125));
            var s4 := Step(s3, WorkerFinish(Raise("timeout"), 130));
            OneLive(s3.jobs) && !OneLive(s4.jobs)
            && 1 in s4.jobs && s4.jobs[1].status == Pending && s4.jobs[1].erro == Some("timeout")
  {
    RequeueAfterCancel();
    var s3 := Step(Step(Step(Scenario(), WorkerTick(110)), CancelJob(1, 120)), AddJobs([7], Some(0), 125));
    RevivedByFinish(s3);
    var s4 := Step(s3, WorkerFinish(Raise("timeout"), 130));
    TwoLive(s4.jobs, 1, 2);
  }

  lemma RevivedByFinish(s3: State)
    requires Wf(s3)
    requires s3 == Scenario().(jobs := map[1 := CancelledRow, 2 := NewJob(7, Some(0), 125)], nextId := 3, loop := Executing(1))
    ensures OneLive(s3.jobs)
    ensures Step(s3, WorkerFinish(Raise("timeout"), 130)).jobs ==
      map[1 := CancelledRow.(status := Pending, erro := Some("timeout")), 2 := NewJob(7, Some(0), 125)]
  {
    assert Recorded(CancelledRow, Raise("timeout"), 130) == CancelledRow.(status := Pending, erro := Some("timeout"));
  }

  lemma TwoLive(jobs: map<int, Job>, a: int, b: int)
    requires a in jobs && b in jobs && a != b && jobs[a].Live() && jobs[b].Live()
    requires jobs[a].empresaId == jobs[b].empresaId
    ensures !OneLive(jobs)
  {
  }

  /** With the guarded update the cancellation sticks: the row stays `failed` with the cancellation text. */
  lemma GuardedCancelSticks(s: State, id: int, now: int, outcome: Outcome, later: int)
    requires Wf(s) && s.loop == Executing(id) && id in s.jobs
    ensures var c := Cancel(s, id, now).0;
            FinishGuarded(c, outcome, later).jobs[id].status == Failed
            && FinishGuarded(c, outcome, later).jobs[id].erro == Some(ErroCancelado)
  {
  }
}

=== FILE: queue_jobs_migration.dfy ===
/**
 * `migrar_tabela_queue_jobs`: rebuilds an old-style `queue_jobs` (with `data_criacao`,
 * `data_inicio`, `data_conclusao`) in the current schema (with `data_adicao` and
 * `data_processamento`), copying every row.
 */
module QueueJobsMigration {
  import opened Migrations

  /** The columns copied unchanged. */
  const Copied: set<string> := {"id", "empresa_id", "status", "prioridade", "tentativas", "max_tentativas", "erro_detalhes"}

  /** The columns the copying `SELECT` reads from the old table. */
  const Selected: set<string> := Copied + {"data_criacao", "data_conclusao", "data_inicio"}

  /** The columns of the rebuilt table. */
  const NewColumns: set<string> := Copied + {"data_adicao", "data_processamento"}

  /** SQL `COALESCE(a, b)`. */
  function Coalesce(a: Value, b: Value): (r: Value)
    ensures r == Null <==> a == Null && b == Null
    ensures a != Null ==> r == a
  {
    if a != Null then a else b
  }

  /**
   * The copy succeeds: the old columns are there and no row has a NULL where the new table
   * is `NOT NULL` (`empresa_id`, `status`).
   */
  predicate Copyable(t: Table)
  {
    WellFormed(t) && "data_adicao" !in t.columns && Selected <= t.columns
    && forall i :: 0 <= i < |t.rows| ==> t.rows[i]["empresa_id"] != Null && t.rows[i]["status"] != Null
  }

  /** One row of the `INSERT … SELECT`. */
  function CopyRow(row: Row): (r: Row)
    requires Selected <= row.Keys
    ensures r.Keys == NewColumns
    ensures forall k :: k in Copied ==> r[k] == row[k]
  {
    map k | k in NewColumns ::
      if k == "data_adicao" then row["data_criacao"]
      else if k == "data_processamento" then Coalesce(row["data_conclusao"], row["data_inicio"])
      else row[k]
  }

  /**
   * The migration: nothing when `data_adicao` already exists; otherwise the rebuilt table
   * replaces the old one.  A failing copy is printed and swallowed, and the table stays.
   */
  function MigrateQueueJobs(t: Table): (r: Table)
    requires WellFormed(t)
    ensures WellFormed(r)
    ensures !Copyable(t) ==> r == t
    ensures Copyable(t) ==> r.columns == NewColumns && "data_adicao" in r.columns && |r.rows| == |t.rows|
    ensures Copyable(t) ==> forall i, k :: 0 <= i < |t.rows| && k in Copied ==> r.rows[i][k] == t.rows[i][k]
    ensures Copyable(t) ==> forall i :: 0 <= i < |t.rows| ==> r.rows[i]["data_adicao"] == t.rows[i]["data_criacao"]
    ensures Copyable(t) ==> forall i :: 0 <= i < |t.rows| ==>
      (t.rows[i]["data_conclusao"] != Null ==> r.rows[i]["data_processamento"] == t.rows[i]["data_conclusao"])
      && (t.rows[i]["data_conclusao"] == Null ==> r.rows[i]["data_processamento"] == t.rows[i]["data_inicio"])
  {
    if !Copyable(t) then t
    else Table(NewColumns, seq(|t.rows|, i requires 0 <= i < |t.rows| => CopyRow(t.rows[i])))
  }

  /** A table already carrying `data_adicao` is left alone, so the migration is idempotent. */
  lemma MigrateQueueJobsIdempotent(t: Table)
    requires WellFormed(t)
    ensures MigrateQueueJobs(MigrateQueueJobs(t)) == MigrateQueueJobs(t)
  {
  }

  /**
   * The rebuilt table has exactly the nine base columns the scheduling migration expects, and
   * that migration then has work to do.
   */
  lemma RebuiltTableNeedsScheduling(t: Table)
    requires Copyable(t)
    ensures MigrateQueueJobs(t).columns == BaseColumns
    ensures MigrationNeeded(MigrateQueueJobs(t).columns)
  {
    assert DataAgendada in RequiredNames && DataAgendada !in BaseColumns;
  }
}

=== FILE: retry.dfy ===
/**
 * The `@retry` decorator: a bounded attempt loop over an exception-class hierarchy,
 * with an exclusion list checked before the retryable list, exponential back-off
 * with a cap and optional jitter, a best-effort callback, and exhaustion handling.
 *
 * The wrapped function is an oracle `call(k)` giving the outcome of attempt `k`
 * (1-based); `random(k)` is the `random.random()` draw used for the jitter of that
 * attempt and `callbackRaises(k)` says whether `on_retry` raises there.  This is the
 * async wrapper; the sync wrapper runs the same loop as long as every slept delay is
 * non-negative and `on_retry` is a plain function.
 */
module Retry {
  import opened Options
  import opened Text

  // ---------------------------------------------------------------------------
  // Exception classes (the bot's hierarchy and the Python built-ins it names)
  // ---------------------------------------------------------------------------

  datatype ErrorClass =
    | PyException | PyOSError | PyTimeoutError | PyConnectionError | PyPermissionError | PyFileNotFoundError
    | PyValueError
    | BotError
    | Validation | InvalidCPF | InvalidIE | InvalidPassword
    | LoginFailed
    | Navigation | MenuNotFound | ElementNotFound | Timeout | PageLoad
    | Extraction | SessionConflict
    | Browser | BrowserLaunch | BrowserClose
    | Database | Connection | Query | Duplicate
    | Cryptography | Decryption | Encryption | MissingKey
    | Captcha | SessionExpired

  /** The direct base class. */
  function Parent(c: ErrorClass): Option<ErrorClass>
  {
    match c
    case PyException => None
    case PyOSError | PyValueError | BotError => Some(PyException)
    case PyTimeoutError | PyConnectionError | PyPermissionError | PyFileNotFoundError => Some(PyOSError)
    case Validation | LoginFailed | Navigation | Extraction | SessionConflict | Browser | Database
      | Cryptography | Captcha | SessionExpired => Some(BotError)
    case InvalidCPF | InvalidIE | InvalidPassword => Some(Validation)
    case MenuNotFound | ElementNotFound | Timeout | PageLoad => Some(Navigation)
    case BrowserLaunch | BrowserClose => Some(Browser)
    case Connection | Query | Duplicate => Some(Database)
    case Decryption | Encryption | MissingKey => Some(Cryptography)
  }

  /** Distance from `Exception`; every parent is one step closer. */
  function Depth(c: ErrorClass): (d: nat)
  {
    match c
    case PyException => 0
    case PyOSError | PyValueError | BotError => 1
    case PyTimeoutError | PyConnectionError | PyPermissionError | PyFileNotFoundError => 2
    case Validation | LoginFailed | Navigation | Extraction | SessionConflict | Browser | Database
      | Cryptography | Captcha | SessionExpired => 2
    case _ => 3
  }

  lemma ParentShallower(c: ErrorClass)
    ensures Parent(c).Some? ==> Depth(Parent(c).value) + 1 == Depth(c)
    ensures Parent(c).None? ==> c == PyException
  {
  }

  /** `isinstance(e, ancestor)` for an exception of class `c`. */
  predicate IsA(c: ErrorClass, ancestor: ErrorClass)
    decreases Depth(c)
  {
    if c == ancestor then true
    else if Parent(c).None? then false
    else ParentShallower(c); IsA(Parent(c).value, ancestor)
  }

  /** An `except (A, B, ...)` clause catches `c`. */
  predicate CaughtBy(c: ErrorClass, classes: seq<ErrorClass>)
  {
    exists k :: 0 <= k < |classes| && IsA(c, classes[k])
  }

  /** `type(e).__name__`. */
  function ClassName(c: ErrorClass): string
  {
    match c
    case PyException => "Exception" case PyOSError => "OSError" case PyTimeoutError => "TimeoutError"
    case PyConnectionError => "ConnectionError" case PyPermissionError => "PermissionError"
    case PyFileNotFoundError => "FileNotFoundError" case PyValueError => "ValueError"
    case BotError => "SEFAZBotException" case Validation => "ValidationException"
    case InvalidCPF => "InvalidCPFException" case InvalidIE => "InvalidIEException"
    case InvalidPassword => "InvalidPasswordException" case LoginFailed => "LoginFailedException"
    case Navigation => "NavigationException" case MenuNotFound => "MenuNotFoundException"
    case ElementNotFound => "ElementNotFoundException" case Timeout => "TimeoutException"
    case PageLoad => "PageLoadException" case Extraction => "ExtractionException"
    case SessionConflict => "SessionConflictException" case Browser => "BrowserException"
    case BrowserLaunch => "BrowserLaunchException" case BrowserClose => "BrowserCloseException"
    case Database => "DatabaseException" case Connection => "ConnectionException"
    case Query => "QueryException" case Duplicate => "DuplicateException"
    case Cryptography => "CryptographyException" case Decryption => "DecryptionException"
    case Encryption => "EncryptionException" case MissingKey => "MissingKeyException"
    case Captcha => "CaptchaException" case SessionExpired => "SessionExpiredException"
  }

  const RetryableDefault: seq<ErrorClass> :=
    [Timeout, PageLoad, Navigation, Connection, SessionExpired, PyTimeoutError, PyConnectionError, PyOSError]

  const NonRetryableDefault: seq<ErrorClass> :=
    [Validation, InvalidCPF, InvalidIE, InvalidPassword, LoginFailed, SessionConflict, Duplicate, Captcha,
     PyPermissionError, PyFileNotFoundError]

  // ---------------------------------------------------------------------------
  // Configuration
  // ---------------------------------------------------------------------------

  datatype Config = Config(
    maxAttempts: int,
    delay: real,
    backoff: real,
    maxDelay: real,
    on: Option<seq<ErrorClass>>,
    exclude: Option<seq<ErrorClass>>,
    jitter: bool,
    raiseOnExhausted: bool)

  /** `retry()` with every default. */
  const Defaults := Config(3, 1.0, 2.0, 60.0, None, None, true, true)

  /** `on`, when given, replaces the default retryable list. */
  function Retryable(cfg: Config): (r: seq<ErrorClass>)
    ensures cfg.on.Some? ==> r == cfg.on.value
    ensures cfg.on.None? ==> r == RetryableDefault
  {
    cfg.on.GetOr(RetryableDefault)
  }

  /** `exclude`, when given, replaces the default non-retryable list; `on` does not touch it. */
  function Excluded(cfg: Config): (r: seq<ErrorClass>)
    ensures cfg.exclude.Some? ==> r == cfg.exclude.value
    ensures cfg.exclude.None? ==> r == NonRetryableDefault
  {
    cfg.exclude.GetOr(NonRetryableDefault)
  }

  /** The presets: `retry` with the caller's attempts and delay, a fixed backoff and a fixed `on` list. */
  function RetryOnTimeout(maxAttempts: int, delay: real): (cfg: Config)
    ensures cfg.maxAttempts == maxAttempts && cfg.delay == delay && cfg.backoff == 2.0
    ensures Retryable(cfg) == [Timeout, PyTimeoutError] && Excluded(cfg) == NonRetryableDefault
    ensures cfg.maxDelay == Defaults.maxDelay && cfg.jitter && cfg.raiseOnExhausted
  {
    Defaults.(maxAttempts := maxAttempts, delay := delay, backoff := 2.0, on := Some([Timeout, PyTimeoutError]))
  }

  function RetryOnNetwork(maxAttempts: int, delay: real): (cfg: Config)
    ensures cfg.maxAttempts == maxAttempts && cfg.delay == delay && cfg.backoff == 2.0
    ensures Retryable(cfg) == [Timeout, PageLoad, Navigation, PyConnectionError] && Excluded(cfg) == NonRetryableDefault
    ensures cfg.maxDelay == Defaults.maxDelay && cfg.jitter && cfg.raiseOnExhausted
  {
    Defaults.(maxAttempts := maxAttempts, delay := delay, backoff := 2.0,
              on := Some([Timeout, PageLoad, Navigation, PyConnectionError]))
  }

  function RetryOnDatabase(maxAttempts: int, delay: real): (cfg: Config)
    ensures cfg.maxAttempts == maxAttempts && cfg.delay == delay && cfg.backoff == 1.5
    ensures Retryable(cfg) == [Database, Connection] && Excluded(cfg) == [Duplicate]
    ensures cfg.maxDelay == Defaults.maxDelay && cfg.jitter && cfg.raiseOnExhausted
  {
    Defaults.(maxAttempts := maxAttempts, delay := delay, backoff := 1.5,
              on := Some([Database, Connection]), exclude := Some([Duplicate]))
  }

  // ---------------------------------------------------------------------------
  // Delays
  // ---------------------------------------------------------------------------

  function Pow(b: real, n: nat): real
  {
    if n == 0 then 1.0 else b * Pow(b, n - 1)
  }

  lemma {:induction false} PowAtLeastOne(b: real, n: nat)
    requires b >= 1.0
    ensures Pow(b, n) >= 1.0
  {
    if n > 0 {
      PowAtLeastOne(b, n - 1);
      var p := Pow(b, n - 1);
      assert b * p - p == (b - 1.0) * p;
      assert (b - 1.0) * p >= 0.0;
    }
  }

  /** Delay before the retry that follows failed attempt `attempt`, before jitter. */
  function BaseDelay(cfg: Config, attempt: nat): (d: real)
    requires attempt >= 1
    ensures d <= cfg.maxDelay
    ensures cfg.delay >= 0.0 && cfg.backoff >= 0.0 && cfg.maxDelay >= 0.0 ==> d >= 0.0
  {
    var grown := cfg.delay * Pow(cfg.backoff, attempt - 1);
    var capped := if grown < cfg.maxDelay then grown else cfg.maxDelay;
    if cfg.backoff >= 0.0 then
      PowNonNegative(cfg.backoff, attempt - 1);
      assert cfg.delay >= 0.0 ==> grown >= 0.0;
      capped
    else capped
  }

  /** With a non-negative initial delay and a back-off factor of at least 1, delays never shrink. */
  lemma BaseDelayMonotone(cfg: Config, attempt: nat)
    requires attempt >= 1 && cfg.delay >= 0.0 && cfg.backoff >= 1.0
    ensures BaseDelay(cfg, attempt) <= BaseDelay(cfg, attempt + 1)
  {
    var p := Pow(cfg.backoff, attempt - 1);
    PowAtLeastOne(cfg.backoff, attempt - 1);
    assert Pow(cfg.backoff, attempt) == cfg.backoff * p;
    assert cfg.backoff * p - p == (cfg.backoff - 1.0) * p;
    assert cfg.delay * (cfg.backoff * p) - cfg.delay * p == cfg.delay * ((cfg.backoff - 1.0) * p);
    assert (cfg.backoff - 1.0) * p >= 0.0;
    assert cfg.delay * ((cfg.backoff - 1.0) * p) >= 0.0;
  }

  /** Scaling by `0.5 + r` with `r` in `[0, 1)` keeps a non-negative delay within `[b/2, 3b/2)`. */
  lemma JitterBounds(b: real, r: real)
    requires b >= 0.0 && 0.0 <= r < 1.0
    ensures 0.5 * b <= b * (0.5 + r) <= 1.5 * b
    ensures b > 0.0 ==> b * (0.5 + r) < 1.5 * b
  {
    assert b * (0.5 + r) == 0.5 * b + b * r;
    assert b * r >= 0.0;
    assert b - b * r == b * (1.0 - r);
    assert b * (1.0 - r) >= 0.0;
    if b > 0.0 {
      assert b * (1.0 - r) > 0.0;
    }
  }

  /** The delay actually slept: scaled by `0.5 + random()` when jitter is on. */
  function SleepDelay(cfg: Config, attempt: nat, random: real): (d: real)
    requires attempt >= 1 && 0.0 <= random < 1.0
    ensures !cfg.jitter ==> d == BaseDelay(cfg, attempt)
    ensures cfg.jitter ==> d == BaseDelay(cfg, attempt) * (0.5 + random)
  {
    var b := BaseDelay(cfg, attempt);
    if cfg.jitter then b * (0.5 + random) else b
  }

  /** With jitter, a non-negative base delay `b` becomes a delay in `[b/2, 3b/2)`, and never above `3/2 * max_delay`. */
  lemma SleepDelayBounds(cfg: Config, attempt: nat, random: real)
    requires attempt >= 1 && 0.0 <= random < 1.0 && cfg.jitter && BaseDelay(cfg, attempt) >= 0.0
    ensures 0.5 * BaseDelay(cfg, attempt) <= SleepDelay(cfg, attempt, random) <= 1.5 * BaseDelay(cfg, attempt)
    ensures BaseDelay(cfg, attempt) > 0.0 ==> SleepDelay(cfg, attempt, random) < 1.5 * BaseDelay(cfg, attempt)
    ensures SleepDelay(cfg, attempt, random) <= 1.5 * cfg.maxDelay
  {
    var b := BaseDelay(cfg, attempt);
    var d := SleepDelay(cfg, attempt, random);
    assert d == b * (0.5 + random);
    assert b <= cfg.maxDelay;
    JitteredWithin(b, random, d, cfg.maxDelay);
  }

  /** `JitterBounds` for a delay `d` already known to be `b * (0.5 + r)`, with `b` capped at `m`. */
  lemma JitteredWithin(b: real, r: real, d: real, m: real)
    requires b >= 0.0 && 0.0 <= r < 1.0 && d == b * (0.5 + r) && b <= m
    ensures 0.5 * b <= d <= 1.5 * b
    ensures b > 0.0 ==> d < 1.5 * b
    ensures d <= 1.5 * m
  {
    JitterBounds(b, r);
  }

  // ---------------------------------------------------------------------------
  // The attempt loop
  // ---------------------------------------------------------------------------

  /** What one call of the wrapped function did. */
  datatype Call = Returned(value: string) | Threw(cls: ErrorClass, message: string)

  datatype Result =
    | Value(value: Option<string>)
    | Propagated(cls: ErrorClass, message: string)
    | Exhausted(maxAttempts: int, operation: string, causeClass: ErrorClass, causeMessage: string)

  /**
   * What the wrapper did: its result, how many times it called the function, the
   * delays it slept, and how many callback errors it swallowed.
   */
  datatype Trace = Trace(result: Result, calls: nat, sleeps: seq<real>, swallowed: nat)

  /**
   * Text of the `RetryExhaustedException`; an `Exhausted` result carries its parts, so its
   * text is `ExhaustedMessage(r.maxAttempts, r.operation, r.causeClass, r.causeMessage)`.
   */
  function ExhaustedMessage(maxAttempts: int, name: string, c: ErrorClass, message: string): string
  {
    "Esgotadas " + IntToString(maxAttempts) + " tentativas em " + name + ". Última exceção: "
    + ClassName(c) + ": " + message
  }

  /** A draw of `random()`: a real in `[0, 1)`. */
  type Draw = r: real | 0.0 <= r < 1.0 witness 0.0

  /** Attempts `attempt, attempt + 1, ..., maxAttempts` of the loop. */
  function Attempts(cfg: Config, name: string, call: nat -> Call, random: nat -> Draw, callbackRaises: nat -> bool,
                    attempt: nat): (t: Trace)
    requires attempt >= 1
    ensures attempt <= cfg.maxAttempts ==> attempt <= t.calls <= cfg.maxAttempts
    ensures attempt > cfg.maxAttempts ==> t == Trace(Value(None), attempt - 1, [], 0)
    ensures |t.sleeps| == if attempt <= t.calls then t.calls - attempt else 0
    ensures t.result.Value? && t.result.value.Some? ==> call(t.calls) == Returned(t.result.value.value)
    ensures t.result.Propagated? ==> call(t.calls) == Threw(t.result.cls, t.result.message)
    ensures t.result.Exhausted? ==>
      t.calls == cfg.maxAttempts && cfg.raiseOnExhausted && call(t.calls) == Threw(t.result.causeClass, t.result.causeMessage)
    decreases cfg.maxAttempts - attempt
  {
    if attempt > cfg.maxAttempts then Trace(Value(None), attempt - 1, [], 0)
    else
      match call(attempt)
      case Returned(v) => Trace(Value(Some(v)), attempt, [], 0)
      case Threw(c, msg) =>
        if CaughtBy(c, Excluded(cfg)) then Trace(Propagated(c, msg), attempt, [], 0)
        else if CaughtBy(c, Retryable(cfg)) then
          if attempt >= cfg.maxAttempts then
            if cfg.raiseOnExhausted then
              Trace(Exhausted(cfg.maxAttempts, name, c, msg), attempt, [], 0)
            else Trace(Propagated(c, msg), attempt, [], 0)
          else
            var d := SleepDelay(cfg, attempt, random(attempt));
            var rest := Attempts(cfg, name, call, random, callbackRaises, attempt + 1);
            rest.(sleeps := [d] + rest.sleeps, swallowed := rest.swallowed + (if callbackRaises(attempt) then 1 else 0))
        else Trace(Propagated(c, msg), attempt, [], 0)
  }

  /** The decorated function called once: the loop from attempt 1. */
  function Wrapped(cfg: Config, name: string, call: nat -> Call, random: nat -> Draw, callbackRaises: nat -> bool): (t: Trace)
    ensures cfg.maxAttempts >= 1 ==> 1 <= t.calls <= cfg.maxAttempts
    ensures cfg.maxAttempts < 1 ==> t == Trace(Value(None), 0, [], 0)
  {
    Attempts(cfg, name, call, random, callbackRaises, 1)
  }

  // ---------------------------------------------------------------------------
  // Properties
  // ---------------------------------------------------------------------------

  /** Attempt `k` failed with an exception the loop retries. */
  predicate RetriedFailure(cfg: Config, c: Call)
  {
    c.Threw? && !CaughtBy(c.cls, Excluded(cfg)) && CaughtBy(c.cls, Retryable(cfg))
  }

  /**
   * The first success is returned with no further call: if attempts `from..k-1` failed
   * with retried exceptions and attempt `k` returns, the wrapper returns that value
   * after exactly `k` calls.
   */
  lemma {:induction false} FirstSuccessReturned(cfg: Config, name: string, call: nat -> Call, random: nat -> Draw,
                                                callbackRaises: nat -> bool, from: nat, k: nat)
    requires 1 <= from <= k <= cfg.maxAttempts
    requires forall j :: from <= j < k ==> RetriedFailure(cfg, call(j))
    requires call(k).Returned?
    ensures Attempts(cfg, name, call, random, callbackRaises, from).result == Value(Some(call(k).value))
    ensures Attempts(cfg, name, call, random, callbackRaises, from).calls == k
    decreases k - from
  {
    if from < k {
      FirstSuccessReturned(cfg, name, call, random, callbackRaises, from + 1, k);
      AttemptsRetries(cfg, name, call, random, callbackRaises, from);
    } else {
      ReturnedEnds(cfg, name, call, random, callbackRaises, k);
    }
  }

  /** An attempt that returns ends the loop with its value. */
  lemma ReturnedEnds(cfg: Config, name: string, call: nat -> Call, random: nat -> Draw, cb: nat -> bool, k: nat)
    requires 1 <= k <= cfg.maxAttempts && call(k).Returned?
    ensures Attempts(cfg, name, call, random, cb, k).result == Value(Some(call(k).value))
    ensures Attempts(cfg, name, call, random, cb, k).calls == k
  {
  }

  /**
   * When every attempt fails with a retried exception, the function is called
   * `maxAttempts` times and the wrapper raises `RetryExhaustedException` chained to the
   * last error, or re-raises that error when `raise_on_exhausted` is off.
   */
  lemma {:induction false} AllFailExhausts(cfg: Config, name: string, call: nat -> Call, random: nat -> Draw,
                                           callbackRaises: nat -> bool, from: nat)
    requires 1 <= from <= cfg.maxAttempts
    requires forall j :: from <= j <= cfg.maxAttempts ==> RetriedFailure(cfg, call(j))
    requires call(cfg.maxAttempts).Threw?
    ensures var t := Attempts(cfg, name, call, random, callbackRaises, from);
      var last := call(cfg.maxAttempts);
      t.calls == cfg.maxAttempts && |t.sleeps| == cfg.maxAttempts - from
      && (cfg.raiseOnExhausted ==>
            t.result == Exhausted(cfg.maxAttempts, name, last.cls, last.message))
      && (!cfg.raiseOnExhausted ==> t.result == Propagated(last.cls, last.message))
    decreases cfg.maxAttempts - from
  {
    assert RetriedFailure(cfg, call(from));
    if from < cfg.maxAttempts {
      AllFailExhausts(cfg, name, call, random, callbackRaises, from + 1);
    }
  }

  /** The exclusion list is checked first: an excluded exception propagates after that single call. */
  lemma ExcludedPropagatesAtOnce(cfg: Config, name: string, call: nat -> Call, random: nat -> Draw, callbackRaises: nat -> bool)
    requires cfg.maxAttempts >= 1 && call(1).Threw? && CaughtBy(call(1).cls, Excluded(cfg))
    ensures Wrapped(cfg, name, call, random, callbackRaises) == Trace(Propagated(call(1).cls, call(1).message), 1, [], 0)
  {
  }

  /** An exception in neither list propagates at once, without retry. */
  lemma UnexpectedPropagatesAtOnce(cfg: Config, name: string, call: nat -> Call, random: nat -> Draw, callbackRaises: nat -> bool)
    requires cfg.maxAttempts >= 1 && call(1).Threw?
    requires !CaughtBy(call(1).cls, Excluded(cfg)) && !CaughtBy(call(1).cls, Retryable(cfg))
    ensures Wrapped(cfg, name, call, random, callbackRaises) == Trace(Propagated(call(1).cls, call(1).message), 1, [], 0)
  {
  }

  /** One retried failure: the loop sleeps once and continues with the next attempt. */
  lemma AttemptsRetries(cfg: Config, name: string, call: nat -> Call, random: nat -> Draw, cb: nat -> bool, from: nat)
    requires 1 <= from < cfg.maxAttempts && RetriedFailure(cfg, call(from))
    ensures Attempts(cfg, name, call, random, cb, from).result == Attempts(cfg, name, call, random, cb, from + 1).result
    ensures Attempts(cfg, name, call, random, cb, from).calls == Attempts(cfg, name, call, random, cb, from + 1).calls
    ensures Attempts(cfg, name, call, random, cb, from).sleeps
         == [SleepDelay(cfg, from, random(from))] + Attempts(cfg, name, call, random, cb, from + 1).sleeps
  {
  }

  /** Any other attempt ends the loop without sleeping, whatever the callback does. */
  lemma AttemptsEnds(cfg: Config, name: string, call: nat -> Call, random: nat -> Draw, cb1: nat -> bool, cb2: nat -> bool,
                     from: nat)
    requires from >= 1 && !(from < cfg.maxAttempts && RetriedFailure(cfg, call(from)))
    ensures Attempts(cfg, name, call, random, cb1, from) == Attempts(cfg, name, call, random, cb2, from)
    ensures Attempts(cfg, name, call, random, cb1, from).sleeps == []
  {
  }

  /** Two traces with the same result, number of calls and sleeps. */
  predicate SameOutcome(t1: Trace, t2: Trace)
  {
    t1.result == t2.result && t1.calls == t2.calls && t1.sleeps == t2.sleeps
  }

  /** The callback's errors are swallowed: the result, the calls and the sleeps do not depend on it. */
  lemma {:induction false} CallbackIrrelevant(cfg: Config, name: string, call: nat -> Call, random: nat -> Draw,
                                             cb1: nat -> bool, cb2: nat -> bool, from: nat)
    requires from >= 1
    ensures SameOutcome(Attempts(cfg, name, call, random, cb1, from), Attempts(cfg, name, call, random, cb2, from))
    decreases cfg.maxAttempts - from
  {
    if from < cfg.maxAttempts && RetriedFailure(cfg, call(from)) {
      CallbackIrrelevant(cfg, name, call, random, cb1, cb2, from + 1);
      AttemptsRetries(cfg, name, call, random, cb1, from);
      AttemptsRetries(cfg, name, call, random, cb2, from);
    } else {
      AttemptsEnds(cfg, name, call, random, cb1, cb2, from);
    }
  }

  /** A base delay is never negative when the configuration's numbers are not. */
  lemma BaseDelayNonNegative(cfg: Config, attempt: nat)
    requires attempt >= 1 && cfg.maxDelay >= 0.0 && cfg.delay >= 0.0 && cfg.backoff >= 0.0
    ensures 0.0 <= BaseDelay(cfg, attempt) <= cfg.maxDelay
  {
    PowNonNegative(cfg.backoff, attempt - 1);
    assert cfg.delay * Pow(cfg.backoff, attempt - 1) >= 0.0;
  }

  /** Every delay slept is at most `max_delay`, scaled by the jitter bound when jitter is on. */
  lemma {:induction false} SleepsBounded(cfg: Config, name: string, call: nat -> Call, random: nat -> Draw,
                                         callbackRaises: nat -> bool, from: nat)
    requires from >= 1 && cfg.maxDelay >= 0.0 && cfg.delay >= 0.0 && cfg.backoff >= 0.0
    ensures forall i :: 0 <= i < |Attempts(cfg, name, call, random, callbackRaises, from).sleeps| ==>
      0.0 <= Attempts(cfg, name, call, random, callbackRaises, from).sleeps[i] <= 1.5 * cfg.maxDelay
    ensures !cfg.jitter ==> forall i :: 0 <= i < |Attempts(cfg, name, call, random, callbackRaises, from).sleeps| ==>
      0.0 <= Attempts(cfg, name, call, random, callbackRaises, from).sleeps[i] <= cfg.maxDelay
    decreases cfg.maxAttempts - from
  {
    if from < cfg.maxAttempts && RetriedFailure(cfg, call(from)) {
      SleepsBounded(cfg, name, call, random, callbackRaises, from + 1);
      AttemptsRetries(cfg, name, call, random, callbackRaises, from);
      SleptDelayBounded(cfg, from, random(from));
      PrependWithin(SleepDelay(cfg, from, random(from)), Attempts(cfg, name, call, random, callbackRaises, from + 1).sleeps,
                    1.5 * cfg.maxDelay);
      if !cfg.jitter {
        PrependWithin(SleepDelay(cfg, from, random(from)), Attempts(cfg, name, call, random, callbackRaises, from + 1).sleeps,
                      cfg.maxDelay);
      }
    } else {
      AttemptsEnds(cfg, name, call, random, callbackRaises, callbackRaises, from);
    }
  }

  /** One slept delay is at most `max_delay`, scaled by the jitter bound when jitter is on. */
  lemma SleptDelayBounded(cfg: Config, attempt: nat, random: real)
    requires attempt >= 1 && 0.0 <= random < 1.0
    requires cfg.maxDelay >= 0.0 && cfg.delay >= 0.0 && cfg.backoff >= 0.0
    ensures 0.0 <= SleepDelay(cfg, attempt, random) <= 1.5 * cfg.maxDelay
    ensures !cfg.jitter ==> SleepDelay(cfg, attempt, random) <= cfg.maxDelay
  {
    BaseDelayNonNegative(cfg, attempt);
    if cfg.jitter { SleepDelayBounds(cfg, attempt, random); }
  }

  lemma PrependWithin(d: real, rest: seq<real>, bound: real)
    requires 0.0 <= d <= bound
    requires forall i :: 0 <= i < |rest| ==> 0.0 <= rest[i] <= bound
    ensures forall i :: 0 <= i < |[d] + rest| ==> 0.0 <= ([d] + rest)[i] <= bound
  {
  }

  lemma {:induction false} PowNonNegative(b: real, n: nat)
    requires b >= 0.0
    ensures Pow(b, n) >= 0.0
  {
    if n > 0 {
      PowNonNegative(b, n - 1);
      assert b * Pow(b, n - 1) >= 0.0;
    }
  }

  // ---------------------------------------------------------------------------
  // The presets on concrete classes
  // ---------------------------------------------------------------------------

  /** `PermissionError` is both an `OSError` (retryable) and excluded; exclusion wins. */
  lemma PermissionErrorNotRetried()
    ensures CaughtBy(PyPermissionError, Retryable(Defaults)) && CaughtBy(PyPermissionError, Excluded(Defaults))
  {
    assert IsA(PyPermissionError, PyOSError) && RetryableDefault[7] == PyOSError;
    assert NonRetryableDefault[8] == PyPermissionError;
  }

  /** The database preset retries a query error but not a duplicate-record error. */
  lemma DatabasePresetClasses(maxAttempts: int, delay: real)
    ensures RetriedFailure(RetryOnDatabase(maxAttempts, delay), Threw(Query, ""))
    ensures CaughtBy(Duplicate, Excluded(RetryOnDatabase(maxAttempts, delay)))
    ensures !CaughtBy(LoginFailed, Excluded(RetryOnDatabase(maxAttempts, delay)))
  {
    var cfg := RetryOnDatabase(maxAttempts, delay);
    DatabasePresetLists(maxAttempts, delay);
    QueryIsNotDuplicate();
    LoginFailedIsNotDuplicate();
    assert IsA(Query, Database) && Retryable(cfg)[0] == Database;
    assert IsA(Duplicate, Excluded(cfg)[0]);
  }

  lemma DatabasePresetLists(maxAttempts: int, delay: real)
    ensures Excluded(RetryOnDatabase(maxAttempts, delay)) == [Duplicate]
    ensures |Retryable(RetryOnDatabase(maxAttempts, delay))| > 0
    ensures Retryable(RetryOnDatabase(maxAttempts, delay))[0] == Database
  {
  }

  lemma QueryIsNotDuplicate()
    ensures !IsA(Query, Duplicate)
  {
    assert !IsA(PyException, Duplicate) && !IsA(BotError, Duplicate) && !IsA(Database, Duplicate);
  }

  lemma LoginFailedIsNotDuplicate()
    ensures !IsA(LoginFailed, Duplicate)
  {
    assert !IsA(PyException, Duplicate) && !IsA(BotError, Duplicate);
  }

  lemma PageLoadNotATimeout()
    ensures !IsA(PageLoad, Timeout)
  {
    assert !IsA(PyException, Timeout);
    assert !IsA(BotError, Timeout);
    assert !IsA(Navigation, Timeout);
  }

  lemma PageLoadNotABuiltinTimeout()
    ensures !IsA(PageLoad, PyTimeoutError)
  {
    assert !IsA(PyException, PyTimeoutError);
    assert !IsA(BotError, PyTimeoutError);
    assert !IsA(Navigation, PyTimeoutError);
  }

  lemma TimeoutPresetSkipsPageLoad(maxAttempts: int, delay: real)
    ensures !CaughtBy(PageLoad, Retryable(RetryOnTimeout(maxAttempts, delay)))
  {
    assert Retryable(RetryOnTimeout(maxAttempts, delay)) == [Timeout, PyTimeoutError];
    PageLoadNotATimeout();
    PageLoadNotABuiltinTimeout();
  }

  lemma TimeoutPresetRetriesTimeout(maxAttempts: int, delay: real)
    ensures RetriedFailure(RetryOnTimeout(maxAttempts, delay), Threw(Timeout, ""))
  {
    var cfg := RetryOnTimeout(maxAttempts, delay);
    assert Retryable(cfg) == [Timeout, PyTimeoutError];
    assert IsA(Timeout, Retryable(cfg)[0]);
    assert Excluded(cfg) == NonRetryableDefault;
    NotExcludedByDefault();
  }

  /** `on` narrows the retried set while the default exclusions stay: the timeout preset does not retry a page-load error. */
  lemma TimeoutPresetClasses(maxAttempts: int, delay: real)
    ensures !CaughtBy(PageLoad, Retryable(RetryOnTimeout(maxAttempts, delay)))
    ensures CaughtBy(PageLoad, Retryable(Defaults))
    ensures CaughtBy(LoginFailed, Excluded(RetryOnTimeout(maxAttempts, delay)))
    ensures RetriedFailure(RetryOnTimeout(maxAttempts, delay), Threw(Timeout, ""))
  {
    TimeoutPresetSkipsPageLoad(maxAttempts, delay);
    assert IsA(PageLoad, RetryableDefault[1]);
    assert Excluded(RetryOnTimeout(maxAttempts, delay)) == NonRetryableDefault;
    assert IsA(LoginFailed, NonRetryableDefault[4]);
    TimeoutPresetRetriesTimeout(maxAttempts, delay);
  }

  /** A navigation timeout is in no default exclusion. */
  lemma NotExcludedByDefault()
    ensures !CaughtBy(Timeout, NonRetryableDefault)
  {
    forall k | 0 <= k < |NonRetryableDefault| ensures !IsA(Timeout, NonRetryableDefault[k]) {
      NotAboveTimeout(NonRetryableDefault[k]);
    }
  }

  /** `Timeout`'s only ancestors are `NavigationException`, `SEFAZBotException` and `Exception`. */
  lemma NotAboveTimeout(a: ErrorClass)
    requires a != PyException && a != BotError && a != Navigation && a != Timeout
    ensures !IsA(Timeout, a)
  {
    assert Parent(PyException).None? && !IsA(PyException, a);
    assert Parent(BotError) == Some(PyException) && !IsA(BotError, a);
    assert Parent(Navigation) == Some(BotError) && !IsA(Navigation, a);
    assert Parent(Timeout) == Some(Navigation);
  }

  /** The network preset retries `ConnectionError` but not the built-in `TimeoutError`. */
  lemma NetworkPresetClasses(maxAttempts: int, delay: real)
    ensures RetriedFailure(RetryOnNetwork(maxAttempts, delay), Threw(PyConnectionError, ""))
    ensures !CaughtBy(PyTimeoutError, Retryable(RetryOnNetwork(maxAttempts, delay)))
  {
    var cfg := RetryOnNetwork(maxAttempts, delay);
    assert Retryable(cfg) == [Timeout, PageLoad, Navigation, PyConnectionError];
    assert IsA(PyConnectionError, Retryable(cfg)[3]);
    forall k | 0 <= k < |NonRetryableDefault| ensures !IsA(PyConnectionError, NonRetryableDefault[k]) {
      var a := NonRetryableDefault[k];
      assert !IsA(PyException, a);
      assert !IsA(PyOSError, a);
    }
    forall k | 0 <= k < 4 ensures !IsA(PyTimeoutError, Retryable(cfg)[k]) {
      var a := Retryable(cfg)[k];
      assert !IsA(PyException, a);
      assert !IsA(PyOSError, a);
    }
  }
}

=== FILE: text.dfy ===
/**
 * String primitives the Python back end and the JavaScript front end rely on:
 * character classes, lower-casing, stripping, substring search, split/join,
 * replace and decimal rendering.  Strings are sequences of Unicode scalar values,
 * which is what `len()` in Python counts.  JavaScript's `.length` and `substring`
 * count UTF-16 code units instead, so the two agree only on text within the Basic
 * Multilingual Plane.
 */
module Text {
  import opened Options

  // ---------------------------------------------------------------------------
  // Character classes
  // ---------------------------------------------------------------------------

  /** ASCII decimal digit (`str.isdigit` and the regex class `\d` on the inputs the system sees). */
  predicate IsDigit(c: char) { '0' <= c <= '9' }

  predicate AllDigits(s: string) { forall i :: 0 <= i < |s| ==> IsDigit(s[i]) }

  /** The characters for which Python's `str.isspace` holds (and which `str.strip()` removes). */
  predicate IsPySpace(c: char)
  {
    c == ' ' || ('\t' <= c <= '\r') || ('\U{1c}' <= c <= '\U{1f}') || c == '\U{85}' || c == '\U{a0}'
    || c == '\U{1680}' || ('\U{2000}' <= c <= '\U{200a}') || c == '\U{2028}' || c == '\U{2029}'
    || c == '\U{202f}' || c == '\U{205f}' || c == '\U{3000}'
  }

  /** The characters JavaScript's `String.prototype.trim` and the regex class `\s` treat as white space. */
  predicate IsJsSpace(c: char)
  {
    c == ' ' || ('\t' <= c <= '\r') || c == '\U{a0}' || c == '\U{1680}' || ('\U{2000}' <= c <= '\U{200a}')
    || c == '\U{2028}' || c == '\U{2029}' || c == '\U{202f}' || c == '\U{205f}' || c == '\U{3000}' || c == '\U{feff}'
  }

  /**
   * Lower-casing of one character: ASCII and the Latin-1 capitals (`À`..`Þ` except `×`),
   * which covers every letter of Portuguese.
   */
  function Lower(c: char): (r: char)
    ensures ('A' <= c <= 'Z') ==> r as int == c as int + 32
    ensures !('A' <= c <= 'Z') && !('\U{c0}' <= c <= '\U{de}') ==> r == c
    ensures '\U{c0}' <= c <= '\U{de}' && c != '\U{d7}' ==> r as int == c as int + 32
  {
    if 'A' <= c <= 'Z' || ('\U{c0}' <= c <= '\U{de}' && c != '\U{d7}') then (c as int + 32) as char else c
  }

  /**
   * ASCII-only lower-casing.  The regex matching here compares case-insensitively through it,
   * which leaves out the few non-ASCII letters (`ı`, `ſ`, the Kelvin sign) that `re.IGNORECASE`
   * also folds onto ASCII ones.
   */
  function AsciiLower(c: char): (r: char)
    ensures 'A' <= c <= 'Z' ==> r as int == c as int + 32
    ensures !('A' <= c <= 'Z') ==> r == c
  {
    if 'A' <= c <= 'Z' then (c as int + 32) as char else c
  }

  function LowerStr(s: string): (r: string)
    ensures |r| == |s|
    ensures forall i :: 0 <= i < |s| ==> r[i] == Lower(s[i])
  {
    seq(|s|, i requires 0 <= i < |s| => Lower(s[i]))
  }

  function AsciiLowerStr(s: string): (r: string)
    ensures |r| == |s|
    ensures forall i :: 0 <= i < |s| ==> r[i] == AsciiLower(s[i])
  {
    seq(|s|, i requires 0 <= i < |s| => AsciiLower(s[i]))
  }

  /** Lower-casing is idempotent: nothing `Lower` produces is changed by it again. */
  lemma LowerIdempotent(c: char)
    ensures Lower(Lower(c)) == Lower(c)
  {
  }

  // ---------------------------------------------------------------------------
  // Digits only (`''.join(filter(str.isdigit, s))`, `s.replace(/\D/g, '')`)
  // ---------------------------------------------------------------------------

  function Digits(s: string): (r: string)
    ensures |r| <= |s|
    ensures AllDigits(r)
    ensures AllDigits(s) ==> r == s
    ensures multiset(r) <= multiset(s)
  {
    if |s| == 0 then []
    else if IsDigit(s[0]) then assert s == [s[0]] + s[1..]; [s[0]] + Digits(s[1..])
    else assert s == [s[0]] + s[1..]; Digits(s[1..])
  }

  /** Every digit of the input survives, in order: the digits of `a + b` are the digits of `a` then of `b`. */
  lemma {:induction false} DigitsAppend(a: string, b: string)
    ensures Digits(a + b) == Digits(a) + Digits(b)
  {
    if |a| == 0 {
      assert a + b == b;
    } else {
      assert (a + b)[1..] == a[1..] + b;
      DigitsAppend(a[1..], b);
    }
  }

  lemma DigitsIdempotent(s: string)
    ensures Digits(Digits(s)) == Digits(s)
  {
  }

  // ---------------------------------------------------------------------------
  // Leading/trailing runs and strip
  // ---------------------------------------------------------------------------

  /** Length of the longest prefix of `s` whose characters all satisfy `p`. */
  function LeadCount(s: string, p: char -> bool): (n: nat)
    ensures n <= |s|
    ensures forall i :: 0 <= i < n ==> p(s[i])
    ensures n < |s| ==> !p(s[n])
  {
    if |s| > 0 && p(s[0]) then 1 + LeadCount(s[1..], p) else 0
  }

  /** Length of the longest suffix of `s` whose characters all satisfy `p`. */
  function TrailCount(s: string, p: char -> bool): (n: nat)
    ensures n <= |s|
    ensures forall i :: |s| - n <= i < |s| ==> p(s[i])
    ensures n < |s| ==> !p(s[|s| - n - 1])
  {
    if |s| > 0 && p(s[|s| - 1]) then 1 + TrailCount(s[..|s| - 1], p) else 0
  }

  /** Longest prefix of `s` all of whose characters satisfy `p`. */
  function TakeWhile(s: string, p: char -> bool): (r: string)
    ensures r <= s
    ensures forall i :: 0 <= i < |r| ==> p(r[i])
    ensures |r| < |s| ==> !p(s[|r|])
  {
    s[..LeadCount(s, p)]
  }

  /** The run is decided inside `a` when `a` holds a character that stops it. */
  lemma {:induction false} LeadCountAppend(a: string, b: string, p: char -> bool)
    requires exists i :: 0 <= i < |a| && !p(a[i])
    ensures LeadCount(a + b, p) == LeadCount(a, p)
    decreases |a|
  {
    assert (a + b)[0] == a[0];
    if p(a[0]) {
      assert (a + b)[1..] == a[1..] + b;
      var i :| 0 <= i < |a| && !p(a[i]);
      assert a[1..][i - 1] == a[i];
      LeadCountAppend(a[1..], b, p);
    }
  }

  lemma TakeWhileAppend(a: string, b: string, p: char -> bool)
    requires exists i :: 0 <= i < |a| && !p(a[i])
    ensures TakeWhile(a + b, p) == TakeWhile(a, p)
  {
    LeadCountAppend(a, b, p);
    var n := LeadCount(a, p);
    assert (a + b)[..n] == a[..n];
  }

  /** A run that covers all of `a` and is stopped by the first character of `b`. */
  lemma {:induction false} LeadCountWhole(a: string, b: string, p: char -> bool)
    requires forall i :: 0 <= i < |a| ==> p(a[i])
    requires |b| > 0 && !p(b[0])
    ensures LeadCount(a + b, p) == |a|
    decreases |a|
  {
    if |a| == 0 {
      assert a + b == b;
    } else {
      assert (a + b)[0] == a[0];
      assert (a + b)[1..] == a[1..] + b;
      LeadCountWhole(a[1..], b, p);
    }
  }

  lemma TakeWhileWhole(a: string, b: string, p: char -> bool)
    requires forall i :: 0 <= i < |a| ==> p(a[i])
    requires |b| > 0 && !p(b[0])
    ensures TakeWhile(a + b, p) == a
  {
    LeadCountWhole(a, b, p);
    assert (a + b)[..|a|] == a;
  }

  /** `s` with the leading and trailing characters satisfying `p` removed. */
  function StripWith(s: string, p: char -> bool): (r: string)
    ensures |r| <= |s|
    ensures |r| > 0 ==> !p(r[0]) && !p(r[|r| - 1])
    ensures LeadCount(s, p) + |r| <= |s|
    ensures r == s[LeadCount(s, p)..LeadCount(s, p) + |r|]
    ensures forall i :: 0 <= i < LeadCount(s, p) ==> p(s[i])
    ensures forall i :: LeadCount(s, p) + |r| <= i < |s| ==> p(s[i])
    ensures (|s| == 0 || (!p(s[0]) && !p(s[|s| - 1]))) ==> r == s
    ensures |r| == 0 <==> forall i :: 0 <= i < |s| ==> p(s[i])
  {
    var a := LeadCount(s, p);
    var t := s[a..];
    var b := TrailCount(t, p);
    assert |t| > 0 ==> !p(t[0]);
    if b == |t| then
      assert a == |s|;
      []
    else
      t[..|t| - b]
  }

  /** Stripping twice is stripping once. */
  lemma StripIdempotent(s: string, p: char -> bool)
    ensures StripWith(StripWith(s, p), p) == StripWith(s, p)
  {
  }

  /** Python's `str.strip()`. */
  function PyStrip(s: string): (r: string)
    ensures |r| <= |s|
    ensures |r| > 0 ==> !IsPySpace(r[0]) && !IsPySpace(r[|r| - 1])
    ensures (|s| == 0 || (!IsPySpace(s[0]) && !IsPySpace(s[|s| - 1]))) ==> r == s
    ensures |r| == 0 <==> forall i :: 0 <= i < |s| ==> IsPySpace(s[i])
  {
    StripWith(s, IsPySpace)
  }

  /** JavaScript's `String.prototype.trim()`. */
  function JsTrim(s: string): (r: string)
    ensures |r| <= |s|
    ensures |r| > 0 ==> !IsJsSpace(r[0]) && !IsJsSpace(r[|r| - 1])
    ensures (|s| == 0 || (!IsJsSpace(s[0]) && !IsJsSpace(s[|s| - 1]))) ==> r == s
    ensures |r| == 0 <==> forall i :: 0 <= i < |s| ==> IsJsSpace(s[i])
  {
    StripWith(s, IsJsSpace)
  }

  // ---------------------------------------------------------------------------
  // Substring search
  // ---------------------------------------------------------------------------

  predicate StartsWith(s: string, pre: string) { |pre| <= |s| && s[..|pre|] == pre }

  predicate EndsWith(s: string, suf: string) { |suf| <= |s| && s[|s| - |suf|..] == suf }

  predicate OccursAt(s: string, pat: string, i: nat) { i + |pat| <= |s| && s[i..i + |pat|] == pat }

  /** An occurrence in `s[1..]` is an occurrence in `s` one position later. */
  lemma OccursAtTail(s: string, pat: string, j: nat)
    requires 1 <= j <= |s|
    ensures OccursAt(s, pat, j) <==> OccursAt(s[1..], pat, j - 1)
  {
    if j + |pat| <= |s| {
      assert s[j..j + |pat|] == s[1..][j - 1..j - 1 + |pat|];
    }
  }

  /** Index of the leftmost occurrence of `pat` in `s` (Python's `str.find`, JavaScript's `indexOf`). */
  function Find(s: string, pat: string): (r: Option<nat>)
    ensures r.Some? ==> OccursAt(s, pat, r.value)
    ensures r.Some? ==> forall j :: 0 <= j < r.value ==> !OccursAt(s, pat, j)
    ensures r.None? ==> forall j :: 0 <= j <= |s| ==> !OccursAt(s, pat, j)
    decreases |s|
  {
    if StartsWith(s, pat) then
      assert s[0..|pat|] == s[..|pat|];
      Some(0)
    else if |s| == 0 then None
    else
      var r := Find(s[1..], pat);
      assert !OccursAt(s, pat, 0) by {
        if |pat| <= |s| { assert s[0..|pat|] == s[..|pat|]; }
      }
      assert forall j :: 1 <= j <= |s| ==> (OccursAt(s, pat, j) <==> OccursAt(s[1..], pat, j - 1)) by {
        forall j | 1 <= j <= |s| ensures OccursAt(s, pat, j) <==> OccursAt(s[1..], pat, j - 1) {
          OccursAtTail(s, pat, j);
        }
      }
      if r.None? then None else Some(r.value + 1)
  }

  /** Python's `pat in s`. */
  predicate Contains(s: string, pat: string) { Find(s, pat).Some? }

  lemma ContainsIff(s: string, pat: string)
    ensures Contains(s, pat) <==> exists j :: 0 <= j <= |s| && OccursAt(s, pat, j)
  {
  }

  /** A literal occurrence put in place makes `Contains` true. */
  lemma ContainsWitness(a: string, pat: string, b: string)
    ensures Contains(a + pat + b, pat)
  {
    assert OccursAt(a + pat + b, pat, |a|) by {
      assert (a + pat + b)[|a|..|a| + |pat|] == pat;
    }
  }

  /** A pattern holding a character absent from `s` does not occur in it. */
  lemma NotContainsByChar(s: string, pat: string, c: char)
    requires c in pat && c !in s
    ensures !Contains(s, pat)
  {
    var k :| 0 <= k < |pat| && pat[k] == c;
    forall j | 0 <= j <= |s| ensures !OccursAt(s, pat, j) {
      if j + |pat| <= |s| {
        assert s[j..j + |pat|][k] == s[j + k];
      }
    }
  }

  /** No occurrence when two adjacent characters of the pattern never appear side by side in the text. */
  lemma NotContainsByPair(s: string, pat: string, k: nat)
    requires k + 1 < |pat|
    requires forall j :: 0 <= j < |s| - 1 ==> !(s[j] == pat[k] && s[j + 1] == pat[k + 1])
    ensures !Contains(s, pat)
  {
    forall j | 0 <= j <= |s| ensures !OccursAt(s, pat, j) {
      if j + |pat| <= |s| {
        assert s[j..j + |pat|][k] == s[j + k];
        assert s[j..j + |pat|][k + 1] == s[j + k + 1];
      }
    }
  }

  /** The empty text contains no non-empty pattern. */
  lemma NothingInEmpty(pat: string)
    requires |pat| > 0
    ensures !Contains("", pat)
  {
  }

  // ---------------------------------------------------------------------------
  // Split, join, replace
  // ---------------------------------------------------------------------------

  /** The text before the first occurrence of `pat` holds no occurrence of it. */
  lemma NoOccurrenceBefore(s: string, pat: string, k: nat)
    requires |pat| > 0 && k <= |s|
    requires forall j :: 0 <= j < k ==> !OccursAt(s, pat, j)
    ensures !Contains(s[..k], pat)
  {
    forall j | 0 <= j <= k ensures !OccursAt(s[..k], pat, j) {
      if j + |pat| <= k {
        assert !OccursAt(s, pat, j);
        assert s[..k][j..j + |pat|] == s[j..j + |pat|];
      }
    }
  }

  /** Python's `s.split(sep)` and JavaScript's `s.split(sep)` for a non-empty separator. */
  function Split(s: string, sep: string): (r: seq<string>)
    requires |sep| > 0
    ensures |r| >= 1
    ensures forall i :: 0 <= i < |r| ==> !Contains(r[i], sep)
    decreases |s|
  {
    match Find(s, sep)
    case None => [s]
    case Some(k) =>
      NoOccurrenceBefore(s, sep, k);
      [s[..k]] + Split(s[k + |sep|..], sep)
  }

  /** Python's `sep.join(parts)` and JavaScript's `parts.join(sep)`. */
  function Join(parts: seq<string>, sep: string): (r: string)
    ensures |parts| == 1 ==> r == parts[0]
    ensures |parts| == 0 ==> r == []
  {
    if |parts| == 0 then []
    else if |parts| == 1 then parts[0]
    else parts[0] + sep + Join(parts[1..], sep)
  }

  /** Splitting and re-joining with the same separator gives the input back. */
  lemma {:induction false} JoinSplit(s: string, sep: string)
    requires |sep| > 0
    ensures Join(Split(s, sep), sep) == s
    decreases |s|
  {
    match Find(s, sep)
    case None =>
    case Some(k) =>
      var rest := s[k + |sep|..];
      var tail := Split(rest, sep);
      JoinSplit(rest, sep);
      var parts := [s[..k]] + tail;
      assert Split(s, sep) == parts;
      assert parts[1..] == tail;
      assert Join(parts, sep) == s[..k] + sep + Join(tail, sep);
      assert s[k..k + |sep|] == sep;
      assert s == s[..k] + s[k..k + |sep|] + rest;
  }

  /** Python's `s.replace(pat, rep)`: every non-overlapping occurrence, left to right. */
  function Replace(s: string, pat: string, rep: string): (r: string)
    requires |pat| > 0
    ensures !Contains(s, pat) ==> r == s
  {
    Join(Split(s, pat), rep)
  }

  /** Replacing a pattern by itself changes nothing. */
  lemma ReplaceSelf(s: string, pat: string)
    requires |pat| > 0
    ensures Replace(s, pat, pat) == s
  {
    JoinSplit(s, pat);
  }

  /** An occurrence with none before it is the one `Find` reports. */
  lemma FindFirst(s: string, pat: string, k: nat)
    requires OccursAt(s, pat, k)
    requires forall j :: 0 <= j < k ==> !OccursAt(s, pat, j)
    ensures Find(s, pat) == Some(k)
  {
  }

  /** Splitting at a known first occurrence: the text before it, then the split of the rest. */
  lemma SplitFirst(s: string, sep: string, k: nat)
    requires |sep| > 0 && OccursAt(s, sep, k)
    requires forall j :: 0 <= j < k ==> !OccursAt(s, sep, j)
    ensures Split(s, sep) == [s[..k]] + Split(s[k + |sep|..], sep)
  {
    FindFirst(s, sep, k);
  }

  /** A text without the separator is its own single part. */
  lemma SplitNone(s: string, sep: string)
    requires |sep| > 0 && !Contains(s, sep)
    ensures Split(s, sep) == [s]
  {
  }

  /** Stripping never creates an occurrence. */
  lemma StripKeepsAbsence(s: string, pat: string)
    requires !Contains(s, pat)
    ensures !Contains(PyStrip(s), pat)
  {
    var n := LeadCount(s, IsPySpace);
    NotContainsSlice(s, pat, n, n + |PyStrip(s)|);
  }

  /** A text holding the separator splits into at least two parts. */
  lemma SplitAtSeparator(s: string, sep: string)
    requires |sep| > 0 && Contains(s, sep)
    ensures |Split(s, sep)| >= 2
  {
    var k := Find(s, sep).value;
    NoOccurrenceBefore(s, sep, k);
    assert Split(s, sep) == [s[..k]] + Split(s[k + |sep|..], sep);
  }

  /** Conversely, a split into two or more parts means the separator occurs. */
  lemma SeparatorOfSplit(s: string, sep: string)
    requires |sep| > 0 && |Split(s, sep)| >= 2
    ensures Contains(s, sep)
  {
  }

  /** Every character of every part of a split comes from the text. */
  lemma {:induction false} SplitKeeps(s: string, sep: string, p: char -> bool)
    requires |sep| > 0
    requires forall i :: 0 <= i < |s| ==> p(s[i])
    ensures forall k, i :: 0 <= k < |Split(s, sep)| && 0 <= i < |Split(s, sep)[k]| ==> p(Split(s, sep)[k][i])
    decreases |s|
  {
    match Find(s, sep)
    case None =>
    case Some(k) =>
      var rest := s[k + |sep|..];
      SplitKeeps(rest, sep, p);
      NoOccurrenceBefore(s, sep, k);
      assert Split(s, sep) == [s[..k]] + Split(rest, sep);
  }

  /** A join only holds characters of its parts and of the separator. */
  lemma {:induction false} JoinKeeps(parts: seq<string>, sep: string, p: char -> bool)
    requires forall k, i :: 0 <= k < |parts| && 0 <= i < |parts[k]| ==> p(parts[k][i])
    requires forall i :: 0 <= i < |sep| ==> p(sep[i])
    ensures forall i :: 0 <= i < |Join(parts, sep)| ==> p(Join(parts, sep)[i])
    decreases |parts|
  {
    if |parts| > 1 {
      JoinKeeps(parts[1..], sep, p);
      var t := Join(parts[1..], sep);
      var whole := parts[0] + sep + t;
      assert Join(parts, sep) == whole;
      forall i | 0 <= i < |whole| ensures p(whole[i]) {
        if i >= |parts[0]| + |sep| {
          assert whole[i] == t[i - |parts[0]| - |sep|];
        }
      }
    }
  }

  /** Replacing with a text of characters satisfying `p` keeps a text of such characters. */
  lemma ReplaceKeeps(s: string, pat: string, rep: string, p: char -> bool)
    requires |pat| > 0
    requires forall i :: 0 <= i < |s| ==> p(s[i])
    requires forall i :: 0 <= i < |rep| ==> p(rep[i])
    ensures forall i :: 0 <= i < |Replace(s, pat, rep)| ==> p(Replace(s, pat, rep)[i])
  {
    SplitKeeps(s, pat, p);
    JoinKeeps(Split(s, pat), rep, p);
  }

  /** Replacing with a non-empty text never empties a non-empty text. */
  lemma ReplaceNonEmpty(s: string, pat: string, rep: string)
    requires |pat| > 0 && |s| > 0 && |rep| > 0
    ensures |Replace(s, pat, rep)| > 0
  {
    var parts := Split(s, pat);
    JoinSplit(s, pat);
    if |parts| == 1 {
      assert Join(parts, rep) == parts[0] == Join(parts, pat);
    } else {
      assert Join(parts, rep) == parts[0] + rep + Join(parts[1..], rep);
    }
  }

  /** A slice of a text that lacks a pattern lacks it too. */
  lemma NotContainsSlice(s: string, pat: string, a: nat, b: nat)
    requires a <= b <= |s| && !Contains(s, pat)
    ensures !Contains(s[a..b], pat)
  {
    forall j | 0 <= j <= b - a ensures !OccursAt(s[a..b], pat, j) {
      if j + |pat| <= b - a {
        var w := s[a..b];
        var x, y := w[j..j + |pat|], s[a + j..a + j + |pat|];
        forall t | 0 <= t < |pat| ensures x[t] == y[t] {
          assert w[j + t] == s[a + j + t];
        }
        assert x == y;
        assert !OccursAt(s, pat, a + j);
      }
    }
  }

  lemma AsciiLowerAppend(a: string, b: string)
    ensures AsciiLowerStr(a + b) == AsciiLowerStr(a) + AsciiLowerStr(b)
  {
    assert forall i :: 0 <= i < |a + b| ==> AsciiLowerStr(a + b)[i] == (AsciiLowerStr(a) + AsciiLowerStr(b))[i];
  }

  // ---------------------------------------------------------------------------
  // Decimal numerals
  // ---------------------------------------------------------------------------

  function DigitChar(d: nat): (c: char)
    requires d < 10
    ensures IsDigit(c)
  {
    ('0' as int + d) as char
  }

  /** `str(n)` for a natural number: shortest decimal numeral. */
  function NatToString(n: nat): (r: string)
    ensures |r| >= 1 && AllDigits(r)
    ensures |r| > 1 ==> r[0] != '0'
    decreases n
  {
    if n < 10 then [DigitChar(n)] else NatToString(n / 10) + [DigitChar(n % 10)]
  }

  /** Value of a string of decimal digits. */
  function DigitsValue(s: string): (v: nat)
    requires AllDigits(s)
    decreases |s|
  {
    if |s| == 0 then 0 else 10 * DigitsValue(s[..|s| - 1]) + (s[|s| - 1] as int - '0' as int)
  }

  /** Reading back a rendered number gives the number. */
  lemma {:induction false} NatToStringValue(n: nat)
    ensures DigitsValue(NatToString(n)) == n
    decreases n
  {
    if n >= 10 {
      NatToStringValue(n / 10);
      var s := NatToString(n);
      assert s[..|s| - 1] == NatToString(n / 10);
    }
  }

  /** `str(i)` for any integer. */
  function IntToString(i: int): (r: string)
    ensures |r| >= 1
    ensures i < 0 <==> r[0] == '-'
  {
    if i < 0 then "-" + NatToString(-i) else NatToString(i)
  }

  /** `x[:n]` in Python and `x.substring(0, n)` in JavaScript. */
  function Prefix(s: string, n: nat): (r: string)
    ensures r <= s
    ensures |r| == if n < |s| then n else |s|
  {
    if n < |s| then s[..n] else s
  }
}

=== FILE: validators.dfy ===
/**
 * Credential validation and display masks (`SEFAZValidator` and the helpers next to it).
 * Optional Python arguments are `Option<string>`; Python treats both `None` and `''`
 * as false, which `Falsy` captures.
 */
module Validators {
  import opened Options
  import opened Text

  datatype Verdict = Verdict(valid: bool, message: string)

  /** `not x` for an optional string. */
  predicate Falsy(x: Option<string>) { x.None? || x.value == "" }

  /** `s == s[0] * len(s)`: every character equals the first. */
  predicate AllSame(s: string) { forall i :: 0 <= i < |s| ==> s[i] == s[0] }

  /** `limpar_cpf` and `limpar_ie`: the digits of the input, in order. */
  function Limpar(s: string): (r: string)
    ensures AllDigits(r) && |r| <= |s|
  {
    Digits(s)
  }

  /** Cleaning keeps every digit in its place: cleaning a concatenation concatenates the cleanings. */
  lemma LimparKeepsOrder(a: string, b: string)
    ensures Limpar(a + b) == Limpar(a) + Limpar(b)
  {
    DigitsAppend(a, b);
  }

  lemma LimparIdempotent(s: string)
    ensures Limpar(Limpar(s)) == Limpar(s)
  {
  }

  function ValidateCpf(cpf: Option<string>): (r: Verdict)
    ensures Falsy(cpf) ==> r == Verdict(false, "CPF não pode ser vazio")
    ensures r.valid <==> !Falsy(cpf) && |Digits(cpf.value)| == 11 && !AllSame(Digits(cpf.value))
    ensures r.valid ==> r.message == "CPF válido"
    ensures !Falsy(cpf) && |Digits(cpf.value)| != 11 ==>
      r.message == "CPF deve ter 11 dígitos. Encontrado: " + NatToString(|Digits(cpf.value)|)
  {
    if Falsy(cpf) then Verdict(false, "CPF não pode ser vazio")
    else
      var limpo := Digits(cpf.value);
      if |limpo| != 11 then Verdict(false, "CPF deve ter 11 dígitos. Encontrado: " + NatToString(|limpo|))
      else if AllSame(limpo) then Verdict(false, "CPF não pode ser uma sequência de números iguais")
      else Verdict(true, "CPF válido")
  }

  /** The IE is optional: an absent or empty IE is valid; otherwise it must have 1 to 9 digits. */
  function ValidateIe(ie: Option<string>): (r: Verdict)
    ensures Falsy(ie) ==> r == Verdict(true, "IE não fornecida (opcional)")
    ensures r.valid <==> Falsy(ie) || 1 <= |Digits(ie.value)| <= 9
    ensures !Falsy(ie) && |Digits(ie.value)| == 0 ==> r.message == "IE não pode ser vazia após limpeza"
  {
    if Falsy(ie) then Verdict(true, "IE não fornecida (opcional)")
    else
      var limpa := Digits(ie.value);
      if |limpa| > 9 then Verdict(false, "IE deve ter no máximo 9 dígitos. Encontrado: " + NatToString(|limpa|))
      else if |limpa| == 0 then Verdict(false, "IE não pode ser vazia após limpeza")
      else Verdict(true, "IE válida")
  }

  function ValidateSenha(senha: Option<string>): (r: Verdict)
    ensures Falsy(senha) ==> r == Verdict(false, "Senha não pode ser vazia")
    ensures r.valid <==> senha.Some? && 3 <= |senha.value| <= 50
    ensures senha.Some? && 0 < |senha.value| < 3 ==> r.message == "Senha muito curta (mínimo 3 caracteres)"
    ensures senha.Some? && |senha.value| > 50 ==> r.message == "Senha muito longa (máximo 50 caracteres)"
  {
    if Falsy(senha) then Verdict(false, "Senha não pode ser vazia")
    else if |senha.value| < 3 then Verdict(false, "Senha muito curta (mínimo 3 caracteres)")
    else if |senha.value| > 50 then Verdict(false, "Senha muito longa (máximo 50 caracteres)")
    else Verdict(true, "Senha válida")
  }

  /**
   * `validate_all`: the errors of the CPF, the password and (only when given) the IE,
   * in that order, each prefixed by its field name; valid iff there is none.
   */
  function ValidateAll(cpf: Option<string>, senha: Option<string>, ie: Option<string>): (r: (bool, seq<string>))
    ensures r.0 <==> |r.1| == 0
    ensures r.0 <==> ValidateCpf(cpf).valid && ValidateSenha(senha).valid && (Falsy(ie) || ValidateIe(ie).valid)
    ensures |r.1| <= 3
    ensures r.1 == FieldError("CPF: ", ValidateCpf(cpf)) + FieldError("Senha: ", ValidateSenha(senha))
      + (if Falsy(ie) then [] else FieldError("IE: ", ValidateIe(ie)))
    ensures !ValidateCpf(cpf).valid ==> r.1[0] == "CPF: " + ValidateCpf(cpf).message
    ensures ValidateCpf(cpf).valid && !ValidateSenha(senha).valid ==> r.1[0] == "Senha: " + ValidateSenha(senha).message
    ensures Falsy(ie) ==> forall i :: 0 <= i < |r.1| ==> !StartsWith(r.1[i], "IE: ")
  {
    var c := ValidateCpf(cpf);
    var s := ValidateSenha(senha);
    var e2 := FieldError("CPF: ", c) + FieldError("Senha: ", s);
    var errors := if Falsy(ie) then e2 else e2 + FieldError("IE: ", ValidateIe(ie));
    NoIeLabel(c, s);
    (|errors| == 0, errors)
  }

  /** The line a failed check adds to the list: its message under the field's label. */
  function FieldError(field: string, v: Verdict): (r: seq<string>)
    ensures |r| <= 1 && (|r| == 0 <==> v.valid)
    ensures |r| == 1 ==> r[0] == field + v.message
  {
    if v.valid then [] else [field + v.message]
  }

  lemma NoIeLabel(c: Verdict, s: Verdict)
    ensures var e := FieldError("CPF: ", c) + FieldError("Senha: ", s);
      forall i :: 0 <= i < |e| ==> !StartsWith(e[i], "IE: ")
  {
    var e := FieldError("CPF: ", c) + FieldError("Senha: ", s);
    forall i | 0 <= i < |e| ensures !StartsWith(e[i], "IE: ") {
      assert e[i][0] == 'C' || e[i][0] == 'S';
    }
  }

  /** `formatar_cpf`: the `XXX.XXX.XXX-XX` mask for 11 digits, the input unchanged otherwise. */
  function FormatarCpf(cpf: string): (r: string)
    ensures |Digits(cpf)| == 11 ==> |r| == 14 && r[3] == '.' && r[7] == '.' && r[11] == '-'
    ensures |Digits(cpf)| != 11 ==> r == cpf
  {
    var d := Digits(cpf);
    if |d| == 11 then d[..3] + "." + d[3..6] + "." + d[6..9] + "-" + d[9..] else cpf
  }

  /** `formatar_ie`: the `XX.XXXXXX-X` mask for 9 digits, the input unchanged otherwise. */
  function FormatarIe(ie: string): (r: string)
    ensures |Digits(ie)| == 9 ==> |r| == 11 && r[2] == '.' && r[9] == '-'
    ensures |Digits(ie)| != 9 ==> r == ie
  {
    var d := Digits(ie);
    if |d| == 9 then d[..2] + "." + d[2..8] + "-" + [d[8]] else ie
  }

  /** Punctuation followed by a run of digits adds the run and nothing else. */
  lemma DigitsSepRun(prefix: string, sep: string, run: string)
    requires AllDigits(run) && Digits(sep) == []
    ensures Digits(prefix + sep + run) == Digits(prefix) + run
  {
    DigitsAppend(prefix, sep);
    DigitsAppend(prefix + sep, run);
  }

  lemma DigitsOfPunct()
    ensures Digits(".") == [] && Digits("-") == []
  {
    assert "."[1..] == [] && "-"[1..] == [];
  }

  lemma CpfMaskRuns(a: string, b: string, c: string, e: string)
    requires AllDigits(a) && AllDigits(b) && AllDigits(c)
    requires AllDigits(e)
    ensures Digits(a + "." + b + "." + c + "-" + e) == a + b + c + e
  {
    DigitsOfPunct();
    DigitsSepRun(a, ".", b);
    DigitsSepRun(a + "." + b, ".", c);
    DigitsSepRun(a + "." + b + "." + c, "-", e);
  }

  lemma CpfMaskDigits(d: string)
    requires AllDigits(d) && |d| == 11
    ensures Digits(d[..3] + "." + d[3..6] + "." + d[6..9] + "-" + d[9..]) == d
  {
    CpfMaskRuns(d[..3], d[3..6], d[6..9], d[9..]);
    assert d[..3] + d[3..6] + d[6..9] + d[9..] == d;
  }

  lemma IeMaskDigits(d: string)
    requires AllDigits(d) && |d| == 9
    ensures Digits(d[..2] + "." + d[2..8] + "-" + [d[8]]) == d
  {
    DigitsOfPunct();
    DigitsSepRun(d[..2], ".", d[2..8]);
    DigitsSepRun(d[..2] + "." + d[2..8], "-", [d[8]]);
    assert d[..2] + d[2..8] + [d[8]] == d;
  }

  /** Masking never adds or loses a digit: the digits of the mask are the cleaned input. */
  lemma FormatarCpfKeepsDigits(cpf: string)
    ensures Digits(FormatarCpf(cpf)) == Limpar(cpf)
  {
    if |Digits(cpf)| == 11 {
      CpfMaskDigits(Digits(cpf));
    }
  }

  lemma FormatarIeKeepsDigits(ie: string)
    ensures Digits(FormatarIe(ie)) == Limpar(ie)
  {
    if |Digits(ie)| == 9 {
      IeMaskDigits(Digits(ie));
    }
  }

  /** `is_session_conflict_message` of the validators module: two indicators, lower-cased text. */
  function IsSessionConflictShort(text: string): (r: bool)
    ensures text == "" ==> !r
    ensures r <==> Contains(LowerStr(text), "já está conectado") || Contains(LowerStr(text), "outra sessão")
  {
    if text == "" then false
    else Contains(LowerStr(text), "já está conectado") || Contains(LowerStr(text), "outra sessão")
  }
}

=== FILE: web_format.dfy ===
/**
 * The display helpers of the admin front end (`utils.js` and the small helpers of
 * `mensagens.js`): CNPJ/CPF masks, the badge and label tables, the DIEF period format and
 * the read/processing status of a message.  An optional JavaScript value is an
 * `Option<string>`; `undefined`, `null` and `''` are all falsy, which `Falsy` captures.
 */
module WebFormat {
  import opened Options
  import opened Text
  import opened Validators

  // ---------------------------------------------------------------------------
  // Masks
  // ---------------------------------------------------------------------------

  /** `formatCNPJ`: falsy gives `''`, 14 digits give `NN.NNN.NNN/NNNN-NN`, anything else is echoed. */
  function FormatCnpj(cnpj: Option<string>): (r: string)
    ensures Falsy(cnpj) ==> r == ""
    ensures !Falsy(cnpj) && |Digits(cnpj.value)| == 14 ==>
              |r| == 18 && r[2] == '.' && r[6] == '.' && r[10] == '/' && r[15] == '-'
    ensures !Falsy(cnpj) && |Digits(cnpj.value)| != 14 ==> r == cnpj.value
  {
    if Falsy(cnpj) then ""
    else
      var n := Digits(cnpj.value);
      if |n| == 14 then n[..2] + "." + n[2..5] + "." + n[5..8] + "/" + n[8..12] + "-" + n[12..] else cnpj.value
  }

  /** `formatCPF`: falsy gives `''`, 11 digits give `NNN.NNN.NNN-NN`, anything else is echoed. */
  function FormatCpf(cpf: Option<string>): (r: string)
    ensures Falsy(cpf) ==> r == ""
    ensures !Falsy(cpf) && |Digits(cpf.value)| == 11 ==> |r| == 14 && r[3] == '.' && r[7] == '.' && r[11] == '-'
    ensures !Falsy(cpf) && |Digits(cpf.value)| != 11 ==> r == cpf.value
  {
    if Falsy(cpf) then ""
    else
      var n := Digits(cpf.value);
      if |n| == 11 then n[..3] + "." + n[3..6] + "." + n[6..9] + "-" + n[9..] else cpf.value
  }

  lemma DigitsOfSlash()
    ensures Digits("/") == []
  {
    assert "/"[1..] == [];
  }

  lemma CnpjMaskRuns(a: string, b: string, c: string, e: string, f: string)
    requires AllDigits(a) && AllDigits(b) && AllDigits(c)
    requires AllDigits(e) && AllDigits(f)
    ensures Digits(a + "." + b + "." + c + "/" + e + "-" + f) == a + b + c + e + f
  {
    DigitsOfPunct();
    DigitsOfSlash();
    DigitsSepRun(a, ".", b);
    DigitsSepRun(a + "." + b, ".", c);
    DigitsSepRun(a + "." + b + "." + c, "/", e);
    DigitsSepRun(a + "." + b + "." + c + "/" + e, "-", f);
  }

  lemma CnpjMaskDigits(n: string)
    requires AllDigits(n) && |n| == 14
    ensures Digits(n[..2] + "." + n[2..5] + "." + n[5..8] + "/" + n[8..12] + "-" + n[12..]) == n
  {
    CnpjMaskRuns(n[..2], n[2..5], n[5..8], n[8..12], n[12..]);
    assert n[..2] + n[2..5] + n[5..8] + n[8..12] + n[12..] == n;
  }

  /** Stripping the non-digits from a formatted CNPJ gives the digits of the input. */
  lemma FormatCnpjKeepsDigits(cnpj: Option<string>)
    requires !Falsy(cnpj)
    ensures Digits(FormatCnpj(cnpj)) == Digits(cnpj.value)
  {
    if |Digits(cnpj.value)| == 14 {
      CnpjMaskDigits(Digits(cnpj.value));
    }
  }

  /** Stripping the non-digits from a formatted CPF gives the digits of the input. */
  lemma FormatCpfKeepsDigits(cpf: Option<string>)
    requires !Falsy(cpf)
    ensures Digits(FormatCpf(cpf)) == Digits(cpf.value)
  {
    if |Digits(cpf.value)| == 11 {
      CpfMaskDigits(Digits(cpf.value));
    }
  }

  /** Formatting an already formatted CNPJ changes nothing. */
  lemma FormatCnpjIdempotent(cnpj: Option<string>)
    ensures FormatCnpj(Some(FormatCnpj(cnpj))) == FormatCnpj(cnpj)
  {
    if !Falsy(cnpj) {
      FormatCnpjKeepsDigits(cnpj);
      var n := Digits(cnpj.value);
      if |n| == 14 {
        DigitsIdempotent(cnpj.value);
      }
    }
  }

  /** Formatting an already formatted CPF changes nothing. */
  lemma FormatCpfIdempotent(cpf: Option<string>)
    ensures FormatCpf(Some(FormatCpf(cpf))) == FormatCpf(cpf)
  {
    if !Falsy(cpf) {
      FormatCpfKeepsDigits(cpf);
      var n := Digits(cpf.value);
      if |n| == 11 {
        DigitsIdempotent(cpf.value);
      }
    }
  }

  // ---------------------------------------------------------------------------
  // Badges and labels
  // ---------------------------------------------------------------------------

  /** The colour class of a badge (`badge-success`, `badge-warning`, ...). */
  datatype Tone = Success | Warning | Danger | Info

  datatype Badge = Badge(tone: Tone, text: string)

  const JobStatuses: seq<string> := ["pending", "running", "completed", "failed"]

  /** `getJobStatusBadge`. */
  function JobStatusBadge(status: string): (b: Badge)
    ensures status !in JobStatuses ==> b == Badge(Info, status)
  {
    match status
    case "pending" => Badge(Warning, "Pendente")
    case "running" => Badge(Info, "Executando")
    case "completed" => Badge(Success, "Concluído")
    case "failed" => Badge(Danger, "Falhou")
    case _ => Badge(Info, status)
  }

  /** The four job statuses get four different labels, none of them a raw status. */
  lemma JobStatusLabelsDistinct()
    ensures forall i, j :: 0 <= i < j < |JobStatuses| ==> JobStatusBadge(JobStatuses[i]).text != JobStatusBadge(JobStatuses[j]).text
    ensures forall i, j :: 0 <= i < |JobStatuses| && 0 <= j < |JobStatuses| ==> JobStatusBadge(JobStatuses[i]).text != JobStatuses[j]
  {
  }

  /** `getTVIBadge`. */
  function TviBadge(temTvi: Option<string>): (b: Badge)
    ensures Falsy(temTvi) ==> b == Badge(Info, "N/A")
    ensures !Falsy(temTvi) && temTvi.value != "SIM" && temTvi.value != "NÃO" ==> b == Badge(Info, temTvi.value)
  {
    if Falsy(temTvi) then Badge(Info, "N/A")
    else if temTvi.value == "SIM" then Badge(Warning, "Sim")
    else if temTvi.value == "NÃO" then Badge(Success, "Não")
    else Badge(Info, temTvi.value)
  }

  /** `getDividasBadge`: the same table as the TVI badge, but an open debt is shown as danger. */
  function DividasBadge(temDivida: Option<string>): (b: Badge)
    ensures Falsy(temDivida) ==> b == Badge(Info, "N/A")
    ensures !Falsy(temDivida) && temDivida.value != "SIM" && temDivida.value != "NÃO" ==> b == Badge(Info, temDivida.value)
  {
    if Falsy(temDivida) then Badge(Info, "N/A")
    else if temDivida.value == "SIM" then Badge(Danger, "Sim")
    else if temDivida.value == "NÃO" then Badge(Success, "Não")
    else Badge(Info, temDivida.value)
  }

  /** The debt and TVI badges agree on every text and differ only in the colour of `SIM`. */
  lemma DebtAndTviBadgesAgree(x: Option<string>)
    ensures DividasBadge(x).text == TviBadge(x).text
    ensures DividasBadge(x).tone != TviBadge(x).tone <==> !Falsy(x) && x.value == "SIM"
  {
  }

  /** `getStatusBadge` of a company: `ATIVO`/`INATIVO`, anything else echoed as a warning. */
  function CompanyStatusBadge(status: Option<string>): (b: Badge)
    ensures Falsy(status) ==> b == Badge(Info, "N/A")
    ensures !Falsy(status) && status.value != "ATIVO" && status.value != "INATIVO" ==> b == Badge(Warning, status.value)
  {
    if Falsy(status) then Badge(Info, "N/A")
    else if status.value == "ATIVO" then Badge(Success, "Ativo")
    else if status.value == "INATIVO" then Badge(Danger, "Inativo")
    else Badge(Warning, status.value)
  }

  const Recurrences: seq<string> := ["unica", "diaria", "semanal", "mensal"]

  /** `formatRecorrencia`: the four recurrences by name, falsy as `-`, anything else echoed. */
  function FormatRecorrencia(recorrencia: Option<string>): (r: string)
    ensures Falsy(recorrencia) ==> r == "-"
    ensures !Falsy(recorrencia) && recorrencia.value !in Recurrences ==> r == recorrencia.value
  {
    if recorrencia.None? then "-"
    else match recorrencia.value
      case "unica" => "Única"
      case "diaria" => "Diária"
      case "semanal" => "Semanal"
      case "mensal" => "Mensal"
      case _ => if recorrencia.value == "" then "-" else recorrencia.value
  }

  /** The four recurrences get four different labels. */
  lemma RecurrenceLabelsDistinct()
    ensures forall i, j :: 0 <= i < j < |Recurrences| ==> FormatRecorrencia(Some(Recurrences[i])) != FormatRecorrencia(Some(Recurrences[j]))
  {
  }

  // ---------------------------------------------------------------------------
  // Message helpers
  // ---------------------------------------------------------------------------

  /** `formatCompetencia`: six characters `AAAAMM` become `MM/AAAA`; anything else is echoed. */
  function FormatCompetencia(competencia: Option<string>): (r: Option<string>)
    ensures Falsy(competencia) || |competencia.value| != 6 ==> r == competencia
    ensures !Falsy(competencia) && |competencia.value| == 6 ==> r.Some? && |r.value| == 7 && r.value[2] == '/'
  {
    if Falsy(competencia) || |competencia.value| != 6 then competencia
    else
      var c := competencia.value;
      Some(c[4..6] + "/" + c[..4])
  }

  /** Reading `MM/AAAA` back as `AAAAMM`. */
  function UnformatCompetencia(shown: string): (r: string)
    requires |shown| == 7
  {
    shown[3..] + shown[..2]
  }

  /** The period format loses nothing: `202510` is shown as `10/2025`, which reads back as `202510`. */
  lemma CompetenciaRoundTrip(c: string)
    requires |c| == 6
    ensures FormatCompetencia(Some(c)).Some?
    ensures UnformatCompetencia(FormatCompetencia(Some(c)).value) == c
  {
    var shown := c[4..6] + "/" + c[..4];
    assert shown[3..] == c[..4] && shown[..2] == c[4..6];
    assert c[..4] + c[4..6] == c;
  }

  lemma SampleCompetencia()
    ensures FormatCompetencia(Some("202510")) == Some("10/2025")
  {
    assert "202510"[4..6] == "10" && "202510"[..4] == "2025";
    assert "10" + "/" + "2025" == "10/2025";
  }

  /** `getStatusBadge` of a message: read iff `data_ciencia` is set and is not `N/A`. */
  predicate Read(dataCiencia: Option<string>)
  {
    !Falsy(dataCiencia) && dataCiencia.value != "N/A"
  }

  /** `filter(m => !m.data_ciencia || m.data_ciencia === 'N/A').length`. */
  function PendingCount(msgs: seq<Option<string>>): (n: nat)
    ensures n <= |msgs|
  {
    if |msgs| == 0 then 0 else (if !Falsy(msgs[0]) && msgs[0].value != "N/A" then 0 else 1) + PendingCount(msgs[1..])
  }

  /** `filter(m => m.data_ciencia && m.data_ciencia !== 'N/A').length`. */
  function ReadCount(msgs: seq<Option<string>>): (n: nat)
    ensures n <= |msgs|
  {
    if |msgs| == 0 then 0 else (if Read(msgs[0]) then 1 else 0) + ReadCount(msgs[1..])
  }

  /** The two counters split the fetched messages: every message is counted exactly once. */
  lemma {:induction false} CountersPartition(msgs: seq<Option<string>>)
    ensures PendingCount(msgs) + ReadCount(msgs) == |msgs|
  {
    if |msgs| > 0 {
      CountersPartition(msgs[1..]);
    }
  }

  datatype Processing = Processed | NotProcessed | Unknown

  const ProcessedMark := "processada com sucesso"
  const NotProcessedMark := "não foi processada"
  const NotProcessedPlain := "nao foi processada"

  /**
   * `getStatusProcessamento`: the lower-cased text (falling back to the HTML) is processed when
   * it reports success, which wins over a report of failure.
   */
  function ProcessingStatus(texto: Option<string>, html: Option<string>): (r: Processing)
    ensures var t := LowerStr(if !Falsy(texto) then texto.value else if !Falsy(html) then html.value else "");
      && (r == Processed <==> Contains(t, ProcessedMark))
      && (r == NotProcessed <==> !Contains(t, ProcessedMark) && (Contains(t, NotProcessedMark) || Contains(t, NotProcessedPlain)))
  {
    var t := LowerStr(if !Falsy(texto) then texto.value else if !Falsy(html) then html.value else "");
    if Contains(t, ProcessedMark) then Processed
    else if Contains(t, NotProcessedMark) || Contains(t, NotProcessedPlain) then NotProcessed
    else Unknown
  }

  /** Success wins: a text holding both reports is shown as processed. */
  lemma SuccessWins(a: string, b: string, c: string)
    requires forall i :: 0 <= i < |a + ProcessedMark + b + NotProcessedMark + c| ==>
               Lower((a + ProcessedMark + b + NotProcessedMark + c)[i]) == (a + ProcessedMark + b + NotProcessedMark + c)[i]
    ensures ProcessingStatus(Some(a + ProcessedMark + b + NotProcessedMark + c), None) == Processed
  {
    var t := a + ProcessedMark + b + NotProcessedMark + c;
    assert LowerStr(t) == t;
    assert t == a + ProcessedMark + (b + NotProcessedMark + c);
    ContainsWitness(a, ProcessedMark, b + NotProcessedMark + c);
  }
}
